=== FILE: README.md ===
# Medtik front-end logic in Dafny

A Dafny model of the logic in the Medtik telehealth front-end, an Angular
application for patients, doctors and administrators. The templates, HTTP
plumbing and framework wiring are not modelled. What is modelled is the small
pure logic behind the pages and services: predicates, list pipelines and
record-valued state changes. Each is modelled as an immutable datatype with
pure functions, and each contract is proved against a partner. The partner is
an inverse, a preserved invariant or an independent reference definition.

The project has one Dafny module per source file and a few shared modules.

- **Shared modules.**
  - `Wrappers` holds `Option` and `Result`. They stand for `null`/`undefined` and for failed observables.
  - `JsText` models JavaScript's `trim`, ASCII `toLowerCase`/`toUpperCase`, `includes`, `split`, number-to-text conversion and two-digit padding.
  - `Seqs` models `filter`, `find`, `map` and the id-keyed updates.
  - `Sorting` is a stable sort on integer keys, ascending or descending; a text key is its code points.
  - `Paging` models `slice`, pages and the tables' range label.
  - `HttpErrors` is the error-to-message rule that three services share. Each service supplies its own default text.
  - `Computed` models when an Angular `computed()` runs again: only after a signal it read was set. Values it reads that are not signals, such as a form control's `value` or a view child, do not make it run again.
- **The doctor-profile gate.**
  - `DoctorProfileService` covers the completeness predicate behind the lock, and the cache transitions of load, refresh, update and unlock.
  - `ProfileGuard` is the route guard's three-way decision.
  - `ProfileEditor` covers the editor's payload clean-up and missing-field check, and how it merges a loaded profile into the form.
- **Slots and schedules.**
  - `SlotTime` covers `HH:mm` arithmetic modulo a day.
  - `Calendar` covers Monday-of-week and the week keys.
  - `SlotDialog` covers half-open overlap and the dialog's result.
  - `Schedule` is the doctor's per-week slot store.
  - `Slots`, `Prices`, `Booking` and `DoctorPage` cover the patient's slot generation, price sheets and three-step booking wizard, and the doctor page's next available slot.
- **Time windows.** Times are integer milliseconds and the current time is a parameter.
  - `Visits` holds join windows and countdowns.
  - `Ics` holds the calendar file's UTC stamps and lines, per sections 3.1 and 3.3.5 of RFC 5545.
  - `PatientAppointments` and `DoctorAppointments` cover the two appointment lists.
  - `Patients` covers the day counts and tabs of the doctor's patient list.
- **Lists.**
  - `PatientNotifications`, `AdminNotifications` and `DoctorNotifications`.
  - `DoctorRequests` and `Departments`.
  - `Payments`, `Records`, `Reviews` and `Search`.
  - `Chat` and `Inbox`.
  - `TableSource`, with `Users` and `Transactions`, covers the admin tables' filter, sort, page and label.
- **Forms and text.**
  - `Otp` covers phone masking and the resend cooldown.
  - `Signup` covers flag emoji, validators and payload.
  - `Auth` covers error messages, token storage and the token's role segment.
  - `Login` covers the payload and routing by role.
  - `AdminService` covers registering a doctor.
  - `AdminSettings` covers the password rules.
  - `AddDoctor` covers the password generator and the form.
  - `Help` covers digit extraction and the call links.

Inputs the model cannot compute become parameters:
- the current time, random bytes and new ids;
- parsed dates, and the e-mail validator's verdict;
- HTTP answers and the decoded token payload;
- whether the app runs in a browser.

Local storage, the per-week store and the chat message store are fields of the state.

## Model

| member | source | states |
|---|---|---|
| DoctorProfileService.ComputeLocked | src/app/features/doctor/services/doctor-profile.service.ts:158-192 | No profile is locked; a profile is unlocked exactly when it has the basics, a language, a non-empty pricing list covering all three services and some availability |
| DoctorProfileService.UnlockedMeansComplete | src/app/features/doctor/services/doctor-profile.service.ts:163-189 | An unlocked profile has the five text fields non-blank, a non-zero department, a positive experience, a language, a valid price for every service, and at least one of chat, voice and video on |
| DoctorProfileService.BlankFieldLocks | src/app/features/doctor/services/doctor-profile.service.ts:163-171 | A missing or blank title, bio, phone, licence number or avatar locks the profile |
| DoctorProfileService.MissingNumbersLock | src/app/features/doctor/services/doctor-profile.service.ts:167-189 | Department 0 or missing, a non-positive or missing experience, no languages, no or empty pricing, and no availability each lock the profile |
| DoctorProfileService.InvalidPricesIrrelevant | src/app/features/doctor/services/doctor-profile.service.ts:175-186 | Dropping the price entries that are not valid for their own service does not change the lock verdict |
| DoctorProfileService.SamePricingVerdict | src/app/features/doctor/services/doctor-profile.service.ts:175-191 | The verdict depends on the pricing only through "non-empty" and "all services covered" |
| DoctorProfileService.ExtraPriceKeepsUnlocked | src/app/features/doctor/services/doctor-profile.service.ts:175-186 | Appending a price entry never locks an unlocked profile |
| DoctorProfileService.StartLoad | src/app/features/doctor/services/doctor-profile.service.ts:96-108 | A cached profile is returned unless forced; otherwise no token fails with the session message, and a request starts loading |
| DoctorProfileService.Fail | src/app/features/doctor/services/doctor-profile.service.ts:193-209 | On an error only loading is cleared, and the message follows the body-then-transport precedence with the service's default |
| DoctorProfileService.LoadProfile | src/app/features/doctor/services/doctor-profile.service.ts:96-121 | Cache hit, missing session and fetch cases; a fetched profile is published with its computed lock; the lock/profile agreement is preserved |
| DoctorProfileService.RefreshProfile | src/app/features/doctor/services/doctor-profile.service.ts:123-127 | Clears and locks first, then force-loads: a failure leaves no profile and the area locked; the state is always coherent |
| DoctorProfileService.UpdateProfile | src/app/features/doctor/services/doctor-profile.service.ts:133-151 | Without a token nothing is sent; a success publishes the profile and its lock; a failure clears loading only; coherence is preserved |
| DoctorProfileService.MarkAsUnlocked | src/app/features/doctor/services/doctor-profile.service.ts:153-156 | The flag is recomputed from the cached profile, so the state becomes coherent and a coherent state is unchanged |
| DoctorProfileService.IsProfileLocked | src/app/features/doctor/services/doctor-profile.service.ts:129-131 | With no argument it agrees with the published flag; with one it is the completeness verdict for that profile |
| DoctorProfileService.CoherenceIsInvariant | src/app/features/doctor/services/doctor-profile.service.ts:88-156 | The published lock always agrees with the cached profile: initially and after every transition |
| DoctorProfileService.SecondLoadIsCached | src/app/features/doctor/services/doctor-profile.service.ts:96-100 | After a successful load the next unforced load returns the same profile without a request, whatever the token |
| DoctorProfileService.FailedRefreshLocks | src/app/features/doctor/services/doctor-profile.service.ts:123-127 | A failed refresh leaves the area locked with no cached profile, however complete the previous profile was |
| ProfileGuard.Guard | src/app/features/doctor/guards/doctor-profile.guard.ts:6-34 | After the (possibly cached) profile load: a complete profile or the profile route is allowed, an incomplete one redirects to the profile page with the target URL, and a failed load redirects to login |
| ProfileGuard.ThreeWayDecision | src/app/features/doctor/guards/doctor-profile.guard.ts:10-33 | The decision is exactly one of allow, the profile-page tree or the session-expired tree, each under the stated condition |
| ProfileGuard.NoRedirectLoop | src/app/features/doctor/guards/doctor-profile.guard.ts:17-20 | The profile route itself is never redirected to the profile page |
| ProfileGuard.MissingPathIsNotProfile | src/app/features/doctor/guards/doctor-profile.guard.ts:17 | A route without a config path counts as the empty path, so an incomplete profile is redirected from it |
| ProfileGuard.CachedDecision | src/app/features/doctor/guards/doctor-profile.guard.ts:10-24 | With a cached profile no request is sent, the state is untouched and the decision depends on that profile alone |
| ProfileGuard.NoSessionGoesToLogin | src/app/features/doctor/guards/doctor-profile.guard.ts:26-32 | Without a session and without a cached profile the guard redirects to login |
| ProfileEditor.BuildForm | src/app/features/doctor/pages/profile/profile.ts:259-290 | The starting form: the name "Doctor name", the default avatar, availability chat and video, empty texts, no department or experience, empty lists, and one row per required service in the order chat, voice, video, each in USD at price 0 |
| ProfileEditor.CleanList | src/app/features/doctor/pages/profile/profile.ts:302-303 | Every kept entry is trimmed and non-empty, and the list never grows |
| ProfileEditor.CleanListKeepsFilled | src/app/features/doctor/pages/profile/profile.ts:302-303 | Every entry that is not blank survives cleaning, trimmed |
| ProfileEditor.CleanListEmptyIffAllBlank | src/app/features/doctor/pages/profile/profile.ts:302-303 | Cleaning leaves nothing exactly when every entry is blank |
| ProfileEditor.CleanPricing | src/app/features/doctor/pages/profile/profile.ts:310-317 | The kept rows are exactly the cleaned rows with a currency and a positive price, each coming from some form row |
| ProfileEditor.TrimOrUndefined | src/app/features/doctor/pages/profile/profile.ts:333-339 | A blank value is dropped; any other value is sent trimmed and is not blank |
| ProfileEditor.DropEmpty | src/app/features/doctor/pages/profile/profile.ts:352-356 | An empty list field is deleted from the payload and a non-empty one is kept as is |
| ProfileEditor.PreparePayload | src/app/features/doctor/pages/profile/profile.ts:294-368 | The payload's text fields, department, lists and pricing follow the cleaning rules; the languages count, coverage and availability flags say what the cleaned form holds |
| ProfileEditor.CoveredMeansKeptRow | src/app/features/doctor/pages/profile/profile.ts:358-360 | A service counts as covered exactly when some form row for it survives cleaning |
| ProfileEditor.MissingItems | src/app/features/doctor/pages/profile/profile.ts:208-224 | Each check's item is reported exactly when that check fails, so nothing is reported exactly when every check passes; at most ten items |
| ProfileEditor.MissingInOrder | src/app/features/doctor/pages/profile/profile.ts:208-224 | The reported items come in the order the checks are made |
| ProfileEditor.MissingByLabel | src/app/features/doctor/pages/profile/profile.ts:208-224 | Item by item: the title, bio, license, avatar and phone are reported when absent, the department when 0 or absent, the experience when absent or not positive, the languages when none survive, the pricing when absent, empty or not covering every service, and availability when no option is on |
| ProfileEditor.MissingEnds | src/app/features/doctor/pages/profile/profile.ts:208-224 | A missing title is reported first and missing availability last |
| ProfileEditor.Save | src/app/features/doctor/pages/profile/profile.ts:195-230 | An invalid form does nothing, an incomplete payload reports its missing items, and only a complete valid form is submitted |
| ProfileEditor.PreparedIsWellFormed | src/app/features/doctor/pages/profile/profile.ts:294-368 | Every prepared payload has trimmed non-blank text fields, non-empty lists and only valid price entries |
| ProfileEditor.ListedIffCovers | src/app/features/doctor/pages/profile/profile.ts:358-360 | Among valid entries, naming a service and covering it are the same |
| ProfileEditor.PricingMirrorsLock | src/app/features/doctor/pages/profile/profile.ts:219-221 | The editor's pricing check passes exactly when the lock's pricing conditions hold for the payload |
| ProfileEditor.CheckMirrorsLock | src/app/features/doctor/pages/profile/profile.ts:208-224 | On a well-formed payload the editor's check passes exactly when the profile it describes is unlocked |
| ProfileEditor.SaveCheckMirrorsLock | src/app/features/doctor/pages/profile/profile.ts:195-230 | Save submits a valid form exactly when the resulting profile would unlock the doctor area |
| ProfileEditor.DefaultPayload | src/app/features/doctor/pages/profile/profile.ts:259-368 | The payload of the starting form has no text fields but the avatar, department and years 0, no lists and no pricing |
| ProfileEditor.ZeroPricesNotKept | src/app/features/doctor/pages/profile/profile.ts:315-317 | Rows that all carry price 0 leave no pricing in the payload |
| ProfileEditor.DefaultFormIsIncomplete | src/app/features/doctor/pages/profile/profile.ts:195-227 | Saving the starting form reports exactly eight missing items, in this order: professional title, bio, department, years of experience, license number, phone number, languages, and pricing |
| ProfileEditor.SetArray | src/app/features/doctor/pages/profile/profile.ts:416-424 | The list becomes exactly the non-empty entries of the given values, nothing else |
| ProfileEditor.LastFor | src/app/features/doctor/pages/profile/profile.ts:400-401 | The entry a map keyed by service finds: none exactly when no entry names the service, else the last one that does |
| ProfileEditor.ApplyRow | src/app/features/doctor/pages/profile/profile.ts:402-410 | A row keeps its service; without a matching entry its price becomes 0 and its currency is kept, else both come from the entry |
| ProfileEditor.ApplyProfile | src/app/features/doctor/pages/profile/profile.ts:370-414 | The title, bio, phone, license number and avatar are copied, empty when absent; department and experience are copied; each list becomes the profile's non-empty entries; availability is copied or defaulted; an empty name becomes the default; the pricing rows keep their services |
| ProfileEditor.ApplyTakesLastEntry | src/app/features/doctor/pages/profile/profile.ts:400-410 | When a profile prices a service more than once the form shows its last entry |
| ProfileEditor.ApplyIdempotent | src/app/features/doctor/pages/profile/profile.ts:370-414 | Applying the same profile twice is the same as applying it once |
| ProfileEditor.ChipEnter | src/app/features/doctor/pages/profile/profile.ts:172-180 | A blank input changes nothing; otherwise the trimmed text is appended and the input is cleared |
| ProfileEditor.FinishSave | src/app/features/doctor/pages/profile/profile.ts:231-248 | The update then refresh: on success the refreshed profile is applied and the service stays coherent; on failure the error is shown; no token fails with the session message |
| SlotTime.ToMinutes | src/app/features/doctor/pages/schedule/slot-dialog.ts:91-94 | A text without a colon has no minutes part and so reads as NaN |
| SlotTime.SignedHour | src/app/features/doctor/pages/schedule/slot-dialog.ts:91-94 | `Number` accepts a sign, so a signed hour counts with it: `-h:m` reads as -60h + m and `+h:m` as 60h + m |
| SlotTime.ToMinutesOfClock | src/app/features/doctor/pages/schedule/slot-dialog.ts:91-94 | A well-formed `HH:mm` reads as 60 times its hour digits plus its minute digits |
| SlotTime.JsRem | src/app/features/doctor/pages/schedule/schedule.ts:27-28 | JavaScript's remainder: for a non-negative dividend it lies in [0, b), for a negative one in (-b, 0] |
| SlotTime.ClockRoundTrip | src/app/features/doctor/pages/schedule/schedule.ts:20-29 | An hour and a minute below 100 render as a well-formed clock string that reads back as their minute count |
| SlotTime.HhmmPlus | src/app/features/doctor/pages/schedule/schedule.ts:24-30 | An unreadable start renders "NaN:NaN" |
| SlotTime.HourOf | src/app/features/doctor/pages/schedule/schedule.ts:27 | For a non-negative total the hour lies in [0, 24) |
| SlotTime.MinuteOf | src/app/features/doctor/pages/schedule/schedule.ts:28 | For a non-negative total the minute lies in [0, 60) |
| SlotTime.ClockOfWraps | src/app/features/doctor/pages/schedule/schedule.ts:26-29 | A non-negative minute count renders as a clock string that reads back as the count modulo 24 hours |
| SlotTime.HhmmPlusWraps | src/app/features/doctor/pages/schedule/schedule.ts:24-30 | For a readable start and a non-negative total, the result is a well-formed clock string reading as start plus minutes modulo 24 hours |
| SlotTime.WholeDaysDoNotMove | src/app/features/doctor/pages/schedule/schedule.ts:24-30 | For a start that does not read as negative, adding whole days renders the very same clock string |
| SlotTime.DayShift | src/app/features/doctor/pages/schedule/schedule.ts:27-28 | Whole days change neither the hour nor the minute of a non-negative count |
| SlotTime.MeetsIffSharedMinute | src/app/features/doctor/pages/schedule/slot-dialog.ts:103 | The max-start-before-min-end test holds exactly when the two half-open intervals share a minute |
| SlotTime.BackToBackDoNotMeet | src/app/features/doctor/pages/schedule/slot-dialog.ts:96-105 | A slot that ends as the next starts does not overlap it, in either order |
| SlotTime.MeetsSymmetric | src/app/features/doctor/pages/schedule/slot-dialog.ts:103 | The pairwise test does not depend on which slot comes first |
| SlotTime.Overlaps | src/app/features/doctor/pages/schedule/slot-dialog.ts:96-105 | The candidate overlaps exactly when it meets some other slot of the day; an empty day never overlaps |
| SlotDialog.BuildForm | src/app/features/doctor/pages/schedule/slot-dialog.ts:57-82 | A new slot opens at 09:00 for 25 minutes with chat only and no notes; an edited slot opens with its own start, duration, modalities and notes |
| SlotDialog.StartValidIffClock | src/app/features/doctor/pages/schedule/slot-dialog.ts:61-64 | The start control's required and pattern validators together accept exactly the `HH:mm` strings |
| SlotDialog.Selected | src/app/features/doctor/pages/schedule/slot-dialog.ts:123-126 | Each modality is listed exactly when its box is ticked, and the list is empty only when none is |
| SlotDialog.SelectedIsCanonical | src/app/features/doctor/pages/schedule/slot-dialog.ts:123-126 | The pushed list is always in the order chat, voice, video, without duplicates |
| SlotDialog.SelectedRecoversCanonical | src/app/features/doctor/pages/schedule/slot-dialog.ts:69-80 | A canonical modality list survives the round trip through the three check boxes and back |
| SlotDialog.CanonicalBySet | src/app/features/doctor/pages/schedule/slot-dialog.ts:123-126 | Two canonical lists with the same members are equal |
| SlotDialog.OverlapsOthers | src/app/features/doctor/pages/schedule/slot-dialog.ts:96-105 | The test is run against the day's other slots, none when the caller gave none |
| SlotDialog.Save | src/app/features/doctor/pages/schedule/slot-dialog.ts:112-135 | An invalid form or no modality does nothing; an overlap sets the error; otherwise the result carries a clock start, a duration in [5, 180], the canonical modalities and the trimmed notes |
| SlotDialog.DefaultSaves | src/app/features/doctor/pages/schedule/slot-dialog.ts:57-82 | A new slot on an empty day saves as 09:00, 25 minutes, chat only, without notes |
| SlotDialog.UnchangedEditSaves | src/app/features/doctor/pages/schedule/slot-dialog.ts:57-135 | Saving a valid, canonical, non-overlapping edited slot without changes gives back its start, duration and modalities |
| Schedule.SlotsForDay | src/app/features/doctor/pages/schedule/schedule.ts:115-121 | The day's view holds exactly the week's slots on that day that pass the modality filter, ordered by start time |
| Schedule.SlotsForDayCounts | src/app/features/doctor/pages/schedule/schedule.ts:115-121 | The view is a permutation of the matching slots: each such slot appears as often as in the week's list and no other slot appears |
| Schedule.WeekKeysDistinct | src/app/features/doctor/pages/schedule/schedule.ts:64-76 | Different week offsets give different week keys, so each week's slots are stored apart |
| Schedule.SaveCurrentWeek | src/app/features/doctor/pages/schedule/schedule.ts:107-110 | Leaving a week writes the working list under that week's key and changes no other entry |
| Schedule.LoadWeek | src/app/features/doctor/pages/schedule/schedule.ts:100-105 | Loading a week shows the list stored under its key, or nothing when the week was never stored |
| Schedule.Init | src/app/features/doctor/pages/schedule/schedule.ts:90-98 | On construction the seed slots are stored under this week's key and shown |
| Schedule.LeavingStoresTheWeek | src/app/features/doctor/pages/schedule/schedule.ts:78-80 | Going to the previous, next or current week first stores the list of the week being left |
| Schedule.NextThenPrevRestores | src/app/features/doctor/pages/schedule/schedule.ts:78-79 | Going forward a week and back again returns to the same week with the same slots |
| Schedule.PrevThenNextRestores | src/app/features/doctor/pages/schedule/schedule.ts:78-79 | Going back a week and forward again returns to the same week with the same slots |
| Schedule.StoredWeekReloads | src/app/features/doctor/pages/schedule/schedule.ts:100-105 | Moving to a week whose list is stored shows that stored list |
| Schedule.MoveKeepsOthers | src/app/features/doctor/pages/schedule/schedule.ts:78-79 | A press of the next or previous button moves one week and leaves the stored list of every week but the one left untouched |
| Schedule.WalkKeepsOthers | src/app/features/doctor/pages/schedule/schedule.ts:78-79 | n presses move n weeks and leave the stored list of any week not stood on along the way untouched |
| Schedule.WalkLast | src/app/features/doctor/pages/schedule/schedule.ts:78-79 | A walk of n presses is a walk of n - 1 presses followed by one more |
| Schedule.ReturnRestores | src/app/features/doctor/pages/schedule/schedule.ts:78-110 | Jumping to this week from another week and pressing back there the same number of times shows that week's slots exactly as they were left |
| Schedule.OverlapSet | src/app/features/doctor/pages/schedule/schedule.ts:135 | The overlap list holds the start and duration of every kept slot and of nothing else |
| Schedule.AddChecksTheSameDay | src/app/features/doctor/pages/schedule/schedule.ts:134-136 | A new slot is checked for overlaps against every slot of its day and only those |
| Schedule.EditExcludesItself | src/app/features/doctor/pages/schedule/schedule.ts:154-159 | An edited slot is checked against every other slot of its day but never against itself |
| Schedule.AddSlotAppends | src/app/features/doctor/pages/schedule/schedule.ts:134-152 | A saved dialog appends one slot on that day with the dialog's values, keeps the existing slots in place and stores the week; a dismissed dialog changes nothing |
| Schedule.DeleteRemovesOnlyThatId | src/app/features/doctor/pages/schedule/schedule.ts:165-168 | Deleting removes exactly the slots with that id, so the list shrinks by their number, and keeps every other slot |
| Schedule.EditRewritesOnlyThatId | src/app/features/doctor/pages/schedule/schedule.ts:170-177 | Saving an edit replaces the start, duration, modalities and notes of the slots with that id, keeps their id and day and leaves all other slots untouched |
| Schedule.EditStoresTheWeek | src/app/features/doctor/pages/schedule/schedule.ts:163-178 | After a delete or a saved edit the changed list is stored under the week's key |
| Calendar.DayOfWeek | src/app/features/doctor/pages/schedule/schedule.ts:35 | The weekday number is always between 0 (Sunday) and 6 (Saturday) |
| Calendar.WeekdayPeriodic | src/app/features/doctor/pages/schedule/schedule.ts:35 | Moving a date by whole weeks keeps its weekday |
| Calendar.MondayOfLandsOnMonday | src/app/features/doctor/pages/schedule/schedule.ts:33-40 | The computed Monday lies zero to six days before the date and is a Monday |
| Calendar.MondayOfIsUnique | src/app/features/doctor/pages/schedule/schedule.ts:33-40 | The computed Monday is the only Monday in the seven days ending at the date |
| Calendar.SameWeekdayCloseIsEqual | src/app/features/doctor/pages/schedule/schedule.ts:33-40 | Two dates with the same weekday less than a week apart are the same date |
| Calendar.MondayOfShiftsByWeeks | src/app/features/doctor/pages/schedule/schedule.ts:65-69 | Moving the date by whole weeks moves its Monday by the same number of weeks |
| Calendar.MondayOfWeekAgrees | src/app/features/patient/pages/booking/booking.ts:107-114 | The booking page's Monday of week n, found with Sunday counted as day 7, is the schedule's Monday of the day n weeks from today |
| Slots.ModalityName | src/app/features/doctor/pages/schedule/slot-dialog.ts:11 | A modality is spelled as one of "chat", "voice" or "video" |
| Slots.ModalityNameInjective | src/app/features/doctor/pages/schedule/slot-dialog.ts:11 | No two modalities share a spelling, so the spelled name identifies the modality |
| Slots.ForDay | src/app/features/patient/pages/booking/booking.ts:122-126 | A day's column holds exactly the slots of that day, ordered by start time |
| Slots.ForDayCounts | src/app/features/patient/pages/booking/booking.ts:122-126 | The day's column is a permutation of the day's slots: each appears as often as in the week's list and slots of other days never appear |
| Slots.TimeRangeParts | src/app/features/patient/pages/booking/booking.ts:199 | A slot's label is its start time, a dash, then the end time its duration reaches |
| Slots.ClassForPartition | src/app/features/patient/pages/booking/booking.ts:200-209 | A card gets exactly one colour class when the slot offers anything: the single modality's class, or "multi" exactly when it offers more than one |
| Slots.SeededDay | src/app/features/patient/pages/booking/booking.ts:60-63 | A demo slot's day is always a valid weekday index 0..6 |
| Prices.QuoteFor | src/app/features/patient/pages/booking/booking.ts:162-167 | A quote carries the currency of the patient's country sheet and one of that sheet's three prices |
| Prices.QuotesShareCurrency | src/app/features/patient/pages/booking/booking.ts:162-167 | Within a country every modality is quoted in the same currency, at the sheet's price for that modality |
| Prices.DemoPricesRise | src/app/features/patient/pages/booking/booking.ts:45-49 | In the demo price table every price is positive and chat is cheaper than voice, which is cheaper than video, in every country |
| Booking.WeekSeed | src/app/features/patient/pages/booking/booking.ts:117 | The demo seed is always 0 or 1 |
| Booking.WeekSeedParity | src/app/features/patient/pages/booking/booking.ts:117 | The seed depends only on the week's parity: it is the same for a week and its negation and for weeks two apart |
| Booking.MakeSlotsForWeek | src/app/features/patient/pages/booking/booking.ts:57-65 | The demo week has four 25-minute slots with the given ids, each on a valid weekday and offering at least one modality |
| Booking.WeekSlots | src/app/features/patient/pages/booking/booking.ts:117 | Every slot of the visible week sits on a valid weekday |
| Booking.OddWeeksShiftByOneDay | src/app/features/patient/pages/booking/booking.ts:57-65 | The second demo week is the first with every slot moved one day later |
| Booking.SetModality | src/app/features/patient/pages/booking/booking.ts:142-146 | Choosing a modality keeps the step, and drops the selected slot exactly when it does not offer the new modality |
| Booking.PickSlot | src/app/features/patient/pages/booking/booking.ts:148-158 | A slot is selected exactly when a modality is chosen and the slot offers it; otherwise the matching message is shown and nothing changes |
| Booking.Next | src/app/features/patient/pages/booking/booking.ts:170-178 | Step 1 advances exactly when a modality is chosen and step 2 exactly when a slot is selected, with a message when they do not; other steps do nothing |
| Booking.Back | src/app/features/patient/pages/booking/booking.ts:179-182 | Back goes from step 3 to 2 and from 2 to 1 and otherwise does nothing |
| Booking.CoherenceIsInvariant | src/app/features/patient/pages/booking/booking.ts:142-182 | Every wizard action keeps the selected slot compatible with the chosen modality |
| Booking.BackThenNext | src/app/features/patient/pages/booking/booking.ts:170-182 | Going back from step 2 or 3 and forward again returns to the same wizard state |
| Booking.ProgressIsKept | src/app/features/patient/pages/booking/booking.ts:148-182 | Next, back and picking a slot never leave a step without what it needs: a modality from step 2, a slot at step 3 |
| Booking.SetModalityProgress | src/app/features/patient/pages/booking/booking.ts:142-146 | Changing the modality keeps the wizard's progress except at the last step when the selected slot lacks it |
| Booking.HappyPath | src/app/features/patient/pages/booking/booking.ts:142-178 | From the start, choosing a modality, next, picking a slot offering it and next reaches step 3 with that modality and slot |
| Booking.Price | src/app/features/patient/pages/booking/booking.ts:162-167 | There is a price exactly when a modality is chosen, in the country's currency at that modality's price |
| Booking.Confirm | src/app/features/patient/pages/booking/booking.ts:184-196 | An empty reason only marks the form; otherwise the request carries the selected slot's id, the modality, the reason and the price |
| Booking.ConfirmAtLastStep | src/app/features/patient/pages/booking/booking.ts:184-196 | A coherent wizard at step 3 with a reason submits a request whose modality is offered by its slot and which has a price |
| Booking.CardFor | src/app/features/patient/pages/booking/booking.ts:200-209 | A card is marked selected exactly for the selected slot and incompatible exactly when a chosen modality is not offered |
| Booking.SelectedCardIsCompatible | src/app/features/patient/pages/booking/booking.ts:200-209 | The selected slot's card is never marked incompatible |
| DoctorPage.MakeSlotsForWeek | src/app/features/patient/pages/doctor-profile/doctor-profile.ts:90-99 | The page's demo week has five 25-minute slots with the given ids, each on a valid weekday |
| DoctorPage.DayStartOrder | src/app/features/patient/pages/doctor-profile/doctor-profile.ts:166-168 | The comparator orders slots by day first and, within a day, by start time |
| DoctorPage.NextAvailable | src/app/features/patient/pages/doctor-profile/doctor-profile.ts:159-170 | There is a soonest slot exactly when either week has slots; it is one of them and no slot of either week orders before it |
| DoctorPage.FirstIsLeast | src/app/features/patient/pages/doctor-profile/doctor-profile.ts:166-169 | The first element of the sorted list orders no later than any slot in it |
| DoctorPage.NextAvailableIsSoonest | src/app/features/patient/pages/doctor-profile/doctor-profile.ts:159-170 | No slot of either week is on an earlier day than the chosen one, or on its day with an earlier start |
| DoctorPage.DemoNextAvailable | src/app/features/patient/pages/doctor-profile/doctor-profile.ts:159-170 | Over the page's two demo weeks a soonest slot always exists |
| DoctorPage.PickModality | src/app/features/patient/pages/doctor-profile/doctor-profile.ts:179-182 | Picking a modality selects it, changes nothing else and announces its name |
| DoctorPage.Price | src/app/features/patient/pages/doctor-profile/doctor-profile.ts:173-177 | The shown price is the country's currency and its price for the selected modality |
| DoctorPage.CardFor | src/app/features/patient/pages/doctor-profile/doctor-profile.ts:186-195 | A card gets the shared colour classes and is marked incompatible exactly when the slot lacks the selected modality |
| DoctorPage.BookNow | src/app/features/patient/pages/doctor-profile/doctor-profile.ts:198-201 | Booking selects the given modality if any, keeps the rest, and navigates to the doctor's booking page with the selected modality in the query |
| DoctorPage.BookNowCarriesTheModality | src/app/features/patient/pages/doctor-profile/doctor-profile.ts:198-201 | The modality named in the booking link is the selected one, and it is the one the shown price is for |
| Visits.JoinWindowEdges | src/app/features/patient/pages/appointments/appointments.ts:152-158 | The join window opens exactly ten minutes before the start and closes exactly at the end, both ends included |
| Visits.Countdown | src/app/features/patient/pages/appointments/appointments.ts:160-164 | Once the start time is reached the countdown shows the "starts soon" text |
| Visits.TimeLeftFields | src/app/features/patient/pages/appointments/appointments.ts:165-166 | The seconds field is below 60, and minutes times 60 plus seconds is the whole seconds left |
| Visits.CountdownReadsBack | src/app/features/patient/pages/appointments/appointments.ts:160-167 | Under 100 minutes before the start the countdown is an mm:ss clock that reads back as the whole seconds left |
| Ics.ReadIcsDate | src/app/features/patient/pages/appointments/appointments.ts:204-216 | Reading a stamp back succeeds exactly on text of the form YYYYMMDD'T'HHMMSS'Z' |
| Ics.YearDigits | src/app/features/patient/pages/appointments/appointments.ts:207 | A four-digit year renders as exactly its four decimal digits |
| Ics.IcsDateLayout | src/app/features/patient/pages/appointments/appointments.ts:204-216 | The stamp of a valid time is the year's four digits followed by the padded month, day, T, hours, minutes, seconds and Z |
| Ics.IcsDateRoundTrip | src/app/features/patient/pages/appointments/appointments.ts:204-216 | A valid time stamps in the UTC DATE-TIME form of RFC 5545 section 3.3.5, and reading the stamp gives back the same fields |
| Ics.IcsLines | src/app/features/patient/pages/appointments/appointments.ts:218-230 | The calendar has twelve lines, opening with BEGIN:VCALENDAR and closing with END:VCALENDAR |
| Ics.IcsFraming | src/app/features/patient/pages/appointments/appointments.ts:218-231 | The file text starts with the BEGIN:VCALENDAR line and a CRLF and ends with a CRLF and the END:VCALENDAR line |
| PatientAppointments.Upcoming | src/app/features/patient/pages/appointments/appointments.ts:129-133 | The upcoming section holds exactly the appointments starting now or later, soonest first |
| PatientAppointments.Past | src/app/features/patient/pages/appointments/appointments.ts:134-138 | The past section holds exactly the appointments that started before now, latest first |
| PatientAppointments.SectionsPartition | src/app/features/patient/pages/appointments/appointments.ts:129-138 | The two sections together hold every appointment exactly as often as the list does, none in both |
| PatientAppointments.Countdown | src/app/features/patient/pages/appointments/appointments.ts:160-164 | From the start time on the countdown reads "Starts soon" |
| PatientAppointments.PaymentDetails | src/app/features/patient/pages/appointments/appointments.ts:170-174 | Payment details are shown exactly when the method, the last four digits or the transaction id is non-empty, and then they are the appointment's payment |
| PatientAppointments.Join | src/app/features/patient/pages/appointments/appointments.ts:177-182 | Outside the join window nothing happens; inside it the join link is followed, in the app exactly when it starts with a slash and otherwise in a new tab |
| PatientAppointments.Cancel | src/app/features/patient/pages/appointments/appointments.ts:188-201 | Without confirmation the list is unchanged; the list never changes length |
| PatientAppointments.CancelOnlyThatId | src/app/features/patient/pages/appointments/appointments.ts:192-198 | Cancelling marks the appointments with that id canceled and stamps them, and leaves every other appointment as it was |
| PatientAppointments.CanceledCannotJoin | src/app/features/patient/pages/appointments/appointments.ts:152-158 | A canceled appointment can never be joined again, and joining it does nothing |
| DoctorAppointments.Filtered | src/app/features/doctor/pages/appointments/appointments.ts:130-153 | The list shows exactly the appointments passing the tab, modality, status and text tests, soonest first |
| DoctorAppointments.StartingNowIsInNeitherTab | src/app/features/doctor/pages/appointments/appointments.ts:141-144 | An appointment starting exactly now is in neither the upcoming nor the past tab |
| DoctorAppointments.TabsSplitAll | src/app/features/doctor/pages/appointments/appointments.ts:141-150 | The upcoming and past tabs are disjoint parts of the all tab, and together cover it except for what starts exactly now |
| DoctorAppointments.BlankQueryShowsAll | src/app/features/doctor/pages/appointments/appointments.ts:132-149 | A query of only white space filters like no query at all |
| DoctorAppointments.Countdown | src/app/features/doctor/pages/appointments/appointments.ts:177-181 | From the start time on the countdown reads "Now" |
| DoctorAppointments.Mark | src/app/features/doctor/pages/appointments/appointments.ts:188-191 | Marking keeps the list's length and announces the status with its first underscore turned into a space |
| DoctorAppointments.MarkOnlyThatId | src/app/features/doctor/pages/appointments/appointments.ts:188-189 | Marking sets the status and stamp of the appointments with that id and leaves every other one as it was |
| DoctorAppointments.Join | src/app/features/doctor/pages/appointments/appointments.ts:193-200 | Outside the window nothing happens; inside it a visit not yet in progress is marked in progress, and the link is followed in the app exactly when it starts with a slash |
| DoctorAppointments.JoinKeepsItJoinable | src/app/features/doctor/pages/appointments/appointments.ts:169-175 | After joining, the visit is in progress and can still be joined at the same moment |
| DoctorAppointments.SaveDoctorNote | src/app/features/doctor/pages/appointments/appointments.ts:202-205 | Saving a note keeps the list's length |
| DoctorAppointments.SaveNoteOnlyThatId | src/app/features/doctor/pages/appointments/appointments.ts:202-203 | Saving a note sets the note and stamp of the appointments with that id and leaves every other one as it was |
| PatientNotifications.AgoOf | src/app/features/patient/pages/notifications/notifications.ts:43-55 | Each unit is used exactly on its own range of elapsed time: seconds under a minute, minutes under an hour, hours under a day, "yesterday" for the second day, days after that, each count in its unit's range |
| PatientNotifications.Rel | src/app/features/patient/pages/notifications/notifications.ts:43-56 | A time in the future reads "0s ago"; under a minute the whole seconds, under an hour the whole minutes and under a day the whole hours are shown with "s ago", "m ago" and "h ago"; one to two days read "Yesterday" and exactly then; from two days on the whole days with "d ago" |
| PatientNotifications.Visible | src/app/features/patient/pages/notifications/notifications.ts:141-152 | The list holds exactly the items that are not archived, of an enabled kind, of the chosen kind and matching the text, newest first |
| PatientNotifications.HiddenKinds | src/app/features/patient/pages/notifications/notifications.ts:147-148 | An archived item, or one of a kind switched off in the settings, is never listed |
| PatientNotifications.GroupsOf | src/app/features/patient/pages/notifications/notifications.ts:155-166 | Today holds the items from the start of today on, this week the earlier ones from Monday on, and earlier the rest |
| PatientNotifications.GroupsPartition | src/app/features/patient/pages/notifications/notifications.ts:155-166 | The three groups together hold every listed item exactly as often as the list does |
| PatientNotifications.CountsOf | src/app/features/patient/pages/notifications/notifications.ts:169-175 | The overall unread counter is the sum of the five per-kind counters |
| PatientNotifications.CountsAllUnread | src/app/features/patient/pages/notifications/notifications.ts:169-175 | The overall counter is the number of unread items, over all items whatever the filters |
| PatientNotifications.CountsPerKind | src/app/features/patient/pages/notifications/notifications.ts:169-175 | Each kind's counter is the number of unread items of that kind |
| PatientNotifications.BumpStep | src/app/features/patient/pages/notifications/notifications.ts:171-173 | One loop step adds one to the overall counter and to its kind's counter exactly for an unread item |
| PatientNotifications.MarkRead | src/app/features/patient/pages/notifications/notifications.ts:195-198 | An item already read changes nothing; otherwise the items with its id become read and every other item stays |
| PatientNotifications.MarkReadIdempotent | src/app/features/patient/pages/notifications/notifications.ts:195-198 | Marking an item read twice is marking it once |
| PatientNotifications.MarkReadUnarchives | src/app/features/patient/pages/notifications/notifications.ts:195-198 | After marking, the item's status is read, even when it was archived |
| PatientNotifications.ToggleRead | src/app/features/patient/pages/notifications/notifications.ts:199-201 | Each item with the id turns read if it was unread and unread otherwise, archived included, with every other field kept; other items stay |
| PatientNotifications.ToggleTwice | src/app/features/patient/pages/notifications/notifications.ts:199-201 | Toggling twice restores an unread or read item, and brings an archived one back as read |
| PatientNotifications.Archive | src/app/features/patient/pages/notifications/notifications.ts:202-203 | Archiving sets the status of the items with that id to archived and leaves the rest |
| PatientNotifications.UndoArchive | src/app/features/patient/pages/notifications/notifications.ts:204-207 | The undo action sets the status of the items with that id to read and leaves the rest |
| PatientNotifications.ArchiveThenUndo | src/app/features/patient/pages/notifications/notifications.ts:202-207 | An archived item leaves the list whatever the filters; undo restores a read item exactly and an unread one as read |
| PatientNotifications.MarkAllRead | src/app/features/patient/pages/notifications/notifications.ts:209-211 | Every unread item becomes read; read and archived items stay as they were |
| PatientNotifications.MarkAllReadClearsCounts | src/app/features/patient/pages/notifications/notifications.ts:169-175 | After marking everything read the unread counter is zero |
| PatientNotifications.ClearOlderThan | src/app/features/patient/pages/notifications/notifications.ts:212-216 | Items stamped before the cutoff of the given number of days are archived, the rest stay, and the message names the days |
| PatientNotifications.ClearedAreHidden | src/app/features/patient/pages/notifications/notifications.ts:141-152 | After clearing, no listed item is older than the cutoff |
| PatientNotifications.Open | src/app/features/patient/pages/notifications/notifications.ts:190-194 | Opening marks the item read, then follows its route if it has one, otherwise its external link if that is non-empty |
| AdminNotifications.Filtered | src/app/features/admin/pages/notifications/notifications.ts:75-86 | The list holds exactly the rows whose joined title, message and type contain the search text and which pass the chip, in stored order |
| AdminNotifications.BlankSearchKeepsAll | src/app/features/admin/pages/notifications/notifications.ts:76-84 | A search of only white space keeps exactly the rows the chip keeps |
| AdminNotifications.Sorted | src/app/features/admin/pages/notifications/notifications.ts:89-91 | The sorted list is a permutation of the filtered rows, latest first |
| AdminNotifications.PageOf | src/app/features/admin/pages/notifications/notifications.ts:93-96 | The page is the page-index-th run of page-size rows of the sorted, filtered list: as many rows as remain, at most the page size, row k being the sorted row at page index times size plus k; each one is stored and passes the filters |
| AdminNotifications.SetUnread | src/app/features/admin/pages/notifications/notifications.ts:99-100 | Only the unread flag of the rows with that id changes |
| AdminNotifications.MarkRead | src/app/features/admin/pages/notifications/notifications.ts:99 | Marking a row that is already read changes nothing |
| AdminNotifications.MarkUnread | src/app/features/admin/pages/notifications/notifications.ts:100 | Marking a row that is already unread changes nothing |
| AdminNotifications.MarkIdempotent | src/app/features/admin/pages/notifications/notifications.ts:99-100 | Marking read or unread twice is marking once, and the marked row ends in the requested state |
| AdminNotifications.Delete | src/app/features/admin/pages/notifications/notifications.ts:101 | Deleting keeps exactly the rows with another id, so the list shrinks by the number of rows with that id |
| AdminNotifications.MarkAllRead | src/app/features/admin/pages/notifications/notifications.ts:103-107 | With no unread row nothing happens and no message is shown; otherwise every row becomes read, with nothing else changed, and the message is shown |
| AdminNotifications.NoUnreadAfterMarkAll | src/app/features/admin/pages/notifications/notifications.ts:103-107 | After marking everything read the unread chip lists nothing |
| AdminNotifications.ClearedPagesAreEmpty | src/app/features/admin/pages/notifications/notifications.ts:109-112 | After clearing every page is empty |
| AdminNotifications.SetFilter | src/app/features/admin/pages/notifications/notifications.ts:114-118 | Choosing a chip sets the filter and goes back to the first page, keeping the rows, search and page size |
| AdminNotifications.SetFilterShowsFirstPage | src/app/features/admin/pages/notifications/notifications.ts:93-96 | After choosing a chip the page holds the first page-size rows of the new selection in date order, or all of them when fewer |
| AdminNotifications.PageChange | src/app/features/admin/pages/notifications/notifications.ts:120-123 | A page event sets the page index and size and changes nothing else |
| AdminNotifications.SearchNotShown | src/app/features/admin/pages/notifications/notifications.ts:75-86 | As written, typing in the search box alone leaves the list on screen as it was: a row the chip keeps stays listed after a search longer than its whole text, although no row matches that search |
| DoctorNotifications.Filtered | src/app/features/doctor/pages/notifications/notifications.ts:58-65 | The list holds exactly the notifications of the chosen kind whose title or body contains the trimmed, lower-cased query, newest first |
| DoctorNotifications.NoFilterListsAll | src/app/features/doctor/pages/notifications/notifications.ts:58-65 | With every kind and a blank query every notification is listed |
| DoctorNotifications.MarkRead | src/app/features/doctor/pages/notifications/notifications.ts:67-69 | The notifications with that id become read and the rest stay |
| DoctorNotifications.MarkReadIdempotent | src/app/features/doctor/pages/notifications/notifications.ts:67-69 | Marking read twice is marking once |
| DoctorNotifications.ToggleRead | src/app/features/doctor/pages/notifications/notifications.ts:70-72 | The read flag of the notifications with that id flips, nothing else about them changes, and the rest stay |
| DoctorNotifications.ToggleTwice | src/app/features/doctor/pages/notifications/notifications.ts:70-72 | Toggling twice gives the list back |
| DoctorNotifications.Clear | src/app/features/doctor/pages/notifications/notifications.ts:73-78 | Without confirmation nothing changes; no kind or every kind empties the list; one kind removes exactly the notifications of that kind |
| DoctorNotifications.ClearKindEmptiesItsFilter | src/app/features/doctor/pages/notifications/notifications.ts:73-78 | After clearing a kind its filter lists nothing, and a notification of another kind is listed exactly when it was before |
| DoctorRequests.Filtered | src/app/features/admin/pages/doctor-requests/doctor-requests.ts:136-144 | A blank search lists every request in order; otherwise exactly the requests whose joined doctor name, e-mail, phone, status and changes contain the trimmed, lower-cased search |
| DoctorRequests.Sorted | src/app/features/admin/pages/doctor-requests/doctor-requests.ts:146-158 | The sorted list is a permutation of the filtered requests ordered by the chosen key, reversed for a descending direction |
| DoctorRequests.PageOf | src/app/features/admin/pages/doctor-requests/doctor-requests.ts:160-163 | The page is the page-index-th run of page-size requests of the sorted list: as many as remain, at most the page size, request k being the sorted request at page index times size plus k; each one is a filtered request |
| DoctorRequests.BlankSearchPagesAll | src/app/features/admin/pages/doctor-requests/doctor-requests.ts:136-163 | With a blank search every paged request is a stored one |
| DoctorRequests.Decide | src/app/features/admin/pages/doctor-requests/doctor-requests.ts:166-177 | Deciding sets the status of the requests with that id and leaves the others |
| DoctorRequests.Accept | src/app/features/admin/pages/doctor-requests/doctor-requests.ts:166-171 | After accepting, a request is approved exactly when it has that id or was approved already, and the message names the request and doctor |
| DoctorRequests.Reject | src/app/features/admin/pages/doctor-requests/doctor-requests.ts:172-177 | After rejecting, a request is rejected exactly when it has that id or was rejected already, and the message names the request and doctor |
| DoctorRequests.Delete | src/app/features/admin/pages/doctor-requests/doctor-requests.ts:178-182 | Deleting keeps exactly the requests with another id, so the list shrinks by the number with that id, and the message names the request |
| DoctorRequests.PageChange | src/app/features/admin/pages/doctor-requests/doctor-requests.ts:184-187 | A page event sets the page index and size and changes nothing else |
| DoctorRequests.SearchNotShown | src/app/features/admin/pages/doctor-requests/doctor-requests.ts:136-158 | As written, typing in the search box alone leaves the list on screen as it was: a request stays listed after a search longer than its whole text, although no request matches it |
| DoctorRequests.DirectionNotShown | src/app/features/admin/pages/doctor-requests/doctor-requests.ts:146-158 | As written, switching the direction alone leaves the order on screen: requests submitted at times 1 and 2 stay latest first after switching to ascending, although ascending order lists the earlier one first |
| DoctorRequests.TwoBySubmitted | src/app/features/admin/pages/doctor-requests/doctor-requests.ts:146-158 | Requests submitted at times 1 and 2 sort latest first in descending order and earliest first in ascending order |
| Departments.DashSpaces | src/app/features/admin/pages/departments/departments.ts:143 | Dashing the white space never lengthens the text, keeps a non-empty text non-empty, and leaves only dashes and characters of the input, none of them white space (how each run is replaced is stated by DashSpacesRun) |
| Departments.TrimAll | src/app/features/admin/pages/departments/departments.ts:143 | Skipping the leading white space of a white-space run followed by a text that starts with a visible character gives that text |
| Departments.DashSpacesRun | src/app/features/admin/pages/departments/departments.ts:143 | A run of one or more white-space characters between a word and the rest becomes exactly one dash: the word is kept, the run becomes "-", and the rest is dashed in turn |
| Departments.DashSpacesFixed | src/app/features/admin/pages/departments/departments.ts:143 | A text without white space is left unchanged |
| Departments.SlugIdempotent | src/app/features/admin/pages/departments/departments.ts:143 | An id has no white space and is its own id, so deriving it again changes nothing |
| Departments.SlugOfOneWord | src/app/features/admin/pages/departments/departments.ts:143 | A one-word name's id is the name lower-cased |
| Departments.AddDepartment | src/app/features/admin/pages/departments/departments.ts:140-153 | An invalid name changes nothing; a name whose id is taken is refused with a message; otherwise a department with that id, name, description and no doctors goes first |
| Departments.AddKeepsIdsUnique | src/app/features/admin/pages/departments/departments.ts:140-153 | Adding a department keeps the department ids unique |
| Departments.SaveDepartment | src/app/features/admin/pages/departments/departments.ts:165-190 | An invalid name changes nothing; a new id already in use is refused with a message; otherwise the departments with the old id get the new id, name and description and the others stay |
| Departments.SaveKeepsIdsUnique | src/app/features/admin/pages/departments/departments.ts:165-190 | Saving a department keeps the department ids unique |
| Departments.Shape | src/app/features/admin/pages/departments/departments.ts:113-122 | A department as shown keeps its id, name and description and lists exactly its doctors matching the search, by name |
| Departments.View | src/app/features/admin/pages/departments/departments.ts:109-131 | The view lists exactly the shaped departments that match the search or still have a matching doctor, ordered by name in the chosen direction |
| Departments.BlankSearchKeepsEvery | src/app/features/admin/pages/departments/departments.ts:109-131 | With a blank search every department is listed with all of its doctors |
| Departments.RemoveDepartment | src/app/features/admin/pages/departments/departments.ts:193-196 | Removing keeps exactly the departments with another id, so none with that id remains, and names the removed department |
| Departments.SetDoctorStatus | src/app/features/admin/pages/departments/departments.ts:198-208 | Activating or deactivating gives the status to that doctor wherever listed, changes nothing else, and names the doctor |
| Departments.SearchNotShown | src/app/features/admin/pages/departments/departments.ts:109-131 | As written, typing in the search box alone leaves the view on screen as it was: a department without doctors stays listed after a search longer than its name and description, although no department matches it |
| Departments.OnlyDepartment | src/app/features/admin/pages/departments/departments.ts:109-131 | A view of a single department that lists it is that department alone |
| Patients.DaysSince | src/app/features/doctor/pages/patients/patients.ts:35-39 | A missing date counts as infinitely long ago; otherwise the count is the whole days elapsed, rounded down |
| Patients.DaysUntil | src/app/features/doctor/pages/patients/patients.ts:40-44 | A missing date counts as infinitely far away; otherwise the count is the whole days remaining, rounded up |
| Patients.SinceUntilOpposite | src/app/features/doctor/pages/patients/patients.ts:35-44 | On an exact number of days the days since and the days until are opposite numbers |
| Patients.Filtered | src/app/features/doctor/pages/patients/patients.ts:102-123 | The list holds exactly the patients matching the search and the tab, in the chosen order (latest visit first for "recent") |
| Patients.ActiveOrDue | src/app/features/doctor/pages/patients/patients.ts:112-113 | Every patient is active, due for follow-up, or both |
| Patients.PillStatus | src/app/features/doctor/pages/patients/patients.ts:143-152 | The new pill agrees with the new tab, the active pill with the active tab except for new patients, the due pill with the follow-up tab, and an inactive patient is always due |
| Payments.Filtered | src/app/features/patient/pages/payments/payments.ts:91-96 | The list holds exactly the invoices with the chosen status, or all for "all", newest first |
| Payments.Group | src/app/features/patient/pages/payments/payments.ts:99-113 | A status group holds exactly the invoices of that status, one entry for each, in the requested order |
| Payments.UnpaidGroup | src/app/features/patient/pages/payments/payments.ts:99-103 | The unpaid group holds exactly the unpaid invoices, oldest first |
| Payments.PaidGroup | src/app/features/patient/pages/payments/payments.ts:104-108 | The paid group holds exactly the paid invoices, newest first |
| Payments.RefundedGroup | src/app/features/patient/pages/payments/payments.ts:109-113 | The refunded group holds exactly the refunded invoices, newest first |
| Payments.UnpaidCount | src/app/features/patient/pages/payments/payments.ts:116 | The header count is the number of unpaid invoices, which is the length of the unpaid group |
| Payments.ModalityIcon | src/app/features/patient/pages/payments/payments.ts:120 | Each modality's icon is one of chat, call and videocam |
| Payments.ModalityIconInjective | src/app/features/patient/pages/payments/payments.ts:120 | No two modalities share an icon |
| Payments.Pay | src/app/features/patient/pages/payments/payments.ts:126-132 | The invoices with that id become paid with the transaction id "pay_" and the token; the others stay |
| Payments.PayNow | src/app/features/patient/pages/payments/payments.ts:123-134 | An invoice that is not unpaid changes nothing and shows no message; an unpaid one pays the invoices with its id and reports success |
| Payments.PayCount | src/app/features/patient/pages/payments/payments.ts:116-132 | Paying reduces the unpaid count by exactly the number of unpaid invoices with that id |
| Payments.PayNowCount | src/app/features/patient/pages/payments/payments.ts:116-134 | After paying an unpaid invoice the header count drops by the number of unpaid invoices with its id |
| Records.GuessTypeByMime | src/app/features/patient/pages/records/records.ts:126-130 | An image MIME type gives imaging, exactly "application/pdf" gives report, and anything else gives other |
| Records.Filtered | src/app/features/patient/pages/records/records.ts:168-182 | The list holds exactly the records of the chosen type whose name, notes or type name contains the trimmed, lower-cased query, newest first |
| Records.BlankQueryListsAll | src/app/features/patient/pages/records/records.ts:168-182 | With every type and a blank query every record is listed |
| Records.TypeNameFinds | src/app/features/patient/pages/records/records.ts:173-179 | Searching for a record's own type name finds it |
| Records.TypeNameIsQuery | src/app/features/patient/pages/records/records.ts:169 | Each type name is unchanged by trimming and lower-casing, so it can be typed as a query as it is |
| Records.SizeKB | src/app/features/patient/pages/records/records.ts:214 | The size in KB is at least 1, and for 512 bytes or more it is the byte count divided by 1024 rounded to the nearest whole number |
| Records.LastIndexOf | src/app/features/patient/pages/records/records.ts:433 | The position found holds the character and no later position does; no position means the character does not occur |
| Records.StripExtension | src/app/features/patient/pages/records/records.ts:433 | The stripped name is a prefix of the name; when something was dropped it was a dot followed by a non-empty run without dots; a name without dots is kept |
| Records.StripExtensionOfName | src/app/features/patient/pages/records/records.ts:433 | The stem of "stem.ext" comes back whatever dots the stem holds |
| Records.OnFile | src/app/features/patient/pages/records/records.ts:428-435 | The chosen file is stored; an empty title is filled with the file name without its extension, and any other title is kept |
| Records.DayStart | src/app/features/patient/pages/records/records.ts:419 | The form's date is midnight UTC of the record's day: at or before the time and less than a day before it |
| Records.InitialForm | src/app/features/patient/pages/records/records.ts:405-422 | An add dialog opens empty with type report; an edit dialog opens with the record's name, type, day and notes and no file |
| Records.Save | src/app/features/patient/pages/records/records.ts:439-450 | An add dialog without a file stays open; otherwise it closes with the form's values |
| Records.AddResultHasFile | src/app/features/patient/pages/records/records.ts:439-450 | What an add dialog hands back always carries a file |
| Records.ThumbFor | src/app/features/patient/pages/records/records.ts:201-207 | An image file's thumbnail is its object URL, a PDF's is its rendered first page, and any other file has none |
| Records.NewRecord | src/app/features/patient/pages/records/records.ts:198-219 | A new record has the given id and URL, the size max(1, round(bytes / 1024)) KB, the trimmed title or else file name, the trimmed notes, the file's MIME type or else "application/octet-stream", the chosen type or else the one guessed from the MIME type, the thumbnail for the file's type, and the dialog's date or else now |
| Records.Add | src/app/features/patient/pages/records/records.ts:186-223 | A dismissed dialog changes nothing; a result without a file shows the warning; otherwise the record built from the result goes in front of the unchanged list and "Record added" is shown |
| Records.Edited | src/app/features/patient/pages/records/records.ts:239-263 | An edited record keeps its id; its title is the trimmed new title or else the old one, its type the chosen one or else the old one, its notes the trimmed new notes, and its date the dialog's or else the old one; without a new file its URL, MIME type, size and thumbnail stay; with one it gets the new URL and size, the file's MIME type or else the old one, and the thumbnail for that type |
| Records.Edit | src/app/features/patient/pages/records/records.ts:232-268 | A dismissed dialog or an unknown id changes nothing; otherwise the first record with that id is replaced by the edited record and every other record and every id stays |
| Records.EditedIdempotent | src/app/features/patient/pages/records/records.ts:239-263 | Writing a record back twice from the same dialog result gives the record of writing it once |
| Records.EditIdempotent | src/app/features/patient/pages/records/records.ts:232-268 | Saving the same dialog result twice leaves the list as saving it once |
| Records.UnchangedEditKeepsDayOnly | src/app/features/patient/pages/records/records.ts:256-263 | Saving the edit dialog unchanged keeps the record's day but moves its time to midnight UTC |
| Records.Delete | src/app/features/patient/pages/records/records.ts:286-291 | Deleting keeps exactly the records with another id, so the list shrinks by the number with that id |
| Records.DeleteUndoesAdd | src/app/features/patient/pages/records/records.ts:186-291 | Deleting a record just added under a fresh id gives the list back |
| Reviews.Filtered | src/app/features/patient/pages/reviews/reviews.ts:70-82 | The list holds exactly the reviews whose doctor name, comment or title contains the trimmed, lower-cased query, newest first |
| Reviews.BlankQueryListsAll | src/app/features/patient/pages/reviews/reviews.ts:70-82 | A blank query lists every review, each as often as it occurs |
| Reviews.StarSum | src/app/features/patient/pages/reviews/reviews.ts:90 | The sum of the ratings lies between one and five stars per review |
| Reviews.RoundDiv | src/app/features/patient/pages/reviews/reviews.ts:92 | Rounding a quotient gives the nearest whole number, halves rounded up |
| Reviews.AvgTenths | src/app/features/patient/pages/reviews/reviews.ts:87-93 | The average is 0 without reviews; otherwise it is the mean rating rounded to one decimal, between 1 and 5 stars |
| Reviews.RoundDivBounds | src/app/features/patient/pages/reviews/reviews.ts:92-96 | A quotient between two whole bounds rounds to a number between them |
| Reviews.RoundedAvg | src/app/features/patient/pages/reviews/reviews.ts:96 | The whole-star average is 0 without reviews and otherwise between 1 and 5 |
| Reviews.SameRatingAverage | src/app/features/patient/pages/reviews/reviews.ts:87-96 | When every review has the same rating, both averages are exactly that rating |
| Reviews.SameRatingSum | src/app/features/patient/pages/reviews/reviews.ts:90 | When every review has the same rating, the sum is that rating times the number of reviews |
| Reviews.BucketIsCount | src/app/features/patient/pages/reviews/reviews.ts:98-102 | A star bucket holds the number of reviews with exactly that many stars |
| Reviews.Dist | src/app/features/patient/pages/reviews/reviews.ts:98-102 | The five buckets, counted in one pass, hold the number of reviews with one to five stars and together every review |
| Reviews.BucketsStep | src/app/features/patient/pages/reviews/reviews.ts:100 | Each loop step adds one to the bucket of the review's rating and leaves the other buckets alone |
| Reviews.BucketSnoc | src/app/features/patient/pages/reviews/reviews.ts:100 | One more review adds one to its own bucket only |
| Reviews.BucketsSumToCount | src/app/features/patient/pages/reviews/reviews.ts:98-102 | The five buckets together count every review once |
| Reviews.DistPercent | src/app/features/patient/pages/reviews/reviews.ts:105-110 | The share is 0 without reviews, always between 0 and 100, the bucket's percentage of all reviews rounded to the nearest whole number, and 100 when every review is in the bucket |
| Reviews.RoundDivExact | src/app/features/patient/pages/reviews/reviews.ts:109 | An exact multiple rounds to its quotient |
| Reviews.OffScaleIsEmpty | src/app/features/patient/pages/reviews/reviews.ts:105-110 | A star count outside one to five has no reviews and a share of 0 |
| Search.MinPrice | src/app/features/patient/pages/search/search.ts:145-146 | The cheapest price is at most each of the three prices and equal to one of them |
| Search.Result | src/app/features/patient/pages/search/search.ts:108-158 | The results are exactly the doctors of the form's country, upper-cased with EG as default, that pass every filter; relevance keeps their order, and the other choices sort by rating (highest first), cheapest price or soonest availability |
| Search.PriceFilterIsCheapest | src/app/features/patient/pages/search/search.ts:133-139 | Without a modality, a non-zero price cap keeps exactly the doctors whose cheapest consultation is within it |
| Search.ClearFilters | src/app/features/patient/pages/search/search.ts:165 | Clearing keeps the query, sets the country to EG and turns every other filter off |
| Search.ClearedFormKeepsQueryOnly | src/app/features/patient/pages/search/search.ts:165 | For the cleared form, a doctor is among the results exactly when it is an Egyptian doctor matching the query |
| Search.RemoveSpaces | src/app/features/patient/pages/search/search.ts:169 | Removing white space never lengthens the text and leaves only the text's own non-space characters |
| Search.RemoveSpacesKeeps | src/app/features/patient/pages/search/search.ts:169 | A text without white space is left as it is |
| Search.DeptSlug | src/app/features/patient/pages/search/search.ts:169 | A slug has no white space and no upper-case letter, and a missing or empty department gives "general" |
| Search.GeneralIsSlug | src/app/features/patient/pages/search/search.ts:169 | "general" is its own slug |
| Search.DeptSlugIdempotent | src/app/features/patient/pages/search/search.ts:169 | A non-empty slug is its own slug |
| Search.DeptAccent | src/app/features/patient/pages/search/search.ts:53-63 | A known slug takes its colour from the table and any other slug the default colour (the inherited object keys are listed under Left out) |
| Search.MissingDeptIsGeneral | src/app/features/patient/pages/search/search.ts:169-170 | A missing or empty department takes the general colour |
| Search.SpacedNameSharesAccent | src/app/features/patient/pages/search/search.ts:169-170 | White space around a department name does not change its colour |
| Search.SpacedNameSharesSlug | src/app/features/patient/pages/search/search.ts:169 | White space around a department name does not change its slug |
| Search.RemoveSpacesAppend | src/app/features/patient/pages/search/search.ts:169 | Removing white space distributes over concatenation |
| Search.RemoveSpacesDrops | src/app/features/patient/pages/search/search.ts:169 | A text made only of white space disappears |
| Search.FormChangeNotShown | src/app/features/patient/pages/search/search.ts:107-158 | As written, a change of the form alone leaves the list on screen as it was: an Egyptian doctor stays listed after the country is switched to US, although the results for that form are empty |
| Search.InitialPasses | src/app/features/patient/pages/search/search.ts:96-105 | The form the page starts with lets every Egyptian doctor through |
| Chat.InitialId | src/app/features/patient/pages/chat/chat.ts:49-51 | The route's thread id wins, then the short parameter, then t-1; an empty parameter counts as missing |
| Chat.ActiveThread | src/app/features/patient/pages/chat/chat.ts:54-56 | The active thread is a listed thread: one with the selected id when there is one, otherwise the first thread |
| Chat.FilteredThreads | src/app/features/patient/pages/chat/chat.ts:58-64 | A blank search lists every thread; otherwise exactly the threads whose lower-cased name or speciality contains the trimmed, lower-cased query |
| Chat.StampedAt | src/app/features/patient/pages/chat/chat.ts:92-97 | Each message keeps its place and fields; the first is stamped, and a later one exactly when more than 20 minutes passed since its predecessor |
| Chat.StampedAppend | src/app/features/patient/pages/chat/chat.ts:92-97 | Appending a message keeps every earlier stamp; the new one depends only on its gap to the message before it |
| Chat.CloseMessagesShareStamp | src/app/features/patient/pages/chat/chat.ts:96 | In a conversation with no gap above 20 minutes, only the first message is stamped |
| Chat.Messages | src/app/features/patient/pages/chat/chat.ts:84-98 | The shown messages are the searched messages of the active thread, in order, each stamped against the message shown before it |
| Chat.BlankSearchShowsAll | src/app/features/patient/pages/chat/chat.ts:88-90 | A blank message search shows every stored message of the active thread |
| Chat.Select | src/app/features/patient/pages/chat/chat.ts:103-106 | Selecting a thread selects its id and zeroes the unread count of the threads with that id only; the messages and draft are unchanged |
| Chat.SelectActivates | src/app/features/patient/pages/chat/chat.ts:103-106 | After selecting a listed thread it is the active thread and has no unread messages |
| Chat.LoadEarlier | src/app/features/patient/pages/chat/chat.ts:108-115 | The earlier message is put in front of the active thread's messages; every other thread's messages are unchanged |
| Chat.Send | src/app/features/patient/pages/chat/chat.ts:121-132 | A blank draft changes nothing; otherwise the trimmed draft is appended to the active thread as my unseen message and the draft is cleared, no other thread changing |
| Chat.SentMessageShowsLast | src/app/features/patient/pages/chat/chat.ts:84-132 | Without a message search, a sent message appears after all earlier ones, stamped exactly when the thread was empty or the last message is more than 20 minutes older |
| Inbox.ActiveThread | src/app/features/doctor/pages/inbox/inbox.ts:55 | The active thread, when there is one, is a listed thread with the active id; there is none exactly when no thread has that id |
| Inbox.Messages | src/app/features/doctor/pages/inbox/inbox.ts:56-60 | A message is shown exactly when it belongs to the active thread and the search is empty or its lower-cased text contains the lower-cased search |
| Inbox.FilteredThreads | src/app/features/doctor/pages/inbox/inbox.ts:62-67 | A thread is listed exactly when the trimmed, lower-cased search is empty or occurs in its lower-cased name or speciality; a blank search lists every thread in order |
| Inbox.Select | src/app/features/doctor/pages/inbox/inbox.ts:69-71 | Selecting changes the active id and nothing else |
| Inbox.SelectActivates | src/app/features/doctor/pages/inbox/inbox.ts:55-71 | After selecting a listed thread, the active thread exists and has that thread's id |
| Inbox.Send | src/app/features/doctor/pages/inbox/inbox.ts:72-80 | A blank draft changes nothing; otherwise one unseen message of mine with the trimmed text, in the active thread, is appended and the draft is cleared, nothing else changing |
| Inbox.SentMessageShowsLast | src/app/features/doctor/pages/inbox/inbox.ts:56-80 | A sent message the search lets through is shown after exactly the messages shown before |
| Otp.MatchIffShape | src/app/features/auth/otp/otp.ts:11 | The phone pattern matches exactly a plus sign followed by at least four digits |
| Otp.Groups | src/app/features/auth/otp/otp.ts:11 | The chosen groups are a match, and the one a backtracking matcher picks: the longest dial code, then the longest middle |
| Otp.Stars | src/app/features/auth/otp/otp.ts:13 | The run of stars has the requested length and holds only stars |
| Otp.MaskPhone | src/app/features/auth/otp/otp.ts:10-15 | An unmatched number is shown unchanged; a matched one as its dial code, a space, at least three stars for the middle, and its last digits |
| Otp.LastTwoDigitsShown | src/app/features/auth/otp/otp.ts:10-15 | Of a matched number exactly the last two digits stay in clear, and the masked text ends with them |
| Otp.MaskIdempotent | src/app/features/auth/otp/otp.ts:10-15 | Masking a masked number changes nothing |
| Otp.Open | src/app/features/auth/otp/otp.ts:32-56 | Opening takes the phone and e-mail from the navigation state, else the session, else empty, and leaves session storage as it was; without an e-mail it redirects to sign-up and runs no timer; otherwise the 30-second cooldown runs |
| Otp.Tick | src/app/features/auth/otp/otp.ts:108-113 | A tick of a running interval takes one second off, never below zero, and stops the interval at zero; a stopped interval changes nothing |
| Otp.CountsDown | src/app/features/auth/otp/otp.ts:106-113 | After n ticks the cooldown shows max(0, start - n) seconds and runs exactly while time is left |
| Otp.StoppedStays | src/app/features/auth/otp/otp.ts:106-113 | Ticks of a stopped interval change nothing |
| Otp.Restart | src/app/features/auth/otp/otp.ts:100-104 | A restart puts the full 30 seconds back and runs the interval |
| Otp.Resend | src/app/features/auth/otp/otp.ts:62-69 | While the cooldown runs a resend changes nothing; afterwards it shows the information message and restarts the cooldown |
| Otp.Submit | src/app/features/auth/otp/otp.ts:42-83 | A verification is requested exactly for a six-digit code, with the page's e-mail; an invalid code changes nothing |
| Otp.OnVerify | src/app/features/auth/otp/otp.ts:84-127 | Success removes both pending-contact keys from session storage and goes to login with the e-mail; a failure keeps storage, shows its message and restarts the cooldown exactly when the message mentions an expired code |
| Otp.StepsKeepCooldown | src/app/features/auth/otp/otp.ts:62-113 | Every step of the page keeps the seconds within 0..30 and the interval running only while time is left |
| HttpErrors.ErrorMessage | src/app/features/auth/services/auth.service.ts:138-152 | A non-empty string body is shown verbatim; an object body's error field, else its message field, else the fallback; a falsy body gives the transport message when there is one; the result is always one of these texts |
| HttpErrors.BodyTakesPrecedence | src/app/features/auth/services/auth.service.ts:141-149 | When the server sent a truthy body, the transport message is never shown unless the body holds it too |
| HttpErrors.NonEmptyMessage | src/app/features/auth/services/auth.service.ts:138-152 | With a non-empty fallback the message is empty only when the server supplied an empty error (or message) field |
| Auth.HandleError | src/app/features/auth/services/auth.service.ts:138-152 | The service's message uses the shared rule with the default text "Something went wrong. Please try again."; a truthy number or boolean body gives that default |
| Auth.Rethrow | src/app/features/auth/services/auth.service.ts:55-80 | A piped request succeeds exactly when the request did, with the same value; a failure carries the service's message |
| Auth.SecondSegment | src/app/features/auth/services/auth.service.ts:123 | The token has a second segment exactly when it contains a dot, and that segment holds no dot |
| Auth.SplitHasTwoParts | src/app/features/auth/services/auth.service.ts:123 | Splitting at dots gives at least two parts exactly when the text contains a dot |
| Auth.SecondSegmentPlace | src/app/features/auth/services/auth.service.ts:123 | The second segment is the text from just after the first dot up to the next dot or the end of the token |
| Auth.Normalise | src/app/features/auth/services/auth.service.ts:128 | The normalised segment has the same length, with every dash turned into a plus and every underscore into a slash, and holds neither |
| Auth.UrlSafe | src/app/features/auth/services/auth.service.ts:128 | The url-safe text maps every plus to a dash and every slash to an underscore, position by position |
| Auth.NormaliseRoundTrip | src/app/features/auth/services/auth.service.ts:128 | Normalising undoes the url-safe encoding of standard base64 text and is undone by it on base64url text |
| Auth.ExtractRole | src/app/features/auth/services/auth.service.ts:117-136 | No role outside a browser or when the second segment is missing or empty; otherwise the role decoded from the normalised second segment, a failed decoding giving none |
| Auth.GetToken | src/app/features/auth/services/auth.service.ts:84-90 | Outside a browser there is no token; in one it is the stored token |
| Auth.SetToken | src/app/features/auth/services/auth.service.ts:109-115 | In a browser the token is stored; outside one nothing changes |
| Auth.ClearToken | src/app/features/auth/services/auth.service.ts:101-107 | In a browser the stored token is removed; outside one nothing changes |
| Auth.CurrentRole | src/app/features/auth/services/auth.service.ts:92-99 | No role outside a browser or without a non-empty stored token; otherwise the role extracted from the stored token |
| Auth.Login | src/app/features/auth/services/auth.service.ts:67-82 | A failed request reports the service's message and stores nothing; a response keeps its message and token, and one with a token stores it and carries its role, while one without a token stores nothing and has no role |
| Auth.LoginThenCurrentRole | src/app/features/auth/services/auth.service.ts:67-99 | After a login that returned a token in a browser, the stored token and the current role are those the login reported |
| Auth.NoBrowserNoSession | src/app/features/auth/services/auth.service.ts:67-99 | Outside a browser a login stores nothing and reports no role, and no current role is read |
| Auth.ClearForgetsRole | src/app/features/auth/services/auth.service.ts:92-107 | After clearing the token there is no current role |
| Login.Submit | src/app/features/auth/login/login.ts:63-80 | A request is sent exactly for a valid form: a well-formed e-mail and a password of at least six characters; it carries the trimmed, lower-cased e-mail and the password as typed, starts loading and clears the error; an invalid form changes nothing |
| Login.SpacingAndCaseDoNotMatter | src/app/features/auth/login/login.ts:74-77 | Addresses that differ only in surrounding space and ASCII case send the same request |
| Login.RouteForRole | src/app/features/auth/login/login.ts:104-113 | ADMIN goes to /admin, DOCTOR to /doctor, and any other role or none to /patient |
| Login.AfterLogin | src/app/features/auth/login/login.ts:83-95 | The page navigates once, last, to the role's route; before that it refreshes the profile exactly for a doctor when the profile service is present |
| Login.RefreshOutcomeIrrelevant | src/app/features/auth/login/login.ts:88-91 | Whether the profile refresh succeeds or fails, the doctor lands on the same page |
| Login.OnLogin | src/app/features/auth/login/login.ts:82-101 | The answer stops loading; a failure shows its message and navigates nowhere; a success leads on to the role's navigation |
| Login.DoctorTokenLandsOnDoctorPages | src/app/features/auth/login/login.ts:82-113 | A token whose payload names the DOCTOR role leads, through the service's login, to a profile refresh and then the doctor's pages |
| Signup.FlagEmoji | src/app/features/auth/signup/signup.ts:16-18 | The flag has as many characters as the code, and each ASCII letter becomes the regional indicator symbol of its upper-case form |
| Signup.FlagRoundTrip | src/app/features/auth/signup/signup.ts:16-18 | Reading the flag's symbols back as letters gives the upper-cased code |
| Signup.FlagsDistinguishCodes | src/app/features/auth/signup/signup.ts:16-18 | Different upper-case codes give different flags |
| Signup.FlagIgnoresCase | src/app/features/auth/signup/signup.ts:16-18 | A code's case does not change its flag |
| Signup.ByName | src/app/features/auth/signup/signup.ts:115-131 | The lookup finds a listed country with exactly that name, and finds none exactly when no country has the name |
| Signup.DefaultIsEgypt | src/app/features/auth/signup/signup.ts:98-106 | The first country with code EG is Egypt with dial code +20, so the form starts on Egypt and +20 |
| Signup.OnCountryChange | src/app/features/auth/signup/signup.ts:118-123 | A known country name selects its dial code; an unknown one leaves the selected dial code unchanged |
| Signup.Submit | src/app/features/auth/signup/signup.ts:100-149 | Nothing is sent exactly when a validator fails; a valid form with an unknown country shows the country message; otherwise the payload has the trimmed name, the trimmed lower-cased e-mail, the password, gender and birth date as given, the country's name, and the dial code joined to the trimmed local number |
| Signup.PhoneIsDialAndDigits | src/app/features/auth/signup/signup.ts:107-137 | The submitted phone is the dial code followed by the local digits exactly as typed |
| Signup.SignupPhoneMasked | src/app/features/auth/signup/signup.ts:137-162 | The number handed to the one-time-password page has the shape its mask expects: the plus sign and first four digits shown, the last two local digits shown |
| AdminService.HandleError | src/app/features/admin/services/admin.service.ts:38-53 | The admin service's message uses the shared rule with its own default, "Unable to create doctor credentials. Please try again." |
| AdminService.RegisterDoctor | src/app/features/admin/services/admin.service.ts:25-36 | No request goes out exactly when there is no non-empty token, and then the session-expired message comes back; otherwise one request carries the payload and "Bearer" plus the token, and the server's message or its mapped failure comes back |
| AdminService.NoSessionNoRequest | src/app/features/admin/services/admin.service.ts:25-29 | After logging out, or outside a browser, registering a doctor sends nothing and reports the expired session |
| AdminService.ServerErrorsAreNotSessionErrors | src/app/features/admin/services/admin.service.ts:25-53 | With a session, a server failure shows the session-expired message only when the server itself sent that text |
| AdminSettings.SaveProfile | src/app/features/admin/pages/settings/settings.ts:51-72 | The profile is saved exactly when the full name has at least three characters, counted as typed, white space included |
| AdminSettings.NewPasswordRule | src/app/features/admin/pages/settings/settings.ts:78-86 | The new password's three validators accept exactly the passwords of eight or more characters, with no line break, holding an ASCII letter and a digit |
| AdminSettings.PasswordMismatch | src/app/features/admin/pages/settings/settings.ts:117-123 | There is no mismatch while either field is empty; otherwise a mismatch exactly when the two differ |
| AdminSettings.ValidFormConfirms | src/app/features/admin/pages/settings/settings.ts:75-123 | A valid change-password form has a confirmation equal to the new password, and that password is strong |
| AdminSettings.ChangePassword | src/app/features/admin/pages/settings/settings.ts:92-100 | An invalid form is left as it is; a valid one is reset to three empty fields; the result is never a valid form |
| AdminSettings.ChangeTwice | src/app/features/admin/pages/settings/settings.ts:92-100 | Changing the password twice in a row has the effect of changing it once |
| Paging.Slice | src/app/features/admin/pages/doctor-requests/doctor-requests.ts:160-163 | A slice holds the list's items from the start position on, in order, as many as fit below the end and the list's length |
| Paging.Page | src/app/features/admin/pages/doctor-requests/doctor-requests.ts:160-163 | A page holds the page size of rows when the list has that many past its start, what remains before the end otherwise, and none past the end; item k is the list's row at page index times size plus k |
| Paging.PageMembers | src/app/features/admin/pages/doctor-requests/doctor-requests.ts:160-163 | A page holds only rows of the list |
| Paging.RowOnItsPage | src/app/features/admin/pages/doctor-requests/doctor-requests.ts:160-163 | Row p is item p mod size of page p div size, so every row is on a page |
| Paging.FullPagesBeforeEnd | src/app/features/admin/pages/doctor-requests/doctor-requests.ts:160-163 | A page that ends within the list is full |
| Paging.RangeLabel | src/app/features/admin/pages/users/users.ts:67-73 | An empty list gives "No results"; otherwise the label starts with "Showing " |
| Sorting.SortBy | src/app/features/admin/pages/users/users.ts:80-93 | The sorted rows are a permutation of the rows, ordered by the column's key ascending or, for a descending sort, descending |
| Sorting.SortIdempotent | src/app/features/admin/pages/users/users.ts:80-93 | Sorting sorted rows again by the same key and direction changes nothing |
| Sorting.SortSortedIsIdentity | src/app/features/admin/pages/users/users.ts:80-93 | Rows already in order are left as they are |
| Sorting.StringKeyInjective | src/app/features/admin/pages/users/users.ts:83 | Different texts have different sort keys, so text keys compare by code point |
| TableSource.FilteredData | src/app/features/admin/pages/users/users.ts:96-108 | An empty filter keeps every row; otherwise a row is kept exactly when the search predicate accepts it for the filter text |
| TableSource.EmptyFilterShortcut | src/app/features/admin/pages/users/users.ts:96-104 | When every row accepts the empty term, skipping the predicate for an empty filter keeps the same rows as running it |
| TableSource.SortData | src/app/features/admin/pages/users/users.ts:80-93 | Without an active column or direction the rows stay as they are; otherwise they are a permutation of the rows ordered by that column's key in that direction |
| TableSource.Ordered | src/app/features/admin/pages/users/users.ts:61-108 | The rows the paginator pages through are a permutation of the filtered rows |
| TableSource.Rendered | src/app/features/admin/pages/users/users.ts:40-77 | The rows on screen are at most ten, every one of them a row of the table that passes a non-empty filter |
| TableSource.FooterLabel | src/app/features/admin/pages/users/users.ts:67-73 | What the label's derivation gives when it runs: empty without a paginator, otherwise the range label of the current page over the filtered rows |
| TableSource.LabelMatchesPage | src/app/features/admin/pages/users/users.ts:67-73 | On a page that holds rows, the label names the positions of the first and last row shown and the number of filtered rows |
| TableSource.TableLabelMatchesRows | src/app/features/admin/pages/users/users.ts:67-73 | The label the derivation gives with a paginator names the positions of the first and last rendered row and the number of filtered rows; the page shows it only if the label runs again |
| TableSource.OnSearch | src/app/features/admin/pages/users/users.ts:105-108 | A search sets the filter to the trimmed, lower-cased text (empty when missing) and goes back to the first page, nothing else changing; the stored filter is trimmed and has no upper-case ASCII letter |
| TableSource.SearchShowsFirstPage | src/app/features/admin/pages/users/users.ts:105-108 | After a search the first row on screen is the first filtered and sorted row, whenever any row passes |
| TableSource.SearchIsStable | src/app/features/admin/pages/users/users.ts:105-108 | Typing the stored filter text again changes nothing |
| TableSource.DefaultSort | src/app/features/admin/pages/users/users.ts:89-93 | The default sort makes the given column active in descending order and changes nothing else |
| TableSource.LabelStaysEmpty | src/app/features/admin/pages/users/users.ts:66-73 | As written, the label reads no signal, so the empty label of the first render, before the paginator exists, stays on screen whatever the table later holds, although the label of the table with its paginator is never empty |
| Users.StatusText | src/app/features/admin/pages/users/users.ts:102 | The status text is "active" or "banned" |
| Users.BlankTermMatchesAll | src/app/features/admin/pages/users/users.ts:96-104 | A blank term matches every user |
| Users.FilterTextAgrees | src/app/features/admin/pages/users/users.ts:97-106 | The stored filter selects the same users as the text typed into the search box |
| Users.NameKeyIgnoresCase | src/app/features/admin/pages/users/users.ts:83 | Names that differ only in ASCII case sort alike |
| Users.InvalidDateSortsAsEpoch | src/app/features/admin/pages/users/users.ts:84 | A user with an unreadable joined date sorts as if joined at time zero: before later dates ascending, after them descending |
| Users.Initial | src/app/features/admin/pages/users/users.ts:75-93 | After the view starts, the table holds all rows, unfiltered, on the first page, sorted by joined date newest first |
| Users.Rendered | src/app/features/admin/pages/users/users.ts:40-104 | At most ten users are on screen, every one of them a listed user that matches the filter |
| Users.Ban | src/app/features/admin/pages/users/users.ts:112 | Banning sets that user's status to banned and changes no other field and no other user |
| Users.Unban | src/app/features/admin/pages/users/users.ts:113 | Unbanning sets that user's status to active and changes no other field and no other user |
| Users.BanUnbanRoundTrip | src/app/features/admin/pages/users/users.ts:112-113 | Unbanning undoes banning an active user, banning undoes unbanning a banned one, and each action is idempotent |
| Users.BanCount | src/app/features/admin/pages/users/users.ts:112 | Banning an active user raises the number of banned users by exactly one |
| Users.BannedWordFindsBanned | src/app/features/admin/pages/users/users.ts:96-104 | Searching for "banned" finds every banned user |
| Transactions.TypeText | src/app/features/admin/pages/transactions/transactions.ts:15 | A session's type text is voice, audio or video |
| Transactions.BlankTermMatchesAll | src/app/features/admin/pages/transactions/transactions.ts:98-107 | A blank term matches every session |
| Transactions.OwnFieldFindsRow | src/app/features/admin/pages/transactions/transactions.ts:98-107 | Typing any of a session's own id, patient, doctor, department or type text finds it |
| Transactions.NameKeysIgnoreCase | src/app/features/admin/pages/transactions/transactions.ts:81-83 | The patient, doctor and department columns sort without regard to ASCII case |
| Transactions.Initial | src/app/features/admin/pages/transactions/transactions.ts:73-95 | After the view starts, the table holds all sessions, unfiltered, on the first page, sorted by date newest first |
| Transactions.InitialShowsNewest | src/app/features/admin/pages/transactions/transactions.ts:85-95 | Before any search the first session on screen has the latest date of all, an unreadable date counting as zero |
| Transactions.Rendered | src/app/features/admin/pages/transactions/transactions.ts:41-107 | At most ten sessions are on screen, every one of them a listed session that matches the filter |
| Help.Digits | src/app/features/admin/pages/help/help.ts:56-58 | The result holds only digits, is no longer than the input, and is the input itself when that is all digits |
| Help.OnlyDigits | src/app/features/admin/pages/help/help.ts:56-58 | A missing or empty value gives the empty text; otherwise the value's digits |
| Help.DigitsAppend | src/app/features/admin/pages/help/help.ts:56-58 | Removing non-digits from joined texts is removing them from each part and joining |
| Help.DigitsKeepsEveryDigit | src/app/features/admin/pages/help/help.ts:56-58 | Every digit of the input is kept as often as it occurs and no other character is |
| Help.OnlyDigitsIdempotent | src/app/features/admin/pages/help/help.ts:56-58 | Cleaning a cleaned number changes nothing |
| Help.TelLink | src/app/features/admin/pages/help/help.ts:23-26 | The call link is "tel:" followed by the number's digits |
| Help.WhatsAppLink | src/app/features/admin/pages/help/help.ts:28-32 | The WhatsApp link starts with the wa.me address |
| Help.WhatsAppRoundTrip | src/app/features/admin/pages/help/help.ts:28-32 | The number read back from a WhatsApp link is exactly the digits of the number it was built from |
| Help.LinksIdentifyDigits | src/app/features/admin/pages/help/help.ts:23-32 | Two numbers get the same call link, and the same WhatsApp link, exactly when they have the same digits |
| AddDoctor.AlphabetFacts | src/app/features/admin/pages/add-doctor/add-doctor.ts:57 | The generator's alphabet has 57 characters, each an ASCII letter or digit other than I, O, l, 0 and 1 |
| AddDoctor.GeneratePassword | src/app/features/admin/pages/add-doctor/add-doctor.ts:56-60 | The password has ten characters, character i being the alphabet's character at random byte i mod 57, so every one is unambiguous |
| AddDoctor.EveryCharacterReachable | src/app/features/admin/pages/add-doctor/add-doctor.ts:58-59 | Every alphabet character can be produced: a byte of value k gives character k |
| AddDoctor.GeneratedPasswordAccepted | src/app/features/admin/pages/add-doctor/add-doctor.ts:46-63 | After generating, the form is valid exactly when its e-mail, phone and department are: the generated password always passes the required and six-character rules |
| AddDoctor.Submit | src/app/features/admin/pages/add-doctor/add-doctor.ts:47-83 | Nothing is sent exactly when a validator fails; a valid form with an unknown department shows the department message; otherwise the payload carries the e-mail, phone and password as typed and the name of the first department with the chosen id |
| AddDoctor.OnGenerate | src/app/features/admin/pages/add-doctor/add-doctor.ts:56-64 | Generating fills the password field with the generated password and shows it, leaving the other fields and the error alone |
| AddDoctor.OnAnswer | src/app/features/admin/pages/add-doctor/add-doctor.ts:88-104 | The answer stops loading; a success reports the server's message or "Doctor credentials created" and resets the form to empty fields with the first department and the password hidden; a failure shows its message and keeps the form |
| AddDoctor.NoSessionShowsExpiry | src/app/features/admin/pages/add-doctor/add-doctor.ts:88-104 | Submitting a valid form without a session shows the session-expired message and sends nothing |
| AddDoctor.ResetFormIsInvalid | src/app/features/admin/pages/add-doctor/add-doctor.ts:92-97 | After a successful creation the reset form is not valid until it is filled in again |

## Left out

- Templates, dialogs, snack bars, animations, layouts and the static dashboards: they only render.
- Routing and configuration files: framework wiring. The router's navigations appear only as effect values (`Login.Effect`, `Otp.Effect`) or as the guard's redirect.
- HTTP requests, bearer headers, `localStorage`, `sessionStorage` and `history.state`: these are inputs and fields of the state. The server's answers are parameters.
- `window.open`, `location`, `mailto:` links, `Blob` downloads, object URLs and the clipboard (the help page's `copy`, the records page's download): browser I/O.
- pdf.js loading and the canvas thumbnails of the records page: foreign-library I/O.
- Date parsing and locale formatting (`toLocaleString`, `toDateString`, week labels, the search page's availability labels): a parsed date is a parameter, and times are integer milliseconds.
- `uid()` and `crypto.getRandomValues`: new ids and random bytes are parameters.
- `atob` and `JSON.parse` of the token payload: decoding is a parameter. Only the segment split and the base64url character mapping are modelled.
- Angular's e-mail validator: its verdict is a parameter of each form's validity.
- Timers (`setInterval`, `setTimeout`): the OTP interval is an explicit `Otp.Tick`. The delayed default sorts are applied directly by `Users.Initial` and `Transactions.Initial`. The chat's delayed flip of `seen` is not modelled.
- The mock data generators and seed lists are fixtures. The signup country table is written out, but its well-formedness is not proved.
- JavaScript strings are sequences of UTF-16 code units. The model uses Dafny characters, ASCII-only case mapping, and code-point order wherever the source calls `localeCompare`; locale collation is not modelled.
- Floating point: averages, percentages and `Math.round` are computed exactly on integers and rationals, rounding halves up as `Math.round` does. Search ratings are held in tenths of a star, so a rating or minimum with more than one decimal is not modelled. Prices and years of experience are whole numbers (`Option<int>`), so a fractional price or a fractional number of years such as 0.5, which passes the source's `> 0` test and so counts towards unlocking the profile, is not modelled; the positive-price and positive-years tests of the lock and of the profile editor are stated on integers.
- Search.DeptAccent: the colour table is a plain object literal, so `deptColors[slug]` also finds the keys it inherits from `Object.prototype`; for the slugs "constructor" and "__proto__" the source yields that inherited function or object instead of the default `#2a76b7`. The model has no prototype chain and gives the default colour for them.
- SlotTime.ToMinutes: `Number` is modelled for an optional `+` or `-` followed by decimal digits, with surrounding white space ignored and an empty part read as 0. Decimals, exponents, hexadecimal, `Infinity` and digit separators are read as NaN by the model, whereas JavaScript reads them as numbers.
- SlotTime.WholeDaysDoNotMove: stated only for a start that does not read as negative. JavaScript's `%` keeps the sign of a negative total, so `-1:00` plus a whole day renders differently from `-1:00` itself.
- MatTableDataSource and MatPaginator internals beyond the filter, sort, page and label the pages configure: the paginator's clamping of the page index when the filtered length shrinks is not modelled.
- `Users` and `Transactions`: the `refresh()` copy of the data array is not modelled because it changes no row. The transactions page's `view()` only logs.
- Template helpers that only pick a CSS class, colour or icon name (`statusClass`, `tagColor`, `tagClass`, `icon`, `pillClass`) and the navigation-only actions (`seeAllReviews`, `openChart` and the like) are not modelled. The exception is `Payments.ModalityIcon`, whose mapping is stated.
- The help page's hotline, WhatsApp and e-mail literals are not modelled; the links are modelled for any number.
- Sorting.SortBy: stability is not stated. The contract gives order and permutation; that equal keys keep their input order is not proved.
- Help.WhatsAppLink: the contract states only the prefix. The greeting is the fixed, already encoded text `GreetingQuery`, and the number part is pinned by `Help.WhatsAppRoundTrip`.
- Chat.ActiveThread: requires a non-empty thread list. The page's list is a non-empty literal, and on an empty list the source would read `threads()[0]` as undefined.
- AdminNotifications.MarkRead, AdminNotifications.MarkUnread, DoctorRequests.Accept, DoctorRequests.Reject and Departments.SetDoctorStatus: these update every row with the given id, whereas the source mutates the one object it is handed. The two agree while ids are unique, which the pages' data keeps.
- Booking.Confirm: the outcome `NoSlot` stands for the source's non-null assertion on the selected slot failing. That is a runtime error in the source, not a handled case.

## Findings

Several derived lists are Angular `computed()`s that read form controls through `.value`, or read a view child. Neither is a signal. So a change there alone does not make the derivation run again, and the page keeps showing what it showed before. The model states both sides. The `Computed` module gives when a derivation runs. Each "as written" lemma exhibits a stale screen. The pages' own functions are the evidently intended results, and the rest of the model uses them.

| source | as written | input that shows it | evidently intended | confidence | as-written member | corrected member |
|---|---|---|---|---|---|---|
| src/app/features/admin/pages/users/users.ts:66-73 | `rangeLabel` reads no signal, so it runs only once; the transactions table declares the same label | the footer's first render, before `ngAfterViewInit` sets the paginator, and any later filter or page | the footer names the range of the current page over the filtered rows | not executed | TableSource.LabelStaysEmpty | TableSource.FooterLabel |
| src/app/features/patient/pages/search/search.ts:107-158 | `result` reads the filters through `form.value`; only the doctor list and the sort are signals, so typing in a filter or `clearFilters()` leaves the list as it was | one Egyptian doctor, with the country switched from EG to US | the list shows the doctors that pass the current filters | not executed | Search.FormChangeNotShown | Search.Result |
| src/app/features/admin/pages/notifications/notifications.ts:75-86 | `filtered` reads the search box through `search.value`; only the rows and the chip are signals | one row the chip keeps, with a search longer than its title, message and type together | the list shows the rows matching the current search | not executed | AdminNotifications.SearchNotShown | AdminNotifications.Filtered |
| src/app/features/admin/pages/doctor-requests/doctor-requests.ts:136-144 | `filtered` reads the search box through `search.value`; only the rows are a signal | one request, with a search longer than its whole text | the list shows the requests matching the current search | not executed | DoctorRequests.SearchNotShown | DoctorRequests.Filtered |
| src/app/features/admin/pages/doctor-requests/doctor-requests.ts:146-158 | `sorted` reads the sort field and direction through `.value` | requests submitted at times 1 and 2, with the direction switched from descending to ascending | the list is ordered by the current field and direction | not executed | DoctorRequests.DirectionNotShown | DoctorRequests.Sorted |
| src/app/features/admin/pages/departments/departments.ts:109-131 | `departments` reads the search box and the sort control through `.value`; only the data is a signal | one department without doctors, with a search longer than its name and description | the view shows the departments matching the current search, in the current direction | not executed | Departments.SearchNotShown | Departments.View |

=== FILE: adddoctor.dfy ===
/** The admin's add-doctor page: the temporary-password generator, the
    form's rules, the department lookup and the payload, and the page after
    the service answers. The random bytes, the e-mail validator's verdict
    and the service's answer are parameters. */
module AddDoctor {
  import opened Wrappers
  import opened JsText
  import opened Seqs
  import AdminService
  import Auth
  import HttpErrors

  /** A value of a `Uint8Array`. */
  type Byte = n: int | 0 <= n < 256

  /** The generator's alphabet: the letters and digits without `I`, `O`,
      `l`, `0` and `1`, which are easily confused. It is the source's one
      57-character literal, written here as its upper-case letters, its
      lower-case letters and its digits. */
  const Alphabet: string := UpperPart + LowerPart + DigitPart

  const UpperPart: string := "ABCDEFGHJKLMNPQRSTUVWXYZ"
  const LowerPart: string := "abcdefghijkmnopqrstuvwxyz"
  const DigitPart: string := "23456789"

  predicate Confusable(c: char) {
    c == 'I' || c == 'O' || c == 'l' || c == '0' || c == '1'
  }

  /** A character the generator may produce: a letter or digit that cannot
      be confused with another. */
  predicate Unambiguous(c: char) {
    !Confusable(c) && ('A' <= c <= 'Z' || 'a' <= c <= 'z' || IsDigit(c))
  }

  lemma UpperPartFacts() ensures forall i :: 0 <= i < |UpperPart| ==> Unambiguous(UpperPart[i]) {}
  lemma LowerPartFacts() ensures forall i :: 0 <= i < |LowerPart| ==> Unambiguous(LowerPart[i]) {}
  lemma DigitPartFacts() ensures forall i :: 0 <= i < |DigitPart| ==> Unambiguous(DigitPart[i]) {}

  /** The alphabet has 57 characters, every one of them an unambiguous
      letter or digit. */
  lemma AlphabetFacts()
    ensures |Alphabet| == 57
    ensures forall i :: 0 <= i < |Alphabet| ==> Unambiguous(Alphabet[i])
  {
    UpperPartFacts();
    LowerPartFacts();
    DigitPartFacts();
  }

  /** `generatePassword()`: ten random bytes, each mapped to the alphabet
      character at its value modulo the alphabet's length. */
  function GeneratePassword(random: seq<Byte>): (pw: string)
    requires |random| == 10
    ensures |pw| == 10
    ensures forall i :: 0 <= i < 10 ==> pw[i] == Alphabet[random[i] % 57]
    ensures forall i :: 0 <= i < 10 ==> pw[i] in Alphabet && Unambiguous(pw[i])
  {
    AlphabetFacts();
    seq(10, i requires 0 <= i < 10 => Alphabet[random[i] % 57])
  }

  /** Every alphabet character can come up: byte k gives character k. */
  lemma EveryCharacterReachable(k: nat)
    requires k < 57
    ensures var random := seq(10, _ => k as Byte); GeneratePassword(random)[0] == Alphabet[k]
  {
    var random := seq(10, _ => k as Byte);
    assert random[0] % 57 == k;
  }

  /** The phone pattern `^\+?\d[\d\s-]{6,}$`: an optional plus sign, a
      digit, then six or more digits, white space characters or dashes. The
      optional sign is tried first and a second digit-led reading cannot
      start with `+`, so the reading is unique. */
  predicate PhoneOk(p: string) {
    var t := if |p| > 0 && p[0] == '+' then p[1..] else p;
    |t| >= 7 && IsDigit(t[0]) && forall i :: 1 <= i < |t| ==> IsDigit(t[i]) || IsSpace(t[i]) || t[i] == '-'
  }

  datatype Department = Department(id: string, name: string)

  const Departments: seq<Department> := [
    Department("cardio", "Cardiology"), Department("derma", "Dermatology"), Department("pedia", "Pediatrics"),
    Department("neuro", "Neurology"), Department("ent", "ENT"), Department("ortho", "Orthopedics")]

  datatype DoctorForm = DoctorForm(email: string, phone: string, departmentId: string, tempPassword: string)

  /** The form's validators: a well-formed e-mail, the phone pattern, a
      department and a temporary password of at least six characters. */
  predicate FormValid(f: DoctorForm, emailOk: bool) {
    f.email != "" && emailOk && f.phone != "" && PhoneOk(f.phone) && f.departmentId != ""
    && f.tempPassword != "" && |f.tempPassword| >= 6
  }

  /** After "generate" the password field never holds the form back: the
      form is valid exactly when its e-mail, phone and department are. */
  lemma GeneratedPasswordAccepted(p: Page, random: seq<Byte>, emailOk: bool)
    requires |random| == 10
    ensures var f := OnGenerate(p, random).form;
      FormValid(f, emailOk)
      <==> p.form.email != "" && emailOk && p.form.phone != "" && PhoneOk(p.form.phone) && p.form.departmentId != ""
  {
  }

  datatype SubmitOutcome = Invalid | DepartmentError(message: string) | Send(payload: AdminService.CreateDoctorPayload)

  const DepartmentMessage := "Please pick a valid department."

  /** `submit()`: an invalid form sends nothing; an unknown department id
      shows its message and sends nothing; otherwise the payload carries the
      e-mail, phone and password as typed and the department's name. */
  function Submit(f: DoctorForm, emailOk: bool, departments: seq<Department>): (r: SubmitOutcome)
    ensures r.Invalid? <==> !FormValid(f, emailOk)
    ensures r.DepartmentError? <==>
      FormValid(f, emailOk) && forall i :: 0 <= i < |departments| ==> departments[i].id != f.departmentId
    ensures r.DepartmentError? ==> r.message == DepartmentMessage
    ensures r.Send? ==>
      (r.payload.email == f.email && r.payload.phoneNumber == f.phone && r.payload.password == f.tempPassword
       && exists i :: 0 <= i < |departments| && departments[i].id == f.departmentId
                      && r.payload.department == departments[i].name
                      && forall j :: 0 <= j < i ==> departments[j].id != f.departmentId)
  {
    if !FormValid(f, emailOk) then Invalid
    else
      match Find(departments, (d: Department) => d.id == f.departmentId)
      case None => DepartmentError(DepartmentMessage)
      case Some(d) => Send(AdminService.CreateDoctorPayload(f.email, f.tempPassword, f.phone, d.name))
  }

  /** The page state: the form, whether the password is hidden, the error. */
  datatype Page = Page(form: DoctorForm, hidePass: bool, loading: bool, apiError: Option<string>)

  /** Pressing "generate": the password field gets the generated password
      and is shown. */
  function OnGenerate(p: Page, random: seq<Byte>): (r: Page)
    requires |random| == 10
    ensures r.form.tempPassword == GeneratePassword(random) && !r.hidePass
    ensures r.form.(tempPassword := p.form.tempPassword) == p.form && r.apiError == p.apiError
  {
    p.(form := p.form.(tempPassword := GeneratePassword(random)), hidePass := false)
  }

  /** The service's answer: a message (when the response has one) is shown
      and the form goes back to empty fields with the first department, the
      password hidden again; a failure is shown as the page's error. */
  function OnAnswer(p: Page, answer: Result<Option<string>, string>): (r: (Page, Option<string>))
    ensures !r.0.loading
    ensures answer.Ok? ==>
      (r.0.form == DoctorForm("", "", "cardio", "") && r.0.hidePass
       && r.1 == Some(answer.value.GetOr("Doctor credentials created")))
    ensures answer.Err? ==> r.0.apiError == Some(answer.error) && r.0.form == p.form && r.1.None?
  {
    match answer
    case Ok(msg) =>
      (p.(loading := false, form := DoctorForm("", "", Departments[0].id, ""), hidePass := true),
       Some(msg.GetOr("Doctor credentials created")))
    case Err(e) => (p.(loading := false, apiError := Some(e)), None)
  }

  /** Submitting a valid form without a session shows the session message
      and sends nothing. */
  lemma NoSessionShowsExpiry(p: Page, st: Auth.Store, emailOk: bool,
                             answer: Result<string, HttpErrors.HttpError>)
    requires !Truthy(Auth.GetToken(st))
    requires Submit(p.form, emailOk, Departments).Send?
    ensures var call := AdminService.RegisterDoctor(st, Submit(p.form, emailOk, Departments).payload, answer);
      call.0.None? && OnAnswer(p, Err(call.1.error)).0.apiError == Some(AdminService.SessionExpired)
  {
  }

  /** After a successful creation the form is not valid again until it is
      filled in anew. */
  lemma ResetFormIsInvalid(p: Page, msg: Option<string>, emailOk: bool)
    ensures !FormValid(OnAnswer(p, Ok(msg)).0.form, emailOk)
  {
  }
}

=== FILE: adminnotifications.dfy ===
/** The admin's notification list: the text and chip filters, newest-first
    order, client-side pages, and the read, unread, delete and clear actions.
    Dates are milliseconds since the epoch. */
module AdminNotifications {
  import opened Wrappers
  import opened JsText
  import opened Seqs
  import opened Sorting
  import opened Paging
  import opened Computed

  datatype NotifType = System | Requests | Payments | Users

  function TypeName(t: NotifType): string {
    match t
    case System => "System"
    case Requests => "Requests"
    case Payments => "Payments"
    case Users => "Users"
  }

  /** The chips: every row, the unread ones, or one type. */
  datatype FilterType = AllRows | UnreadRows | OfType(t: NotifType)

  datatype Notif = Notif(id: string, ntype: NotifType, title: string, message: string, date: int, unread: bool)

  /** The page state. */
  datatype State = State(rows: seq<Notif>, search: string, filter: FilterType, pageIndex: nat, pageSize: nat)

  // ---------------------------------------------------------------------------
  // Derived lists
  // ---------------------------------------------------------------------------

  predicate MatchesText(q: string, n: Notif) {
    Contains(ToLower(n.title + " " + n.message + " " + TypeName(n.ntype)), q)
  }

  predicate MatchesFilter(f: FilterType, n: Notif) {
    match f
    case AllRows => true
    case UnreadRows => n.unread
    case OfType(t) => n.ntype == t
  }

  /** The whole test `filtered` applies to one row. */
  predicate Keeps(search: string, f: FilterType, n: Notif) {
    MatchesText(ToLower(Trim(search)), n) && MatchesFilter(f, n)
  }

  /** `filtered`: the rows that pass, in their stored order. */
  function Filtered(rows: seq<Notif>, search: string, f: FilterType): (r: seq<Notif>)
    ensures |r| <= |rows|
    ensures forall n :: n in r <==> n in rows && Keeps(search, f, n)
  {
    FilterMembers(rows, (n: Notif) => Keeps(search, f, n));
    Filter(rows, (n: Notif) => Keeps(search, f, n))
  }

  /** A search of only spaces matches every row: the joined text always
      contains the empty string. */
  lemma BlankSearchKeepsAll(rows: seq<Notif>, search: string, f: FilterType, n: Notif)
    requires IsBlank(search)
    ensures Keeps(search, f, n) <==> MatchesFilter(f, n)
  {
    BlankIffTrimEmpty(search);
    ContainsEmpty(ToLower(n.title + " " + n.message + " " + TypeName(n.ntype)));
  }

  function DateKey(n: Notif): Key {
    [n.date]
  }

  /** `sorted`: the filtered rows, latest first. */
  function Sorted(filtered: seq<Notif>): (r: seq<Notif>)
    ensures SortedBy(r, DateKey, true)
    ensures multiset(r) == multiset(filtered)
  {
    SortBy(filtered, DateKey, true)
  }

  /** `page`: the page-index-th run of page-size rows of the sorted list,
      each of which passes the filters. */
  function PageOf(st: State): (r: seq<Notif>)
    ensures |r| <= st.pageSize
    ensures forall n :: n in r ==> n in st.rows && Keeps(st.search, st.filter, n)
    ensures var s := Sorted(Filtered(st.rows, st.search, st.filter));
      && |r| == PageLength(|s|, st.pageIndex, st.pageSize)
      && forall k :: 0 <= k < |r| ==> PageStart(st.pageIndex, st.pageSize) + k < |s| && r[k] == s[PageStart(st.pageIndex, st.pageSize) + k]
  {
    var s := Sorted(Filtered(st.rows, st.search, st.filter));
    PageMembers(s, st.pageIndex, st.pageSize);
    assert forall n :: n in s ==> n in multiset(s);
    Page(s, st.pageIndex, st.pageSize)
  }

  // ---------------------------------------------------------------------------
  // Actions
  // ---------------------------------------------------------------------------

  /** `markRead(n)` and `markUnread(n)`: the unread flag of that row. */
  function SetUnread(rows: seq<Notif>, id: string, unread: bool): (r: seq<Notif>)
    ensures |r| == |rows|
    ensures forall i :: 0 <= i < |rows| && rows[i].id != id ==> r[i] == rows[i]
    ensures forall i :: 0 <= i < |rows| && rows[i].id == id ==> r[i] == rows[i].(unread := unread)
  {
    MapWhere(rows, (x: Notif) => x.id == id, (x: Notif) => x.(unread := unread))
  }

  function MarkRead(rows: seq<Notif>, n: Notif): (r: seq<Notif>)
    ensures !n.unread ==> r == rows
  {
    if !n.unread then rows else SetUnread(rows, n.id, false)
  }

  function MarkUnread(rows: seq<Notif>, n: Notif): (r: seq<Notif>)
    ensures n.unread ==> r == rows
  {
    if n.unread then rows else SetUnread(rows, n.id, true)
  }

  /** Marking read or unread twice is marking once; a row that is already
      read (unread) is not changed by marking it read (unread) again. */
  lemma MarkIdempotent(rows: seq<Notif>, n: Notif)
    ensures MarkRead(MarkRead(rows, n), n) == MarkRead(rows, n)
    ensures MarkUnread(MarkUnread(rows, n), n) == MarkUnread(rows, n)
    ensures n.unread ==> forall i :: 0 <= i < |rows| && rows[i].id == n.id ==> !MarkRead(rows, n)[i].unread
    ensures !n.unread ==> forall i :: 0 <= i < |rows| && rows[i].id == n.id ==> MarkUnread(rows, n)[i].unread
  {
  }

  /** `delete(n)`: the rows with another id, in their order. */
  function Delete(rows: seq<Notif>, id: string): (r: seq<Notif>)
    ensures forall x :: x in r <==> x in rows && x.id != id
    ensures |r| == |rows| - Count(rows, (x: Notif) => x.id == id)
  {
    FilterMembers(rows, (x: Notif) => x.id != id);
    FilterSplit(rows, (x: Notif) => x.id != id, (x: Notif) => x.id == id);
    assert |multiset(Filter(rows, (x: Notif) => x.id != id))| + |multiset(Filter(rows, (x: Notif) => x.id == id))| == |multiset(rows)|;
    Filter(rows, (x: Notif) => x.id != id)
  }

  /** `markAllRead()`: nothing and no snack bar when no row is unread;
      otherwise every row is read and the snack bar says so. */
  function MarkAllRead(rows: seq<Notif>): (r: (seq<Notif>, Option<string>))
    ensures !Any(rows, (n: Notif) => n.unread) ==> r == (rows, None)
    ensures |r.0| == |rows|
    ensures forall i :: 0 <= i < |r.0| ==> !r.0[i].unread && r.0[i] == rows[i].(unread := false)
    ensures r.1.Some? <==> Any(rows, (n: Notif) => n.unread)
  {
    if !Any(rows, (n: Notif) => n.unread) then (rows, None)
    else (Map(rows, (n: Notif) => n.(unread := false)), Some("All notifications marked as read"))
  }

  /** After `markAllRead` the unread chip shows nothing. */
  lemma NoUnreadAfterMarkAll(rows: seq<Notif>, search: string)
    ensures Filtered(MarkAllRead(rows).0, search, UnreadRows) == []
  {
    var r := MarkAllRead(rows).0;
    FilterNone(r, (n: Notif) => Keeps(search, UnreadRows, n));
  }

  /** `clearAll()`. */
  function ClearAll(st: State): State {
    st.(rows := [])
  }

  /** After clearing, every page is empty. */
  lemma ClearedPagesAreEmpty(st: State)
    ensures PageOf(ClearAll(st)) == []
  {
  }

  /** `setFilter(v)`: the filter changes and the view goes back to page 0. */
  function SetFilter(st: State, v: FilterType): (r: State)
    ensures r.filter == v && r.pageIndex == 0
    ensures r.rows == st.rows && r.search == st.search && r.pageSize == st.pageSize
  {
    st.(filter := v, pageIndex := 0)
  }

  /** After `setFilter` the page shows the first rows of the new selection. */
  lemma SetFilterShowsFirstPage(st: State, v: FilterType)
    ensures var page, all := PageOf(SetFilter(st, v)), Sorted(Filtered(st.rows, st.search, v));
      && |page| == (if st.pageSize <= |all| then st.pageSize else |all|)
      && forall k :: 0 <= k < |page| ==> page[k] == all[k]
  {
    var all := Sorted(Filtered(st.rows, st.search, v));
    assert PageOf(SetFilter(st, v)) == Slice(all, 0, st.pageSize);
  }

  /** `pageChange(e)`. */
  function PageChange(st: State, index: nat, size: nat): (r: State)
    ensures r.pageIndex == index && r.pageSize == size
    ensures r.rows == st.rows && r.search == st.search && r.filter == st.filter
  {
    st.(pageIndex := index, pageSize := size)
  }

  // ---------------------------------------------------------------------------
  // When `filtered` runs
  // ---------------------------------------------------------------------------

  /** `filtered` is a `computed()` whose signals are the rows and the chip;
      it reads the search box through `search.value`, which is no signal. */
  const FilteredOf: ((seq<Notif>, FilterType), string) -> seq<Notif> :=
    (t: (seq<Notif>, FilterType), q: string) => Filtered(t.0, q, t.1)

  /** As written, once the list is on screen typing in the search box alone
      leaves it as it was: a row the chip keeps is still listed after a
      search longer than its whole text, whereas no row matches that
      search. Setting the chip or the rows runs it again
      (`Computed.TrackedRefreshes`). */
  lemma SearchNotShown(n: Notif, f: FilterType, q: string)
    requires MatchesFilter(f, n)
    requires |ToLower(Trim(q))| > |n.title + " " + n.message + " " + TypeName(n.ntype)|
    ensures var c := Read(New(([n], f), ""));
      && Reading(SetUntracked(c, q), FilteredOf) == [n]
      && Filtered([n], q, f) == []
  {
    var c := Read(New(([n], f), ""));
    BlankSearchKeepsAll([n], "", f, n);
    var before := Filtered([n], "", f);
    assert n in before;
    assert before == [n];
    UntrackedNotSeen(c, q, FilteredOf);
    ContainsNoLonger(ToLower(n.title + " " + n.message + " " + TypeName(n.ntype)), ToLower(Trim(q)));
    assert !Keeps(q, f, n);
    var after := Filtered([n], q, f);
    assert n !in after;
  }
}

=== FILE: adminservice.dfy ===
/** The admin service's `registerDoctor`: it fails at once without a
    session token, and otherwise sends the payload with a bearer header and
    maps a failure to one message. The server's answer is a parameter. */
module AdminService {
  import opened Wrappers
  import opened JsText
  import opened HttpErrors
  import Auth

  const DefaultError := "Unable to create doctor credentials. Please try again."

  const SessionExpired := "Your admin session has expired. Please log in again."

  datatype CreateDoctorPayload = CreateDoctorPayload(email: string, password: string, phoneNumber: string,
                                                     department: string)

  /** A request that went out: its payload and `Authorization` header. */
  datatype Request = Request(payload: CreateDoctorPayload, authorization: string)

  /** `handleError`: the same precedence as the auth service, with the
      admin service's own default. */
  function HandleError(e: HttpError): (m: string)
    ensures e.body.TextBody? && e.body.text != "" ==> m == e.body.text
    ensures e.body.ObjectBody? ==> m == e.body.error.GetOr(e.body.message.GetOr(DefaultError))
    ensures !BodyTruthy(e.body) ==> m == (if e.transport != "" then e.transport else DefaultError)
  {
    ErrorMessage(e, DefaultError)
  }

  /** `registerDoctor(payload)`: with no token (none stored, an empty one or
      no browser) no request is sent and the session message comes back;
      otherwise one request carries `Bearer <token>`, and the server's
      answer, a message or a failure, comes back with failures mapped. */
  function RegisterDoctor(st: Auth.Store, payload: CreateDoctorPayload, answer: Result<string, HttpError>)
    : (r: (Option<Request>, Result<string, string>))
    ensures r.0.None? <==> !Truthy(Auth.GetToken(st))
    ensures r.0.None? ==> r.1 == Err(SessionExpired)
    ensures r.0.Some? ==>
      (r.0.value == Request(payload, "Bearer " + Auth.GetToken(st).value)
       && r.1 == (if answer.Ok? then Ok(answer.value) else Err(HandleError(answer.error))))
  {
    var token := Auth.GetToken(st);
    if !Truthy(token) then (None, Err(SessionExpired))
    else
      var out := match answer
        case Ok(m) => Ok(m)
        case Err(e) => Err(HandleError(e));
      (Some(Request(payload, "Bearer " + token.value)), out)
  }

  /** After logging out, or outside a browser, registering a doctor never
      reaches the server. */
  lemma NoSessionNoRequest(st: Auth.Store, payload: CreateDoctorPayload, answer: Result<string, HttpError>)
    ensures RegisterDoctor(Auth.ClearToken(st), payload, answer) == (None, Err(SessionExpired))
    ensures !st.isBrowser ==> RegisterDoctor(st, payload, answer) == (None, Err(SessionExpired))
  {
  }

  /** A server failure never shows the session message unless the server
      sent that very text. */
  lemma ServerErrorsAreNotSessionErrors(st: Auth.Store, payload: CreateDoctorPayload, e: HttpError)
    requires Truthy(Auth.GetToken(st))
    requires e.transport != SessionExpired
    requires !(e.body.TextBody? && e.body.text == SessionExpired)
    requires !(e.body.ObjectBody? && (e.body.error == Some(SessionExpired) || e.body.message == Some(SessionExpired)))
    ensures RegisterDoctor(st, payload, Err(e)).1 != Err(SessionExpired)
  {
  }
}

=== FILE: auth.dfy ===
/** The authentication service: its error messages, storing the token a
    login returns, reading the token back and the role carried in the
    token's payload segment. Local storage is a field of the service state;
    decoding the payload (base64 and JSON) is a parameter. */
module Auth {
  import opened Wrappers
  import opened JsText
  import opened HttpErrors

  // ---------------------------------------------------------------------------
  // Errors
  // ---------------------------------------------------------------------------

  const DefaultError := "Something went wrong. Please try again."

  /** `handleError`: a string body verbatim; an object body's `error`, else
      its `message`, else the default; with no body the transport message;
      failing all of these the default. */
  function HandleError(e: HttpError): (m: string)
    ensures e.body.TextBody? && e.body.text != "" ==> m == e.body.text
    ensures e.body.ObjectBody? ==> m == e.body.error.GetOr(e.body.message.GetOr(DefaultError))
    ensures !BodyTruthy(e.body) ==> m == (if e.transport != "" then e.transport else DefaultError)
    ensures e.body.ScalarBody? && e.body.truthy ==> m == DefaultError
  {
    ErrorMessage(e, DefaultError)
  }

  /** A request piped through `catchError(handleError)`: a failure reaches
      the subscriber as its message, a success unchanged. */
  function Rethrow<T>(r: Result<T, HttpError>): (out: Result<T, string>)
    ensures r.Ok? <==> out.Ok?
    ensures r.Ok? ==> out.value == r.value
    ensures r.Err? ==> out.error == HandleError(r.error)
  {
    match r
    case Ok(v) => Ok(v)
    case Err(e) => Err(HandleError(e))
  }

  // ---------------------------------------------------------------------------
  // The token's role
  // ---------------------------------------------------------------------------

  /** `token.split('.')[1]`: the second segment, absent without a dot. */
  function SecondSegment(token: string): (seg: Option<string>)
    ensures seg.None? <==> '.' !in token
    ensures seg.Some? ==> '.' !in seg.value
  {
    var parts := Split(token, '.');
    SplitHasTwoParts(token);
    if |parts| >= 2 then Some(parts[1]) else None
  }

  /** A string splits into two or more parts exactly when it holds the separator. */
  lemma SplitHasTwoParts(s: string)
    ensures |Split(s, '.')| >= 2 <==> '.' in s
  {
  }

  /** The second segment is the text between the first dot and the next
      one, or the end of the token. */
  lemma SecondSegmentPlace(token: string)
    requires '.' in token
    ensures var seg := SecondSegment(token).value;
      exists k :: 0 <= k < |token| && token[k] == '.' && '.' !in token[..k]
        && k + 1 + |seg| <= |token| && token[k + 1..k + 1 + |seg|] == seg
        && (k + 1 + |seg| == |token| || token[k + 1 + |seg|] == '.')
  {
    var k := IndexOf(token, '.').value;
    var rest := token[k + 1..];
    var seg := SecondSegment(token).value;
    assert seg == Split(rest, '.')[0];
    var e := k + 1 + |seg|;
    assert e <= |token| && token[k + 1..e] == seg && (e == |token| || token[e] == '.') by {
      match IndexOf(rest, '.')
      case None =>
        assert seg == rest;
      case Some(j) =>
        assert seg == rest[..j];
        assert token[e] == rest[j];
    }
  }

  /** One character of the base64url alphabet in the standard alphabet of
      section 4 of RFC 4648: `-` becomes `+`, `_` becomes `/`. */
  function StdChar(c: char): char {
    if c == '-' then '+' else if c == '_' then '/' else c
  }

  /** The reverse mapping of section 5 of RFC 4648. */
  function UrlChar(c: char): char {
    if c == '+' then '-' else if c == '/' then '_' else c
  }

  /** `.replace(/-/g, '+').replace(/_/g, '/')`: every `-` and `_` mapped,
      every other character kept, the length unchanged. */
  function Normalise(seg: string): (r: string)
    ensures |r| == |seg|
    ensures forall i :: 0 <= i < |seg| ==>
      r[i] == (if seg[i] == '-' then '+' else if seg[i] == '_' then '/' else seg[i])
    ensures '-' !in r && '_' !in r
  {
    seq(|seg|, i requires 0 <= i < |seg| => StdChar(seg[i]))
  }

  /** The standard-to-url mapping. */
  function UrlSafe(s: string): (r: string)
    ensures |r| == |s|
    ensures forall i :: 0 <= i < |s| ==> r[i] == UrlChar(s[i])
  {
    seq(|s|, i requires 0 <= i < |s| => UrlChar(s[i]))
  }

  /** The normalisation undoes the url-safe encoding of standard base64
      text, and is undone by it on base64url text. */
  lemma NormaliseRoundTrip(std: string, url: string)
    requires '-' !in std && '_' !in std
    requires '+' !in url && '/' !in url
    ensures Normalise(UrlSafe(std)) == std
    ensures UrlSafe(Normalise(url)) == url
  {
  }

  /** `extractRoleFromToken`: nothing outside a browser or when the second
      segment is missing or empty; otherwise the role decoded from the
      normalised segment, where `decode` stands for `atob`, `JSON.parse` and
      reading `role`, and a failure in any of them is `None`. */
  function ExtractRole(isBrowser: bool, token: string, decode: string -> Option<string>): (role: Option<string>)
    ensures !isBrowser || '.' !in token ==> role.None?
    ensures isBrowser && Truthy(SecondSegment(token)) ==> role == decode(Normalise(SecondSegment(token).value))
    ensures !Truthy(SecondSegment(token)) ==> role.None?
  {
    if !isBrowser then None
    else
      var seg := SecondSegment(token);
      if !Truthy(seg) then None else decode(Normalise(seg.value))
  }

  // ---------------------------------------------------------------------------
  // The service
  // ---------------------------------------------------------------------------

  /** Whether the app runs in a browser, and the `medtik_token` entry of
      local storage. */
  datatype Store = Store(isBrowser: bool, token: Option<string>)

  datatype LoginResponse = LoginResponse(message: string, token: Option<string>)

  /** What `login` emits: the response with the role added. */
  datatype LoginResult = LoginResult(message: string, token: Option<string>, role: Option<string>)

  /** `getToken()`: nothing outside a browser, else the stored token. */
  function GetToken(st: Store): (t: Option<string>)
    ensures !st.isBrowser ==> t.None?
    ensures st.isBrowser ==> t == st.token
  {
    if !st.isBrowser then None else st.token
  }

  /** `setToken(token)`: stored only in a browser. */
  function SetToken(st: Store, token: string): (r: Store)
    ensures r.isBrowser == st.isBrowser
    ensures st.isBrowser ==> r.token == Some(token)
    ensures !st.isBrowser ==> r == st
  {
    if !st.isBrowser then st else st.(token := Some(token))
  }

  /** `clearToken()`: removed only in a browser. */
  function ClearToken(st: Store): (r: Store)
    ensures st.isBrowser ==> r.token.None?
    ensures !st.isBrowser ==> r == st
  {
    if !st.isBrowser then st else st.(token := None)
  }

  /** `getCurrentRole()`: the role of the stored token, if there is one. */
  function CurrentRole(st: Store, decode: string -> Option<string>): (role: Option<string>)
    ensures !st.isBrowser || !Truthy(st.token) ==> role.None?
    ensures st.isBrowser && Truthy(st.token) ==> role == ExtractRole(true, st.token.value, decode)
  {
    if !st.isBrowser then None
    else
      var t := GetToken(st);
      if Truthy(t) then ExtractRole(st.isBrowser, t.value, decode) else None
  }

  /** `login(payload)`: a failed request yields its message; a response
      with a token stores it and carries its role, one without a token
      stores nothing and has no role. */
  function Login(st: Store, response: Result<LoginResponse, HttpError>, decode: string -> Option<string>)
    : (r: (Store, Result<LoginResult, string>))
    ensures response.Err? ==> r == (st, Err(HandleError(response.error)))
    ensures response.Ok? ==>
      (r.1.Ok? && r.1.value.message == response.value.message && r.1.value.token == response.value.token)
    ensures response.Ok? && !Truthy(response.value.token) ==> r.0 == st && r.1.value.role.None?
    ensures response.Ok? && Truthy(response.value.token) ==>
      (r.0 == SetToken(st, response.value.token.value)
       && r.1.value.role == ExtractRole(st.isBrowser, response.value.token.value, decode))
  {
    match response
    case Err(e) => (st, Err(HandleError(e)))
    case Ok(res) =>
      var st' := if Truthy(res.token) then SetToken(st, res.token.value) else st;
      var role := if Truthy(res.token) then ExtractRole(st.isBrowser, res.token.value, decode) else None;
      (st', Ok(LoginResult(res.message, res.token, role)))
  }

  /** After a login that returned a token, the service reads the same
      token and the same role back. */
  lemma LoginThenCurrentRole(st: Store, res: LoginResponse, decode: string -> Option<string>)
    requires st.isBrowser && Truthy(res.token)
    ensures var (st', out) := Login(st, Ok(res), decode);
      GetToken(st') == res.token && out.Ok? && CurrentRole(st', decode) == out.value.role
  {
  }

  /** Outside a browser nothing is stored and no role is ever read. */
  lemma NoBrowserNoSession(st: Store, res: Result<LoginResponse, HttpError>, decode: string -> Option<string>)
    requires !st.isBrowser
    ensures Login(st, res, decode).0 == st
    ensures res.Ok? ==> Login(st, res, decode).1.value.role.None?
    ensures CurrentRole(st, decode).None?
  {
  }

  /** Logging out forgets the role. */
  lemma ClearForgetsRole(st: Store, decode: string -> Option<string>)
    ensures CurrentRole(ClearToken(st), decode).None?
  {
  }
}

=== FILE: booking.dfy ===
/** The patient's three-step booking wizard: choose a modality, pick a slot of
    the visible week, confirm with a reason. The state the wizard keeps is the
    step, the chosen modality and the selected slot; a snack-bar message is
    returned alongside when an action is refused. */
module Booking {
  import opened Wrappers
  import opened Slots
  import opened Prices

  // ---------------------------------------------------------------------------
  // Demo week
  // ---------------------------------------------------------------------------

  /** `Math.abs(weekIndex) % 2`: which of the two demo weeks is shown. */
  function WeekSeed(weekIndex: int): (r: int)
    ensures 0 <= r < 2
  {
    (if weekIndex < 0 then -weekIndex else weekIndex) % 2
  }

  /** The seed only depends on the parity of the week, so the demo week
      alternates and is the same on both sides of this week. */
  lemma WeekSeedParity(weekIndex: int)
    ensures WeekSeed(weekIndex) == weekIndex % 2
    ensures WeekSeed(-weekIndex) == WeekSeed(weekIndex)
    ensures WeekSeed(weekIndex + 2) == WeekSeed(weekIndex)
  {
    var n := if weekIndex < 0 then -weekIndex else weekIndex;
    assert weekIndex == n || weekIndex == -n;
    assert (-n) % 2 == n % 2 by {
      assert -n == 2 * (-(n / 2) - n % 2) + n % 2;
    }
  }

  /** `makeSlotsForWeek(seedOffset)`; `ids` stands for the four `uid()` values. */
  function MakeSlotsForWeek(seed: int, ids: seq<string>): (r: seq<Slot>)
    requires seed >= 0 && |ids| == 4
    ensures |r| == 4
    ensures forall i :: 0 <= i < |r| ==> 0 <= r[i].dayIdx < 7 && r[i].duration == 25 && r[i].id == ids[i]
    ensures forall i :: 0 <= i < |r| ==> |r[i].modalities| > 0
  {
    [ Slot(ids[0], SeededDay(0, seed), "09:00", 25, [Chat, Voice], ""),
      Slot(ids[1], SeededDay(0, seed), "10:00", 25, [Video], ""),
      Slot(ids[2], SeededDay(3, seed), "13:00", 25, [Video], ""),
      Slot(ids[3], SeededDay(4, seed), "16:00", 25, [Chat, Video], "") ]
  }

  /** The visible week's slots, `slots()`. */
  function WeekSlots(weekIndex: int, ids: seq<string>): (r: seq<Slot>)
    requires |ids| == 4
    ensures forall i :: 0 <= i < |r| ==> 0 <= r[i].dayIdx < 7
  {
    MakeSlotsForWeek(WeekSeed(weekIndex), ids)
  }

  /** In the second demo week every slot sits one day later than in the first. */
  lemma OddWeeksShiftByOneDay(ids: seq<string>)
    requires |ids| == 4
    ensures forall i :: 0 <= i < 4 ==>
      MakeSlotsForWeek(1, ids)[i] == MakeSlotsForWeek(0, ids)[i].(dayIdx := MakeSlotsForWeek(0, ids)[i].dayIdx + 1)
  {
  }

  // ---------------------------------------------------------------------------
  // Wizard
  // ---------------------------------------------------------------------------

  /** `step`, `modality`, `selectedSlot`. */
  datatype Wizard = Wizard(step: int, modality: Option<Modality>, selected: Option<Slot>)

  /** A wizard state and the snack-bar message the action showed, if any. */
  datatype Reply = Reply(wizard: Wizard, toast: Option<string>)

  /** The wizard as the page opens. */
  function Initial(): Wizard {
    Wizard(1, None, None)
  }

  /** The invariant the wizard keeps: a selected slot offers the chosen modality. */
  predicate Coherent(w: Wizard) {
    w.selected.Some? ==> w.modality.Some? && w.modality.value in w.selected.value.modalities
  }

  /** How far the wizard got: step 2 needs a modality, step 3 a slot as well. */
  predicate Progressed(w: Wizard) {
    1 <= w.step <= 3
    && (w.step >= 2 ==> w.modality.Some?)
    && (w.step == 3 ==> w.selected.Some?)
  }

  /** `setModality(m)`: a selection the new modality does not fit is dropped. */
  function SetModality(w: Wizard, m: Modality): (r: Wizard)
    ensures r.step == w.step && r.modality == Some(m)
    ensures r.selected.Some? ==> r.selected == w.selected
    ensures r.selected.None? <==> w.selected.None? || m !in w.selected.value.modalities
  {
    var keep := w.selected.Some? && m in w.selected.value.modalities;
    w.(modality := Some(m), selected := if keep then w.selected else None)
  }

  /** `pickSlot(s)`: refused without a modality or when the slot lacks it. */
  function PickSlot(w: Wizard, s: Slot): (r: Reply)
    ensures r.wizard.step == w.step && r.wizard.modality == w.modality
    ensures w.modality.None? ==> r == Reply(w, Some("Choose modality first"))
    ensures w.modality.Some? && w.modality.value !in s.modalities
      ==> r == Reply(w, Some("This slot does not support the selected modality."))
    ensures r.wizard.selected != w.selected ==> r.wizard.selected == Some(s)
    ensures r.toast.None? <==> w.modality.Some? && w.modality.value in s.modalities
    ensures r.toast.None? ==> r.wizard.selected == Some(s)
  {
    if w.modality.None? then Reply(w, Some("Choose modality first"))
    else if w.modality.value !in s.modalities then
      Reply(w, Some("This slot does not support the selected modality."))
    else Reply(w.(selected := Some(s)), None)
  }

  /** `next()`. */
  function Next(w: Wizard): (r: Reply)
    ensures r.wizard.modality == w.modality && r.wizard.selected == w.selected
    ensures w.step == 1 ==> (r.wizard.step == 2 <==> w.modality.Some?)
    ensures w.step == 2 ==> (r.wizard.step == 3 <==> w.selected.Some?)
    ensures w.step != 1 && w.step != 2 ==> r == Reply(w, None)
    ensures r.wizard.step == w.step || r.wizard.step == w.step + 1
    ensures r.toast.Some? <==> r.wizard.step == w.step && (w.step == 1 || w.step == 2)
  {
    if w.step == 1 then
      if w.modality.None? then Reply(w, Some("Select a modality to continue"))
      else Reply(w.(step := 2), None)
    else if w.step == 2 then
      if w.selected.None? then Reply(w, Some("Pick a time slot to continue"))
      else Reply(w.(step := 3), None)
    else Reply(w, None)
  }

  /** `back()`. */
  function Back(w: Wizard): (r: Wizard)
    ensures r.modality == w.modality && r.selected == w.selected
    ensures w.step == 3 ==> r.step == 2
    ensures w.step == 2 ==> r.step == 1
    ensures w.step != 2 && w.step != 3 ==> r == w
  {
    if w.step == 2 then w.(step := 1)
    else if w.step == 3 then w.(step := 2)
    else w
  }

  /** Every action keeps a selected slot compatible with the chosen modality. */
  lemma CoherenceIsInvariant(w: Wizard, m: Modality, s: Slot)
    requires Coherent(w)
    ensures Coherent(SetModality(w, m))
    ensures Coherent(PickSlot(w, s).wizard)
    ensures Coherent(Next(w).wizard)
    ensures Coherent(Back(w))
  {
  }

  /** Going back one step from 2 or 3 and forward again returns to the same
      state; step 1 is where `back` stops and step 3 where `next` stops. */
  lemma BackThenNext(w: Wizard)
    requires Progressed(w) && w.step >= 2
    ensures Next(Back(w)).wizard == w
  {
  }

  /** `next`, `back` and `pickSlot` never undo the wizard's progress. */
  lemma ProgressIsKept(w: Wizard, s: Slot)
    requires Progressed(w)
    ensures Progressed(Next(w).wizard)
    ensures Progressed(Back(w))
    ensures Progressed(PickSlot(w, s).wizard)
  {
  }

  /** Choosing a modality keeps the wizard's progress except at the last step,
      where a modality the selected slot lacks drops the selection. */
  lemma SetModalityProgress(w: Wizard, m: Modality)
    requires Progressed(w)
    ensures Progressed(SetModality(w, m)) <==> w.step < 3 || m in w.selected.value.modalities
  {
  }

  /** From the initial state the wizard reaches step 3 exactly by choosing a
      modality the slot offers, going next, picking that slot, going next. */
  lemma HappyPath(m: Modality, s: Slot)
    requires m in s.modalities
    ensures var w1 := SetModality(Initial(), m);
      var w2 := Next(w1).wizard;
      var w3 := PickSlot(w2, s).wizard;
      var w4 := Next(w3).wizard;
      w4 == Wizard(3, Some(m), Some(s)) && Coherent(w4)
  {
  }

  // ---------------------------------------------------------------------------
  // Price and confirmation
  // ---------------------------------------------------------------------------

  /** `price()`: nothing until a modality is chosen. */
  function Price(t: Table, c: Country, w: Wizard): (r: Option<Quote>)
    ensures r.None? <==> w.modality.None?
    ensures r.Some? ==> r.value.currency == SheetFor(t, c).currency
    ensures r.Some? ==> r.value.value == PriceOf(SheetFor(t, c), w.modality.value)
  {
    match w.modality
    case None => None
    case Some(m) => Some(QuoteFor(t, c, m))
  }

  /** The booking `confirm()` submits. */
  datatype Request = Request(doctorId: string, slotId: string, modality: Option<Modality>,
                             reason: string, country: Country, price: Option<Quote>)

  /** What `confirm()` does: mark the form when the reason is empty, fail on
      `selectedSlot()!` when nothing is selected, or submit the request. */
  datatype Confirmation = FormInvalid | NoSlot | Submitted(request: Request)

  function Confirm(w: Wizard, doctorId: string, reason: string, t: Table, c: Country): (r: Confirmation)
    ensures r.FormInvalid? <==> reason == ""
    ensures r.NoSlot? <==> reason != "" && w.selected.None?
    ensures r.Submitted? ==> r.request.slotId == w.selected.value.id && r.request.modality == w.modality
    ensures r.Submitted? ==> r.request.reason == reason && r.request.price == Price(t, c, w)
  {
    if reason == "" then FormInvalid
    else if w.selected.None? then NoSlot
    else Submitted(Request(doctorId, w.selected.value.id, w.modality, reason, c, Price(t, c, w)))
  }

  /** A coherent wizard at its last step submits the selected slot with its
      modality and a price, so the request never names a slot that lacks it. */
  lemma ConfirmAtLastStep(w: Wizard, doctorId: string, reason: string, t: Table, c: Country)
    requires Coherent(w) && Progressed(w) && w.step == 3 && reason != ""
    ensures var r := Confirm(w, doctorId, reason, t, c);
      r.Submitted? && r.request.modality.Some? && r.request.price.Some?
      && r.request.modality.value in w.selected.value.modalities
  {
  }

  // ---------------------------------------------------------------------------
  // Slot card
  // ---------------------------------------------------------------------------

  /** `classFor(s)` on the booking page: the shared classes plus `selected`
      and `incompatible`. */
  datatype Card = Card(selected: bool, classes: Classes, incompatible: bool)

  function CardFor(w: Wizard, s: Slot): (r: Card)
    ensures r.classes == ClassFor(s)
    ensures r.incompatible <==> w.modality.Some? && w.modality.value !in s.modalities
    ensures r.selected <==> w.selected.Some? && w.selected.value.id == s.id
  {
    Card(w.selected.Some? && w.selected.value.id == s.id, ClassFor(s), Incompatible(w.modality, s))
  }

  /** In a coherent wizard the selected slot's card is never marked incompatible. */
  lemma SelectedCardIsCompatible(w: Wizard)
    requires Coherent(w) && w.selected.Some?
    ensures !CardFor(w, w.selected.value).incompatible
  {
  }
}

=== FILE: calendar.dfy ===
/** Calendar days as whole numbers: day 0 is 1 January 1970 in local time, a
    Thursday, and day n + 1 is the day after day n. The week navigation of the
    schedule, the booking wizard and the doctor page only ever moves whole
    days, so dates reduce to these numbers. */
module Calendar {

  /** `Date.prototype.getDay`: 0 for Sunday through 6 for Saturday. */
  function DayOfWeek(day: int): (r: int)
    ensures 0 <= r < 7
  {
    (day + 4) % 7
  }

  /** Whole weeks leave the weekday alone. */
  lemma WeekdayPeriodic(day: int, weeks: int)
    ensures DayOfWeek(day + 7 * weeks) == DayOfWeek(day)
  {
    var q := (day + 4) / 7;
    var r := (day + 4) % 7;
    assert day + 7 * weeks + 4 == 7 * (q + weeks) + r;
  }

  /** The schedule's `mondayOf`: Sunday moves back six days, any other
      weekday back `getDay() - 1` days. */
  function MondayOf(day: int): int {
    var dow := DayOfWeek(day);
    day + (if dow == 0 then -6 else 1 - dow)
  }

  /** The shift lies in [-6, 0] and lands on a Monday. */
  lemma MondayOfLandsOnMonday(day: int)
    ensures -6 <= MondayOf(day) - day <= 0
    ensures DayOfWeek(MondayOf(day)) == 1
  {
    var dow := DayOfWeek(day);
    var shift := if dow == 0 then -6 else 1 - dow;
    assert (day + 4) == 7 * ((day + 4) / 7) + dow;
    assert MondayOf(day) + 4 == 7 * ((day + 4) / 7) + dow + shift;
    if dow == 0 {
      assert MondayOf(day) + 4 == 7 * ((day + 4) / 7 - 1) + 1;
    } else {
      assert MondayOf(day) + 4 == 7 * ((day + 4) / 7) + 1;
    }
  }

  /** The Monday of a day is the only Monday at most six days before it: the
      week a day belongs to is well defined. */
  lemma MondayOfIsUnique(day: int, m: int)
    requires DayOfWeek(m) == 1 && m <= day < m + 7
    ensures m == MondayOf(day)
  {
    MondayOfLandsOnMonday(day);
    var a := MondayOf(day);
    SameWeekdayCloseIsEqual(a, m);
  }

  /** Two days with the same weekday less than a week apart are the same day. */
  lemma SameWeekdayCloseIsEqual(a: int, b: int)
    requires DayOfWeek(a) == DayOfWeek(b)
    requires -7 < a - b < 7
    ensures a == b
  {
    var qa := (a + 4) / 7;
    var qb := (b + 4) / 7;
    assert a + 4 == 7 * qa + DayOfWeek(a);
    assert b + 4 == 7 * qb + DayOfWeek(b);
    assert a - b == 7 * (qa - qb);
  }

  /** Moving a day by whole weeks moves its Monday by the same weeks, so the
      offsets of the week navigation name distinct weeks. */
  lemma MondayOfShiftsByWeeks(day: int, weeks: int)
    ensures MondayOf(day + 7 * weeks) == MondayOf(day) + 7 * weeks
  {
    WeekdayPeriodic(day, weeks);
  }

  /** The booking and doctor pages' `mondayOfWeek(weekIdx)`: with `getDay() || 7`
      as the weekday (Sunday counts as 7), the Monday is
      `getDate() - day + 1 + weekIdx * 7`. */
  function MondayOfWeek(today: int, weekIdx: int): int {
    var day := if DayOfWeek(today) == 0 then 7 else DayOfWeek(today);
    today - day + 1 + weekIdx * 7
  }

  /** Both formulations name the same Monday: the pages' week `weekIdx` is the
      schedule's week of the day `7 * weekIdx` days from today. */
  lemma MondayOfWeekAgrees(today: int, weekIdx: int)
    ensures MondayOfWeek(today, weekIdx) == MondayOf(today + 7 * weekIdx)
  {
    MondayOfShiftsByWeeks(today, weekIdx);
  }
}

=== FILE: chat.dfy ===
/** The patient's chat with doctors: the active thread with its fallback,
    the thread search, the message search with its time stamps, selecting a
    thread, loading earlier messages and sending. Times are milliseconds since
    the epoch; new message ids and the current time are parameters. */
module Chat {
  import opened Wrappers
  import opened JsText
  import opened Seqs

  /** `unread` and `lastAt` are optional. */
  datatype Thread = Thread(id: string, name: string, spec: string, lastAt: Option<int>, unread: Option<int>, online: bool)

  datatype Sender = Me | Doc

  /** `seen` and `showStamp` are optional. */
  datatype Message = Message(id: string, from: Sender, text: string, ts: int, seen: Option<bool>, showStamp: Option<bool>)

  /** The page state; `store` maps a thread id to its messages. */
  datatype ChatState = ChatState(threads: seq<Thread>, selectedId: string, store: map<string, seq<Message>>,
                                 query: string, chatQuery: string, draft: string)

  /** The thread a route opens: `threadId`, else `t`, else `t-1`; an empty
      parameter counts as missing. */
  function InitialId(threadId: Option<string>, t: Option<string>): (id: string)
    ensures Truthy(threadId) ==> id == threadId.value
    ensures !Truthy(threadId) && Truthy(t) ==> id == t.value
    ensures !Truthy(threadId) && !Truthy(t) ==> id == "t-1"
  {
    if Truthy(threadId) then threadId.value else if Truthy(t) then t.value else "t-1"
  }

  /** `activeThread`: the first thread with the selected id, or the first
      thread. The page's thread list is never empty. */
  function ActiveThread(c: ChatState): (t: Thread)
    requires |c.threads| > 0
    ensures t in c.threads
    ensures (exists i :: 0 <= i < |c.threads| && c.threads[i].id == c.selectedId) ==> t.id == c.selectedId
    ensures (forall i :: 0 <= i < |c.threads| ==> c.threads[i].id != c.selectedId) ==> t == c.threads[0]
  {
    match Find(c.threads, (x: Thread) => x.id == c.selectedId)
    case Some(x) => x
    case None => c.threads[0]
  }

  /** The thread search: name or speciality. */
  predicate ThreadHit(q: string, t: Thread) {
    Contains(ToLower(t.name), q) || Contains(ToLower(t.spec), q)
  }

  /** `filteredThreads`: every thread for a blank search, otherwise those
      whose name or speciality contains it. */
  function FilteredThreads(c: ChatState): (r: seq<Thread>)
    ensures IsBlank(c.query) ==> r == c.threads
    ensures !IsBlank(c.query) ==> forall t :: t in r <==> t in c.threads && ThreadHit(ToLower(Trim(c.query)), t)
  {
    var q := ToLower(Trim(c.query));
    BlankIffTrimEmpty(c.query);
    if q == "" then c.threads
    else
      FilterMembers(c.threads, (t: Thread) => ThreadHit(q, t));
      Filter(c.threads, (t: Thread) => ThreadHit(q, t))
  }

  // ---------------------------------------------------------------------------
  // Messages
  // ---------------------------------------------------------------------------

  /** A thread's stored messages, none when it has no entry. */
  function Raw(c: ChatState, id: string): seq<Message> {
    if id in c.store then c.store[id] else []
  }

  /** Whether a message gets a time stamp: the first one always does, a
      later one when more than 20 minutes passed since the one before. */
  predicate StampAfter(prev: Option<Message>, m: Message) {
    prev.None? || m.ts - prev.value.ts > 1200000
  }

  /** The stamp of the message at position `i` of the list. */
  predicate StampAt(list: seq<Message>, i: nat)
    requires i < |list|
  {
    StampAfter(if i == 0 then None else Some(list[i - 1]), list[i])
  }

  /** The messages with `showStamp` set against their predecessor in the
      list, built from the front: a message's stamp is fixed once the
      messages before it are. */
  function Stamped(list: seq<Message>): (r: seq<Message>)
    ensures |r| == |list|
  {
    if |list| == 0 then []
    else
      Stamped(list[..|list| - 1])
        + [list[|list| - 1].(showStamp := Some(StampAfter(if |list| == 1 then None else Some(list[|list| - 2]), list[|list| - 1])))]
  }

  /** One more message keeps the earlier stamps; its own depends only on
      the gap to the message before it. */
  lemma StampedAppend(list: seq<Message>, m: Message)
    ensures Stamped(list + [m])
      == Stamped(list) + [m.(showStamp := Some(StampAfter(if |list| == 0 then None else Some(list[|list| - 1]), m)))]
  {
    var l := list + [m];
    assert l[..|l| - 1] == list;
    assert l[|l| - 1] == m;
    if |list| > 0 {
      assert l[|l| - 2] == list[|list| - 1];
    }
  }

  /** The stamped list is the stamped prefix followed by the last message
      stamped against its predecessor. */
  lemma StampedSplit(list: seq<Message>, i: nat)
    requires i < |list|
    ensures var n := |list| - 1;
      i < n ==> |Stamped(list[..n])| == n && Stamped(list)[i] == Stamped(list[..n])[i]
    ensures i == |list| - 1 ==> Stamped(list)[i] == list[i].(showStamp := Some(StampAt(list, i)))
  {
  }

  /** A message's stamp depends only on the messages up to it. */
  lemma StampAtPrefix(list: seq<Message>, i: nat)
    requires i + 1 < |list|
    ensures list[..|list| - 1][i] == list[i] && StampAt(list[..|list| - 1], i) == StampAt(list, i)
  {
    var init := list[..|list| - 1];
    if i > 0 {
      assert init[i - 1] == list[i - 1];
    }
  }

  /** Every message keeps its place and fields; its stamp is set exactly
      as `StampAt` says: the first always, a later one after a gap of more
      than 20 minutes. */
  lemma {:induction false} StampedAt(list: seq<Message>, i: nat)
    requires i < |list|
    ensures Stamped(list)[i] == list[i].(showStamp := Some(StampAt(list, i)))
  {
    StampedSplit(list, i);
    if i + 1 < |list| {
      StampedAt(list[..|list| - 1], i);
      StampAtPrefix(list, i);
    }
  }

  /** Messages at most 20 minutes apart share the first one's stamp. */
  lemma CloseMessagesShareStamp(list: seq<Message>, i: nat)
    requires 0 < i < |list|
    requires forall k :: 0 < k < |list| ==> list[k].ts - list[k - 1].ts <= 1200000
    ensures Stamped(list)[i].showStamp == Some(false)
  {
    StampedAt(list, i);
  }

  /** The message search: the text contains the trimmed, lower-cased query. */
  predicate TextHit(q: string, m: Message) {
    Contains(ToLower(m.text), q)
  }

  /** The active thread's messages the search keeps, in order. */
  function Shown(c: ChatState): seq<Message>
    requires |c.threads| > 0
  {
    var raw := Raw(c, ActiveThread(c).id);
    var q := ToLower(Trim(c.chatQuery));
    if q == "" then raw else Filter(raw, (m: Message) => TextHit(q, m))
  }

  /** `messages`: the shown messages with their stamps. */
  function Messages(c: ChatState): (r: seq<Message>)
    requires |c.threads| > 0
    ensures |r| == |Shown(c)|
    ensures forall i :: 0 <= i < |r| ==> r[i] == Shown(c)[i].(showStamp := Some(StampAt(Shown(c), i)))
  {
    forall i | 0 <= i < |Shown(c)| ensures Stamped(Shown(c))[i] == Shown(c)[i].(showStamp := Some(StampAt(Shown(c), i))) {
      StampedAt(Shown(c), i);
    }
    Stamped(Shown(c))
  }

  /** A blank search shows every stored message of the active thread. */
  lemma BlankSearchShowsAll(c: ChatState)
    requires |c.threads| > 0 && IsBlank(c.chatQuery)
    ensures Shown(c) == Raw(c, ActiveThread(c).id)
  {
    BlankIffTrimEmpty(c.chatQuery);
  }

  // ---------------------------------------------------------------------------
  // Actions
  // ---------------------------------------------------------------------------

  /** `select(t)`: `t` becomes the selected thread and its unread count drops
      to zero; no other thread changes. */
  function Select(c: ChatState, t: Thread): (r: ChatState)
    ensures r.selectedId == t.id
    ensures |r.threads| == |c.threads|
    ensures forall i :: 0 <= i < |c.threads| ==>
      r.threads[i] == if c.threads[i].id == t.id then c.threads[i].(unread := Some(0)) else c.threads[i]
    ensures r.store == c.store && r.draft == c.draft
  {
    c.(selectedId := t.id,
       threads := MapWhere(c.threads, (x: Thread) => x.id == t.id, (x: Thread) => x.(unread := Some(0))))
  }

  /** Selecting a listed thread makes it active and read. */
  lemma SelectActivates(c: ChatState, t: Thread)
    requires t in c.threads
    ensures var r := Select(c, t); |r.threads| > 0 && ActiveThread(r).id == t.id && ActiveThread(r).unread == Some(0)
  {
    var r := Select(c, t);
    var k := PositionOf(t, c.threads);
    assert r.threads[k].id == t.id;
  }

  /** `loadEarlier()`: the earlier message goes before the active thread's
      messages, which keep their order; other threads are untouched. */
  function LoadEarlier(c: ChatState, earlier: Message): (r: ChatState)
    requires |c.threads| > 0
    ensures var id := ActiveThread(c).id;
      id in r.store && r.store[id] == [earlier] + Raw(c, id)
      && forall k :: k != id ==> (k in r.store <==> k in c.store) && (k in c.store ==> r.store[k] == c.store[k])
    ensures r.threads == c.threads && r.selectedId == c.selectedId && r.draft == c.draft
  {
    var id := ActiveThread(c).id;
    c.(store := c.store[id := [earlier] + Raw(c, id)])
  }

  /** The message `send()` appends: mine, unseen, with the trimmed draft. */
  function Outgoing(c: ChatState, msgId: string, now: int): Message {
    Message(msgId, Me, Trim(c.draft), now, Some(false), None)
  }

  /** `send()`: a blank draft does nothing; otherwise the trimmed text goes
      at the end of the active thread and the draft is cleared. */
  function Send(c: ChatState, msgId: string, now: int): (r: ChatState)
    requires |c.threads| > 0
    ensures IsBlank(c.draft) ==> r == c
    ensures !IsBlank(c.draft) ==> var id := ActiveThread(c).id;
      id in r.store && r.store[id] == Raw(c, id) + [Outgoing(c, msgId, now)] && r.draft == ""
      && forall k :: k != id ==> (k in r.store <==> k in c.store) && (k in c.store ==> r.store[k] == c.store[k])
    ensures r.threads == c.threads && r.selectedId == c.selectedId
  {
    BlankIffTrimEmpty(c.draft);
    if Trim(c.draft) == "" then c
    else
      var id := ActiveThread(c).id;
      c.(store := c.store[id := Raw(c, id) + [Outgoing(c, msgId, now)]], draft := "")
  }

  /** With no message search, a sent message shows last, stamped when more
      than 20 minutes passed since the previous one. */
  lemma SentMessageShowsLast(c: ChatState, msgId: string, now: int)
    requires |c.threads| > 0 && !IsBlank(c.draft) && IsBlank(c.chatQuery)
    ensures var before := Raw(c, ActiveThread(c).id);
      Messages(Send(c, msgId, now)) == Messages(c)
        + [Outgoing(c, msgId, now).(showStamp := Some(before == [] || now - before[|before| - 1].ts > 1200000))]
  {
    var r := Send(c, msgId, now);
    BlankIffTrimEmpty(c.chatQuery);
    assert ActiveThread(r) == ActiveThread(c);
    StampedAppend(Raw(c, ActiveThread(c).id), Outgoing(c, msgId, now));
  }
}

=== FILE: computed.dfy ===
/** Angular's `computed()`: a memoised derivation from signals. It runs again
    only when a signal it read has been set since its last run. Values it
    reads that are not signals, such as a form control's `value` or a view
    child, are untracked: a change to them alone leaves the memoised value in
    place until some tracked signal changes. */
module Computed {
  import opened Wrappers

  /** A derivation's inputs: `tracked` are the signals it reads, `untracked`
      the other values. `seen` is the untracked input its last run read;
      it is `None` before the first run and after a tracked signal was set,
      when the next read runs the derivation again. */
  datatype Cell<T, U> = Cell(tracked: T, untracked: U, seen: Option<U>)

  /** A derivation not yet read. */
  function New<T, U>(t: T, u: U): (c: Cell<T, U>)
    ensures c.tracked == t && c.untracked == u && c.seen.None?
  {
    Cell(t, u, None)
  }

  /** The untracked input the value is computed from. */
  function Basis<T, U>(c: Cell<T, U>): U {
    c.seen.GetOr(c.untracked)
  }

  /** What reading the derivation returns: a fresh run on the current inputs
      when it must run, otherwise the memoised value of the last run. */
  function Reading<T, U, R>(c: Cell<T, U>, f: (T, U) -> R): (r: R)
    ensures c.seen.None? || c.seen == Some(c.untracked) ==> r == f(c.tracked, c.untracked)
  {
    f(c.tracked, Basis(c))
  }

  /** A read: the derivation runs if it must and remembers what it saw. */
  function Read<T, U>(c: Cell<T, U>): (r: Cell<T, U>)
    ensures r.seen == Some(Basis(c))
    ensures r.tracked == c.tracked && r.untracked == c.untracked
  {
    c.(seen := Some(Basis(c)))
  }

  /** `signal.set(v)` with a new value on a signal the derivation reads. */
  function SetTracked<T, U>(c: Cell<T, U>, t: T): (r: Cell<T, U>)
    ensures r.tracked == t && r.untracked == c.untracked && r.seen.None?
  {
    c.(tracked := t, seen := None)
  }

  /** A change to a value the derivation reads without tracking it. */
  function SetUntracked<T, U>(c: Cell<T, U>, u: U): (r: Cell<T, U>)
    ensures r.tracked == c.tracked && r.untracked == u && r.seen == c.seen
  {
    c.(untracked := u)
  }

  /** Reading does not change what the next read returns. */
  lemma ReadKeepsValue<T, U, R>(c: Cell<T, U>, f: (T, U) -> R)
    ensures Reading(Read(c), f) == Reading(c, f)
  {
  }

  /** Once read, an untracked change leaves the value as it was: it stays
      the value of the untracked input the last run saw. */
  lemma UntrackedNotSeen<T, U, R>(c: Cell<T, U>, u: U, f: (T, U) -> R)
    requires c.seen.Some?
    ensures Reading(SetUntracked(c, u), f) == Reading(c, f) == f(c.tracked, c.seen.value)
  {
  }

  /** Setting a tracked signal makes the next read current again, with the
      untracked inputs as they are now. */
  lemma TrackedRefreshes<T, U, R>(c: Cell<T, U>, t: T, f: (T, U) -> R)
    ensures Reading(SetTracked(c, t), f) == f(t, c.untracked)
  {
  }
}

=== FILE: departments.dfy ===
/** The admin's departments page: the id derived from a department's name,
    adding and renaming departments without clashing ids, the searched and
    sorted view, and removing departments and (de)activating doctors. */
module Departments {
  import opened Wrappers
  import opened JsText
  import opened Seqs
  import opened Sorting
  import opened Computed

  datatype DocStatus = Active | Inactive

  function DocStatusName(s: DocStatus): string {
    match s
    case Active => "active"
    case Inactive => "inactive"
  }

  datatype Doctor = Doctor(id: string, name: string, email: string, status: DocStatus)

  /** `description` is `None` when the record has none. */
  datatype Department = Department(id: string, name: string, description: Option<string>, doctors: seq<Doctor>)

  // ---------------------------------------------------------------------------
  // The id of a name
  // ---------------------------------------------------------------------------

  /** `.replace(/\s+/g, '-')`: every run of white space becomes one `-`. */
  function DashSpaces(s: string): (r: string)
    ensures |r| <= |s|
    ensures |s| > 0 ==> |r| > 0
    ensures forall i :: 0 <= i < |r| ==> !IsSpace(r[i])
    ensures forall i :: 0 <= i < |r| ==> r[i] == '-' || r[i] in s
    decreases |s|
  {
    if |s| == 0 then ""
    else if IsSpace(s[0]) then
      var rest := TrimStart(s[1..]);
      TrimStartShape(s[1..]);
      assert forall c :: c in rest ==> c in s by {
        assert rest == s[|s| - |rest|..];
      }
      "-" + DashSpaces(rest)
    else
      assert forall c :: c in s[1..] ==> c in s;
      [s[0]] + DashSpaces(s[1..])
  }

  /** Dropping leading white space removes a whole run of it and stops at
      the first other character. */
  lemma {:induction false} TrimAll(w: string, b: string)
    requires forall i :: 0 <= i < |w| ==> IsSpace(w[i])
    requires b == [] || !IsSpace(b[0])
    ensures TrimStart(w + b) == b
    decreases |w|
  {
    if |w| == 0 {
      assert w + b == b;
    } else {
      assert (w + b)[1..] == w[1..] + b;
      TrimAll(w[1..], b);
    }
  }

  /** A white-space run between a word and the rest becomes exactly one `-`:
      the word is kept as it is and the rest is dashed in turn. */
  lemma {:induction false} DashSpacesRun(a: string, w: string, b: string)
    requires forall i :: 0 <= i < |a| ==> !IsSpace(a[i])
    requires |w| > 0 && forall i :: 0 <= i < |w| ==> IsSpace(w[i])
    requires b == [] || !IsSpace(b[0])
    ensures DashSpaces(a + w + b) == a + "-" + DashSpaces(b)
    decreases |a|
  {
    var s := a + w + b;
    if |a| == 0 {
      assert s == w + b;
      assert s[1..] == w[1..] + b;
      TrimAll(w[1..], b);
    } else {
      assert s[0] == a[0];
      assert s[1..] == a[1..] + w + b;
      DashSpacesRun(a[1..], w, b);
      assert a + "-" + DashSpaces(b) == [a[0]] + (a[1..] + "-" + DashSpaces(b));
    }
  }

  /** The department id of a name: lower-cased, white-space runs dashed. */
  function Slug(name: string): string {
    DashSpaces(ToLower(name))
  }

  /** A text without white space is left as it is. */
  lemma {:induction false} DashSpacesFixed(s: string)
    requires forall i :: 0 <= i < |s| ==> !IsSpace(s[i])
    ensures DashSpaces(s) == s
    decreases |s|
  {
    if |s| > 0 {
      DashSpacesFixed(s[1..]);
    }
  }

  /** A slug is already lower-case and has no white space, so it is its own
      slug; no name has an id with white space in it. */
  lemma SlugIdempotent(name: string)
    ensures Slug(Slug(name)) == Slug(name)
    ensures forall i :: 0 <= i < |Slug(name)| ==> !IsSpace(Slug(name)[i])
  {
    var s := Slug(name);
    ToLowerIdempotent(name);
    assert forall i :: 0 <= i < |s| ==> LowerChar(s[i]) == s[i] by {
      forall i | 0 <= i < |s| ensures LowerChar(s[i]) == s[i] {
        if s[i] != '-' {
          var k :| 0 <= k < |ToLower(name)| && ToLower(name)[k] == s[i];
        }
      }
    }
    assert ToLower(s) == s;
    DashSpacesFixed(s);
  }

  /** A name with no white space has its lower-cased self as id. */
  lemma SlugOfOneWord(name: string)
    requires forall i :: 0 <= i < |name| ==> !IsSpace(name[i])
    ensures Slug(name) == ToLower(name)
  {
    DashSpacesFixed(ToLower(name));
  }

  // ---------------------------------------------------------------------------
  // Adding and saving
  // ---------------------------------------------------------------------------

  /** The name field's validators: required, at least three characters. */
  predicate NameOk(name: string) {
    |name| >= 3
  }

  predicate UniqueIds(data: seq<Department>) {
    forall i, j :: 0 <= i < j < |data| ==> data[i].id != data[j].id
  }

  predicate HasId(data: seq<Department>, id: string) {
    exists i :: 0 <= i < |data| && data[i].id == id
  }

  /** The list after an action and the snack-bar text, if any. */
  datatype Reply = Reply(data: seq<Department>, toast: Option<string>)

  /** `addDepartment()`: an invalid form changes nothing; a name whose id is
      taken is refused; otherwise a department with no doctors goes first. */
  function AddDepartment(data: seq<Department>, name: string, description: string): (r: Reply)
    ensures !NameOk(name) ==> r == Reply(data, None)
    ensures NameOk(name) && HasId(data, Slug(name)) ==> r == Reply(data, Some("Department already exists"))
    ensures NameOk(name) && !HasId(data, Slug(name)) ==>
      r.data == [Department(Slug(name), name, Some(description), [])] + data && r.toast == Some("Department added")
  {
    if !NameOk(name) then Reply(data, None)
    else
      var id := Slug(name);
      if Any(data, (d: Department) => d.id == id) then Reply(data, Some("Department already exists"))
      else Reply([Department(id, name, Some(description), [])] + data, Some("Department added"))
  }

  /** Adding keeps the ids unique. */
  lemma AddKeepsIdsUnique(data: seq<Department>, name: string, description: string)
    requires UniqueIds(data)
    ensures UniqueIds(AddDepartment(data, name, description).data)
  {
    var r := AddDepartment(data, name, description).data;
    if NameOk(name) && !HasId(data, Slug(name)) {
      forall i, j | 0 <= i < j < |r| ensures r[i].id != r[j].id {
        if i > 0 {
          assert r[i] == data[i - 1] && r[j] == data[j - 1];
        } else {
          assert r[j] == data[j - 1];
        }
      }
    }
  }

  /** `saveDepartment(dep)`: an invalid form changes nothing; the id follows
      a new name unless that id is already taken, in which case nothing is
      saved; the departments with the old id are replaced. */
  function SaveDepartment(data: seq<Department>, dep: Department, name: string, description: string): (r: Reply)
    ensures !NameOk(name) ==> r == Reply(data, None)
    ensures NameOk(name) && Slug(name) != dep.id && HasId(data, Slug(name)) ==>
      r == Reply(data, Some("Another department already uses this name"))
    ensures NameOk(name) && !(Slug(name) != dep.id && HasId(data, Slug(name))) ==>
      r.toast == Some("Department updated") && |r.data| == |data|
      && (forall i :: 0 <= i < |data| && data[i].id != dep.id ==> r.data[i] == data[i])
      && (forall i :: 0 <= i < |data| && data[i].id == dep.id ==>
            r.data[i] == dep.(id := Slug(name), name := name, description := Some(description)))
  {
    if !NameOk(name) then Reply(data, None)
    else
      var newId := Slug(name);
      var idChanged := newId != "" && newId != dep.id;
      if idChanged && Any(data, (d: Department) => d.id == newId) then
        Reply(data, Some("Another department already uses this name"))
      else
        var updated := dep.(id := if idChanged then newId else dep.id, name := name, description := Some(description));
        Reply(MapWhere(data, (d: Department) => d.id == dep.id, (d: Department) => updated), Some("Department updated"))
  }

  /** Saving keeps the ids unique. */
  lemma SaveKeepsIdsUnique(data: seq<Department>, dep: Department, name: string, description: string)
    requires UniqueIds(data)
    ensures UniqueIds(SaveDepartment(data, dep, name, description).data)
  {
    var r := SaveDepartment(data, dep, name, description).data;
    if NameOk(name) && !(Slug(name) != dep.id && HasId(data, Slug(name))) {
      forall i, j | 0 <= i < j < |r| ensures r[i].id != r[j].id {
        if data[i].id == dep.id && data[j].id == dep.id {
          assert false;
        } else if data[i].id == dep.id {
          assert r[j] == data[j];
        } else if data[j].id == dep.id {
          assert r[i] == data[i];
        }
      }
    }
  }

  // ---------------------------------------------------------------------------
  // The view
  // ---------------------------------------------------------------------------

  /** `dep.description` in a string: an absent one reads "undefined". */
  function DescriptionInText(d: Option<string>): string {
    match d
    case None => "undefined"
    case Some(s) => s
  }

  /** The doctor test with the trimmed, lower-cased query. */
  predicate DoctorKept(q: string, dep: Department, d: Doctor) {
    q == "" || Contains(ToLower(dep.name + " " + DescriptionInText(dep.description) + " " + d.name + " "
                                + d.email + " " + DocStatusName(d.status)), q)
  }

  function DoctorNameKey(d: Doctor): Key {
    StringKey(d.name)
  }

  /** A department as the view shows it: its matching doctors, by name. */
  function Shape(q: string, dep: Department): (v: Department)
    ensures v.id == dep.id && v.name == dep.name && v.description == dep.description
    ensures SortedBy(v.doctors, DoctorNameKey, false)
    ensures forall d :: d in v.doctors <==> d in dep.doctors && DoctorKept(q, dep, d)
  {
    var kept := Filter(dep.doctors, (d: Doctor) => DoctorKept(q, dep, d));
    FilterMembers(dep.doctors, (d: Doctor) => DoctorKept(q, dep, d));
    SortByMembers(kept, DoctorNameKey, false);
    dep.(doctors := SortBy(kept, DoctorNameKey, false))
  }

  /** The department test, on the shaped department. */
  predicate DepartmentKept(q: string, v: Department) {
    q == "" || Contains(ToLower(v.name + " " + v.description.GetOr("")), q) || |v.doctors| > 0
  }

  function DepNameKey(d: Department): Key {
    StringKey(d.name)
  }

  function ShapeAll(q: string, data: seq<Department>): seq<Department> {
    Map(data, (d: Department) => Shape(q, d))
  }

  /** `departments`: the shaped departments that match, by name in the
      chosen direction. */
  function View(data: seq<Department>, search: string, desc: bool): (r: seq<Department>)
    ensures SortedBy(r, DepNameKey, desc)
    ensures forall v :: v in r <==> v in ShapeAll(ToLower(Trim(search)), data) && DepartmentKept(ToLower(Trim(search)), v)
  {
    var q := ToLower(Trim(search));
    var shaped := ShapeAll(q, data);
    var kept := Filter(shaped, (v: Department) => DepartmentKept(q, v));
    FilterMembers(shaped, (v: Department) => DepartmentKept(q, v));
    SortByMembers(kept, DepNameKey, desc);
    SortBy(kept, DepNameKey, desc)
  }

  /** With a blank search every department is in the view, with all its doctors. */
  lemma BlankSearchKeepsEvery(data: seq<Department>, search: string, desc: bool, i: int)
    requires IsBlank(search) && 0 <= i < |data|
    ensures Shape("", data[i]) in View(data, search, desc)
    ensures multiset(Shape("", data[i]).doctors) == multiset(data[i].doctors)
  {
    BlankIffTrimEmpty(search);
    var q := ToLower(Trim(search));
    assert q == "";
    assert ShapeAll(q, data)[i] == Shape(q, data[i]);
    FilterAll(data[i].doctors, (d: Doctor) => DoctorKept("", data[i], d));
  }

  /** `departments` is a `computed()` whose one signal is the data; it reads
      the search box and the sort control through `.value`, which is no
      signal. */
  const ViewOf: (seq<Department>, (string, bool)) -> seq<Department> :=
    (data: seq<Department>, u: (string, bool)) => View(data, u.0, u.1)

  /** As written, once the view is on screen typing in the search box alone
      leaves it as it was: a department without doctors is still listed
      after a search longer than its name and description, whereas no
      department matches that search. Changing the data runs it again
      (`Computed.TrackedRefreshes`). */
  lemma SearchNotShown(dep: Department, q: string, desc: bool)
    requires dep.doctors == []
    requires |ToLower(Trim(q))| > |dep.name + " " + dep.description.GetOr("")|
    ensures var c := Read(New([dep], ("", desc)));
      && Reading(c, ViewOf) == [dep]
      && Reading(SetUntracked(c, (q, desc)), ViewOf) == [dep]
      && View([dep], q, desc) == []
  {
    var c := Read(New([dep], ("", desc)));
    assert IsBlank("");
    BlankSearchKeepsEvery([dep], "", desc, 0);
    assert Shape("", dep) == dep;
    OnlyDepartment(dep, "", desc);
    UntrackedNotSeen(c, (q, desc), ViewOf);
    var k := ToLower(Trim(q));
    ContainsNoLonger(ToLower(dep.name + " " + dep.description.GetOr("")), k);
    assert Shape(k, dep).doctors == [];
    assert !DepartmentKept(k, Shape(k, dep));
    assert ShapeAll(k, [dep]) == [Shape(k, dep)];
  }

  /** A view of one department that it lists is that department alone. */
  lemma OnlyDepartment(dep: Department, q: string, desc: bool)
    requires dep in View([dep], q, desc) && ShapeAll(ToLower(Trim(q)), [dep]) == [dep]
    ensures View([dep], q, desc) == [dep]
  {
    var v := View([dep], q, desc);
    var k := ToLower(Trim(q));
    assert Filter([dep], (x: Department) => DepartmentKept(k, x)) == [dep];
    assert |v| == 1;
  }

  // ---------------------------------------------------------------------------
  // Removing and (de)activating
  // ---------------------------------------------------------------------------

  /** `removeDepartment(dep)`: the departments with another id, in order. */
  function RemoveDepartment(data: seq<Department>, dep: Department): (r: Reply)
    ensures forall d :: d in r.data <==> d in data && d.id != dep.id
    ensures !HasId(r.data, dep.id)
    ensures r.toast == Some("Removed " + dep.name)
  {
    var kept := Filter(data, (d: Department) => d.id != dep.id);
    FilterMembers(data, (d: Department) => d.id != dep.id);
    Reply(kept, Some("Removed " + dep.name))
  }

  /** `activateDoctor` and `deactivateDoctor`: the doctor record with that
      id gets the status, wherever it is listed. */
  function SetDoctorStatus(data: seq<Department>, doc: Doctor, status: DocStatus): (r: Reply)
    ensures |r.data| == |data|
    ensures forall i :: 0 <= i < |data| ==>
      r.data[i].id == data[i].id && r.data[i].name == data[i].name && |r.data[i].doctors| == |data[i].doctors|
    ensures forall i, k :: 0 <= i < |data| && 0 <= k < |data[i].doctors| ==>
      r.data[i].doctors[k] == if data[i].doctors[k].id == doc.id then data[i].doctors[k].(status := status) else data[i].doctors[k]
    ensures r.toast == Some((if status == Active then "Activated " else "Deactivated ") + doc.name)
  {
    var data' := Map(data, (dep: Department) =>
      dep.(doctors := MapWhere(dep.doctors, (d: Doctor) => d.id == doc.id, (d: Doctor) => d.(status := status))));
    Reply(data', Some((if status == Active then "Activated " else "Deactivated ") + doc.name))
  }
}

=== FILE: doctorappointments.dfy ===
/** The doctor's appointments page: the tab, modality, status and text
    filters, the join window, the countdown, and the status and note updates.
    Times are milliseconds since the epoch; the current time and the bounds
    of today in local time are parameters. */
module DoctorAppointments {
  import opened Wrappers
  import opened JsText
  import opened Seqs
  import opened Sorting
  import opened Slots
  import opened Visits

  datatype Status = Scheduled | CheckedIn | InProgress | Completed | Canceled | NoShow

  /** The status as the page spells it. */
  function StatusName(s: Status): string {
    match s
    case Scheduled => "scheduled"
    case CheckedIn => "checked_in"
    case InProgress => "in_progress"
    case Completed => "completed"
    case Canceled => "canceled"
    case NoShow => "no_show"
  }

  /** The fields of an appointment the page's logic reads. */
  datatype Appointment = Appointment(
    id: string, patientName: string, start: int, end: int, modality: Modality, status: Status,
    reason: Option<string>, notesByDoctor: Option<string>, joinUrl: Option<string>, updatedAt: int)

  function StartKey(a: Appointment): Key {
    [a.start]
  }

  // ---------------------------------------------------------------------------
  // Filters
  // ---------------------------------------------------------------------------

  datatype Tab = Today | Upcoming | Past | All

  /** The page's filter state; `None` is `'any'`. */
  datatype Filters = Filters(query: string, tab: Tab, modality: Option<Modality>, status: Option<Status>)

  /** The local day the `today` tab shows, `[todayStart, todayEnd]` in ms. */
  datatype Day = Day(first: int, last: int)

  /** `okTab`. */
  predicate TabOk(tab: Tab, start: int, now: int, today: Day) {
    match tab
    case Today => today.first <= start <= today.last
    case Upcoming => start > now
    case Past => start < now
    case All => true
  }

  /** `okQ`: an empty query, or the patient's name or the reason contains it. */
  predicate QueryOk(query: string, a: Appointment) {
    query == "" || Contains(ToLower(a.patientName), query) || Contains(ToLower(a.reason.GetOr("")), query)
  }

  /** `okMod && okStatus && okQ`: the tests that do not depend on the tab. */
  predicate Matches(query: string, modality: Option<Modality>, status: Option<Status>, a: Appointment) {
    (modality.None? || a.modality == modality.value)
    && (status.None? || a.status == status.value)
    && QueryOk(ToLower(Trim(query)), a)
  }

  /** The whole test `filtered` applies to one appointment. */
  predicate Shown(f: Filters, a: Appointment, now: int, today: Day) {
    TabOk(f.tab, a.start, now, today) && Matches(f.query, f.modality, f.status, a)
  }

  /** `filtered`: the appointments that pass, soonest first. */
  function Filtered(all: seq<Appointment>, f: Filters, now: int, today: Day): (r: seq<Appointment>)
    ensures SortedBy(r, StartKey, false)
    ensures forall a :: a in r <==> a in all && Shown(f, a, now, today)
  {
    var kept := Filter(all, a => Shown(f, a, now, today));
    FilterMembers(all, a => Shown(f, a, now, today));
    SortByMembers(kept, StartKey, false);
    SortBy(kept, StartKey, false)
  }

  /** An appointment starting exactly now is in neither the upcoming nor the past tab. */
  lemma StartingNowIsInNeitherTab(a: Appointment, f: Filters, now: int, today: Day)
    requires a.start == now
    ensures !Shown(f.(tab := Upcoming), a, now, today) && !Shown(f.(tab := Past), a, now, today)
  {
  }

  /** With the other filters fixed, an appointment in the upcoming or the
      past tab is in the all tab, no appointment is in both, and one in the
      all tab that does not start exactly now is in one of them. */
  lemma TabsSplitAll(f: Filters, a: Appointment, now: int, today: Day)
    ensures Shown(f.(tab := Upcoming), a, now, today) ==> Shown(f.(tab := All), a, now, today)
    ensures Shown(f.(tab := Past), a, now, today) ==> Shown(f.(tab := All), a, now, today)
    ensures !(Shown(f.(tab := Upcoming), a, now, today) && Shown(f.(tab := Past), a, now, today))
    ensures Shown(f.(tab := All), a, now, today) && a.start != now
      ==> Shown(f.(tab := Upcoming), a, now, today) || Shown(f.(tab := Past), a, now, today)
  {
  }

  /** A blank query hides nothing: the query only narrows. */
  lemma BlankQueryShowsAll(f: Filters, a: Appointment, now: int, today: Day)
    requires IsBlank(f.query)
    ensures Shown(f, a, now, today) <==> Shown(f.(query := ""), a, now, today)
  {
    BlankIffTrimEmpty(f.query);
    BlankIffTrimEmpty("");
  }

  // ---------------------------------------------------------------------------
  // Join window and countdown
  // ---------------------------------------------------------------------------

  /** The statuses in which a visit can still be joined. */
  predicate Joinable(s: Status) {
    s == Scheduled || s == CheckedIn || s == InProgress
  }

  /** `canJoin`. */
  predicate CanJoin(a: Appointment, now: int) {
    Joinable(a.status) && InJoinWindow(a.start, a.end, now)
  }

  /** `countdown`. */
  function Countdown(a: Appointment, now: int): (r: string)
    ensures a.start <= now ==> r == "Now"
  {
    Visits.Countdown(a.start, now, "Now")
  }

  // ---------------------------------------------------------------------------
  // Updates
  // ---------------------------------------------------------------------------

  /** The list after a status change and the snack-bar text. */
  datatype Update = Update(all: seq<Appointment>, toast: string)

  /** `mark(a, status)`; `now` is the stamp. */
  function Mark(all: seq<Appointment>, id: string, status: Status, now: int): (r: Update)
    ensures |r.all| == |all|
    ensures r.toast == "Marked " + ReplaceFirst(StatusName(status), '_', ' ')
  {
    Update(MapWhere(all, (x: Appointment) => x.id == id, (x: Appointment) => x.(status := status, updatedAt := now)),
           "Marked " + ReplaceFirst(StatusName(status), '_', ' '))
  }

  /** Marking changes only the status and the stamp of the appointments with that id. */
  lemma MarkOnlyThatId(all: seq<Appointment>, id: string, status: Status, now: int)
    ensures var r := Mark(all, id, status, now).all;
      forall i :: 0 <= i < |all| ==>
        r[i] == (if all[i].id == id then all[i].(status := status, updatedAt := now) else all[i])
  {
  }

  /** What `join` navigates to. */
  datatype JoinAction = Stay | Navigate(url: string) | OpenTab(url: string)

  /** `join(a)`: outside the window nothing happens; inside, a visit not yet
      in progress is marked so, and the meeting is opened. */
  function Join(all: seq<Appointment>, a: Appointment, now: int): (r: (seq<Appointment>, JoinAction))
    ensures !CanJoin(a, now) ==> r == (all, Stay)
    ensures CanJoin(a, now) && a.status == InProgress ==> r.0 == all
    ensures CanJoin(a, now) && a.status != InProgress ==> r.0 == Mark(all, a.id, InProgress, now).all
    ensures CanJoin(a, now) ==> !r.1.Stay? && r.1.url == OrEmpty(a.joinUrl)
    ensures CanJoin(a, now) ==> (r.1.Navigate? <==> StartsWith(OrEmpty(a.joinUrl), "/"))
  {
    if !CanJoin(a, now) then (all, Stay)
    else
      var list := if a.status != InProgress then Mark(all, a.id, InProgress, now).all else all;
      var url := OrEmpty(a.joinUrl);
      (list, if StartsWith(url, "/") then Navigate(url) else OpenTab(url))
  }

  /** Joining leaves the joined visit in progress and still joinable. */
  lemma JoinKeepsItJoinable(all: seq<Appointment>, a: Appointment, now: int, i: int)
    requires CanJoin(a, now) && a in all && 0 <= i < |all| && all[i].id == a.id
    requires all[i].start == a.start && all[i].end == a.end
    ensures var r := Join(all, a, now).0;
      r[i].status == InProgress || r[i] == all[i]
    ensures a.status != InProgress ==> Join(all, a, now).0[i].status == InProgress
    ensures a.status != InProgress ==> CanJoin(Join(all, a, now).0[i], now)
  {
    MarkOnlyThatId(all, a.id, InProgress, now);
  }

  /** `saveDoctorNote(a, note)`. */
  function SaveDoctorNote(all: seq<Appointment>, id: string, note: string, now: int): (r: seq<Appointment>)
    ensures |r| == |all|
  {
    MapWhere(all, (x: Appointment) => x.id == id, (x: Appointment) => x.(notesByDoctor := Some(note), updatedAt := now))
  }

  /** Saving a note changes only the note and the stamp of the appointments with that id. */
  lemma SaveNoteOnlyThatId(all: seq<Appointment>, id: string, note: string, now: int)
    ensures var r := SaveDoctorNote(all, id, note, now);
      forall i :: 0 <= i < |all| ==>
        r[i] == (if all[i].id == id then all[i].(notesByDoctor := Some(note), updatedAt := now) else all[i])
  {
  }
}

=== FILE: doctornotifications.dfy ===
/** The doctor's notification list: the kind and text filters, newest-first
    order, read flags and clearing. Times are milliseconds since the epoch. */
module DoctorNotifications {
  import opened Wrappers
  import opened JsText
  import opened Seqs
  import opened Sorting

  datatype Kind = Appointment | Review | Mention | System

  datatype Noti = Noti(id: string, kind: Kind, title: string, body: string, time: int, read: bool)

  /** The kind filter; `None` is `'all'`. */
  predicate KindOk(f: Option<Kind>, n: Noti) {
    f.None? || n.kind == f.value
  }

  /** The text test with the trimmed, lower-cased query. */
  predicate TextOk(q: string, n: Noti) {
    q == "" || Contains(ToLower(n.title), q) || Contains(ToLower(n.body), q)
  }

  predicate Shows(f: Option<Kind>, query: string, n: Noti) {
    KindOk(f, n) && TextOk(ToLower(Trim(query)), n)
  }

  function TimeKey(n: Noti): Key {
    [n.time]
  }

  /** `filtered`: the notifications of the chosen kind whose title or body
      contains the query, newest first. */
  function Filtered(all: seq<Noti>, f: Option<Kind>, query: string): (r: seq<Noti>)
    ensures SortedBy(r, TimeKey, true)
    ensures forall n :: n in r <==> n in all && Shows(f, query, n)
    ensures |r| <= |all|
  {
    var kept := Filter(all, (n: Noti) => Shows(f, query, n));
    FilterMembers(all, (n: Noti) => Shows(f, query, n));
    SortByMembers(kept, TimeKey, true);
    SortBy(kept, TimeKey, true)
  }

  /** With `'all'` and a blank query, every notification is listed. */
  lemma NoFilterListsAll(all: seq<Noti>, query: string, n: Noti)
    requires IsBlank(query) && n in all
    ensures n in Filtered(all, None, query)
  {
    BlankIffTrimEmpty(query);
  }

  /** `markRead(n)`: the notifications with that id become read. */
  function MarkRead(all: seq<Noti>, id: string): (r: seq<Noti>)
    ensures |r| == |all|
    ensures forall i :: 0 <= i < |all| && all[i].id == id ==> r[i] == all[i].(read := true)
    ensures forall i :: 0 <= i < |all| && all[i].id != id ==> r[i] == all[i]
  {
    MapWhere(all, (x: Noti) => x.id == id, (x: Noti) => x.(read := true))
  }

  lemma MarkReadIdempotent(all: seq<Noti>, id: string)
    ensures MarkRead(MarkRead(all, id), id) == MarkRead(all, id)
  {
  }

  /** `toggleRead(n)`: the read flag of the notifications with that id flips. */
  function ToggleRead(all: seq<Noti>, id: string): (r: seq<Noti>)
    ensures |r| == |all|
    ensures forall i :: 0 <= i < |all| && all[i].id == id ==> r[i].read == !all[i].read
    ensures forall i :: 0 <= i < |all| && all[i].id == id ==> r[i].(read := all[i].read) == all[i]
    ensures forall i :: 0 <= i < |all| && all[i].id != id ==> r[i] == all[i]
  {
    MapWhere(all, (x: Noti) => x.id == id, (x: Noti) => x.(read := !x.read))
  }

  /** Toggling twice gives the list back. */
  lemma ToggleTwice(all: seq<Noti>, id: string)
    ensures ToggleRead(ToggleRead(all, id), id) == all
  {
    var r := ToggleRead(ToggleRead(all, id), id);
    assert forall i :: 0 <= i < |all| ==> r[i] == all[i];
  }

  /** `clear(kind)` after the confirm dialog: no kind or `'all'` (`None`)
      empties the list, a kind removes exactly the notifications of that
      kind. `confirmed` is the dialog's answer. */
  function Clear(all: seq<Noti>, kind: Option<Kind>, confirmed: bool): (r: seq<Noti>)
    ensures !confirmed ==> r == all
    ensures confirmed && kind.None? ==> r == []
    ensures confirmed && kind.Some? ==> forall n :: n in r <==> n in all && n.kind != kind.value
    ensures confirmed && kind.Some? ==> |r| == |all| - Count(all, (n: Noti) => n.kind == kind.value)
  {
    if !confirmed then all
    else if kind.None? then []
    else
      var k := kind.value;
      FilterMembers(all, (n: Noti) => n.kind != k);
      FilterSplit(all, (n: Noti) => n.kind != k, (n: Noti) => n.kind == k);
      assert |multiset(Filter(all, (n: Noti) => n.kind != k))| + |multiset(Filter(all, (n: Noti) => n.kind == k))| == |multiset(all)|;
      Filter(all, (n: Noti) => n.kind != k)
  }

  /** After clearing one kind, filtering on that kind shows nothing, and the
      other kinds show as before. */
  lemma ClearKindEmptiesItsFilter(all: seq<Noti>, k: Kind, query: string, n: Noti)
    ensures n !in Filtered(Clear(all, Some(k), true), Some(k), query)
    ensures n.kind != k ==>
      (n in Filtered(Clear(all, Some(k), true), None, query) <==> n in Filtered(all, None, query))
  {
  }
}

=== FILE: doctorpage.dfy ===
/** The patient's view of a doctor: the week of slots, the soonest slot over
    this demo week and the other one, the price of the selected modality and
    the hand-over to the booking wizard. */
module DoctorPage {
  import opened Wrappers
  import opened Seqs
  import opened Sorting
  import opened Slots
  import opened Prices

  /** The page state: the patient's country, the selected modality (video
      when the page opens) and the visible week. */
  datatype Page = Page(country: Country, modality: Modality, weekIndex: int)

  function Open(country: Country): Page {
    Page(country, Video, 0)
  }

  /** `makeSlotsForWeek(seedOffset)` of this page; `ids` stands for the five `uid()` values. */
  function MakeSlotsForWeek(seed: int, ids: seq<string>): (r: seq<Slot>)
    requires seed >= 0 && |ids| == 5
    ensures |r| == 5
    ensures forall i :: 0 <= i < |r| ==> 0 <= r[i].dayIdx < 7 && r[i].duration == 25 && r[i].id == ids[i]
  {
    [ Slot(ids[0], SeededDay(0, seed), "09:00", 25, [Chat, Voice], ""),
      Slot(ids[1], SeededDay(0, seed), "10:30", 25, [Video], ""),
      Slot(ids[2], SeededDay(2, seed), "14:00", 25, [Voice, Video], ""),
      Slot(ids[3], SeededDay(3, seed), "16:30", 25, [Chat], ""),
      Slot(ids[4], SeededDay(5, seed), "18:00", 25, [Chat, Video], "") ]
  }

  // ---------------------------------------------------------------------------
  // Soonest slot
  // ---------------------------------------------------------------------------

  /** The key of `a.dayIdx - b.dayIdx || a.start.localeCompare(b.start)`. */
  function DayStartKey(s: Slot): Key {
    [s.dayIdx] + StringKey(s.start)
  }

  /** The key orders by day first and by start within a day. */
  lemma DayStartOrder(a: Slot, b: Slot)
    ensures LexLe(DayStartKey(a), DayStartKey(b))
      <==> a.dayIdx < b.dayIdx || (a.dayIdx == b.dayIdx && LexLe(StringKey(a.start), StringKey(b.start)))
  {
    assert DayStartKey(a)[1..] == StringKey(a.start);
    assert DayStartKey(b)[1..] == StringKey(b.start);
  }

  /** `nextAvailable`: the first slot of both weeks sorted by day, then start;
      `sorted[0] ?? null`. */
  function NextAvailable(thisWeek: seq<Slot>, otherWeek: seq<Slot>): (r: Option<Slot>)
    ensures r.None? <==> |thisWeek| + |otherWeek| == 0
    ensures r.Some? ==> r.value in thisWeek + otherWeek
    ensures r.Some? ==> forall x :: x in thisWeek + otherWeek ==> LexLe(DayStartKey(r.value), DayStartKey(x))
  {
    var all := thisWeek + otherWeek;
    var sorted := SortBy(all, DayStartKey, false);
    if |sorted| == 0 then None
    else
      SortByMembers(all, DayStartKey, false);
      FirstIsLeast(sorted);
      Some(sorted[0])
  }

  /** The head of a list sorted by the key is at most every member. */
  lemma FirstIsLeast(s: seq<Slot>)
    requires SortedBy(s, DayStartKey, false) && |s| > 0
    ensures forall x :: x in s ==> LexLe(DayStartKey(s[0]), DayStartKey(x))
  {
    forall x | x in s ensures LexLe(DayStartKey(s[0]), DayStartKey(x)) {
      var k := PositionOf(x, s);
      if k == 0 {
        LexLeRefl(DayStartKey(x));
      }
    }
  }

  /** No slot of either week comes strictly before the one `nextAvailable`
      picks: none is on an earlier day, and none on its day starts earlier. */
  lemma NextAvailableIsSoonest(thisWeek: seq<Slot>, otherWeek: seq<Slot>, x: Slot)
    requires x in thisWeek + otherWeek
    ensures var r := NextAvailable(thisWeek, otherWeek);
      r.Some? && r.value.dayIdx <= x.dayIdx
      && (r.value.dayIdx == x.dayIdx ==> LexLe(StringKey(r.value.start), StringKey(x.start)))
  {
    var r := NextAvailable(thisWeek, otherWeek);
    DayStartOrder(r.value, x);
  }

  /** `nextAvailable` over this page's two demo weeks always finds a slot. */
  function DemoNextAvailable(p: Page, ids: seq<string>, nextIds: seq<string>): (r: Option<Slot>)
    requires |ids| == 5 && |nextIds| == 5
    ensures r.Some?
  {
    var w := if p.weekIndex < 0 then -p.weekIndex else p.weekIndex;
    NextAvailable(MakeSlotsForWeek(w % 2, ids), MakeSlotsForWeek((w + 1) % 2, nextIds))
  }

  // ---------------------------------------------------------------------------
  // Modality, price, cards, booking
  // ---------------------------------------------------------------------------

  /** `pickModality(m)`: select it and say so. */
  function PickModality(p: Page, m: Modality): (r: (Page, string))
    ensures r.0 == p.(modality := m)
    ensures r.1 == "Selected " + ModalityName(m)
  {
    (p.(modality := m), "Selected " + ModalityName(m))
  }

  /** `price()`: there is always a selected modality, so always a quote. */
  function Price(t: Table, p: Page): (q: Quote)
    ensures q.currency == SheetFor(t, p.country).currency
    ensures q.value == PriceOf(SheetFor(t, p.country), p.modality)
  {
    QuoteFor(t, p.country, p.modality)
  }

  /** `classFor(s)` of this page: the shared classes and `incompatible`. */
  datatype Card = Card(classes: Classes, incompatible: bool)

  function CardFor(p: Page, s: Slot): (r: Card)
    ensures r.classes == ClassFor(s)
    ensures r.incompatible <==> p.modality !in s.modalities
  {
    Card(ClassFor(s), Incompatible(Some(p.modality), s))
  }

  /** `router.navigate(['/patient/booking', id], { queryParams: { m } })`. */
  datatype Navigation = Navigation(path: seq<string>, m: string)

  /** `bookNow(mod?)`: an explicit modality is selected first, and the
      navigation carries the modality selected afterwards. */
  function BookNow(p: Page, doctorId: string, mod: Option<Modality>): (r: (Page, Navigation))
    ensures r.0.modality == mod.GetOr(p.modality)
    ensures r.0.country == p.country && r.0.weekIndex == p.weekIndex
    ensures r.1 == Navigation(["/patient/booking", doctorId], ModalityName(r.0.modality))
  {
    var q := if mod.Some? then p.(modality := mod.value) else p;
    (q, Navigation(["/patient/booking", doctorId], ModalityName(q.modality)))
  }

  /** The modality in the booking link is the one the price is shown for, and
      it is read back as the modality chosen. */
  lemma BookNowCarriesTheModality(t: Table, p: Page, doctorId: string, mod: Option<Modality>, m: Modality)
    requires ModalityName(m) == BookNow(p, doctorId, mod).1.m
    ensures m == mod.GetOr(p.modality)
    ensures Price(t, BookNow(p, doctorId, mod).0) == QuoteFor(t, p.country, m)
  {
    ModalityNameInjective(m, BookNow(p, doctorId, mod).0.modality);
  }
}

=== FILE: doctorprofileservice.dfy ===
/** The doctor profile cache of `DoctorProfileService`: the profile record,
    the completeness predicate `computeLocked` that gates the doctor area,
    and the transitions of the three subjects (profile, locked, loading)
    under load, refresh, update and markAsUnlocked. The HTTP response and the
    stored token are inputs. */
module DoctorProfileService {
  import opened Wrappers
  import opened JsText
  import opened HttpErrors
  import Seqs

  /** `PricingServiceType`. */
  datatype Service = Chat | Voice | Video

  /** One price entry; `price` may be null on the wire. */
  datatype Pricing = Pricing(service: Service, currency: string, price: Option<int>)

  datatype Availability = Availability(chat: bool, voice: bool, video: bool)

  /** The fields of `DoctorProfile` that the completeness rule and the editor read. */
  datatype DoctorProfile = DoctorProfile(
    title: Option<string>,
    bio: Option<string>,
    phone: Option<string>,
    yearsOfExperience: Option<int>,
    licenseNumber: Option<string>,
    avatarUrl: Option<string>,
    departmentId: Option<int>,
    languages: Option<seq<string>>,
    hospitals: Option<seq<string>>,
    education: Option<seq<string>>,
    certificates: Option<seq<string>>,
    pricing: Option<seq<Pricing>>,
    availability: Option<Availability>)

  // ---------------------------------------------------------------------------
  // computeLocked
  // ---------------------------------------------------------------------------

  /** `field?.trim()` is truthy: present and not blank. */
  predicate Filled(s: Option<string>) {
    s.Some? && !IsBlank(s.value)
  }

  /** A numeric field is truthy: present and non-zero. */
  predicate NumTruthy(n: Option<int>) {
    n.Some? && n.value != 0
  }

  predicate HasBasics(p: DoctorProfile) {
    && Filled(p.title) && Filled(p.bio) && Filled(p.phone)
    && NumTruthy(p.departmentId)
    && p.yearsOfExperience.Some? && p.yearsOfExperience.value > 0
    && Filled(p.licenseNumber) && Filled(p.avatarUrl)
  }

  predicate HasLanguages(p: DoctorProfile) {
    p.languages.Some? && |p.languages.value| > 0
  }

  predicate HasPricing(pricing: Option<seq<Pricing>>) {
    pricing.Some? && |pricing.value| > 0
  }

  /** An entry that prices service s: non-blank currency and a positive price. */
  predicate ValidFor(e: Pricing, s: Service) {
    e.service == s && !IsBlank(e.currency) && e.price.Some? && e.price.value > 0
  }

  /** The entry is valid for the service it names. */
  predicate PricesSomething(e: Pricing) {
    ValidFor(e, e.service)
  }

  predicate Covers(pricing: seq<Pricing>, s: Service) {
    exists i :: 0 <= i < |pricing| && ValidFor(pricing[i], s)
  }

  predicate AllServicesCovered(pricing: Option<seq<Pricing>>) {
    pricing.Some? && Covers(pricing.value, Chat) && Covers(pricing.value, Voice)
    && Covers(pricing.value, Video)
  }

  predicate HasAvailability(p: DoctorProfile) {
    p.availability.Some? && (p.availability.value.chat || p.availability.value.voice || p.availability.value.video)
  }

  /** The profile satisfies all five groups of requirements. */
  predicate Complete(p: DoctorProfile) {
    HasBasics(p) && HasLanguages(p) && HasPricing(p.pricing) && AllServicesCovered(p.pricing) && HasAvailability(p)
  }

  /** `computeLocked`: the doctor area stays locked unless a complete profile is present. */
  function ComputeLocked(profile: Option<DoctorProfile>): (locked: bool)
    ensures profile.None? ==> locked
    ensures !locked <==> profile.Some? && Complete(profile.value)
  {
    match profile
    case None => true
    case Some(p) => !Complete(p)
  }

  /** An unlocked profile has every text field filled, a department, a positive
      experience, a language, a valid price for each of the three services and
      at least one of chat, voice and video switched on. */
  lemma UnlockedMeansComplete(p: DoctorProfile, s: Service)
    requires !ComputeLocked(Some(p))
    ensures Filled(p.title) && Filled(p.bio) && Filled(p.phone)
    ensures Filled(p.licenseNumber) && Filled(p.avatarUrl)
    ensures p.departmentId.Some? && p.departmentId.value != 0
    ensures p.yearsOfExperience.Some? && p.yearsOfExperience.value > 0
    ensures p.languages.Some? && |p.languages.value| > 0
    ensures p.pricing.Some? && exists i :: 0 <= i < |p.pricing.value| && ValidFor(p.pricing.value[i], s)
    ensures p.availability.Some?
    ensures p.availability.value.chat || p.availability.value.voice || p.availability.value.video
  {
  }

  /** Blanking out any single required text field locks an unlocked profile. */
  lemma BlankFieldLocks(p: DoctorProfile, blank: Option<string>)
    requires blank.None? || IsBlank(blank.value)
    ensures ComputeLocked(Some(p.(title := blank)))
    ensures ComputeLocked(Some(p.(bio := blank)))
    ensures ComputeLocked(Some(p.(phone := blank)))
    ensures ComputeLocked(Some(p.(licenseNumber := blank)))
    ensures ComputeLocked(Some(p.(avatarUrl := blank)))
  {
  }

  /** Department 0, a non-positive or missing experience, no languages or
      no availability each lock the profile. */
  lemma MissingNumbersLock(p: DoctorProfile, years: int)
    requires years <= 0
    ensures ComputeLocked(Some(p.(departmentId := None))) && ComputeLocked(Some(p.(departmentId := Some(0))))
    ensures ComputeLocked(Some(p.(yearsOfExperience := None))) && ComputeLocked(Some(p.(yearsOfExperience := Some(years))))
    ensures ComputeLocked(Some(p.(languages := None))) && ComputeLocked(Some(p.(languages := Some([]))))
    ensures ComputeLocked(Some(p.(pricing := None))) && ComputeLocked(Some(p.(pricing := Some([]))))
    ensures ComputeLocked(Some(p.(availability := None)))
    ensures ComputeLocked(Some(p.(availability := Some(Availability(false, false, false)))))
  {
  }

  /** Entries that price nothing are irrelevant: dropping every entry that is
      not valid for its own service leaves the lock state as it was. */
  lemma InvalidPricesIrrelevant(p: DoctorProfile)
    requires p.pricing.Some?
    ensures var kept := Seqs.Filter(p.pricing.value, PricesSomething);
      ComputeLocked(Some(p.(pricing := Some(kept)))) == ComputeLocked(Some(p))
  {
    var all := p.pricing.value;
    var kept := Seqs.Filter(all, PricesSomething);
    KeptCoverage(all, Chat);
    KeptCoverage(all, Voice);
    KeptCoverage(all, Video);
    SamePricingVerdict(p, p.(pricing := Some(kept)));
  }

  /** The lock depends on the pricing only through HasPricing and AllServicesCovered. */
  lemma SamePricingVerdict(p: DoctorProfile, q: DoctorProfile)
    requires q == p.(pricing := q.pricing)
    requires (HasPricing(q.pricing) && AllServicesCovered(q.pricing)) ==
             (HasPricing(p.pricing) && AllServicesCovered(p.pricing))
    ensures ComputeLocked(Some(q)) == ComputeLocked(Some(p))
  {
    assert HasBasics(q) == HasBasics(p);
  }

  lemma KeptCoverage(all: seq<Pricing>, s: Service)
    ensures var kept := Seqs.Filter(all, PricesSomething);
      (Covers(kept, s) <==> Covers(all, s)) && (Covers(kept, s) ==> |kept| > 0)
  {
    var kept := Seqs.Filter(all, PricesSomething);
    if Covers(all, s) {
      var i :| 0 <= i < |all| && ValidFor(all[i], s);
      assert PricesSomething(all[i]);
      assert all[i] in kept;
      var j :| 0 <= j < |kept| && kept[j] == all[i];
      assert ValidFor(kept[j], s);
    }
    if Covers(kept, s) {
      var j :| 0 <= j < |kept| && ValidFor(kept[j], s);
      assert kept[j] in all;
      var i :| 0 <= i < |all| && all[i] == kept[j];
      assert ValidFor(all[i], s);
    }
  }

  /** Adding a price entry never locks an unlocked profile. */
  lemma ExtraPriceKeepsUnlocked(p: DoctorProfile, e: Pricing)
    requires !ComputeLocked(Some(p))
    ensures !ComputeLocked(Some(p.(pricing := Some(p.pricing.value + [e]))))
  {
    var all := p.pricing.value;
    CoverageGrows(all, e, Chat);
    CoverageGrows(all, e, Voice);
    CoverageGrows(all, e, Video);
  }

  lemma CoverageGrows(all: seq<Pricing>, e: Pricing, s: Service)
    requires Covers(all, s)
    ensures Covers(all + [e], s)
  {
    var i :| 0 <= i < |all| && ValidFor(all[i], s);
    assert (all + [e])[i] == all[i];
  }

  // ---------------------------------------------------------------------------
  // The cache
  // ---------------------------------------------------------------------------

  /** The values of `profileSubject`, `lockedSubject` and `loadingSubject`. */
  datatype State = State(profile: Option<DoctorProfile>, locked: bool, loading: bool)

  /** The subjects' initial values. */
  const Initial := State(None, true, false)

  /** The locked flag agrees with the cached profile. */
  predicate Coherent(st: State) {
    st.locked == ComputeLocked(st.profile)
  }

  const SessionExpired := "Doctor session expired. Please log in again."
  const LoadFallback := "Unable to load doctor profile. Please try again."

  /** `auth.getToken()` is truthy. */
  predicate HasToken(token: Option<string>) {
    token.Some? && token.value != []
  }

  /** The first, synchronous half of `loadProfile`: answer from the cache, fail
      for want of a token, or mark loading and issue the request. */
  datatype LoadStart = Cached(profile: DoctorProfile) | NoSession | Pending(inFlight: State)

  function StartLoad(st: State, force: bool, token: Option<string>): (r: LoadStart)
    ensures st.profile.Some? && !force ==> r == Cached(st.profile.value)
    ensures r.NoSession? <==> (st.profile.None? || force) && !HasToken(token)
    ensures r.Pending? ==> r.inFlight == st.(loading := true)
  {
    if st.profile.Some? && !force then Cached(st.profile.value)
    else if !HasToken(token) then NoSession
    else Pending(st.(loading := true))
  }

  /** `handleError`: loading cleared, nothing else touched, message normalised. */
  function Fail(st: State, e: HttpError): (r: (State, Result<DoctorProfile, string>))
    ensures r.0 == st.(loading := false)
    ensures r.1 == Err(ErrorMessage(e, LoadFallback))
  {
    (st.(loading := false), Err(ErrorMessage(e, LoadFallback)))
  }

  /** The outcome of one of the service's observables: the new subject values,
      what the subscriber receives, and whether an HTTP request was sent. */
  datatype Outcome = Outcome(state: State, result: Result<DoctorProfile, string>, fetched: bool)

  /** `loadProfile(force)`, with `response` the server's answer should a request be sent. */
  function LoadProfile(st: State, force: bool, token: Option<string>,
                       response: Result<DoctorProfile, HttpError>): (o: Outcome)
    ensures st.profile.Some? && !force ==> o == Outcome(st, Ok(st.profile.value), false)
    ensures (st.profile.None? || force) && !HasToken(token) ==> o == Outcome(st, Err(SessionExpired), false)
    ensures o.fetched <==> (st.profile.None? || force) && HasToken(token)
    ensures o.fetched && response.Ok? ==>
      o.state == State(Some(response.value), ComputeLocked(Some(response.value)), false)
      && o.result == Ok(response.value)
    ensures o.fetched && response.Err? ==>
      o.state == st.(loading := false) && o.result == Err(ErrorMessage(response.error, LoadFallback))
    ensures Coherent(st) ==> Coherent(o.state)
  {
    match StartLoad(st, force, token)
    case Cached(p) => Outcome(st, Ok(p), false)
    case NoSession => Outcome(st, Err(SessionExpired), false)
    case Pending(inFlight) =>
      match response
      case Ok(p) => Outcome(State(Some(p), ComputeLocked(Some(p)), false), Ok(p), true)
      case Err(e) =>
        var (s2, r) := Fail(inFlight, e);
        Outcome(s2, r, true)
  }

  /** `refreshProfile`: clear the cache, lock, then force a load. */
  function RefreshProfile(st: State, token: Option<string>,
                          response: Result<DoctorProfile, HttpError>): (o: Outcome)
    ensures o.fetched <==> HasToken(token)
    ensures !HasToken(token) ==> o == Outcome(State(None, true, st.loading), Err(SessionExpired), false)
    ensures o.result.Err? ==> o.state.profile.None? && o.state.locked
    ensures o.result.Ok? ==> o.state.profile == Some(o.result.value)
    ensures Coherent(o.state)
  {
    LoadProfile(st.(profile := None, locked := true), true, token, response)
  }

  /** `updateProfile`: on success the profile and locked flag are published
      (loading is left alone); on failure only loading is cleared. */
  function UpdateProfile(st: State, token: Option<string>,
                         response: Result<DoctorProfile, HttpError>): (o: Outcome)
    ensures !HasToken(token) ==> o == Outcome(st, Err(SessionExpired), false)
    ensures HasToken(token) && response.Ok? ==>
      o.state == State(Some(response.value), ComputeLocked(Some(response.value)), st.loading)
      && o.result == Ok(response.value)
    ensures HasToken(token) && response.Err? ==>
      o.state == st.(loading := false) && o.result == Err(ErrorMessage(response.error, LoadFallback))
    ensures o.fetched <==> HasToken(token)
    ensures Coherent(st) ==> Coherent(o.state)
  {
    if !HasToken(token) then Outcome(st, Err(SessionExpired), false)
    else
      match response
      case Ok(p) => Outcome(State(Some(p), ComputeLocked(Some(p)), st.loading), Ok(p), true)
      case Err(e) =>
        var (s2, r) := Fail(st, e);
        Outcome(s2, r, true)
  }

  /** `markAsUnlocked`: recompute the flag from the cached profile. */
  function MarkAsUnlocked(st: State): (r: State)
    ensures Coherent(r)
    ensures r.profile == st.profile && r.loading == st.loading
    ensures Coherent(st) ==> r == st
  {
    st.(locked := ComputeLocked(st.profile))
  }

  /** `isProfileLocked(profile = current)`: `arg` is None when the argument is omitted. */
  function IsProfileLocked(st: State, arg: Option<Option<DoctorProfile>>): (locked: bool)
    ensures Coherent(st) && arg.None? ==> locked == st.locked
    ensures arg.Some? ==> (locked <==> !(arg.value.Some? && Complete(arg.value.value)))
  {
    ComputeLocked(arg.GetOr(st.profile))
  }

  /** The locked flag published by the service always agrees with the cached
      profile: it holds initially and every transition keeps it. */
  lemma CoherenceIsInvariant(st: State, force: bool, token: Option<string>,
                             response: Result<DoctorProfile, HttpError>)
    requires Coherent(st)
    ensures Coherent(Initial)
    ensures Coherent(LoadProfile(st, force, token, response).state)
    ensures Coherent(RefreshProfile(st, token, response).state)
    ensures Coherent(UpdateProfile(st, token, response).state)
    ensures Coherent(MarkAsUnlocked(st))
  {
  }

  /** Once a load has succeeded, the next non-forced load answers from the
      cache with the same profile and sends no request, whatever the token. */
  lemma SecondLoadIsCached(st: State, token: Option<string>, token2: Option<string>,
                           response: Result<DoctorProfile, HttpError>,
                           response2: Result<DoctorProfile, HttpError>)
    requires LoadProfile(st, false, token, response).result.Ok?
    ensures var o1 := LoadProfile(st, false, token, response);
      var o2 := LoadProfile(o1.state, false, token2, response2);
      !o2.fetched && o2.state == o1.state && o2.result == o1.result
  {
  }

  /** After a refresh fails the doctor area is locked, however complete the
      previously cached profile was. */
  lemma FailedRefreshLocks(st: State, token: Option<string>, e: HttpError)
    ensures RefreshProfile(st, token, Err(e)).state.locked
    ensures RefreshProfile(st, token, Err(e)).state.profile.None?
  {
  }
}

=== FILE: doctorrequests.dfy ===
/** The admin's queue of doctors' profile change requests: the text search,
    the sort by date, doctor or status in either direction, client-side pages,
    and the accept, reject and delete actions. */
module DoctorRequests {
  import opened Wrappers
  import opened JsText
  import opened Seqs
  import opened Sorting
  import opened Paging
  import opened Computed

  datatype ReqStatus = Pending | Approved | Rejected

  function StatusName(s: ReqStatus): string {
    match s
    case Pending => "Pending"
    case Approved => "Approved"
    case Rejected => "Rejected"
  }

  datatype FieldType = Name | Department | Bio | Photo | Pricing | ConsultationTypes
                     | Languages | Certificates | Experience | Location | Other

  function FieldName(f: FieldType): string {
    match f
    case Name => "Name"
    case Department => "Department"
    case Bio => "Bio"
    case Photo => "Photo"
    case Pricing => "Pricing"
    case ConsultationTypes => "Consultation Types"
    case Languages => "Languages"
    case Certificates => "Certificates"
    case Experience => "Experience"
    case Location => "Location"
    case Other => "Other"
  }

  /** The old or new value of a change: text or a whole number. */
  datatype Value = Text(s: string) | Number(n: int)

  /** `${v ?? ''}`. */
  function ValueText(v: Option<Value>): string {
    match v
    case None => ""
    case Some(Text(s)) => s
    case Some(Number(n)) => IntToString(n)
  }

  datatype Change = Change(field: FieldType, from: Option<Value>, to: Option<Value>)

  /** `submitted` is `None` when the date does not parse. */
  datatype Request = Request(id: string, doctorId: string, doctorName: string, email: string, phone: string,
                             submitted: Option<int>, status: ReqStatus, changes: seq<Change>)

  function ChangeText(c: Change): string {
    FieldName(c.field) + " " + ValueText(c.from) + " " + ValueText(c.to)
  }

  /** The text the search looks in: name, email, phone, status and every change. */
  function SearchText(r: Request): string {
    r.doctorName + " " + r.email + " " + r.phone + " " + StatusName(r.status) + " "
    + Join(Map(r.changes, ChangeText), " ")
  }

  datatype SortField = BySubmitted | ByDoctor | ByStatus
  datatype SortDir = Asc | Desc

  /** The page state. */
  datatype State = State(rows: seq<Request>, search: string, sortBy: SortField, sortDir: SortDir,
                         pageIndex: nat, pageSize: nat)

  // ---------------------------------------------------------------------------
  // Derived lists
  // ---------------------------------------------------------------------------

  predicate Hit(q: string, r: Request) {
    Contains(ToLower(SearchText(r)), q)
  }

  /** `filtered`: all rows, in order, for a blank search; otherwise the rows
      whose text contains the trimmed, lower-cased search. */
  function Filtered(rows: seq<Request>, search: string): (r: seq<Request>)
    ensures IsBlank(search) ==> r == rows
    ensures !IsBlank(search) ==> forall x :: x in r <==> x in rows && Hit(ToLower(Trim(search)), x)
  {
    var q := ToLower(Trim(search));
    BlankIffTrimEmpty(search);
    if q == "" then rows
    else
      FilterMembers(rows, (x: Request) => Hit(q, x));
      Filter(rows, (x: Request) => Hit(q, x))
  }

  /** The comparator's key: the time (an invalid date counts as 0), the
      lower-cased name, or the status name. */
  function SortKey(field: SortField): Request -> Key {
    match field
    case BySubmitted => (r: Request) => [r.submitted.GetOr(0)]
    case ByDoctor => (r: Request) => StringKey(ToLower(r.doctorName))
    case ByStatus => (r: Request) => StringKey(StatusName(r.status))
  }

  /** `sorted`: the filtered rows ordered by the chosen key; descending
      negates the comparator, so ties keep their order either way. */
  function Sorted(rows: seq<Request>, search: string, field: SortField, dir: SortDir): (r: seq<Request>)
    ensures SortedBy(r, SortKey(field), dir == Desc)
    ensures multiset(r) == multiset(Filtered(rows, search))
  {
    SortBy(Filtered(rows, search), SortKey(field), dir == Desc)
  }

  /** `page`: the page-index-th run of page-size rows of the sorted list. */
  function PageOf(st: State): (r: seq<Request>)
    ensures |r| <= st.pageSize
    ensures forall x :: x in r ==> x in multiset(Filtered(st.rows, st.search))
    ensures var s := Sorted(st.rows, st.search, st.sortBy, st.sortDir);
      && |r| == PageLength(|s|, st.pageIndex, st.pageSize)
      && forall k :: 0 <= k < |r| ==> PageStart(st.pageIndex, st.pageSize) + k < |s| && r[k] == s[PageStart(st.pageIndex, st.pageSize) + k]
  {
    var s := Sorted(st.rows, st.search, st.sortBy, st.sortDir);
    PageMembers(s, st.pageIndex, st.pageSize);
    assert forall x :: x in s ==> x in multiset(s);
    Page(s, st.pageIndex, st.pageSize)
  }

  /** A blank search pages through every row. */
  lemma BlankSearchPagesAll(st: State, x: Request)
    requires IsBlank(st.search) && x in PageOf(st)
    ensures x in st.rows
  {
  }

  // ---------------------------------------------------------------------------
  // Actions
  // ---------------------------------------------------------------------------

  /** `accept(r)` and `reject(r)`: the status of the requests with that id,
      and the snack-bar text. */
  function Decide(rows: seq<Request>, r: Request, status: ReqStatus): (u: (seq<Request>, string))
    ensures |u.0| == |rows|
    ensures forall i :: 0 <= i < |rows| && rows[i].id == r.id ==> u.0[i] == rows[i].(status := status)
    ensures forall i :: 0 <= i < |rows| && rows[i].id != r.id ==> u.0[i] == rows[i]
  {
    (MapWhere(rows, (x: Request) => x.id == r.id, (x: Request) => x.(status := status)),
     (if status == Approved then "Accepted " else "Rejected ") + r.id + " — " + r.doctorName)
  }

  function Accept(rows: seq<Request>, r: Request): (u: (seq<Request>, string))
    ensures |u.0| == |rows|
    ensures forall i :: 0 <= i < |u.0| ==> (u.0[i].status == Approved <==> rows[i].id == r.id || rows[i].status == Approved)
    ensures u.1 == "Accepted " + r.id + " — " + r.doctorName
  {
    Decide(rows, r, Approved)
  }

  function Reject(rows: seq<Request>, r: Request): (u: (seq<Request>, string))
    ensures |u.0| == |rows|
    ensures forall i :: 0 <= i < |u.0| ==> (u.0[i].status == Rejected <==> rows[i].id == r.id || rows[i].status == Rejected)
    ensures u.1 == "Rejected " + r.id + " — " + r.doctorName
  {
    Decide(rows, r, Rejected)
  }

  /** `delete(r)`: the rows with another id, in order. */
  function Delete(rows: seq<Request>, r: Request): (u: (seq<Request>, string))
    ensures forall x :: x in u.0 <==> x in rows && x.id != r.id
    ensures |u.0| == |rows| - Count(rows, (x: Request) => x.id == r.id)
    ensures u.1 == "Deleted " + r.id
  {
    var id := r.id;
    FilterMembers(rows, (x: Request) => x.id != id);
    FilterSplit(rows, (x: Request) => x.id != id, (x: Request) => x.id == id);
    assert |multiset(Filter(rows, (x: Request) => x.id != id))| + |multiset(Filter(rows, (x: Request) => x.id == id))| == |multiset(rows)|;
    (Filter(rows, (x: Request) => x.id != id), "Deleted " + id)
  }

  /** `pageChange(e)`. */
  function PageChange(st: State, index: nat, size: nat): (r: State)
    ensures r.pageIndex == index && r.pageSize == size
    ensures r.rows == st.rows && r.search == st.search && r.sortBy == st.sortBy && r.sortDir == st.sortDir
  {
    st.(pageIndex := index, pageSize := size)
  }

  // ---------------------------------------------------------------------------
  // When `filtered` and `sorted` run
  // ---------------------------------------------------------------------------

  /** `filtered` and `sorted` are `computed()`s whose one signal is the rows;
      they read the search box and the two sort controls through `.value`,
      which is no signal. */
  const SortedOf: (seq<Request>, (string, SortField, SortDir)) -> seq<Request> :=
    (rows: seq<Request>, u: (string, SortField, SortDir)) => Sorted(rows, u.0, u.1, u.2)

  /** As written, once the list is on screen typing in the search box alone
      leaves it as it was: a request is still listed after a search longer
      than its whole text, whereas no request matches that search. Changing
      the rows runs both again (`Computed.TrackedRefreshes`). */
  lemma SearchNotShown(x: Request, q: string, field: SortField, dir: SortDir)
    requires |ToLower(Trim(q))| > |SearchText(x)|
    ensures var c := Read(New([x], ("", field, dir)));
      && Reading(c, SortedOf) == [x]
      && Reading(SetUntracked(c, (q, field, dir)), SortedOf) == [x]
      && Sorted([x], q, field, dir) == []
  {
    var c := Read(New([x], ("", field, dir)));
    var before := Sorted([x], "", field, dir);
    assert multiset(before) == multiset([x]);
    assert |before| == 1 && before[0] in multiset(before);
    UntrackedNotSeen(c, (q, field, dir), SortedOf);
    ContainsNoLonger(ToLower(SearchText(x)), ToLower(Trim(q)));
    assert !IsBlank(q) by {
      BlankIffTrimEmpty(q);
    }
    assert x !in Filtered([x], q);
    var after := Sorted([x], q, field, dir);
    assert multiset(Filtered([x], q)) == multiset{};
  }

  /** As written, switching the direction alone leaves the order on screen:
      requests submitted at times 1 and 2 are listed latest first, and stay
      so after switching to ascending, whereas ascending order lists the
      earlier one first. */
  lemma DirectionNotShown(a: Request, b: Request)
    requires a.submitted == Some(1) && b.submitted == Some(2)
    ensures var c := Read(New([a, b], ("", BySubmitted, Desc)));
      && Reading(c, SortedOf) == [b, a]
      && Reading(SetUntracked(c, ("", BySubmitted, Asc)), SortedOf) == [b, a]
      && Sorted([a, b], "", BySubmitted, Asc) == [a, b]
  {
    var c := Read(New([a, b], ("", BySubmitted, Desc)));
    TwoBySubmitted(a, b, Desc);
    TwoBySubmitted(a, b, Asc);
    UntrackedNotSeen(c, ("", BySubmitted, Asc), SortedOf);
  }

  /** Two requests submitted at different times, in either direction. */
  lemma TwoBySubmitted(a: Request, b: Request, dir: SortDir)
    requires a.submitted == Some(1) && b.submitted == Some(2)
    ensures Sorted([a, b], "", BySubmitted, dir) == (if dir == Desc then [b, a] else [a, b])
  {
    var r := Sorted([a, b], "", BySubmitted, dir);
    assert IsBlank("");
    assert multiset(r) == multiset([a, b]);
    assert |r| == 2;
    assert r[0] in multiset(r) && r[1] in multiset(r);
    assert a != b;
    var k := SortKey(BySubmitted);
    assert k(a) == [1] && k(b) == [2];
    assert !LexLe([2], [1]);
    assert Before(k(r[0]), k(r[1]), dir == Desc);
  }
}

=== FILE: help.dfy ===
/** The admin's help page: the digits-only form of a phone number and the
    `tel:` and WhatsApp links built from it. Opening the links, the
    clipboard and the snack bars are left out. */
module Help {
  import opened Wrappers
  import opened JsText

  /** The digits of s, in order. */
  function Digits(s: string): (r: string)
    ensures AllDigits(r) && |r| <= |s|
    ensures AllDigits(s) ==> r == s
  {
    if |s| == 0 then ""
    else if IsDigit(s[0]) then [s[0]] + Digits(s[1..])
    else Digits(s[1..])
  }

  /** `onlyDigits(v)`: `(v || '').replace(/\D+/g, '')`, every run of
      non-digits removed; a missing value gives the empty text. */
  function OnlyDigits(v: Option<string>): (r: string)
    ensures AllDigits(r)
    ensures !Truthy(v) ==> r == ""
    ensures Truthy(v) ==> r == Digits(v.value)
  {
    Digits(OrEmpty(v))
  }

  /** Removing non-digits distributes over concatenation. */
  lemma {:induction false} DigitsAppend(a: string, b: string)
    ensures Digits(a + b) == Digits(a) + Digits(b)
  {
    if |a| == 0 {
      assert a + b == b;
    } else {
      assert (a + b)[0] == a[0];
      assert (a + b)[1..] == a[1..] + b;
      DigitsAppend(a[1..], b);
    }
  }

  /** The result is the digit subsequence: every digit of the input is kept
      with its multiplicity and nothing else is. */
  lemma {:induction false} DigitsKeepsEveryDigit(s: string, c: char)
    ensures IsDigit(c) ==> multiset(Digits(s))[c] == multiset(s)[c]
    ensures !IsDigit(c) ==> multiset(Digits(s))[c] == 0
  {
    if |s| > 0 {
      DigitsKeepsEveryDigit(s[1..], c);
      assert s == [s[0]] + s[1..];
    }
  }

  /** Cleaning a cleaned number changes nothing. */
  lemma OnlyDigitsIdempotent(v: Option<string>)
    ensures OnlyDigits(Some(OnlyDigits(v))) == OnlyDigits(v)
  {
  }

  /** `call(num)`: the `tel:` link of the number's digits. */
  function TelLink(num: string): (link: string)
    ensures StartsWith(link, "tel:") && link[4..] == OnlyDigits(Some(num))
  {
    "tel:" + OnlyDigits(Some(num))
  }

  /** The greeting of `openWhatsApp`, as `encodeURIComponent` writes it:
      spaces as `%20` and the em dash as its UTF-8 bytes. */
  const GreetingQuery := "Hi%20Medtik%20Support%20%E2%80%94%20I%20need%20help%20with..."

  /** `openWhatsApp(num)`: the wa.me link of the number's digits with the
      greeting as its text. */
  function WhatsAppLink(num: string): (link: string)
    ensures StartsWith(link, "https://wa.me/")
  {
    "https://wa.me/" + OnlyDigits(Some(num)) + "?text=" + GreetingQuery
  }

  /** The number a wa.me link addresses: the text between the prefix and
      the first question mark. */
  function LinkPhone(link: string): (phone: Option<string>)
  {
    var prefix := "https://wa.me/";
    if !StartsWith(link, prefix) then None
    else
      match IndexOf(link[|prefix|..], '?')
      case None => None
      case Some(k) => Some(link[|prefix|..][..k])
  }

  /** The link addresses exactly the digits of the number it was built
      from: reading the number back gives them. */
  lemma WhatsAppRoundTrip(num: string)
    ensures LinkPhone(WhatsAppLink(num)) == Some(OnlyDigits(Some(num)))
  {
    var d := OnlyDigits(Some(num));
    var link := WhatsAppLink(num);
    var rest := link[14..];
    assert rest == d + "?text=" + GreetingQuery;
    assert '?' !in d by {
      assert AllDigits(d);
    }
    assert rest[|d|] == '?';
    assert rest[..|d|] == d;
  }

  /** Two numbers get the same links exactly when they have the same digits. */
  lemma LinksIdentifyDigits(a: string, b: string)
    ensures TelLink(a) == TelLink(b) <==> OnlyDigits(Some(a)) == OnlyDigits(Some(b))
    ensures WhatsAppLink(a) == WhatsAppLink(b) <==> OnlyDigits(Some(a)) == OnlyDigits(Some(b))
  {
    if WhatsAppLink(a) == WhatsAppLink(b) {
      WhatsAppRoundTrip(a);
      WhatsAppRoundTrip(b);
    }
  }
}

=== FILE: httperrors.dfy ===
/** The error-to-message rule shared by the three HTTP services: the doctor
    profile service, the auth service and the admin service each map an
    `HttpErrorResponse` to one user-facing string, differing only in the
    fallback text. */
module HttpErrors {
  import opened Wrappers

  /** The `error` field of an `HttpErrorResponse`, i.e. the parsed response body. */
  datatype ErrorBody =
    | NoBody                                              // null or undefined
    | TextBody(text: string)                              // a string body
    | ObjectBody(error: Option<string>, message: Option<string>)  // a JSON object
    | ScalarBody(truthy: bool)                            // a number or boolean

  /** An HTTP failure: the body and the transport-level `message`. */
  datatype HttpError = HttpError(body: ErrorBody, transport: string)

  /** JavaScript truthiness of the body. */
  predicate BodyTruthy(b: ErrorBody) {
    match b
    case NoBody => false
    case TextBody(t) => t != []
    case ObjectBody(_, _) => true
    case ScalarBody(t) => t
  }

  /** The message `handleError` rethrows: a truthy string body verbatim; for an
      object body its `error`, else its `message`, else the fallback; for a
      falsy body the transport message when it is non-empty; else the fallback. */
  function ErrorMessage(e: HttpError, fallback: string): (m: string)
    ensures e.body.TextBody? && e.body.text != [] ==> m == e.body.text
    ensures e.body.ObjectBody? ==> m == e.body.error.GetOr(e.body.message.GetOr(fallback))
    ensures !BodyTruthy(e.body) && e.transport != [] ==> m == e.transport
    ensures m == fallback || m == e.transport || (e.body.TextBody? && m == e.body.text)
      || (e.body.ObjectBody? && (Some(m) == e.body.error || Some(m) == e.body.message))
  {
    if BodyTruthy(e.body) then
      match e.body
      case TextBody(t) => t
      case ObjectBody(err, msg) => err.GetOr(msg.GetOr(fallback))
      case _ => fallback
    else if e.transport != [] then e.transport
    else fallback
  }

  /** A body always wins over the transport message: whenever the server sent
      a truthy body, the transport text never reaches the user unless it also
      appears in the body or is the fallback. */
  lemma BodyTakesPrecedence(e: HttpError, fallback: string)
    requires BodyTruthy(e.body)
    ensures var m := ErrorMessage(e, fallback);
      m == fallback || (e.body.TextBody? && m == e.body.text)
      || (e.body.ObjectBody? && (Some(m) == e.body.error || Some(m) == e.body.message))
  {
  }

  /** The user never sees an empty message unless the server supplied an empty
      `error` (or, with `error` absent, an empty `message`) field. */
  lemma NonEmptyMessage(e: HttpError, fallback: string)
    requires fallback != []
    requires !(e.body.ObjectBody? && e.body.error.GetOr(e.body.message.GetOr(fallback)) == [])
    ensures ErrorMessage(e, fallback) != []
  {
  }
}

=== FILE: ics.dfy ===
/** The calendar file the patient's appointments page offers: timestamps in
    the UTC DATE-TIME form of section 3.3.5 of RFC 5545 and content lines
    joined by CRLF as section 3.1 of RFC 5545 requires. */
module Ics {
  import opened Wrappers
  import opened JsText

  /** The UTC fields of a `Date` as its `getUTC*` accessors return them; the
      month counts from 0 as `getUTCMonth` does. */
  datatype UtcTime = UtcTime(year: int, month: int, date: int, hours: int, minutes: int, seconds: int)

  /** Four-digit years and in-range fields. */
  predicate Valid(t: UtcTime) {
    1000 <= t.year <= 9999 && 0 <= t.month < 12 && 1 <= t.date <= 31
    && 0 <= t.hours < 24 && 0 <= t.minutes < 60 && 0 <= t.seconds < 60
  }

  /** `toICSDate`: year, then the padded month, day, `T`, hours, minutes,
      seconds and `Z`. */
  function IcsDate(t: UtcTime): string {
    IntToString(t.year) + Pad(t.month + 1) + Pad(t.date) + "T" + Pad(t.hours) + Pad(t.minutes) + Pad(t.seconds) + "Z"
  }

  /** The form `YYYYMMDD'T'HHMMSS'Z'`: sixteen characters, digits except for
      the `T` at index 8 and the `Z` at index 15. */
  predicate IsUtcDateTime(s: string) {
    |s| == 16 && s[8] == 'T' && s[15] == 'Z'
    && forall i :: 0 <= i < 16 && i != 8 && i != 15 ==> IsDigit(s[i])
  }

  /** Reads the fields back out of a UTC DATE-TIME. */
  function ReadIcsDate(s: string): (r: Option<UtcTime>)
    ensures r.Some? <==> IsUtcDateTime(s)
  {
    if !IsUtcDateTime(s) then None
    else
      Some(UtcTime(
        1000 * DigitValue(s[0]) + 100 * DigitValue(s[1]) + 10 * DigitValue(s[2]) + DigitValue(s[3]),
        10 * DigitValue(s[4]) + DigitValue(s[5]) - 1,
        10 * DigitValue(s[6]) + DigitValue(s[7]),
        10 * DigitValue(s[9]) + DigitValue(s[10]),
        10 * DigitValue(s[11]) + DigitValue(s[12]),
        10 * DigitValue(s[13]) + DigitValue(s[14])))
  }

  /** Two decimal digits. */
  function TwoDigits(n: int): string
    requires 0 <= n < 100
  {
    [DigitChar(n / 10), DigitChar(n % 10)]
  }

  /** Four decimal digits. */
  function FourDigits(n: int): string
    requires 0 <= n < 10000
  {
    [DigitChar(n / 1000), DigitChar(n / 100 % 10), DigitChar(n / 10 % 10), DigitChar(n % 10)]
  }

  /** The stamp of a valid time, field by field. */
  function Stamp(t: UtcTime): (s: string)
    requires Valid(t)
  {
    FourDigits(t.year) + TwoDigits(t.month + 1) + TwoDigits(t.date) + "T"
    + TwoDigits(t.hours) + TwoDigits(t.minutes) + TwoDigits(t.seconds) + "Z"
  }

  /** A four-digit year renders as its four digits. */
  lemma YearDigits(y: int)
    requires 1000 <= y <= 9999
    ensures IntToString(y) == FourDigits(y)
    ensures y == 1000 * (y / 1000) + 100 * (y / 100 % 10) + 10 * (y / 10 % 10) + y % 10
  {
    var a := y / 10;
    var b := a / 10;
    var c := b / 10;
    assert b == y / 100 && c == y / 1000;
    assert NatToString(c) == [DigitChar(c)];
    assert NatToString(b) == [DigitChar(c), DigitChar(b % 10)];
    assert NatToString(a) == [DigitChar(c), DigitChar(b % 10), DigitChar(a % 10)];
  }

  /** The stamp of a valid time is the year's four digits and five two-digit
      fields around `T` and `Z`. */
  lemma IcsDateLayout(t: UtcTime)
    requires Valid(t)
    ensures IcsDate(t) == Stamp(t)
  {
    YearDigits(t.year);
    PadTwoDigits(t.month + 1);
    PadTwoDigits(t.date);
    PadTwoDigits(t.hours);
    PadTwoDigits(t.minutes);
    PadTwoDigits(t.seconds);
  }

  /** A valid time stamps in the RFC 5545 UTC form, and reading the stamp
      gives the time back: no two times share a stamp. */
  lemma IcsDateRoundTrip(t: UtcTime)
    requires Valid(t)
    ensures IsUtcDateTime(IcsDate(t))
    ensures ReadIcsDate(IcsDate(t)) == Some(t)
  {
    IcsDateLayout(t);
    YearDigits(t.year);
    StampReadsBack(t);
  }

  lemma StampReadsBack(t: UtcTime)
    requires Valid(t)
    requires t.year == 1000 * (t.year / 1000) + 100 * (t.year / 100 % 10) + 10 * (t.year / 10 % 10) + t.year % 10
    ensures IsUtcDateTime(Stamp(t))
    ensures ReadIcsDate(Stamp(t)) == Some(t)
  {
    var s := Stamp(t);
    StampChars(t);
    assert forall i :: 0 <= i < 16 && i != 8 && i != 15 ==> IsDigit(s[i]);
  }

  /** Where each field's digits sit in the stamp. */
  lemma StampChars(t: UtcTime)
    requires Valid(t)
    ensures var s := Stamp(t); var y := t.year; var mo := t.month + 1;
      && |s| == 16 && s[8] == 'T' && s[15] == 'Z'
      && s[0] == DigitChar(y / 1000) && s[1] == DigitChar(y / 100 % 10)
      && s[2] == DigitChar(y / 10 % 10) && s[3] == DigitChar(y % 10)
      && s[4] == DigitChar(mo / 10) && s[5] == DigitChar(mo % 10)
      && s[6] == DigitChar(t.date / 10) && s[7] == DigitChar(t.date % 10)
      && s[9] == DigitChar(t.hours / 10) && s[10] == DigitChar(t.hours % 10)
      && s[11] == DigitChar(t.minutes / 10) && s[12] == DigitChar(t.minutes % 10)
      && s[13] == DigitChar(t.seconds / 10) && s[14] == DigitChar(t.seconds % 10)
  {
    var s := Stamp(t);
    var p := FourDigits(t.year) + TwoDigits(t.month + 1) + TwoDigits(t.date) + "T";
    var q := TwoDigits(t.hours) + TwoDigits(t.minutes) + TwoDigits(t.seconds) + "Z";
    assert s == p + q;
    assert forall i :: 0 <= i < 9 ==> s[i] == p[i];
    assert forall i :: 9 <= i < 16 ==> s[i] == q[i - 9];
  }

  /** The fixed lines around the event. */
  const BeginCalendar := "BEGIN:VCALENDAR"
  const EndCalendar := "END:VCALENDAR"

  /** The event's content lines, in order. */
  function IcsLines(id: string, stamp: UtcTime, start: UtcTime, end: UtcTime, modality: string,
                    doctorName: string, joinUrl: Option<string>, notes: Option<string>): (r: seq<string>)
    ensures |r| == 12 && r[0] == BeginCalendar && r[11] == EndCalendar
  {
    [ BeginCalendar,
      "VERSION:2.0",
      "PRODID:-//Medtik//Appointment//EN",
      "BEGIN:VEVENT",
      "UID:" + id + "@medtik",
      "DTSTAMP:" + IcsDate(stamp),
      "DTSTART:" + IcsDate(start),
      "DTEND:" + IcsDate(end),
      "SUMMARY:" + ToUpper(modality) + " with " + doctorName,
      "DESCRIPTION:Join link: " + joinUrl.GetOr("") + "\\nNotes: " + notes.GetOr(""),
      "END:VEVENT",
      EndCalendar ]
  }

  /** The calendar text: the lines joined by CRLF. */
  function IcsText(lines: seq<string>): string {
    Join(lines, "\r\n")
  }

  /** The file opens with the calendar's BEGIN line and a CRLF and closes with
      a CRLF and the calendar's END line. */
  lemma IcsFraming(id: string, stamp: UtcTime, start: UtcTime, end: UtcTime, modality: string,
                   doctorName: string, joinUrl: Option<string>, notes: Option<string>)
    ensures var text := IcsText(IcsLines(id, stamp, start, end, modality, doctorName, joinUrl, notes));
      StartsWith(text, BeginCalendar + "\r\n") && EndsWith(text, "\r\n" + EndCalendar)
  {
    var lines := IcsLines(id, stamp, start, end, modality, doctorName, joinUrl, notes);
    JoinEnds(lines, "\r\n");
  }
}

=== FILE: inbox.dfy ===
/** The doctor's inbox: the active thread's messages with the in-chat
    search, the thread search, selecting a thread and sending. Times are
    milliseconds since the epoch; new message ids and the current time are
    parameters. */
module Inbox {
  import opened Wrappers
  import opened JsText
  import opened Seqs

  datatype Thread = Thread(id: string, name: string, spec: string, lastAt: int, unread: Option<int>)

  /** `me` and `seen` are false when absent. */
  datatype Message = Message(id: string, threadId: string, me: bool, text: string, at: int, seen: bool)

  datatype InboxState = InboxState(threads: seq<Thread>, activeId: string, draft: string, stripQuery: string,
                                   chatQuery: string, messagesAll: seq<Message>)

  /** `activeThread`: the first thread with the active id, if any. */
  function ActiveThread(ib: InboxState): (t: Option<Thread>)
    ensures t.Some? ==> t.value in ib.threads && t.value.id == ib.activeId
    ensures t.None? <==> forall i :: 0 <= i < |ib.threads| ==> ib.threads[i].id != ib.activeId
  {
    Find(ib.threads, (t: Thread) => t.id == ib.activeId)
  }

  /** The in-chat search: an empty query keeps everything, otherwise the
      lower-cased text contains the lower-cased query (it is not trimmed). */
  predicate Visible(activeId: string, chatQuery: string, m: Message) {
    m.threadId == activeId && (chatQuery == "" || Contains(ToLower(m.text), ToLower(chatQuery)))
  }

  /** `messages`: the active thread's messages that match, in order. */
  function Messages(ib: InboxState): (r: seq<Message>)
    ensures forall m :: m in r <==> m in ib.messagesAll && Visible(ib.activeId, ib.chatQuery, m)
    ensures |r| <= |ib.messagesAll|
  {
    var id, q := ib.activeId, ib.chatQuery;
    FilterMembers(ib.messagesAll, (m: Message) => Visible(id, q, m));
    Filter(ib.messagesAll, (m: Message) => Visible(id, q, m))
  }

  predicate ThreadHit(q: string, t: Thread) {
    q == "" || Contains(ToLower(t.name), q) || Contains(ToLower(t.spec), q)
  }

  /** `filteredThreads`: the threads whose name or speciality contains the
      trimmed, lower-cased search; all of them for a blank one. */
  function FilteredThreads(ib: InboxState): (r: seq<Thread>)
    ensures forall t :: t in r <==> t in ib.threads && ThreadHit(ToLower(Trim(ib.stripQuery)), t)
    ensures IsBlank(ib.stripQuery) ==> r == ib.threads
  {
    var q := ToLower(Trim(ib.stripQuery));
    FilterMembers(ib.threads, (t: Thread) => ThreadHit(q, t));
    BlankIffTrimEmpty(ib.stripQuery);
    if q == "" then
      FilterAll(ib.threads, (t: Thread) => ThreadHit(q, t));
      Filter(ib.threads, (t: Thread) => ThreadHit(q, t))
    else Filter(ib.threads, (t: Thread) => ThreadHit(q, t))
  }

  /** `select(t)`: only the active id changes. */
  function Select(ib: InboxState, t: Thread): (r: InboxState)
    ensures r.activeId == t.id
    ensures r.(activeId := ib.activeId) == ib
  {
    ib.(activeId := t.id)
  }

  /** Selecting a listed thread makes it the active one. */
  lemma SelectActivates(ib: InboxState, t: Thread)
    requires t in ib.threads
    ensures ActiveThread(Select(ib, t)).Some? && ActiveThread(Select(ib, t)).value.id == t.id
  {
  }

  /** The message `send()` appends: mine, unseen, in the active thread. */
  function Outgoing(ib: InboxState, msgId: string, now: int): Message {
    Message(msgId, ib.activeId, true, Trim(ib.draft), now, false)
  }

  /** `send()`: a blank draft does nothing; otherwise one message with the
      trimmed text is appended and the draft is cleared. */
  function Send(ib: InboxState, msgId: string, now: int): (r: InboxState)
    ensures IsBlank(ib.draft) ==> r == ib
    ensures !IsBlank(ib.draft) ==>
      r.messagesAll == ib.messagesAll + [Outgoing(ib, msgId, now)] && r.draft == ""
      && r.(messagesAll := ib.messagesAll, draft := ib.draft) == ib
  {
    BlankIffTrimEmpty(ib.draft);
    if Trim(ib.draft) == "" then ib
    else ib.(messagesAll := ib.messagesAll + [Outgoing(ib, msgId, now)], draft := "")
  }

  /** A sent message that the search lets through shows last in the open
      chat, after the messages shown before. */
  lemma SentMessageShowsLast(ib: InboxState, msgId: string, now: int)
    requires !IsBlank(ib.draft)
    requires Visible(ib.activeId, ib.chatQuery, Outgoing(ib, msgId, now))
    ensures Messages(Send(ib, msgId, now)) == Messages(ib) + [Outgoing(ib, msgId, now)]
  {
    var id, q := ib.activeId, ib.chatQuery;
    FilterAppend(ib.messagesAll, [Outgoing(ib, msgId, now)], (m: Message) => Visible(id, q, m));
  }
}

=== FILE: jstext.dfy ===
/** The parts of JavaScript's string semantics the pages rely on: `trim`,
    `toLowerCase`/`toUpperCase`, `includes`, `startsWith`, `split`,
    number-to-string conversion and the `pad` helper the pages share. */
module JsText {
  import opened Wrappers

  /** ECMAScript WhiteSpace and LineTerminator code points: the set removed by
      `String.prototype.trim` and matched by the regular-expression class `\s`. */
  predicate IsSpace(c: char) {
    if c <= ' ' then c == ' ' || ('\t' <= c <= '\r')
    else c >= '\U{00A0}' && IsWideSpace(c)
  }

  /** The white space above Latin-1: no-break space, byte-order mark and the
      Unicode space separators and line/paragraph separators. */
  predicate IsWideSpace(c: char) {
    || c == '\U{00A0}' || c == '\U{FEFF}' || c == '\U{1680}' || ('\U{2000}' <= c <= '\U{200A}')
    || c == '\U{2028}' || c == '\U{2029}' || c == '\U{202F}' || c == '\U{205F}' || c == '\U{3000}'
  }

  /** The line terminators, the characters the regular-expression `.` does not match. */
  predicate IsLineTerminator(c: char) {
    c == '\n' || c == '\r' || c == '\U{2028}' || c == '\U{2029}'
  }

  /** Decimal digit, the class `\d`. */
  predicate IsDigit(c: char) {
    '0' <= c <= '9'
  }

  predicate AllDigits(s: string) {
    forall i :: 0 <= i < |s| ==> IsDigit(s[i])
  }

  /** Drops leading white space. */
  function TrimStart(s: string): string {
    if |s| > 0 && IsSpace(s[0]) then TrimStart(s[1..]) else s
  }

  /** What TrimStart leaves is a suffix of its input that does not begin with white space. */
  lemma {:induction false} TrimStartShape(s: string)
    ensures |TrimStart(s)| <= |s| && TrimStart(s) == s[|s| - |TrimStart(s)|..]
    ensures TrimStart(s) == [] || !IsSpace(TrimStart(s)[0])
  {
    if |s| > 0 && IsSpace(s[0]) {
      TrimStartShape(s[1..]);
    }
  }

  /** Drops trailing white space. */
  function TrimEnd(s: string): string {
    if |s| > 0 && IsSpace(s[|s| - 1]) then TrimEnd(s[..|s| - 1]) else s
  }

  /** What TrimEnd leaves is a prefix of its input that does not end with white space. */
  lemma {:induction false} TrimEndShape(s: string)
    ensures |TrimEnd(s)| <= |s| && TrimEnd(s) == s[..|TrimEnd(s)|]
    ensures TrimEnd(s) == [] || !IsSpace(TrimEnd(s)[|TrimEnd(s)| - 1])
  {
    if |s| > 0 && IsSpace(s[|s| - 1]) {
      TrimEndShape(s[..|s| - 1]);
    }
  }

  /** No white space at either end. */
  predicate IsTrimmed(s: string) {
    s == [] || (!IsSpace(s[0]) && !IsSpace(s[|s| - 1]))
  }

  /** `String.prototype.trim`. */
  function Trim(s: string): (r: string)
    ensures |r| <= |s|
    ensures IsTrimmed(r)
  {
    var t := TrimStart(s);
    var r := TrimEnd(t);
    TrimStartShape(s);
    TrimEndShape(t);
    assert r == [] || r[0] == t[0];
    r
  }

  /** A string is blank when it consists of white space only; by
      `BlankIffTrimEmpty` these are exactly the strings for which `!s.trim()` holds. */
  predicate IsBlank(s: string) {
    |s| == 0 || (IsSpace(s[0]) && IsBlank(s[1..]))
  }

  /** A trimmed string is left alone by `trim()`. */
  lemma TrimmedIsFixed(s: string)
    requires IsTrimmed(s)
    ensures Trim(s) == s
  {
    assert TrimStart(s) == s;
    assert TrimEnd(s) == s;
  }

  /** Trimming is idempotent, so a value trimmed once is stable under a second `trim()`. */
  lemma TrimIdempotent(s: string)
    ensures Trim(Trim(s)) == Trim(s)
  {
    TrimmedIsFixed(Trim(s));
  }

  /** TrimStart removes white space only. */
  lemma {:induction false} TrimStartDropsSpace(s: string, i: nat)
    requires i < |s| - |TrimStart(s)|
    ensures IsSpace(s[i])
  {
    if i > 0 {
      TrimStartDropsSpace(s[1..], i - 1);
    }
  }

  lemma {:induction false} AllDroppedAtEnd(s: string, i: nat)
    requires i < |s| && TrimEnd(s) == []
    ensures IsSpace(s[i])
  {
    if i < |s| - 1 {
      AllDroppedAtEnd(s[..|s| - 1], i);
      assert s[..|s| - 1][i] == s[i];
    }
  }

  /** Blank means every character is white space. */
  lemma {:induction false} BlankIffAllSpace(s: string)
    ensures IsBlank(s) <==> forall i :: 0 <= i < |s| ==> IsSpace(s[i])
  {
    if |s| > 0 {
      BlankIffAllSpace(s[1..]);
      assert forall i :: 1 <= i < |s| ==> s[i] == s[1..][i - 1];
    }
  }

  lemma {:induction false} AllSpaceTrimsToEmpty(s: string)
    requires forall i :: 0 <= i < |s| ==> IsSpace(s[i])
    ensures TrimStart(s) == []
    ensures Trim(s) == []
  {
    if |s| > 0 {
      AllSpaceTrimsToEmpty(s[1..]);
    }
  }

  /** `!s.trim()` holds exactly for the blank strings. */
  lemma BlankIffTrimEmpty(s: string)
    ensures IsBlank(s) <==> Trim(s) == []
  {
    BlankIffAllSpace(s);
    var t := TrimStart(s);
    TrimStartShape(s);
    if t == [] {
      forall i | 0 <= i < |s| ensures IsSpace(s[i]) {
        TrimStartDropsSpace(s, i);
      }
    } else {
      assert !IsSpace(t[0]);
      if TrimEnd(t) == [] {
        AllDroppedAtEnd(t, 0);
      }
      assert s[|s| - |t|] == t[0];
    }
    if forall i :: 0 <= i < |s| ==> IsSpace(s[i]) {
      AllSpaceTrimsToEmpty(s);
    }
  }

  /** A string that starts with a non-space character is not blank. */
  lemma NotBlankFromFirst(s: string)
    requires |s| > 0 && !IsSpace(s[0])
    ensures !IsBlank(s)
  {
  }

  /** ASCII case mapping, the part of `toLowerCase` the model covers. */
  function LowerChar(c: char): char {
    if 'A' <= c <= 'Z' then (c as int + 32) as char else c
  }

  function UpperChar(c: char): char {
    if 'a' <= c <= 'z' then (c as int - 32) as char else c
  }

  function ToLower(s: string): (r: string)
    ensures |r| == |s|
    ensures forall i :: 0 <= i < |s| ==> r[i] == LowerChar(s[i])
  {
    seq(|s|, i requires 0 <= i < |s| => LowerChar(s[i]))
  }

  function ToUpper(s: string): (r: string)
    ensures |r| == |s|
    ensures forall i :: 0 <= i < |s| ==> r[i] == UpperChar(s[i])
  {
    seq(|s|, i requires 0 <= i < |s| => UpperChar(s[i]))
  }

  /** Lower-casing twice changes nothing more, and leaves no upper-case ASCII letter. */
  lemma ToLowerIdempotent(s: string)
    ensures ToLower(ToLower(s)) == ToLower(s)
    ensures forall i :: 0 <= i < |s| ==> !('A' <= ToLower(s)[i] <= 'Z')
  {
  }

  /** Lower-casing works character by character, so it splits over concatenation. */
  lemma ToLowerAppend(s: string, t: string)
    ensures ToLower(s + t) == ToLower(s) + ToLower(t)
  {
  }

  /** Lower-casing changes no white space, so a trimmed text stays trimmed. */
  lemma LowerKeepsTrimmed(s: string)
    requires IsTrimmed(s)
    ensures IsTrimmed(ToLower(s))
  {
  }

  /** The search boxes' normalisation, `v.trim().toLowerCase()`, applied
      twice gives the same text. */
  lemma TrimLowerIdempotent(v: string)
    ensures ToLower(Trim(ToLower(Trim(v)))) == ToLower(Trim(v))
  {
    LowerKeepsTrimmed(Trim(v));
    TrimmedIsFixed(ToLower(Trim(v)));
    ToLowerIdempotent(Trim(v));
  }

  /** `s.startsWith(p)`. */
  predicate StartsWith(s: string, p: string) {
    |p| <= |s| && s[..|p|] == p
  }

  /** `s.endsWith(p)`. */
  predicate EndsWith(s: string, p: string) {
    |p| <= |s| && s[|s| - |p|..] == p
  }

  /** `hay.includes(needle)`: needle occurs at some offset of hay. */
  predicate Contains(hay: string, needle: string)
    decreases |hay|
  {
    StartsWith(hay, needle) || (|hay| > 0 && Contains(hay[1..], needle))
  }

  /** needle sits in hay starting at offset k. */
  predicate OccursAt(hay: string, needle: string, k: int) {
    0 <= k && k + |needle| <= |hay| && hay[k..k + |needle|] == needle
  }

  /** `includes` with a witness offset, the usual reading of the recursive definition. */
  lemma {:induction false} ContainsIffOffset(hay: string, needle: string)
    ensures Contains(hay, needle) <==> exists k :: OccursAt(hay, needle, k)
    decreases |hay|
  {
    if StartsWith(hay, needle) {
      assert OccursAt(hay, needle, 0);
    }
    if |hay| > 0 {
      ContainsIffOffset(hay[1..], needle);
      if exists k :: OccursAt(hay[1..], needle, k) {
        var k :| OccursAt(hay[1..], needle, k);
        assert hay[k + 1..k + 1 + |needle|] == hay[1..][k..k + |needle|];
        assert OccursAt(hay, needle, k + 1);
      }
      if exists k :: OccursAt(hay, needle, k) {
        var k :| OccursAt(hay, needle, k);
        if k > 0 {
          assert hay[1..][k - 1..k - 1 + |needle|] == hay[k..k + |needle|];
          assert OccursAt(hay[1..], needle, k - 1);
        } else {
          assert StartsWith(hay, needle);
        }
      }
    } else if exists k :: OccursAt(hay, needle, k) {
      var k :| OccursAt(hay, needle, k);
      assert StartsWith(hay, needle);
    }
  }

  /** A needle longer than the hay is never included. */
  lemma ContainsNoLonger(hay: string, needle: string)
    requires |needle| > |hay|
    ensures !Contains(hay, needle)
  {
    ContainsIffOffset(hay, needle);
  }

  /** Every string includes the empty string, so an empty query matches everything. */
  lemma ContainsEmpty(hay: string)
    ensures Contains(hay, [])
  {
    assert StartsWith(hay, []);
  }

  /** A string includes itself, and a field includes whatever a prefix of it includes. */
  lemma {:induction false} ContainsInPrefix(a: string, b: string, needle: string)
    requires Contains(a, needle)
    ensures Contains(a + b, needle)
    decreases |a|
  {
    if StartsWith(a, needle) {
      assert (a + b)[..|needle|] == a[..|needle|];
    } else {
      assert (a + b)[1..] == a[1..] + b;
      ContainsInPrefix(a[1..], b, needle);
    }
  }

  /** ... and whatever a suffix of it includes. */
  lemma {:induction false} ContainsInSuffix(a: string, b: string, needle: string)
    requires Contains(b, needle)
    ensures Contains(a + b, needle)
    decreases |a|
  {
    if |a| == 0 {
      assert a + b == b;
    } else {
      assert (a + b)[1..] == a[1..] + b;
      ContainsInSuffix(a[1..], b, needle);
    }
  }

  // ---------------------------------------------------------------------------
  // Numbers and text
  // ---------------------------------------------------------------------------

  function DigitChar(d: nat): (c: char)
    requires d < 10
    ensures IsDigit(c) && c as int - '0' as int == d
  {
    (('0' as int) + d) as char
  }

  function DigitValue(c: char): nat
    requires IsDigit(c)
  {
    c as int - '0' as int
  }

  /** The value of a string of decimal digits, most significant first. */
  function DigitsValue(s: string): nat
    requires AllDigits(s)
  {
    if |s| == 0 then 0 else 10 * DigitsValue(s[..|s| - 1]) + DigitValue(s[|s| - 1])
  }

  /** Decimal rendering of a non-negative integer, as `String(n)` produces it. */
  function NatToString(n: nat): (r: string)
    ensures |r| > 0 && AllDigits(r)
    ensures DigitsValue(r) == n
    ensures n < 10 <==> |r| == 1
    ensures |r| > 1 ==> r[0] != '0'
  {
    if n < 10 then [DigitChar(n)]
    else
      var p := NatToString(n / 10);
      var r := p + [DigitChar(n % 10)];
      assert r[..|r| - 1] == p;
      r
  }

  /** `String(n)` for an integer: a leading '-' for negatives. */
  function IntToString(n: int): string {
    if n < 0 then "-" + NatToString(-n) else NatToString(n)
  }

  /** A text field that may be absent; JavaScript treats both an absent
      field and the empty string as false. */
  predicate Truthy(s: Option<string>) {
    s.Some? && s.value != ""
  }

  /** `s || ''` and `s ?? ''`, which agree on text. */
  function OrEmpty(s: Option<string>): (r: string)
    ensures Truthy(s) <==> r != ""
    ensures Truthy(s) ==> r == s.value
  {
    s.GetOr("")
  }

  /** The pages' `pad` helper: `(n < 10 ? '0' : '') + n`. */
  function Pad(n: int): string {
    (if n < 10 then "0" else "") + IntToString(n)
  }

  /** For 0..99 `pad` yields exactly the two decimal digits of n. */
  lemma PadTwoDigits(n: int)
    requires 0 <= n < 100
    ensures Pad(n) == [DigitChar(n / 10), DigitChar(n % 10)]
    ensures AllDigits(Pad(n)) && DigitsValue(Pad(n)) == n
  {
    if n >= 10 {
      var p := NatToString(n);
      assert NatToString(n / 10) == [DigitChar(n / 10)];
      assert p == [DigitChar(n / 10), DigitChar(n % 10)];
    }
    var r := Pad(n);
    assert r[..1] == [DigitChar(n / 10)];
  }

  /** For n >= 10 `pad` adds nothing; the number is rendered as is. */
  lemma PadWide(n: int)
    requires n >= 10
    ensures Pad(n) == NatToString(n)
  {
  }

  /** `Number(s)` for the strings the pages feed it: surrounding white space is
      ignored, an empty string is 0, a run of decimal digits is its value, a
      run of digits after one `+` or `-` is its signed value, and anything
      else is NaN (None). */
  function JsNumber(s: string): (r: Option<int>)
    ensures r.Some? && r.value < 0 ==> |Trim(s)| > 1 && Trim(s)[0] == '-'
    ensures r.Some? && Trim(s) != [] ==> IsDigit(Trim(s)[|Trim(s)| - 1])
  {
    var t := Trim(s);
    if t == [] then Some(0)
    else if AllDigits(t) then Some(DigitsValue(t))
    else if |t| > 1 && (t[0] == '+' || t[0] == '-') && AllDigits(t[1..]) then
      if t[0] == '-' then Some(0 - DigitsValue(t[1..]) as int) else Some(DigitsValue(t[1..]))
    else None
  }

  /** A run of digits after a sign converts to its signed value. */
  lemma JsNumberSigned(c: char, s: string)
    requires c == '+' || c == '-'
    requires |s| > 0 && AllDigits(s)
    ensures JsNumber([c] + s) == Some(if c == '-' then 0 - DigitsValue(s) as int else DigitsValue(s))
  {
    var t := [c] + s;
    assert t[1..] == s;
    assert IsTrimmed(t) by {
      assert t[|t| - 1] == s[|s| - 1];
    }
    SignedTrimmed(t);
  }

  /** A trimmed sign followed by digits converts to its signed value. */
  lemma SignedTrimmed(t: string)
    requires |t| > 1 && (t[0] == '+' || t[0] == '-') && AllDigits(t[1..]) && IsTrimmed(t)
    ensures JsNumber(t) == Some(if t[0] == '-' then 0 - DigitsValue(t[1..]) as int else DigitsValue(t[1..]))
  {
    TrimmedIsFixed(t);
    assert !IsDigit(t[0]);
  }

  /** A string of digits converts to its value. */
  lemma JsNumberOfDigits(s: string)
    requires |s| > 0 && AllDigits(s)
    ensures JsNumber(s) == Some(DigitsValue(s))
  {
    assert !IsSpace(s[0]) && !IsSpace(s[|s| - 1]);
    assert TrimStart(s) == s;
    assert TrimEnd(s) == s;
  }

  /** Position of the first `c` in `s`, if any. */
  function IndexOf(s: string, c: char): (r: Option<nat>)
    ensures r.Some? ==> r.value < |s| && s[r.value] == c && c !in s[..r.value]
    ensures r.None? ==> c !in s
  {
    if |s| == 0 then None
    else if s[0] == c then Some(0)
    else match IndexOf(s[1..], c)
      case None => None
      case Some(k) => assert s[..k + 1] == [s[0]] + s[1..][..k]; Some(k + 1)
  }

  /** `s.replace(a, b)` with a one-character pattern: the first occurrence
      of a, if any, becomes b. */
  function ReplaceFirst(s: string, a: char, b: char): (r: string)
    ensures |r| == |s|
    ensures a !in s ==> r == s
    ensures forall i :: 0 <= i < |s| && s[i] != a ==> r[i] == s[i]
    ensures forall i :: 0 <= i < |s| && s[i] == a ==> r[i] == if a in s[..i] then a else b
  {
    match IndexOf(s, a)
    case None => s
    case Some(k) =>
      assert forall i :: 0 <= i < k ==> s[..k][i] == s[i];
      forall i | k < i < |s| ensures a in s[..i] {
        assert s[..i][k] == a;
      }
      s[k := b]
  }

  /** `s.split(c)` for a one-character separator. */
  function Split(s: string, c: char): (r: seq<string>)
    ensures |r| > 0
    ensures forall i :: 0 <= i < |r| ==> c !in r[i]
    decreases |s|
  {
    match IndexOf(s, c)
    case None => [s]
    case Some(k) => [s[..k]] + Split(s[k + 1..], c)
  }

  /** `parts.join(sep)`. */
  function Join(parts: seq<string>, sep: string): string {
    if |parts| == 0 then ""
    else if |parts| == 1 then parts[0]
    else parts[0] + sep + Join(parts[1..], sep)
  }

  /** Two or more parts joined: the text opens with the first part and the
      separator and closes with the separator and the last part. */
  lemma {:induction false} JoinEnds(parts: seq<string>, sep: string)
    requires |parts| >= 2
    ensures StartsWith(Join(parts, sep), parts[0] + sep)
    ensures EndsWith(Join(parts, sep), sep + parts[|parts| - 1])
  {
    var j := Join(parts, sep);
    var rest := Join(parts[1..], sep);
    assert j == (parts[0] + sep) + rest;
    assert j[..|parts[0] + sep|] == parts[0] + sep;
    var tail := sep + parts[|parts| - 1];
    if |parts| == 2 {
      assert rest == parts[1];
      assert j == parts[0] + tail;
    } else {
      JoinEnds(parts[1..], sep);
      assert rest[|rest| - |tail|..] == tail;
      assert j[|j| - |tail|..] == rest[|rest| - |tail|..];
    }
  }
}

=== FILE: login.dfy ===
/** The login page: the form check, the request it sends, the route for
    the role the token carries, and the profile refresh a doctor's login
    runs before navigating. Whether the e-mail passes Angular's e-mail
    validator is a parameter. */
module Login {
  import opened Wrappers
  import opened JsText
  import Auth

  datatype LoginForm = LoginForm(email: string, password: string)

  datatype LoginRequest = LoginRequest(email: string, password: string)

  /** What the page does after a successful login, in order. */
  datatype Effect = RefreshProfile | Navigate(url: string)

  /** The form's validators: the e-mail is required and well formed, the
      password required with at least six characters. */
  predicate FormValid(f: LoginForm, emailOk: bool) {
    f.email != "" && emailOk && |f.password| >= 6
  }

  /** The page's loading flag and error. */
  datatype LoginPage = LoginPage(loading: bool, apiError: Option<string>)

  /** `submit()`: an invalid form sends nothing and changes nothing; a
      valid one starts loading, clears the error and sends the trimmed,
      lower-cased e-mail with the password as typed. */
  function Submit(p: LoginPage, f: LoginForm, emailOk: bool): (r: (LoginPage, Option<LoginRequest>))
    ensures r.1.None? <==> !FormValid(f, emailOk)
    ensures r.1.None? ==> r.0 == p
    ensures r.1.Some? ==> r.0 == LoginPage(true, None)
    ensures r.1.Some? ==> r.1.value.password == f.password && r.1.value.email == ToLower(Trim(f.email))
    ensures r.1.Some? ==>
      (IsTrimmed(r.1.value.email) && forall i :: 0 <= i < |r.1.value.email| ==> !('A' <= r.1.value.email[i] <= 'Z'))
  {
    if !FormValid(f, emailOk) then (p, None)
    else
      ToLowerIdempotent(Trim(f.email));
      LowerKeepsTrimmed(Trim(f.email));
      (LoginPage(true, None), Some(LoginRequest(ToLower(Trim(f.email)), f.password)))
  }

  /** Two ways of typing the same address send the same request. */
  lemma SpacingAndCaseDoNotMatter(p: LoginPage, f: LoginForm, g: LoginForm, emailOk: bool)
    requires FormValid(f, emailOk) && FormValid(g, emailOk) && f.password == g.password
    requires ToLower(Trim(f.email)) == ToLower(Trim(g.email))
    ensures Submit(p, f, emailOk) == Submit(p, g, emailOk)
  {
  }

  /** `routeForRole(role)`: `/admin` for ADMIN, `/doctor` for DOCTOR and
      `/patient` for any other role or none. */
  function RouteForRole(role: Option<string>): (url: string)
    ensures url == "/admin" <==> role == Some("ADMIN")
    ensures url == "/doctor" <==> role == Some("DOCTOR")
    ensures url == "/admin" || url == "/doctor" || url == "/patient"
  {
    match role
    case Some(r) => if r == "ADMIN" then "/admin" else if r == "DOCTOR" then "/doctor" else "/patient"
    case None => "/patient"
  }

  /** The page after a successful login: a doctor's profile is refreshed
      first when the profile service is there; the page then navigates to
      the role's route whether the refresh succeeded or failed. */
  function AfterLogin(role: Option<string>, hasProfileService: bool, refresh: Result<(), string>): (effects: seq<Effect>)
    ensures |effects| > 0 && effects[|effects| - 1] == Navigate(RouteForRole(role))
    ensures effects[0] == RefreshProfile <==> role == Some("DOCTOR") && hasProfileService
    ensures forall i :: 0 <= i < |effects| - 1 ==> !effects[i].Navigate?
    ensures |effects| <= 2
  {
    var target := RouteForRole(role);
    if role == Some("DOCTOR") && hasProfileService then
      match refresh
      case Ok(_) => [RefreshProfile, Navigate(target)]
      case Err(_) => [RefreshProfile, Navigate(target)]
    else [Navigate(target)]
  }

  /** The refresh's outcome never changes where the doctor lands. */
  lemma RefreshOutcomeIrrelevant(role: Option<string>, hasProfileService: bool, a: Result<(), string>, b: Result<(), string>)
    ensures AfterLogin(role, hasProfileService, a) == AfterLogin(role, hasProfileService, b)
  {
  }

  /** The answer of `login`: the page stops loading; an error is shown,
      a result leads on to `AfterLogin`. */
  function OnLogin(p: LoginPage, outcome: Result<Auth.LoginResult, string>, hasProfileService: bool,
                   refresh: Result<(), string>): (r: (LoginPage, seq<Effect>))
    ensures !r.0.loading
    ensures outcome.Err? ==> r.0.apiError == Some(outcome.error) && r.1 == []
    ensures outcome.Ok? ==> r.0.apiError == p.apiError && r.1 == AfterLogin(outcome.value.role, hasProfileService, refresh)
  {
    match outcome
    case Err(e) => (p.(loading := false, apiError := Some(e)), [])
    case Ok(res) => (p.(loading := false), AfterLogin(res.role, hasProfileService, refresh))
  }

  /** A token whose payload names the DOCTOR role leads, through the
      service's login, to a profile refresh and the doctor's pages. */
  lemma DoctorTokenLandsOnDoctorPages(st: Auth.Store, res: Auth.LoginResponse, decode: string -> Option<string>,
                                      p: LoginPage, refresh: Result<(), string>)
    requires st.isBrowser && Truthy(res.token)
    requires Auth.ExtractRole(true, res.token.value, decode) == Some("DOCTOR")
    ensures var out := Auth.Login(st, Ok(res), decode).1;
      OnLogin(p, out, true, refresh).1 == [RefreshProfile, Navigate("/doctor")]
  {
  }
}

=== FILE: otp.dfy ===
/** The one-time-password page: the masked phone it shows, the resend
    cooldown driven by a one-second interval, the code check before
    `verifyOtp` and the handling of its answer. The page's contact details,
    read from the navigation state or session storage, are parameters. */
module Otp {
  import opened Wrappers
  import opened JsText
  import opened Seqs

  // ---------------------------------------------------------------------------
  // Phone masking
  // ---------------------------------------------------------------------------

  /** `^(\+\d{1,4})(\d+)(\d{2,3})$` matches s with groups of k1, k2 and k3
      digits after the plus sign. */
  predicate GroupsMatch(s: string, k1: int, k2: int, k3: int) {
    1 <= k1 <= 4 && k2 >= 1 && 2 <= k3 <= 3 && |s| == 1 + k1 + k2 + k3
    && s[0] == '+' && AllDigits(s[1..])
  }

  /** A plus sign followed by at least four digits. */
  predicate PhoneShape(s: string) {
    |s| >= 5 && s[0] == '+' && AllDigits(s[1..])
  }

  /** The expression matches exactly the strings of that shape. */
  lemma MatchIffShape(s: string)
    ensures (exists k1, k2, k3 :: GroupsMatch(s, k1, k2, k3)) <==> PhoneShape(s)
  {
    if PhoneShape(s) {
      var n := |s| - 1;
      var k1 := Min(4, n - 3);
      assert GroupsMatch(s, k1, n - k1 - 2, 2);
    }
  }

  /** The groups a backtracking matcher settles on: each greedy quantifier
      tries its longest length first, so the first match found is the
      lexicographically greatest triple of group lengths. */
  function Groups(s: string): (g: (int, int, int))
    requires PhoneShape(s)
    ensures GroupsMatch(s, g.0, g.1, g.2)
    ensures forall j1, j2, j3 :: GroupsMatch(s, j1, j2, j3) ==>
      j1 < g.0 || (j1 == g.0 && (j2 < g.1 || (j2 == g.1 && j3 <= g.2)))
  {
    var n := |s| - 1;
    var k1 := Min(4, n - 3);
    (k1, n - k1 - 2, 2)
  }

  /** `'*'.repeat(n)`. */
  function Stars(n: nat): (r: string)
    ensures |r| == n
    ensures forall i :: 0 <= i < n ==> r[i] == '*'
  {
    seq(n, _ => '*')
  }

  /** `maskPhone(p)`: an unmatched number is shown as is; a matched one as
      its country group, a space, at least three asterisks for the middle
      group and the trailing group in clear. */
  function MaskPhone(p: string): (r: string)
    ensures !PhoneShape(p) ==> r == p
    ensures PhoneShape(p) ==> var g := Groups(p);
      && StartsWith(r, p[..1 + g.0] + " ")
      && EndsWith(r, p[|p| - g.2..])
      && |r| == 1 + g.0 + 1 + Max(3, g.1) + g.2
      && forall i :: 2 + g.0 <= i < |r| - g.2 ==> r[i] == '*'
  {
    if !PhoneShape(p) then p
    else
      var g := Groups(p);
      var r := p[..1 + g.0] + " " + Stars(Max(3, g.1)) + p[|p| - g.2..];
      assert r[..|p[..1 + g.0] + " "|] == p[..1 + g.0] + " ";
      r
  }

  /** Of a matched number only the last two digits stay in clear: the
      trailing group never takes three, because the middle group takes
      as many digits as it can first. */
  lemma LastTwoDigitsShown(p: string)
    requires PhoneShape(p)
    ensures Groups(p).2 == 2
    ensures EndsWith(MaskPhone(p), p[|p| - 2..])
  {
  }

  /** A masked number is masked again to itself: the space and the
      asterisks no longer match, so the mask is idempotent. */
  lemma MaskIdempotent(p: string)
    ensures MaskPhone(MaskPhone(p)) == MaskPhone(p)
  {
    if PhoneShape(p) {
      var r := MaskPhone(p);
      var g := Groups(p);
      assert r[1 + g.0] == ' ';
      assert !IsDigit(r[1..][g.0]);
    }
  }

  // ---------------------------------------------------------------------------
  // The page
  // ---------------------------------------------------------------------------

  /** The cooldown length in seconds. */
  const Cooldown := 30

  const ResendInfo := "If your previous OTP expired we will send a new one automatically when you try again."

  /** The page state; `ticking` is whether the one-second interval runs.
      `storedEmail` and `storedPhone` are what session storage holds under
      `medtik_pending_email` and `medtik_pending_phone`. */
  datatype OtpPage = OtpPage(email: string, phone: string, displayPhone: string, seconds: nat, ticking: bool,
                             loading: bool, apiError: Option<string>, info: Option<string>,
                             storedEmail: Option<string>, storedPhone: Option<string>)

  /** What the page asks of the outside world. */
  datatype Effect = NoEffect | Redirect(url: string) | VerifyOtp(email: string, otp: string)
                  | GoToLogin(verifiedEmail: string)

  /** The cooldown's invariant: it never goes above its length, and the interval runs only while there is time left. */
  predicate CooldownOk(p: OtpPage) {
    p.seconds <= Cooldown && (p.ticking ==> p.seconds > 0)
  }

  /** Opening the page: phone and e-mail come from the navigation state,
      else session storage, else empty (`??` keeps an empty string). With no
      e-mail the page sends the user back to sign-up and starts no timer. */
  function Open(statePhone: Option<string>, sessionPhone: Option<string>,
                stateEmail: Option<string>, sessionEmail: Option<string>): (r: (OtpPage, Effect))
    ensures CooldownOk(r.0) && r.0.seconds == Cooldown
    ensures r.0.email == stateEmail.GetOr(sessionEmail.GetOr(""))
    ensures r.0.displayPhone == MaskPhone(r.0.phone)
    ensures r.0.email == "" <==> r.1 == Redirect("/auth/signup")
    ensures r.0.ticking <==> r.0.email != ""
    ensures r.0.storedEmail == sessionEmail && r.0.storedPhone == sessionPhone
  {
    var phone := statePhone.GetOr(sessionPhone.GetOr(""));
    var email := stateEmail.GetOr(sessionEmail.GetOr(""));
    var display := if phone != "" then MaskPhone(phone) else "";
    var p := OtpPage(email, phone, display, Cooldown, email != "", false, None, None, sessionEmail, sessionPhone);
    (p, if email == "" then Redirect("/auth/signup") else NoEffect)
  }

  /** One tick of the interval: one second less, never below zero; the
      interval stops on reaching zero. A stopped interval does not tick. */
  function Tick(p: OtpPage): (r: OtpPage)
    ensures p.ticking && p.seconds > 0 ==> r.seconds == p.seconds - 1
    ensures p.ticking ==> (r.ticking <==> r.seconds != 0)
    ensures !p.ticking ==> r == p
    ensures r.(seconds := p.seconds, ticking := p.ticking) == p
  {
    if !p.ticking then p
    else
      var s := Max(0, p.seconds - 1);
      p.(seconds := s, ticking := s != 0)
  }

  /** n ticks of the interval. */
  function Ticks(p: OtpPage, n: nat): OtpPage
    decreases n
  {
    if n == 0 then p else Ticks(Tick(p), n - 1)
  }

  /** The cooldown counts down one per tick and stops at zero. */
  lemma {:induction false} CountsDown(p: OtpPage, n: nat)
    requires CooldownOk(p) && p.ticking
    ensures Ticks(p, n).seconds == Max(0, p.seconds - n)
    ensures Ticks(p, n).ticking <==> n < p.seconds
    ensures CooldownOk(Ticks(p, n))
    decreases n
  {
    if n > 0 {
      var q := Tick(p);
      if q.ticking {
        CountsDown(q, n - 1);
      } else {
        StoppedStays(q, n - 1);
      }
    }
  }

  /** A stopped interval changes nothing. */
  lemma {:induction false} StoppedStays(p: OtpPage, n: nat)
    requires !p.ticking
    ensures Ticks(p, n) == p
    decreases n
  {
    if n > 0 {
      StoppedStays(Tick(p), n - 1);
    }
  }

  /** The cooldown starts over at its full length. */
  function Restart(p: OtpPage): (r: OtpPage)
    ensures CooldownOk(r) && r.seconds == Cooldown && r.ticking
  {
    p.(seconds := Cooldown, ticking := true)
  }

  /** `resend()`: nothing while the cooldown runs; afterwards an
      information message and a fresh cooldown. */
  function Resend(p: OtpPage): (r: OtpPage)
    ensures p.seconds > 0 ==> r == p
    ensures p.seconds == 0 ==>
      (r.seconds == Cooldown && r.ticking && r.info == Some(ResendInfo)
       && r.(seconds := p.seconds, ticking := p.ticking, info := p.info) == p)
  {
    if p.seconds > 0 then p else Restart(p).(info := Some(ResendInfo))
  }

  /** The code control's validators: required and `^\d{6}$`. */
  predicate CodeValid(code: string) {
    |code| == 6 && AllDigits(code)
  }

  /** `submit()`: an invalid code makes no call; a valid one starts loading,
      clears both messages and verifies the code for the page's e-mail. */
  function Submit(p: OtpPage, code: string): (r: (OtpPage, Effect))
    ensures r.1.VerifyOtp? <==> |code| == 6 && forall i :: 0 <= i < |code| ==> IsDigit(code[i])
    ensures !CodeValid(code) ==> r == (p, NoEffect)
    ensures CodeValid(code) ==>
      (r.1 == VerifyOtp(p.email, code) && r.0.loading && r.0.apiError.None? && r.0.info.None?)
  {
    if !CodeValid(code) then (p, NoEffect)
    else (p.(loading := true, apiError := None, info := None), VerifyOtp(p.email, code))
  }

  /** The answer of `verifyOtp`: on success the pending contact is removed
      from session storage and the user goes to log in; on failure storage
      is kept, the error message is shown, and one that mentions `expired`
      in any case restarts the cooldown. */
  function OnVerify(p: OtpPage, outcome: Result<(), string>): (r: (OtpPage, Effect))
    ensures !r.0.loading
    ensures outcome.Ok? ==> r.1 == GoToLogin(p.email) && r.0.storedEmail.None? && r.0.storedPhone.None?
    ensures outcome.Err? ==> r.0.storedEmail == p.storedEmail && r.0.storedPhone == p.storedPhone
    ensures outcome.Err? ==> r.1 == NoEffect && r.0.apiError == Some(outcome.error)
    ensures outcome.Err? && Contains(ToLower(outcome.error), "expired") ==> r.0.seconds == Cooldown && r.0.ticking
    ensures outcome.Err? && !Contains(ToLower(outcome.error), "expired") ==>
      r.0.seconds == p.seconds && r.0.ticking == p.ticking
  {
    match outcome
    case Ok(_) => (p.(loading := false, storedEmail := None, storedPhone := None), GoToLogin(p.email))
    case Err(e) =>
      var q := p.(loading := false, apiError := Some(e));
      (if Contains(ToLower(e), "expired") then Restart(q) else q, NoEffect)
  }

  /** Every step keeps the cooldown within its bounds. */
  lemma StepsKeepCooldown(p: OtpPage, code: string, outcome: Result<(), string>)
    requires CooldownOk(p)
    ensures CooldownOk(Tick(p)) && CooldownOk(Resend(p))
    ensures CooldownOk(Submit(p, code).0) && CooldownOk(OnVerify(p, outcome).0)
  {
  }
}

=== FILE: paging.dfy ===
/** `Array.prototype.slice` and the client-side pagination of the admin
    tables (`rows.slice(i * size, i * size + size)`), plus the range label
    the two Material tables print. */
module Paging {
  import opened JsText

  /** `s.slice(start, end)` for non-negative bounds: clamped to the length,
      and empty when end does not exceed start. */
  function Slice<T>(s: seq<T>, start: nat, end: nat): (r: seq<T>)
    ensures |r| <= |s|
    ensures start <= |s| && start <= end ==> |r| == (if end <= |s| then end else |s|) - start
    ensures forall k :: 0 <= k < |r| ==> start + k < |s| && r[k] == s[start + k]
  {
    var lo := if start <= |s| then start else |s|;
    var hi := if end <= |s| then end else |s|;
    if hi <= lo then [] else s[lo..hi]
  }

  /** The position of the first row of page `index` of `size` rows. */
  function PageStart(index: nat, size: nat): nat {
    index * size
  }

  /** How many of n rows page `index` of `size` rows holds: a full page,
      what is left before the end, or none past the end. */
  function PageLength(n: nat, index: nat, size: nat): nat {
    if index * size + size <= n then size
    else if index * size <= n then n - index * size
    else 0
  }

  /** Page `index` of `size` rows. */
  function Page<T>(s: seq<T>, index: nat, size: nat): (r: seq<T>)
    ensures |r| <= size
    ensures |r| == PageLength(|s|, index, size)
    ensures forall k :: 0 <= k < |r| ==> PageStart(index, size) + k < |s| && r[k] == s[PageStart(index, size) + k]
  {
    Slice(s, PageStart(index, size), PageStart(index, size) + size)
  }

  /** A page holds only rows of the list. */
  lemma PageMembers<T>(s: seq<T>, index: nat, size: nat)
    ensures forall x :: x in Page(s, index, size) ==> x in s
  {
    var r := Page(s, index, size);
    forall x | x in r ensures x in s {
      var k :| 0 <= k < |r| && r[k] == x;
      assert s[index * size + k] == x;
    }
  }

  /** Every row shows up on exactly one page: row p is item p % size of page p / size. */
  lemma RowOnItsPage<T>(s: seq<T>, p: nat, size: nat)
    requires p < |s| && size > 0
    ensures var pg := Page(s, p / size, size);
      p % size < |pg| && pg[p % size] == s[p]
  {
    var i := p / size;
    assert i * size + p % size == p;
    assert i * size <= p < i * size + size;
  }

  /** A page holds `size` rows unless it is the last one. */
  lemma FullPagesBeforeEnd<T>(s: seq<T>, index: nat, size: nat)
    requires index * size + size <= |s|
    ensures |Page(s, index, size)| == size
  {
  }

  /** The range label of the users and transactions tables:
      "No results" on an empty list, else "Showing {first}–{last} of {length}". */
  function RangeLabel(page: nat, pageSize: nat, length: nat): (r: string)
    ensures length == 0 ==> r == "No results"
    ensures length > 0 ==> StartsWith(r, "Showing ")
  {
    if length == 0 then "No results"
    else
      var start := page * pageSize;
      var end := if start + pageSize < length then start + pageSize else length;
      "Showing " + NatToString(start + 1) + "–" + NatToString(end) + " of " + NatToString(length)
  }
}

=== FILE: patientappointments.dfy ===
/** The patient's appointments page: the upcoming and past sections, the join
    window, the countdown, the payment summary, joining, cancelling and the
    calendar file. Times are milliseconds since the epoch and the current
    time is a parameter. */
module PatientAppointments {
  import opened Wrappers
  import opened JsText
  import opened Seqs
  import opened Sorting
  import opened Slots
  import opened Visits
  import opened Ics

  datatype Status = Scheduled | Completed | Canceled | NoShow

  /** The payment summary; a field that is absent or empty is falsy. */
  datatype Payment = Payment(payMethod: Option<string>, last4: Option<string>, txnId: Option<string>)

  /** The fields of an appointment the page's logic reads. */
  datatype Appointment = Appointment(
    id: string, doctorId: string, start: int, end: int, modality: Modality, status: Status,
    payment: Payment, joinUrl: Option<string>, doctorName: string, notes: Option<string>, updatedAt: int)

  /** The sort key of `new Date(a.startUtc).getTime()`. */
  function StartKey(a: Appointment): Key {
    [a.start]
  }

  // ---------------------------------------------------------------------------
  // Sections
  // ---------------------------------------------------------------------------

  /** `upcoming`: starting now or later, soonest first. */
  function Upcoming(all: seq<Appointment>, now: int): (r: seq<Appointment>)
    ensures SortedBy(r, StartKey, false)
    ensures forall a :: a in r <==> a in all && a.start >= now
  {
    var kept := Filter(all, (a: Appointment) => a.start >= now);
    FilterMembers(all, (a: Appointment) => a.start >= now);
    SortByMembers(kept, StartKey, false);
    SortBy(kept, StartKey, false)
  }

  /** `past`: started before now, latest first. */
  function Past(all: seq<Appointment>, now: int): (r: seq<Appointment>)
    ensures SortedBy(r, StartKey, true)
    ensures forall a :: a in r <==> a in all && a.start < now
  {
    var kept := Filter(all, (a: Appointment) => a.start < now);
    FilterMembers(all, (a: Appointment) => a.start < now);
    SortByMembers(kept, StartKey, true);
    SortBy(kept, StartKey, true)
  }

  /** The two sections split the list: together they hold every appointment
      as often as the list does. */
  lemma SectionsPartition(all: seq<Appointment>, now: int)
    ensures multiset(Upcoming(all, now)) + multiset(Past(all, now)) == multiset(all)
  {
    FilterSplit(all, (a: Appointment) => a.start >= now, (a: Appointment) => a.start < now);
  }

  // ---------------------------------------------------------------------------
  // Join window and countdown
  // ---------------------------------------------------------------------------

  /** `canJoin`: scheduled, and now within the join window. */
  predicate CanJoin(a: Appointment, now: int) {
    a.status == Scheduled && InJoinWindow(a.start, a.end, now)
  }

  /** `countdown`. */
  function Countdown(a: Appointment, now: int): (r: string)
    ensures a.start <= now ==> r == "Starts soon"
  {
    Visits.Countdown(a.start, now, "Starts soon")
  }

  // ---------------------------------------------------------------------------
  // Payment and actions
  // ---------------------------------------------------------------------------

  /** `paymentDetails`: the payment when it says something, otherwise null. */
  function PaymentDetails(a: Appointment): (r: Option<Payment>)
    ensures r.Some? <==> Truthy(a.payment.payMethod) || Truthy(a.payment.last4) || Truthy(a.payment.txnId)
    ensures r.Some? ==> r.value == a.payment
  {
    var p := a.payment;
    if Truthy(p.payMethod) || Truthy(p.last4) || Truthy(p.txnId) then Some(p) else None
  }

  /** What `join` does: nothing, an in-app navigation, or a new tab. */
  datatype JoinAction = Stay | Navigate(url: string) | OpenTab(url: string)

  function Join(a: Appointment, now: int): (r: JoinAction)
    ensures !CanJoin(a, now) ==> r == Stay
    ensures CanJoin(a, now) ==> (r.Navigate? <==> StartsWith(OrEmpty(a.joinUrl), "/"))
    ensures CanJoin(a, now) ==> !r.Stay? && r.url == OrEmpty(a.joinUrl)
  {
    if !CanJoin(a, now) then Stay
    else
      var url := OrEmpty(a.joinUrl);
      if StartsWith(url, "/") then Navigate(url) else OpenTab(url)
  }

  /** `cancel(a)`: after the confirm dialog, the matching appointment becomes
      canceled and is stamped; `confirmed` is the dialog's answer and `now`
      the stamp. */
  function Cancel(all: seq<Appointment>, id: string, confirmed: bool, now: int): (r: seq<Appointment>)
    ensures !confirmed ==> r == all
    ensures |r| == |all|
  {
    if !confirmed then all
    else MapWhere(all, (x: Appointment) => x.id == id, (x: Appointment) => x.(status := Canceled, updatedAt := now))
  }

  /** Cancelling changes only the status and the stamp of the appointments
      with that id, and leaves every other one as it was. */
  lemma CancelOnlyThatId(all: seq<Appointment>, id: string, now: int)
    ensures var r := Cancel(all, id, true, now);
      forall i :: 0 <= i < |all| ==>
        r[i] == (if all[i].id == id then all[i].(status := Canceled, updatedAt := now) else all[i])
  {
  }

  /** A canceled appointment can no longer be joined, at any time. */
  lemma CanceledCannotJoin(all: seq<Appointment>, id: string, now: int, t: int, i: int)
    requires 0 <= i < |all| && all[i].id == id
    ensures !CanJoin(Cancel(all, id, true, now)[i], t)
    ensures Join(Cancel(all, id, true, now)[i], t) == Stay
  {
    CancelOnlyThatId(all, id, now);
  }

  /** The calendar file of an appointment; the fields of the `Date`s are
      parameters. */
  function CalendarFile(a: Appointment, stamp: UtcTime, start: UtcTime, end: UtcTime): string {
    IcsText(IcsLines(a.id, stamp, start, end, ModalityName(a.modality), a.doctorName, a.joinUrl, a.notes))
  }
}

=== FILE: patientnotifications.dfy ===
/** The patient's notification centre: the relative time label, the visible
    list, its grouping into today, this week and earlier, the unread counts,
    and the read, unread and archive transitions. Times are milliseconds since
    the epoch; the current time and the start of today and of this week are
    parameters. */
module PatientNotifications {
  import opened Wrappers
  import opened JsText
  import opened Seqs
  import opened Sorting

  datatype Kind = Appointment | Message | Payment | Record | System
  datatype Status = Unread | Read | Archived

  /** The call to action: an in-app route or an external link. */
  datatype Cta = Cta(caption: string, route: Option<seq<string>>, external: Option<string>)

  datatype Item = Item(id: string, kind: Kind, status: Status, title: string, body: Option<string>, ts: int, cta: Option<Cta>)

  /** The per-kind switches of the notification settings. */
  datatype Categories = Categories(appointment: bool, message: bool, payment: bool, record: bool, system: bool)

  function Allows(c: Categories, k: Kind): bool {
    match k
    case Appointment => c.appointment
    case Message => c.message
    case Payment => c.payment
    case Record => c.record
    case System => c.system
  }

  // ---------------------------------------------------------------------------
  // Relative time
  // ---------------------------------------------------------------------------

  /** The unit `rel` picks, with its count. */
  datatype Ago = Seconds(n: nat) | Minutes(n: nat) | Hours(n: nat) | Yesterday | Days(n: nat)

  /** The unit and count for an elapsed time of `diff` ms: each unit is used
      below the next one, and its count is the elapsed time in that unit,
      rounded down. */
  function AgoOf(diff: nat): (r: Ago)
    ensures r.Seconds? <==> diff < 60000
    ensures r.Seconds? ==> r.n == diff / 1000 && r.n < 60
    ensures r.Minutes? <==> 60000 <= diff < 3600000
    ensures r.Minutes? ==> r.n == diff / 60000 && 1 <= r.n < 60
    ensures r.Hours? <==> 3600000 <= diff < 86400000
    ensures r.Hours? ==> r.n == diff / 3600000 && 1 <= r.n < 24
    ensures r.Yesterday? <==> 86400000 <= diff < 172800000
    ensures r.Days? <==> 172800000 <= diff
    ensures r.Days? ==> r.n == diff / 86400000 && r.n >= 2
  {
    var s := diff / 1000;
    if s < 60 then Seconds(s)
    else
      var m := s / 60;
      assert m == diff / 60000;
      if m < 60 then Minutes(m)
      else
        var h := m / 60;
        assert h == diff / 3600000;
        if h < 24 then Hours(h)
        else
          var d := h / 24;
          assert d == diff / 86400000;
          if d == 1 then Yesterday else Days(d)
  }

  function AgoText(a: Ago): string {
    match a
    case Seconds(n) => NatToString(n) + "s ago"
    case Minutes(n) => NatToString(n) + "m ago"
    case Hours(n) => NatToString(n) + "h ago"
    case Yesterday => "Yesterday"
    case Days(n) => NatToString(n) + "d ago"
  }

  /** `rel(iso)`: the time elapsed since `ts` in its largest unit below a
      day, `Yesterday` on the second day, and whole days after that; a time
      in the future counts as no time at all. */
  function Rel(ts: int, now: int): (r: string)
    ensures ts >= now ==> r == "0s ago"
    ensures 0 <= now - ts < 60000 ==> r == NatToString((now - ts) / 1000) + "s ago"
    ensures 60000 <= now - ts < 3600000 ==> r == NatToString((now - ts) / 60000) + "m ago"
    ensures 3600000 <= now - ts < 86400000 ==> r == NatToString((now - ts) / 3600000) + "h ago"
    ensures r == "Yesterday" <==> 86400000 <= now - ts < 172800000
    ensures 172800000 <= now - ts ==> r == NatToString((now - ts) / 86400000) + "d ago"
  {
    var diff := if now - ts > 0 then now - ts else 0;
    var a := AgoOf(diff);
    assert a == Seconds(0) ==> NatToString(0) == "0";
    assert !a.Yesterday? ==> AgoText(a)[0] != 'Y' by {
      if !a.Yesterday? {
        assert AgoText(a)[0] == NatToString(a.n)[0];
      }
    }
    AgoText(a)
  }

  // ---------------------------------------------------------------------------
  // Visible list, groups and counts
  // ---------------------------------------------------------------------------

  /** The kind filter: `'all'` or one kind. */
  datatype KindFilter = AnyKind | OnlyKind(kind: Kind)

  /** The text test with the already lower-cased and trimmed query. */
  predicate TextOk(q: string, n: Item) {
    q == "" || Contains(ToLower(n.title), q) || Contains(ToLower(n.body.GetOr("")), q)
  }

  /** Every test `visible` applies to one item. */
  predicate Shows(c: Categories, f: KindFilter, query: string, n: Item) {
    n.status != Archived && Allows(c, n.kind) && (f.AnyKind? || n.kind == f.kind)
    && TextOk(Trim(ToLower(query)), n)
  }

  function TsKey(n: Item): Key {
    [n.ts]
  }

  /** `visible`: the items that pass every test, newest first. */
  function Visible(all: seq<Item>, c: Categories, f: KindFilter, query: string): (r: seq<Item>)
    ensures SortedBy(r, TsKey, true)
    ensures forall n :: n in r <==> n in all && Shows(c, f, query, n)
  {
    var kept := Filter(all, (n: Item) => Shows(c, f, query, n));
    FilterMembers(all, (n: Item) => Shows(c, f, query, n));
    SortByMembers(kept, TsKey, true);
    SortBy(kept, TsKey, true)
  }

  /** No archived item and no item of a switched-off kind is ever visible. */
  lemma HiddenKinds(all: seq<Item>, c: Categories, f: KindFilter, query: string, n: Item)
    requires n.status == Archived || !Allows(c, n.kind)
    ensures n !in Visible(all, c, f, query)
  {
  }

  datatype Groups = Groups(today: seq<Item>, week: seq<Item>, earlier: seq<Item>)

  predicate InToday(n: Item, today: int) {
    n.ts >= today
  }

  predicate InWeek(n: Item, today: int, week0: int) {
    n.ts < today && n.ts >= week0
  }

  predicate InEarlier(n: Item, today: int, week0: int) {
    n.ts < today && n.ts < week0
  }

  /** `groups`: the visible items from the start of today, from the Monday
      of this week, and before that, each in the visible order. */
  function GroupsOf(visible: seq<Item>, today: int, week0: int): (g: Groups)
    ensures forall n :: n in g.today <==> n in visible && n.ts >= today
    ensures forall n :: n in g.week <==> n in visible && n.ts < today && n.ts >= week0
    ensures forall n :: n in g.earlier <==> n in visible && n.ts < week0 && n.ts < today
  {
    FilterMembers(visible, (n: Item) => InToday(n, today));
    FilterMembers(visible, (n: Item) => InWeek(n, today, week0));
    FilterMembers(visible, (n: Item) => InEarlier(n, today, week0));
    Groups(Filter(visible, (n: Item) => InToday(n, today)),
           Filter(visible, (n: Item) => InWeek(n, today, week0)),
           Filter(visible, (n: Item) => InEarlier(n, today, week0)))
  }

  /** The three groups split the visible list: every item lands in exactly
      one of them, as often as it occurs. */
  lemma GroupsPartition(visible: seq<Item>, today: int, week0: int)
    ensures var g := GroupsOf(visible, today, week0);
      multiset(g.today) + multiset(g.week) + multiset(g.earlier) == multiset(visible)
  {
    var inToday := (n: Item) => InToday(n, today);
    var older := (n: Item) => !InToday(n, today);
    var inWeek := (n: Item) => InWeek(n, today, week0);
    var inEarlier := (n: Item) => InEarlier(n, today, week0);
    var thisWeek := (n: Item) => n.ts >= week0;
    var before := (n: Item) => n.ts < week0;
    FilterSplit(visible, inToday, older);
    var rest := Filter(visible, older);
    FilterSplit(rest, thisWeek, before);
    FilterFilter(visible, older, thisWeek, inWeek);
    FilterFilter(visible, older, before, inEarlier);
  }

  /** The unread counters, overall and per kind. */
  datatype Counts = Counts(all: nat, appointment: nat, message: nat, payment: nat, record: nat, system: nat)

  function CountOf(c: Counts, k: Kind): nat {
    match k
    case Appointment => c.appointment
    case Message => c.message
    case Payment => c.payment
    case Record => c.record
    case System => c.system
  }

  /** One step of the `counts` loop. */
  function Bump(c: Counts, n: Item): Counts {
    if n.status != Unread then c
    else
      match n.kind
      case Appointment => c.(all := c.all + 1, appointment := c.appointment + 1)
      case Message => c.(all := c.all + 1, message := c.message + 1)
      case Payment => c.(all := c.all + 1, payment := c.payment + 1)
      case Record => c.(all := c.all + 1, record := c.record + 1)
      case System => c.(all := c.all + 1, system := c.system + 1)
  }

  predicate IsUnread(n: Item) {
    n.status == Unread
  }

  predicate UnreadOfKind(n: Item, k: Kind) {
    n.status == Unread && n.kind == k
  }

  /** `counts`: one pass over every item, whatever the filters, bumping the
      overall counter and the item's kind counter for each unread item. */
  function CountsOf(items: seq<Item>): (r: Counts)
    ensures r.all == r.appointment + r.message + r.payment + r.record + r.system
  {
    if |items| == 0 then Counts(0, 0, 0, 0, 0, 0)
    else Bump(CountsOf(items[1..]), items[0])
  }

  /** What one step of the loop adds to each counter. */
  lemma BumpStep(c: Counts, n: Item)
    ensures Bump(c, n).all == c.all + (if IsUnread(n) then 1 else 0)
    ensures forall k :: CountOf(Bump(c, n), k) == CountOf(c, k) + (if UnreadOfKind(n, k) then 1 else 0)
  {
  }

  /** The overall counter is the number of unread items. */
  lemma {:induction false} CountsAllUnread(items: seq<Item>)
    ensures CountsOf(items).all == Count(items, IsUnread)
  {
    if |items| > 0 {
      CountsAllUnread(items[1..]);
      BumpStep(CountsOf(items[1..]), items[0]);
      CountCons(items, IsUnread);
    }
  }

  /** Each kind's counter is the number of unread items of that kind. */
  lemma {:induction false} CountsPerKind(items: seq<Item>, k: Kind)
    ensures CountOf(CountsOf(items), k) == Count(items, (n: Item) => UnreadOfKind(n, k))
  {
    if |items| > 0 {
      CountsPerKind(items[1..], k);
      BumpStep(CountsOf(items[1..]), items[0]);
      CountCons(items, (n: Item) => UnreadOfKind(n, k));
    }
  }

  // ---------------------------------------------------------------------------
  // Transitions
  // ---------------------------------------------------------------------------

  /** `markRead(n)`: nothing when the item was read already; otherwise every
      item with its id becomes read, which also brings an archived one back. */
  function MarkRead(all: seq<Item>, n: Item): (r: seq<Item>)
    ensures |r| == |all|
    ensures n.status == Read ==> r == all
    ensures forall i :: 0 <= i < |all| && all[i].id != n.id ==> r[i] == all[i]
    ensures n.status != Read ==> forall i :: 0 <= i < |all| && all[i].id == n.id ==> r[i] == all[i].(status := Read)
  {
    if n.status == Read then all
    else MapWhere(all, (x: Item) => x.id == n.id, (x: Item) => x.(status := Read))
  }

  /** Marking an item read twice is marking it once. */
  lemma MarkReadIdempotent(all: seq<Item>, n: Item)
    ensures MarkRead(MarkRead(all, n), n) == MarkRead(all, n)
  {
  }

  /** After `markRead`, the item is neither unread nor archived. */
  lemma MarkReadUnarchives(all: seq<Item>, n: Item, i: int)
    requires n.status != Read && 0 <= i < |all| && all[i].id == n.id
    ensures MarkRead(all, n)[i].status == Read
  {
  }

  /** `toggleRead(n)`: unread becomes read, and read or archived becomes unread. */
  function ToggleRead(all: seq<Item>, id: string): (r: seq<Item>)
    ensures |r| == |all|
    ensures forall i :: 0 <= i < |all| ==> r[i].id == all[i].id
    ensures forall i :: 0 <= i < |all| && all[i].id == id && all[i].status == Unread ==>
      r[i] == all[i].(status := Read)
    ensures forall i :: 0 <= i < |all| && all[i].id == id && all[i].status != Unread ==>
      r[i] == all[i].(status := Unread)
    ensures forall i :: 0 <= i < |all| && all[i].id != id ==> r[i] == all[i]
  {
    MapWhere(all, (x: Item) => x.id == id,
             (x: Item) => x.(status := if x.status == Unread then Read else Unread))
  }

  /** Toggling twice restores every unread or read item; an archived one
      comes back as read. */
  lemma ToggleTwice(all: seq<Item>, id: string)
    ensures var r := ToggleRead(ToggleRead(all, id), id);
      forall i :: 0 <= i < |all| ==>
        r[i] == (if all[i].id == id && all[i].status == Archived then all[i].(status := Read) else all[i])
  {
  }

  /** `archive(n)`, and the snack bar's undo, which brings the item back as read. */
  function Archive(all: seq<Item>, id: string): (r: seq<Item>)
    ensures |r| == |all|
    ensures forall i :: 0 <= i < |all| ==> r[i] == if all[i].id == id then all[i].(status := Archived) else all[i]
  {
    MapWhere(all, (x: Item) => x.id == id, (x: Item) => x.(status := Archived))
  }

  function UndoArchive(all: seq<Item>, id: string): (r: seq<Item>)
    ensures |r| == |all|
    ensures forall i :: 0 <= i < |all| ==> r[i] == if all[i].id == id then all[i].(status := Read) else all[i]
  {
    MapWhere(all, (x: Item) => x.id == id, (x: Item) => x.(status := Read))
  }

  /** An archived item leaves the visible list, whatever the filters; after
      the undo a read item is back exactly as it was, and an unread one
      comes back read. */
  lemma ArchiveThenUndo(all: seq<Item>, id: string, c: Categories, f: KindFilter, query: string, i: int)
    requires 0 <= i < |all| && all[i].id == id
    ensures Archive(all, id)[i] !in Visible(Archive(all, id), c, f, query)
    ensures all[i].status == Read ==> UndoArchive(Archive(all, id), id)[i] == all[i]
    ensures all[i].status == Unread ==> UndoArchive(Archive(all, id), id)[i] == all[i].(status := Read)
  {
  }

  /** `markAllRead()`: every unread item becomes read; archived stay archived. */
  function MarkAllRead(all: seq<Item>): (r: seq<Item>)
    ensures |r| == |all|
    ensures forall i :: 0 <= i < |all| ==> r[i].status != Unread
    ensures forall i :: 0 <= i < |all| && all[i].status != Unread ==> r[i] == all[i]
    ensures forall i :: 0 <= i < |all| && all[i].status == Unread ==> r[i] == all[i].(status := Read)
  {
    MapWhere(all, IsUnread, (x: Item) => x.(status := Read))
  }

  /** After `markAllRead` every unread counter is zero. */
  lemma MarkAllReadClearsCounts(all: seq<Item>)
    ensures CountsOf(MarkAllRead(all)).all == 0
  {
    var r := MarkAllRead(all);
    CountsAllUnread(r);
    FilterNone(r, IsUnread);
  }

  /** The number of days `clearOlderThan` uses when called without one. */
  const DefaultClearDays := 30

  /** `clearOlderThan(days)`: the items stamped before `now - days` days are
      archived, and the snack bar says how many days. */
  function ClearOlderThan(all: seq<Item>, days: int, now: int): (r: (seq<Item>, string))
    ensures |r.0| == |all|
    ensures forall i :: 0 <= i < |all| && all[i].ts < now - days * 86400000 ==> r.0[i] == all[i].(status := Archived)
    ensures forall i :: 0 <= i < |all| && all[i].ts >= now - days * 86400000 ==> r.0[i] == all[i]
    ensures r.1 == "Cleared items older than " + IntToString(days) + "d"
  {
    var cutoff := now - days * 86400000;
    (MapWhere(all, (x: Item) => x.ts < cutoff, (x: Item) => x.(status := Archived)),
     "Cleared items older than " + IntToString(days) + "d")
  }

  /** After clearing, nothing older than the cutoff is visible any more. */
  lemma ClearedAreHidden(all: seq<Item>, days: int, now: int, c: Categories, f: KindFilter, query: string, n: Item)
    requires n in Visible(ClearOlderThan(all, days, now).0, c, f, query)
    ensures n.ts >= now - days * 86400000
  {
    var r := ClearOlderThan(all, days, now).0;
    var k := PositionOf(n, r);
  }

  /** What `open` does after marking the item read. */
  datatype OpenAction = Stay | Navigate(route: seq<string>) | NewTab(url: string)

  /** `open(n)`: mark it read, then follow the route, else the external
      link, else nothing. */
  function Open(all: seq<Item>, n: Item): (r: (seq<Item>, OpenAction))
    ensures r.0 == MarkRead(all, n)
    ensures r.1.Navigate? <==> n.cta.Some? && n.cta.value.route.Some?
    ensures r.1.NewTab? <==> n.cta.Some? && n.cta.value.route.None? && Truthy(n.cta.value.external)
    ensures r.1.Navigate? ==> r.1.route == n.cta.value.route.value
    ensures r.1.NewTab? ==> r.1.url == n.cta.value.external.value
  {
    var action :=
      if n.cta.Some? && n.cta.value.route.Some? then Navigate(n.cta.value.route.value)
      else if n.cta.Some? && Truthy(n.cta.value.external) then NewTab(n.cta.value.external.value)
      else Stay;
    (MarkRead(all, n), action)
  }
}

=== FILE: patients.dfy ===
/** The doctor's patient list: whole days since and until a visit, the
    active, follow-up and new tabs, the text search, the three sort orders and
    the status pills. Times are milliseconds since the epoch; the current time
    is a parameter. */
module Patients {
  import opened Wrappers
  import opened JsText
  import opened Seqs
  import opened Sorting

  /** A day count, or +Infinity for a missing date. */
  datatype Days = Infinite | Finite(n: int)

  predicate AtMost(d: Days, k: int) {
    d.Finite? && d.n <= k
  }

  /** `daysSince(iso)`: whole days elapsed, rounded down; `None` is a
      missing or empty date. */
  function DaysSince(t: Option<int>, now: int): (d: Days)
    ensures d.Infinite? <==> t.None?
    ensures d.Finite? ==> d.n * 86400000 <= now - t.value < d.n * 86400000 + 86400000
  {
    if t.None? then Infinite else Finite((now - t.value) / 86400000)
  }

  /** `daysUntil(iso)`: whole days remaining, rounded up. */
  function DaysUntil(t: Option<int>, now: int): (d: Days)
    ensures d.Infinite? <==> t.None?
    ensures d.Finite? ==> d.n * 86400000 - 86400000 < t.value - now <= d.n * 86400000
  {
    if t.None? then Infinite else Finite(-((now - t.value) / 86400000))
  }

  /** On a whole number of days the two counts are opposite. */
  lemma SinceUntilOpposite(t: int, now: int, k: int)
    requires now - t == k * 86400000
    ensures DaysSince(Some(t), now) == Finite(k) && DaysUntil(Some(t), now) == Finite(-k)
  {
  }

  datatype Sex = M | F

  /** `meds` and `tags` are empty when absent; `None` dates are missing. */
  datatype Patient = Patient(id: string, name: string, sex: Sex, age: int, country: Option<string>,
                             conditions: seq<string>, meds: seq<string>, tags: seq<string>,
                             lastVisit: Option<int>, nextVisit: Option<int>, createdAt: Option<int>)

  // ---------------------------------------------------------------------------
  // Tabs, search and sort
  // ---------------------------------------------------------------------------

  /** Visited within 180 days. */
  predicate IsActive(p: Patient, now: int) {
    AtMost(DaysSince(p.lastVisit, now), 180)
  }

  /** Not visited within 180 days, or a visit due within 7. */
  predicate FollowUpDue(p: Patient, now: int) {
    !AtMost(DaysSince(p.lastVisit, now), 180) || AtMost(DaysUntil(p.nextVisit, now), 7)
  }

  /** First seen within 14 days. */
  predicate IsNew(p: Patient, now: int) {
    AtMost(DaysSince(p.createdAt, now), 14)
  }

  datatype Tab = AllPatients | ActiveTab | FollowUpTab | NewTab

  predicate TabOk(tab: Tab, p: Patient, now: int) {
    match tab
    case AllPatients => true
    case ActiveTab => IsActive(p, now)
    case FollowUpTab => FollowUpDue(p, now)
    case NewTab => IsNew(p, now)
  }

  /** The searched text: name, country, conditions, medicines and tags,
      joined by spaces; an absent country joins as empty. */
  function Hay(p: Patient): string {
    Join([p.name, OrEmpty(p.country)] + p.conditions + p.meds + p.tags, " ")
  }

  predicate QueryOk(q: string, p: Patient) {
    q == "" || Contains(ToLower(Hay(p)), q)
  }

  predicate Passes(tab: Tab, query: string, p: Patient, now: int) {
    QueryOk(ToLower(Trim(query)), p) && TabOk(tab, p, now)
  }

  datatype SortOrder = Recent | ByName | ByAge

  /** The sort key; `recent` orders by the last visit, latest first, with a
      missing visit counted as time 0. */
  function SortKey(s: SortOrder): Patient -> Key {
    match s
    case Recent => (p: Patient) => [p.lastVisit.GetOr(0)]
    case ByName => (p: Patient) => StringKey(p.name)
    case ByAge => (p: Patient) => [p.age]
  }

  /** `filtered`: the patients that pass the search and the tab, in the
      chosen order. */
  function Filtered(all: seq<Patient>, tab: Tab, query: string, order: SortOrder, now: int): (r: seq<Patient>)
    ensures SortedBy(r, SortKey(order), order == Recent)
    ensures forall p :: p in r <==> p in all && Passes(tab, query, p, now)
    ensures |r| <= |all|
  {
    var kept := Filter(all, (p: Patient) => Passes(tab, query, p, now));
    FilterMembers(all, (p: Patient) => Passes(tab, query, p, now));
    SortByMembers(kept, SortKey(order), order == Recent);
    SortBy(kept, SortKey(order), order == Recent)
  }

  /** Every patient is active or due for follow-up, or both. */
  lemma ActiveOrDue(p: Patient, now: int)
    ensures IsActive(p, now) || FollowUpDue(p, now)
  {
  }

  // ---------------------------------------------------------------------------
  // Pills
  // ---------------------------------------------------------------------------

  datatype Pill = Pill(isNew: bool, active: bool, due: bool)

  /** `pillStatus(p)`: a new patient is not also shown active, and one who
      is not active is always shown due; the pills agree with the tabs. */
  function PillStatus(p: Patient, now: int): (r: Pill)
    ensures !(r.isNew && r.active)
    ensures r.isNew <==> TabOk(NewTab, p, now)
    ensures r.active <==> TabOk(ActiveTab, p, now) && !r.isNew
    ensures r.due <==> TabOk(FollowUpTab, p, now)
    ensures !IsActive(p, now) ==> r.due
  {
    var isNew := AtMost(DaysSince(p.createdAt, now), 14);
    var active := AtMost(DaysSince(p.lastVisit, now), 180);
    var due := !AtMost(DaysSince(p.lastVisit, now), 180) || AtMost(DaysUntil(p.nextVisit, now), 7);
    Pill(isNew, active && !isNew, !active || due)
  }
}

=== FILE: payments.dfy ===
/** The patient's invoices: the status filter, the unpaid, paid and refunded
    groups, the unpaid counter, the modality icon and paying an invoice.
    Times are milliseconds since the epoch; the transaction id's random part
    is a parameter. */
module Payments {
  import opened Wrappers
  import opened Seqs
  import opened Sorting
  import opened Slots
  import opened Prices

  datatype InvoiceStatus = Unpaid | Paid | Refunded | Failed

  /** The fields of an invoice the page's logic reads. */
  datatype Invoice = Invoice(id: string, appointmentId: string, createdAt: int, modality: Modality,
                             amount: Quote, status: InvoiceStatus, txnId: Option<string>,
                             doctorName: string, department: string)

  function CreatedKey(i: Invoice): Key {
    [i.createdAt]
  }

  /** `filtered`: the invoices with the chosen status (`None` is `'all'`),
      newest first. */
  function Filtered(all: seq<Invoice>, status: Option<InvoiceStatus>): (r: seq<Invoice>)
    ensures SortedBy(r, CreatedKey, true)
    ensures forall i :: i in r <==> i in all && (status.None? || i.status == status.value)
  {
    var kept := Filter(all, (i: Invoice) => status.None? || i.status == status.value);
    FilterMembers(all, (i: Invoice) => status.None? || i.status == status.value);
    SortByMembers(kept, CreatedKey, true);
    SortBy(kept, CreatedKey, true)
  }

  /** One status group, oldest first or newest first. */
  function Group(all: seq<Invoice>, status: InvoiceStatus, desc: bool): (r: seq<Invoice>)
    ensures SortedBy(r, CreatedKey, desc)
    ensures forall i :: i in r <==> i in all && i.status == status
    ensures |r| == Count(all, (i: Invoice) => i.status == status)
  {
    var kept := Filter(all, (i: Invoice) => i.status == status);
    FilterMembers(all, (i: Invoice) => i.status == status);
    SortByMembers(kept, CreatedKey, desc);
    SortBy(kept, CreatedKey, desc)
  }

  /** `unpaid`, oldest first: the next one to pay leads. */
  function UnpaidGroup(all: seq<Invoice>): (r: seq<Invoice>)
    ensures SortedBy(r, CreatedKey, false)
    ensures forall i :: i in r <==> i in all && i.status == Unpaid
  {
    Group(all, Unpaid, false)
  }

  /** `paid`, newest first. */
  function PaidGroup(all: seq<Invoice>): (r: seq<Invoice>)
    ensures SortedBy(r, CreatedKey, true)
    ensures forall i :: i in r <==> i in all && i.status == Paid
  {
    Group(all, Paid, true)
  }

  /** `refunded`, newest first. */
  function RefundedGroup(all: seq<Invoice>): (r: seq<Invoice>)
    ensures SortedBy(r, CreatedKey, true)
    ensures forall i :: i in r <==> i in all && i.status == Refunded
  {
    Group(all, Refunded, true)
  }

  /** `unpaidCount`: the number of unpaid invoices, which is the length of
      the unpaid group. */
  function UnpaidCount(all: seq<Invoice>): (n: nat)
    ensures n == |UnpaidGroup(all)|
    ensures n == Count(all, IsUnpaid)
  {
    CountSame(all, (i: Invoice) => i.status == Unpaid, IsUnpaid);
    |UnpaidGroup(all)|
  }

  /** `modalityIcon(m)`: the Material icon of each modality. */
  function ModalityIcon(m: Modality): (r: string)
    ensures r in {"chat", "call", "videocam"}
  {
    match m
    case Chat => "chat"
    case Voice => "call"
    case Video => "videocam"
  }

  /** Each modality has its own icon. */
  lemma ModalityIconInjective(a: Modality, b: Modality)
    requires ModalityIcon(a) == ModalityIcon(b)
    ensures a == b
  {
  }

  predicate IsUnpaid(i: Invoice) {
    i.status == Unpaid
  }

  /** The list with the invoices of that id paid. */
  function Pay(all: seq<Invoice>, id: string, token: string): (r: seq<Invoice>)
    ensures |r| == |all|
    ensures forall k :: 0 <= k < |all| ==>
      r[k] == if all[k].id == id then all[k].(status := Paid, txnId := Some("pay_" + token)) else all[k]
  {
    if |all| == 0 then []
    else [PayOne(all[0], id, token)] + Pay(all[1..], id, token)
  }

  function PayOne(x: Invoice, id: string, token: string): Invoice {
    if x.id == id then x.(status := Paid, txnId := Some("pay_" + token)) else x
  }

  predicate UnpaidWithId(id: string, x: Invoice) {
    x.id == id && x.status == Unpaid
  }

  /** `payNow(i)`: only an unpaid invoice is paid; the invoices with its id
      become paid with the transaction id `"pay_" + token`. */
  function PayNow(all: seq<Invoice>, inv: Invoice, token: string): (r: (seq<Invoice>, Option<string>))
    ensures inv.status != Unpaid ==> r == (all, None)
    ensures inv.status == Unpaid ==> r.1 == Some("Payment successful") && |r.0| == |all|
    ensures inv.status == Unpaid ==> forall k :: 0 <= k < |all| ==>
      r.0[k] == if all[k].id == inv.id then all[k].(status := Paid, txnId := Some("pay_" + token)) else all[k]
  {
    if inv.status != Unpaid then (all, None)
    else (Pay(all, inv.id, token), Some("Payment successful"))
  }

  /** Paying takes the unpaid invoices with that id out of the unpaid count. */
  lemma {:induction false} PayCount(all: seq<Invoice>, id: string, token: string)
    ensures Count(Pay(all, id, token), IsUnpaid)
      == Count(all, IsUnpaid) - Count(all, (x: Invoice) => UnpaidWithId(id, x))
  {
    if |all| > 0 {
      PayCount(all[1..], id, token);
      assert Pay(all, id, token)[1..] == Pay(all[1..], id, token);
    }
  }

  /** After paying an unpaid invoice, the unpaid counter drops by the
      number of unpaid invoices with its id. */
  lemma PayNowCount(all: seq<Invoice>, inv: Invoice, token: string)
    requires inv.status == Unpaid
    ensures UnpaidCount(PayNow(all, inv, token).0)
      == UnpaidCount(all) - Count(all, (x: Invoice) => UnpaidWithId(inv.id, x))
  {
    PayCount(all, inv.id, token);
  }
}

=== FILE: prices.dfy ===
/** The doctor's price table as the booking wizard and the doctor page read
    it: one sheet per country, each with a currency and a price per modality. */
module Prices {
  import opened Slots

  /** The countries a patient can be priced in. */
  datatype Country = EG | SA | AE

  /** One country's sheet: `{ currency, chat, voice, video }`. */
  datatype Sheet = Sheet(currency: string, chat: int, voice: int, video: int)

  /** `prices: { EG, SA, AE }`. */
  datatype Table = Table(eg: Sheet, sa: Sheet, ae: Sheet)

  /** `{ currency: p.currency, value: p[m] }`. */
  datatype Quote = Quote(currency: string, value: int)

  /** `prices[country]`. */
  function SheetFor(t: Table, c: Country): Sheet {
    match c
    case EG => t.eg
    case SA => t.sa
    case AE => t.ae
  }

  /** `p[m]`: the sheet's field named by the modality. */
  function PriceOf(p: Sheet, m: Modality): int {
    match m
    case Chat => p.chat
    case Voice => p.voice
    case Video => p.video
  }

  /** The quote for a country and a modality. */
  function QuoteFor(t: Table, c: Country, m: Modality): (q: Quote)
    ensures q.currency == SheetFor(t, c).currency
    ensures q.value in {SheetFor(t, c).chat, SheetFor(t, c).voice, SheetFor(t, c).video}
  {
    var p := SheetFor(t, c);
    Quote(p.currency, PriceOf(p, m))
  }

  /** Within a country every modality is quoted in the same currency, and two
      modalities quote the same value whenever the sheet prices them alike. */
  lemma QuotesShareCurrency(t: Table, c: Country, m: Modality, n: Modality)
    ensures QuoteFor(t, c, m).currency == QuoteFor(t, c, n).currency
    ensures QuoteFor(t, c, m).value == PriceOf(SheetFor(t, c), m)
  {
  }

  /** The demo doctor's table. */
  function DemoTable(): Table {
    Table(Sheet("EGP", 80, 120, 180), Sheet("SAR", 90, 140, 200), Sheet("AED", 60, 95, 150))
  }

  /** In the demo table chat is cheaper than voice, which is cheaper than video,
      in every country, and every price is positive. */
  lemma DemoPricesRise(c: Country)
    ensures var p := SheetFor(DemoTable(), c);
      0 < p.chat < p.voice < p.video
  {
  }
}

=== FILE: profileeditor.dfy ===
/** The doctor's profile editor page (`DocProfileComponent`): how the form is
    turned into an update payload, the client-side completeness check run by
    `save`, how a loaded profile is copied back into the form, and the chip
    inputs of the list fields. */
module ProfileEditor {
  import opened Wrappers
  import opened JsText
  import opened HttpErrors
  import opened DoctorProfileService
  import Seqs

  /** `REQUIRED_SERVICES`, in form order. */
  const RequiredServices: seq<Service> := [Chat, Voice, Video]

  const DefaultAvatar := "https://i.pravatar.cc/160?img=15"
  const DefaultName := "Doctor name"
  const DefaultAvailability := Availability(true, false, true)

  /** One row of the pricing form array; the service control is fixed. */
  datatype PricingRow = PricingRow(service: Service, currency: string, price: Option<int>)

  /** The raw value of the reactive form, restricted to the fields the
      payload and the completeness check use. */
  datatype Form = Form(
    fullName: string,
    title: string,
    departmentId: Option<int>,
    yearsOfExperience: Option<int>,
    licenseNumber: string,
    avatarUrl: string,
    bio: string,
    phone: string,
    languages: seq<string>,
    hospitals: seq<string>,
    education: seq<string>,
    certificates: seq<string>,
    availability: Availability,
    pricing: seq<PricingRow>)

  /** `buildForm`: the form a doctor starts from. */
  function BuildForm(): (f: Form)
    ensures f.fullName == DefaultName && f.avatarUrl == DefaultAvatar && f.availability == DefaultAvailability
    ensures f.title == "" && f.licenseNumber == "" && f.bio == "" && f.phone == ""
    ensures f.departmentId.None? && f.yearsOfExperience.None?
    ensures f.languages == [] && f.hospitals == [] && f.education == [] && f.certificates == []
    ensures |f.pricing| == |RequiredServices|
    ensures forall i :: 0 <= i < |f.pricing| ==> f.pricing[i] == PricingRow(RequiredServices[i], "USD", Some(0))
  {
    Form(DefaultName, "", None, None, "", DefaultAvatar, "", "", [], [], [], [],
         DefaultAvailability,
         [PricingRow(Chat, "USD", Some(0)), PricingRow(Voice, "USD", Some(0)), PricingRow(Video, "USD", Some(0))])
  }

  // ---------------------------------------------------------------------------
  // preparePayload
  // ---------------------------------------------------------------------------

  /** `cleanList`: trim every entry and drop the empty ones. */
  function CleanList(list: seq<string>): (r: seq<string>)
    ensures |r| <= |list|
    ensures forall i :: 0 <= i < |r| ==> r[i] != [] && IsTrimmed(r[i])
  {
    if |list| == 0 then []
    else
      var t := Trim(list[0]);
      (if t != [] then [t] else []) + CleanList(list[1..])
  }

  /** Every entry that is not blank survives cleaning, trimmed. */
  lemma {:induction false} CleanListKeepsFilled(list: seq<string>, i: nat)
    requires i < |list| && !IsBlank(list[i])
    ensures Trim(list[i]) in CleanList(list)
  {
    BlankIffTrimEmpty(list[i]);
    if i > 0 {
      CleanListKeepsFilled(list[1..], i - 1);
    }
  }

  /** Cleaning leaves nothing exactly when every entry is blank. */
  lemma {:induction false} CleanListEmptyIffAllBlank(list: seq<string>)
    ensures CleanList(list) == [] <==> forall i :: 0 <= i < |list| ==> IsBlank(list[i])
  {
    if |list| > 0 {
      BlankIffTrimEmpty(list[0]);
      CleanListEmptyIffAllBlank(list[1..]);
      assert forall i :: 1 <= i < |list| ==> list[i] == list[1..][i - 1];
    }
  }

  /** A pricing row as the payload carries it: currency trimmed and upper-cased,
      a null price read as 0. */
  function CleanRow(row: PricingRow): Pricing {
    Pricing(row.service, ToUpper(Trim(row.currency)), Some(row.price.GetOr(0)))
  }

  /** The payload keeps a row with a non-empty currency and a positive price. */
  predicate Keep(e: Pricing) {
    e.currency != [] && e.price.Some? && e.price.value > 0
  }

  /** The rows that go into the payload. */
  function CleanPricing(rows: seq<PricingRow>): (r: seq<Pricing>)
    ensures forall i :: 0 <= i < |r| ==> Keep(r[i]) && PricesSomething(r[i])
    ensures forall i :: 0 <= i < |rows| && Keep(CleanRow(rows[i])) ==> CleanRow(rows[i]) in r
    ensures forall i :: 0 <= i < |r| ==> FromSomeRow(rows, r[i])
  {
    var cleaned := Seqs.Map(rows, CleanRow);
    var r := Seqs.Filter(cleaned, Keep);
    forall i | 0 <= i < |r|
      ensures Keep(r[i]) && PricesSomething(r[i]) && FromSomeRow(rows, r[i])
    {
      assert r[i] in cleaned;
      var j :| 0 <= j < |rows| && r[i] == CleanRow(rows[j]);
      UpperTrimmedNotBlank(Trim(rows[j].currency));
    }
    r
  }

  /** The entry is the cleaned form of one of the rows. */
  predicate FromSomeRow(rows: seq<PricingRow>, e: Pricing) {
    exists j :: 0 <= j < |rows| && e == CleanRow(rows[j])
  }

  /** An upper-cased, trimmed, non-empty currency is not blank. */
  lemma UpperTrimmedNotBlank(t: string)
    requires t != [] && IsTrimmed(t)
    ensures !IsBlank(ToUpper(t))
  {
    NotBlankFromFirst(ToUpper(t));
  }

  /** The service appears among the kept rows. */
  predicate Listed(pricing: seq<Pricing>, s: Service) {
    exists i :: 0 <= i < |pricing| && pricing[i].service == s
  }

  /** `DoctorUpdatePayload`, restricted as the form is. */
  datatype UpdatePayload = UpdatePayload(
    title: Option<string>,
    bio: Option<string>,
    departmentId: Option<int>,
    yearsOfExperience: Option<int>,
    licenseNumber: Option<string>,
    avatarUrl: Option<string>,
    phone: Option<string>,
    languages: Option<seq<string>>,
    hospitals: Option<seq<string>>,
    education: Option<seq<string>>,
    certificates: Option<seq<string>>,
    pricing: Option<seq<Pricing>>,
    availability: Availability)

  /** `value?.trim() || undefined`. */
  function TrimOrUndefined(s: string): (r: Option<string>)
    ensures r.None? <==> IsBlank(s)
    ensures r.Some? ==> r.value == Trim(s) && !IsBlank(r.value)
  {
    var t := Trim(s);
    BlankIffTrimEmpty(s);
    if t == [] then None
    else
      NotBlankFromFirst(t);
      Some(t)
  }

  /** An empty list field is deleted from the payload. */
  function DropEmpty<T>(l: seq<T>): (r: Option<seq<T>>)
    ensures r.None? <==> |l| == 0
    ensures r.Some? ==> r.value == l
  {
    if |l| == 0 then None else Some(l)
  }

  /** `toNumber` on a numeric control: `Number(null)` is 0, a number is itself. */
  function ToNumber(x: Option<int>): int {
    match x
    case None => 0
    case Some(n) => n
  }

  /** What `preparePayload` returns. */
  datatype Prepared = Prepared(payload: UpdatePayload, languagesCount: nat,
                               allServicesCovered: bool, hasAvailability: bool)

  function PreparePayload(f: Form): (p: Prepared)
    ensures p.payload.title.None? <==> IsBlank(f.title)
    ensures p.payload.title.Some? ==> p.payload.title.value == Trim(f.title)
    ensures p.payload.departmentId == Some(ToNumber(f.departmentId))
    ensures p.payload.languages.None? <==> p.languagesCount == 0
    ensures p.languagesCount == 0 <==> forall i :: 0 <= i < |f.languages| ==> IsBlank(f.languages[i])
    ensures p.payload.pricing.Some? ==> forall i :: 0 <= i < |p.payload.pricing.value| ==> PricesSomething(p.payload.pricing.value[i])
    ensures p.allServicesCovered <==>
      RowSurvives(f.pricing, Chat) && RowSurvives(f.pricing, Voice) && RowSurvives(f.pricing, Video)
    ensures p.hasAvailability <==> f.availability.chat || f.availability.voice || f.availability.video
  {
    var languages := CleanList(f.languages);
    CleanListEmptyIffAllBlank(f.languages);
    var pricing := CleanPricing(f.pricing);
    var covered := Listed(pricing, Chat) && Listed(pricing, Voice) && Listed(pricing, Video);
    CoveredMeansKeptRow(f.pricing, Chat);
    CoveredMeansKeptRow(f.pricing, Voice);
    CoveredMeansKeptRow(f.pricing, Video);
    var payload := UpdatePayload(
      TrimOrUndefined(f.title), TrimOrUndefined(f.bio),
      Some(ToNumber(f.departmentId)), Some(ToNumber(f.yearsOfExperience)),
      TrimOrUndefined(f.licenseNumber), TrimOrUndefined(f.avatarUrl), TrimOrUndefined(f.phone),
      DropEmpty(languages), DropEmpty(CleanList(f.hospitals)), DropEmpty(CleanList(f.education)),
      DropEmpty(CleanList(f.certificates)), DropEmpty(pricing), f.availability);
    Prepared(payload, |languages|, covered,
             f.availability.chat || f.availability.voice || f.availability.video)
  }

  /** Some form row for service s survives cleaning. */
  predicate RowSurvives(rows: seq<PricingRow>, s: Service) {
    exists i :: 0 <= i < |rows| && rows[i].service == s && Keep(CleanRow(rows[i]))
  }

  /** A service is listed among the kept rows exactly when some form row for it survives. */
  lemma CoveredMeansKeptRow(rows: seq<PricingRow>, s: Service)
    ensures Listed(CleanPricing(rows), s) <==> RowSurvives(rows, s)
  {
    if Listed(CleanPricing(rows), s) {
      ListedRowSurvives(rows, s);
    }
    if RowSurvives(rows, s) {
      SurvivingRowListed(rows, s);
    }
  }

  lemma ListedRowSurvives(rows: seq<PricingRow>, s: Service)
    requires Listed(CleanPricing(rows), s)
    ensures RowSurvives(rows, s)
  {
    var r := CleanPricing(rows);
    var k :| 0 <= k < |r| && r[k].service == s;
    assert FromSomeRow(rows, r[k]);
    var j :| 0 <= j < |rows| && r[k] == CleanRow(rows[j]);
    assert rows[j].service == s && Keep(CleanRow(rows[j]));
  }

  lemma SurvivingRowListed(rows: seq<PricingRow>, s: Service)
    requires RowSurvives(rows, s)
    ensures Listed(CleanPricing(rows), s)
  {
    var r := CleanPricing(rows);
    var i :| 0 <= i < |rows| && rows[i].service == s && Keep(CleanRow(rows[i]));
    var k := Seqs.PositionOf(CleanRow(rows[i]), r);
    assert r[k].service == s;
  }

  // ---------------------------------------------------------------------------
  // save
  // ---------------------------------------------------------------------------

  const MissingTitle := "professional title"
  const MissingBio := "bio"
  const MissingDepartment := "department"
  const MissingYears := "years of experience"
  const MissingLicense := "license number"
  const MissingAvatar := "profile image"
  const MissingPhone := "phone number"
  const MissingLanguages := "languages"
  const MissingPricing := "pricing for chat, voice, and video"
  const MissingAvailability := "choose at least one availability option"

  /** The pricing part of the check: rows present, and every service covered. */
  predicate PricingPasses(p: Prepared) {
    p.payload.pricing.Some? && |p.payload.pricing.value| > 0 && p.allServicesCovered
  }

  /** Every condition of the check holds. */
  predicate NothingMissing(p: Prepared) {
    var q := p.payload;
    && q.title.Some? && q.bio.Some? && NumTruthy(q.departmentId)
    && q.yearsOfExperience.Some? && q.yearsOfExperience.value > 0
    && q.licenseNumber.Some? && q.avatarUrl.Some? && q.phone.Some?
    && p.languagesCount != 0 && PricingPasses(p) && p.hasAvailability
  }

  /** The ten checks `save` makes, one per item it can report. */
  datatype Check = NeedTitle | NeedBio | NeedDepartment | NeedYears | NeedLicense
                 | NeedAvatar | NeedPhone | NeedLanguages | NeedPricing | NeedAvailability

  /** The checks in the order `save` makes them. */
  const CheckOrder: seq<Check> := [NeedTitle, NeedBio, NeedDepartment, NeedYears, NeedLicense,
                                   NeedAvatar, NeedPhone, NeedLanguages, NeedPricing, NeedAvailability]

  /** A check's place in that order. */
  function Rank(c: Check): (k: nat)
    ensures k < |CheckOrder|
  {
    match c
    case NeedTitle => 0
    case NeedBio => 1
    case NeedDepartment => 2
    case NeedYears => 3
    case NeedLicense => 4
    case NeedAvatar => 5
    case NeedPhone => 6
    case NeedLanguages => 7
    case NeedPricing => 8
    case NeedAvailability => 9
  }

  /** The item a failing check reports. */
  function Label(c: Check): string {
    match c
    case NeedTitle => MissingTitle
    case NeedBio => MissingBio
    case NeedDepartment => MissingDepartment
    case NeedYears => MissingYears
    case NeedLicense => MissingLicense
    case NeedAvatar => MissingAvatar
    case NeedPhone => MissingPhone
    case NeedLanguages => MissingLanguages
    case NeedPricing => MissingPricing
    case NeedAvailability => MissingAvailability
  }

  /** The check fails on the prepared payload. */
  predicate Fails(p: Prepared, c: Check) {
    var q := p.payload;
    match c
    case NeedTitle => q.title.None?
    case NeedBio => q.bio.None?
    case NeedDepartment => !NumTruthy(q.departmentId)
    case NeedYears => q.yearsOfExperience.None? || q.yearsOfExperience.value <= 0
    case NeedLicense => q.licenseNumber.None?
    case NeedAvatar => q.avatarUrl.None?
    case NeedPhone => q.phone.None?
    case NeedLanguages => p.languagesCount == 0
    case NeedPricing => !PricingPasses(p)
    case NeedAvailability => !p.hasAvailability
  }

  /** No two checks report the same item. */
  lemma LabelInjective(c: Check, d: Check)
    requires Label(c) == Label(d)
    ensures c == d
  {
  }

  /** A check sits at its place in the order. */
  lemma AtRank(c: Check)
    ensures CheckOrder[Rank(c)] == c
  {
  }

  /** The check's place in the order is its index there. */
  lemma RankAt(k: nat)
    requires k < |CheckOrder|
    ensures Rank(CheckOrder[k]) == k
  {
    if k == 0 {} else if k == 1 {} else if k == 2 {} else if k == 3 {} else if k == 4 {}
    else if k == 5 {} else if k == 6 {} else if k == 7 {} else if k == 8 {} else {}
  }

  /** The checks from the k-th on that `fails` picks, in check order. */
  function FailingFrom(fails: Check -> bool, k: nat): (cs: seq<Check>)
    requires k <= |CheckOrder|
    decreases |CheckOrder| - k
    ensures |cs| <= |CheckOrder| - k
  {
    if k == |CheckOrder| then []
    else if fails(CheckOrder[k]) then [CheckOrder[k]] + FailingFrom(fails, k + 1)
    else FailingFrom(fails, k + 1)
  }

  /** Each listed check is picked and sits at place k or later. */
  predicate PickedFrom(cs: seq<Check>, fails: Check -> bool, k: nat) {
    forall i :: 0 <= i < |cs| ==> k <= Rank(cs[i]) && fails(cs[i])
  }

  /** The listed checks come in strictly increasing places. */
  predicate InOrder(cs: seq<Check>) {
    forall i, j :: 0 <= i < j < |cs| ==> Rank(cs[i]) < Rank(cs[j])
  }

  /** Every check listed from the k-th on is picked and sits at its place or later. */
  lemma {:induction false} FailingFromPicked(fails: Check -> bool, k: nat)
    requires k <= |CheckOrder|
    decreases |CheckOrder| - k
    ensures PickedFrom(FailingFrom(fails, k), fails, k)
  {
    if k < |CheckOrder| {
      var cs := FailingFrom(fails, k);
      var rest := FailingFrom(fails, k + 1);
      FailingFromPicked(fails, k + 1);
      if fails(CheckOrder[k]) {
        RankAt(k);
        assert cs == [CheckOrder[k]] + rest;
        forall i | 0 < i < |cs| ensures k <= Rank(cs[i]) && fails(cs[i]) {
          assert cs[i] == rest[i - 1];
        }
      }
    }
  }

  /** The checks listed from the k-th on come in check order. */
  lemma {:induction false} FailingFromOrdered(fails: Check -> bool, k: nat)
    requires k <= |CheckOrder|
    decreases |CheckOrder| - k
    ensures InOrder(FailingFrom(fails, k))
  {
    if k < |CheckOrder| {
      var cs := FailingFrom(fails, k);
      var rest := FailingFrom(fails, k + 1);
      FailingFromOrdered(fails, k + 1);
      if fails(CheckOrder[k]) {
        RankAt(k);
        FailingFromPicked(fails, k + 1);
        assert cs == [CheckOrder[k]] + rest;
        forall i, j | 0 <= i < j < |cs| ensures Rank(cs[i]) < Rank(cs[j]) {
          assert cs[j] == rest[j - 1];
          if i > 0 {
            assert cs[i] == rest[i - 1];
          }
        }
      }
    }
  }

  /** Every picked check from the k-th on is listed. */
  lemma {:induction false} FailingFromComplete(fails: Check -> bool, k: nat, c: Check)
    requires k <= Rank(c) && fails(c)
    decreases |CheckOrder| - k
    ensures c in FailingFrom(fails, k)
  {
    if Rank(c) == k {
      AtRank(c);
    } else {
      FailingFromComplete(fails, k + 1, c);
    }
  }

  /** The checks that fail on a prepared payload. */
  function FailsOn(p: Prepared): Check -> bool {
    c => Fails(p, c)
  }

  /** The whole check passes exactly when no single check fails. */
  lemma NothingMissingIff(p: Prepared)
    ensures NothingMissing(p) <==> forall c :: !Fails(p, c)
  {
    if !NothingMissing(p) {
      var q := p.payload;
      var c := if q.title.None? then NeedTitle else if q.bio.None? then NeedBio
        else if !NumTruthy(q.departmentId) then NeedDepartment
        else if q.yearsOfExperience.None? || q.yearsOfExperience.value <= 0 then NeedYears
        else if q.licenseNumber.None? then NeedLicense else if q.avatarUrl.None? then NeedAvatar
        else if q.phone.None? then NeedPhone else if p.languagesCount == 0 then NeedLanguages
        else if !PricingPasses(p) then NeedPricing else NeedAvailability;
      assert Fails(p, c);
    }
  }

  /** The items `save` reports missing: the item of each failing check, in
      the order it checks them. */
  function MissingItems(p: Prepared): (m: seq<string>)
    ensures forall c :: Label(c) in m <==> Fails(p, c)
    ensures |m| <= |CheckOrder|
    ensures m == [] <==> NothingMissing(p)
  {
    NothingMissingIff(p);
    ItemsInOrder(FailsOn(p));
    Seqs.Map(FailingFrom(FailsOn(p), 0), Label)
  }

  /** The items come in the order of their checks. */
  lemma MissingInOrder(p: Prepared)
    ensures var m := MissingItems(p);
      forall i, j, c, d :: 0 <= i < j < |m| && m[i] == Label(c) && m[j] == Label(d) ==> Rank(c) < Rank(d)
  {
    ItemsInOrder(FailsOn(p));
  }

  /** The items of the picked checks name each picked check once, in check order. */
  lemma ItemsInOrder(fails: Check -> bool)
    ensures var m := Seqs.Map(FailingFrom(fails, 0), Label);
      && (forall c :: Label(c) in m <==> fails(c))
      && (forall i, j, c, d :: 0 <= i < j < |m| && m[i] == Label(c) && m[j] == Label(d) ==> Rank(c) < Rank(d))
  {
    var cs := FailingFrom(fails, 0);
    var m := Seqs.Map(cs, Label);
    FailingFromPicked(fails, 0);
    FailingFromOrdered(fails, 0);
    forall c ensures Label(c) in m <==> fails(c) {
      if Label(c) in m {
        var k := Seqs.PositionOf(Label(c), m);
        LabelInjective(c, cs[k]);
      } else if fails(c) {
        FailingFromComplete(fails, 0, c);
      }
    }
    forall i, j, c, d | 0 <= i < j < |m| && m[i] == Label(c) && m[j] == Label(d) ensures Rank(c) < Rank(d) {
      LabelInjective(c, cs[i]);
      LabelInjective(d, cs[j]);
    }
  }

  /** Label by label: each of the ten items is reported exactly when its
      check fails. */
  lemma MissingByLabel(p: Prepared)
    ensures var m := MissingItems(p); var q := p.payload;
      && (MissingTitle in m <==> q.title.None?)
      && (MissingBio in m <==> q.bio.None?)
      && (MissingDepartment in m <==> !NumTruthy(q.departmentId))
      && (MissingYears in m <==> q.yearsOfExperience.None? || q.yearsOfExperience.value <= 0)
      && (MissingLicense in m <==> q.licenseNumber.None?)
      && (MissingAvatar in m <==> q.avatarUrl.None?)
      && (MissingPhone in m <==> q.phone.None?)
      && (MissingLanguages in m <==> p.languagesCount == 0)
      && (MissingPricing in m <==> !PricingPasses(p))
      && (MissingAvailability in m <==> !p.hasAvailability)
  {
    ItemsByName(MissingItems(p), p);
  }

  /** A list that names exactly the failing checks names each item exactly
      when its check fails. */
  lemma ItemsByName(m: seq<string>, p: Prepared)
    requires forall c :: Label(c) in m <==> Fails(p, c)
    ensures var q := p.payload;
      && (MissingTitle in m <==> q.title.None?)
      && (MissingBio in m <==> q.bio.None?)
      && (MissingDepartment in m <==> !NumTruthy(q.departmentId))
      && (MissingYears in m <==> q.yearsOfExperience.None? || q.yearsOfExperience.value <= 0)
      && (MissingLicense in m <==> q.licenseNumber.None?)
      && (MissingAvatar in m <==> q.avatarUrl.None?)
      && (MissingPhone in m <==> q.phone.None?)
      && (MissingLanguages in m <==> p.languagesCount == 0)
      && (MissingPricing in m <==> !PricingPasses(p))
      && (MissingAvailability in m <==> !p.hasAvailability)
  {
    assert Label(NeedTitle) in m <==> Fails(p, NeedTitle);
    assert Label(NeedBio) in m <==> Fails(p, NeedBio);
    assert Label(NeedDepartment) in m <==> Fails(p, NeedDepartment);
    assert Label(NeedYears) in m <==> Fails(p, NeedYears);
    assert Label(NeedLicense) in m <==> Fails(p, NeedLicense);
    assert Label(NeedAvatar) in m <==> Fails(p, NeedAvatar);
    assert Label(NeedPhone) in m <==> Fails(p, NeedPhone);
    assert Label(NeedLanguages) in m <==> Fails(p, NeedLanguages);
    assert Label(NeedPricing) in m <==> Fails(p, NeedPricing);
    assert Label(NeedAvailability) in m <==> Fails(p, NeedAvailability);
  }

  /** The title, the first check, is reported first when it is missing, and
      availability, the last, is reported last. */
  lemma MissingEnds(p: Prepared)
    ensures var m := MissingItems(p);
      && (p.payload.title.None? ==> |m| > 0 && m[0] == MissingTitle)
      && (!p.hasAvailability ==> |m| > 0 && m[|m| - 1] == MissingAvailability)
  {
    assert FailsOn(p)(NeedTitle) <==> p.payload.title.None?;
    assert FailsOn(p)(NeedAvailability) <==> !p.hasAvailability;
    PickedEnds(FailsOn(p));
  }

  /** The first check comes first and the last comes last whenever they are picked. */
  lemma PickedEnds(fails: Check -> bool)
    ensures var m := Seqs.Map(FailingFrom(fails, 0), Label);
      && (fails(NeedTitle) ==> |m| > 0 && m[0] == MissingTitle)
      && (fails(NeedAvailability) ==> |m| > 0 && m[|m| - 1] == MissingAvailability)
  {
    var cs := FailingFrom(fails, 0);
    FailingFromOrdered(fails, 0);
    if fails(NeedTitle) {
      FailingFromComplete(fails, 0, NeedTitle);
      OrderedFirst(cs);
    }
    if fails(NeedAvailability) {
      FailingFromComplete(fails, 0, NeedAvailability);
      OrderedLast(cs);
    }
  }

  /** In check order, the title check can only come first. */
  lemma OrderedFirst(cs: seq<Check>)
    requires InOrder(cs) && NeedTitle in cs
    ensures cs[0] == NeedTitle
  {
    var k := Seqs.PositionOf(NeedTitle, cs);
    assert Rank(cs[0]) <= Rank(cs[k]);
  }

  /** In check order, the availability check can only come last. */
  lemma OrderedLast(cs: seq<Check>)
    requires InOrder(cs) && NeedAvailability in cs
    ensures cs[|cs| - 1] == NeedAvailability
  {
    var k := Seqs.PositionOf(NeedAvailability, cs);
    assert Rank(cs[k]) <= Rank(cs[|cs| - 1]);
  }

  /** What pressing save leads to. */
  datatype SaveStep =
    | Invalid                       // the form validators failed; nothing sent
    | Incomplete(apiError: string)  // the completeness check failed; nothing sent
    | Submit(payload: UpdatePayload)

  /** `save` up to the call of `updateProfile`. */
  function Save(f: Form, formValid: bool): (r: SaveStep)
    ensures !formValid ==> r == Invalid
    ensures formValid && MissingItems(PreparePayload(f)) != [] ==>
      r == Incomplete("Please complete: " + Join(MissingItems(PreparePayload(f)), ", "))
    ensures r.Submit? <==> formValid && MissingItems(PreparePayload(f)) == []
  {
    if !formValid then Invalid
    else
      var prepared := PreparePayload(f);
      var missing := MissingItems(prepared);
      if |missing| > 0 then Incomplete("Please complete: " + Join(missing, ", "))
      else Submit(prepared.payload)
  }

  /** The profile the payload describes, as the server would store it. */
  function AsProfile(q: UpdatePayload): DoctorProfile {
    DoctorProfile(q.title, q.bio, q.phone, q.yearsOfExperience, q.licenseNumber, q.avatarUrl,
                  q.departmentId, q.languages, q.hospitals, q.education, q.certificates,
                  q.pricing, Some(q.availability))
  }

  /** A payload text field is either absent or holds something other than whitespace. */
  predicate TextOk(x: Option<string>) {
    x.Some? ==> !IsBlank(x.value)
  }

  /** The shape every prepared payload has: text fields trimmed to something,
      list fields deleted rather than empty, only valid prices, and the two
      summary flags agreeing with the payload. */
  predicate WellFormed(p: Prepared) {
    var q := p.payload;
    && TextOk(q.title) && TextOk(q.bio) && TextOk(q.licenseNumber) && TextOk(q.avatarUrl) && TextOk(q.phone)
    && (q.languages.None? <==> p.languagesCount == 0)
    && (q.languages.Some? ==> |q.languages.value| > 0)
    && (q.pricing.Some? ==> |q.pricing.value| > 0)
    && (q.pricing.Some? ==> forall i :: 0 <= i < |q.pricing.value| ==> PricesSomething(q.pricing.value[i]))
    && (p.allServicesCovered <==>
          q.pricing.Some? && Listed(q.pricing.value, Chat) && Listed(q.pricing.value, Voice)
          && Listed(q.pricing.value, Video))
    && (p.hasAvailability <==> q.availability.chat || q.availability.voice || q.availability.video)
  }

  lemma PreparedIsWellFormed(f: Form)
    ensures WellFormed(PreparePayload(f))
  {
    var kept := CleanPricing(f.pricing);
    assert PreparePayload(f).payload.pricing == DropEmpty(kept);
    assert PreparePayload(f).allServicesCovered <==>
      Listed(kept, Chat) && Listed(kept, Voice) && Listed(kept, Video);
  }

  /** Among valid entries, naming a service and covering it are the same. */
  lemma ListedIffCovers(l: seq<Pricing>, s: Service)
    requires forall i :: 0 <= i < |l| ==> PricesSomething(l[i])
    ensures Listed(l, s) <==> Covers(l, s)
  {
    if Listed(l, s) {
      var i :| 0 <= i < |l| && l[i].service == s;
      assert ValidFor(l[i], s);
    }
  }

  /** The pricing part of the check and the pricing part of the lock agree. */
  lemma PricingMirrorsLock(p: Prepared)
    requires WellFormed(p)
    ensures PricingPasses(p) <==> HasPricing(p.payload.pricing) && AllServicesCovered(p.payload.pricing)
  {
    if p.payload.pricing.Some? {
      var l := p.payload.pricing.value;
      ListedIffCovers(l, Chat);
      ListedIffCovers(l, Voice);
      ListedIffCovers(l, Video);
    }
  }

  /** On a well-formed payload the check passes exactly when the payload,
      read as a profile, is unlocked. */
  lemma CheckMirrorsLock(p: Prepared)
    requires WellFormed(p)
    ensures MissingItems(p) == [] <==> !ComputeLocked(Some(AsProfile(p.payload)))
  {
    PricingMirrorsLock(p);
    var prof := AsProfile(p.payload);
    assert HasBasics(prof) <==>
      && p.payload.title.Some? && p.payload.bio.Some? && NumTruthy(p.payload.departmentId)
      && p.payload.yearsOfExperience.Some? && p.payload.yearsOfExperience.value > 0
      && p.payload.licenseNumber.Some? && p.payload.avatarUrl.Some? && p.payload.phone.Some?;
    assert HasLanguages(prof) <==> p.languagesCount != 0;
    assert HasAvailability(prof) <==> p.hasAvailability;
  }

  /** The editor demands exactly what the lock demands: `save` submits a valid
      form if and only if the payload, read as a profile, is unlocked. */
  lemma SaveCheckMirrorsLock(f: Form)
    ensures Save(f, true).Submit? <==> !ComputeLocked(Some(AsProfile(PreparePayload(f).payload)))
  {
    PreparedIsWellFormed(f);
    CheckMirrorsLock(PreparePayload(f));
  }

  /** The payload of the starting form: every text field but the avatar deleted,
      department and experience 0, no lists and no prices. */
  lemma DefaultPayload()
    ensures PreparePayload(BuildForm()) ==
      Prepared(UpdatePayload(None, None, Some(0), Some(0), None, Some(DefaultAvatar), None,
                             None, None, None, None, None, DefaultAvailability),
               0, false, true)
  {
    var f := BuildForm();
    assert IsTrimmed(DefaultAvatar);
    TrimmedIsFixed(DefaultAvatar);
    NotBlankFromFirst(DefaultAvatar);
    ZeroPricesNotKept(f.pricing);
  }

  /** Rows that all carry price 0 leave no pricing in the payload. */
  lemma ZeroPricesNotKept(rows: seq<PricingRow>)
    requires forall i :: 0 <= i < |rows| ==> rows[i].price == Some(0)
    ensures CleanPricing(rows) == []
  {
    var cleaned := Seqs.Map(rows, CleanRow);
    assert forall k :: 0 <= k < |cleaned| ==> !Keep(cleaned[k]);
    Seqs.FilterNone(cleaned, Keep);
  }

  /** The starting form lacks every field except the avatar and availability, so
      saving it right away reports eight items, from the title to the pricing. */
  lemma DefaultFormIsIncomplete()
    ensures Save(BuildForm(), true).Incomplete?
    ensures MissingItems(PreparePayload(BuildForm())) == DefaultMissingItems
  {
    DefaultPayload();
    DefaultMissing(PreparePayload(BuildForm()));
  }

  lemma DefaultMissing(p: Prepared)
    requires p == Prepared(UpdatePayload(None, None, Some(0), Some(0), None, Some(DefaultAvatar), None,
                                         None, None, None, None, None, DefaultAvailability),
                           0, false, true)
    ensures MissingItems(p) == DefaultMissingItems
  {
    var f := FailsOn(p);
    assert f(NeedTitle) && f(NeedBio) && f(NeedDepartment) && f(NeedYears) && f(NeedLicense);
    assert !f(NeedAvatar) && f(NeedPhone) && f(NeedLanguages) && f(NeedPricing) && !f(NeedAvailability);
    DefaultPicked(f);
    DefaultLabels();
  }

  /** What saving the starting form reports, in order. */
  const DefaultMissingItems: seq<string> := [MissingTitle, MissingBio, MissingDepartment, MissingYears, MissingLicense, MissingPhone, MissingLanguages, MissingPricing]

  /** The labels of the checks the starting form fails. */
  lemma DefaultLabels()
    ensures Seqs.Map([NeedTitle, NeedBio, NeedDepartment, NeedYears, NeedLicense, NeedPhone, NeedLanguages, NeedPricing], Label)
      == DefaultMissingItems
  {
    var cs := [NeedTitle, NeedBio, NeedDepartment, NeedYears, NeedLicense, NeedPhone, NeedLanguages, NeedPricing];
    var m := Seqs.Map(cs, Label);
    assert |m| == 8;
    forall i | 0 <= i < 8 ensures m[i] == DefaultMissingItems[i] {
      assert m[i] == Label(cs[i]);
    }
  }

  /** The checks the starting form fails: all but the avatar and availability. */
  lemma DefaultPicked(fails: Check -> bool)
    requires fails(NeedTitle) && fails(NeedBio) && fails(NeedDepartment) && fails(NeedYears) && fails(NeedLicense)
    requires !fails(NeedAvatar) && fails(NeedPhone) && fails(NeedLanguages) && fails(NeedPricing) && !fails(NeedAvailability)
    ensures FailingFrom(fails, 0)
      == [NeedTitle, NeedBio, NeedDepartment, NeedYears, NeedLicense, NeedPhone, NeedLanguages, NeedPricing]
    ensures var m := Seqs.Map(FailingFrom(fails, 0), Label);
      |m| == 8 && m[0] == MissingTitle && m[7] == MissingPricing
  {
    assert CheckOrder[9] == NeedAvailability;
    assert FailingFrom(fails, 9) == FailingFrom(fails, 10);
    assert CheckOrder[8] == NeedPricing;
    assert FailingFrom(fails, 8) == [NeedPricing] + FailingFrom(fails, 9);
    assert CheckOrder[7] == NeedLanguages;
    assert FailingFrom(fails, 7) == [NeedLanguages] + FailingFrom(fails, 8);
    assert CheckOrder[6] == NeedPhone;
    assert FailingFrom(fails, 6) == [NeedPhone] + FailingFrom(fails, 7);
    assert CheckOrder[5] == NeedAvatar;
    assert FailingFrom(fails, 5) == FailingFrom(fails, 6);
    assert CheckOrder[4] == NeedLicense;
    assert FailingFrom(fails, 4) == [NeedLicense] + FailingFrom(fails, 5);
    assert CheckOrder[3] == NeedYears;
    assert FailingFrom(fails, 3) == [NeedYears] + FailingFrom(fails, 4);
    assert CheckOrder[2] == NeedDepartment;
    assert FailingFrom(fails, 2) == [NeedDepartment] + FailingFrom(fails, 3);
    assert CheckOrder[1] == NeedBio;
    assert FailingFrom(fails, 1) == [NeedBio] + FailingFrom(fails, 2);
    assert CheckOrder[0] == NeedTitle;
    assert FailingFrom(fails, 0) == [NeedTitle] + FailingFrom(fails, 1);
    assert FailingFrom(fails, 10) == [];
  }

  // ---------------------------------------------------------------------------
  // applyProfile, setArray, onChipEnter
  // ---------------------------------------------------------------------------

  predicate NonEmptyString(s: string) {
    s != []
  }

  /** `setArray`: the list field becomes the profile's truthy entries. */
  function SetArray(values: Option<seq<string>>): (r: seq<string>)
    ensures forall i :: 0 <= i < |r| ==> r[i] != [] && r[i] in values.GetOr([])
    ensures forall i :: 0 <= i < |values.GetOr([])| && values.GetOr([])[i] != [] ==> values.GetOr([])[i] in r
  {
    Seqs.Filter(values.GetOr([]), NonEmptyString)
  }

  /** The position of the last entry for s, if any. */
  function LastIndexFor(pricing: seq<Pricing>, s: Service): (r: Option<nat>)
    ensures r.None? <==> forall i :: 0 <= i < |pricing| ==> pricing[i].service != s
    ensures r.Some? ==> r.value < |pricing| && pricing[r.value].service == s
                        && forall j :: r.value < j < |pricing| ==> pricing[j].service != s
  {
    if |pricing| == 0 then None
    else if pricing[|pricing| - 1].service == s then Some(|pricing| - 1)
    else LastIndexFor(pricing[..|pricing| - 1], s)
  }

  /** The entry `new Map(pricing.map(e => [e.service, e])).get(s)` finds: the last one for s. */
  function LastFor(pricing: seq<Pricing>, s: Service): (r: Option<Pricing>)
    ensures r.None? <==> forall i :: 0 <= i < |pricing| ==> pricing[i].service != s
    ensures r.Some? ==> exists i :: 0 <= i < |pricing| && pricing[i] == r.value && r.value.service == s
                                  && (forall j :: i < j < |pricing| ==> pricing[j].service != s)
  {
    match LastIndexFor(pricing, s)
    case None => None
    case Some(k) => Some(pricing[k])
  }

  /** One pricing row after `applyProfile`: currency from the matching entry or
      kept, price from the matching entry or 0. */
  function ApplyRow(row: PricingRow, pricing: seq<Pricing>): (r: PricingRow)
    ensures r.service == row.service
    ensures LastFor(pricing, row.service).None? ==> r == row.(price := Some(0))
    ensures LastFor(pricing, row.service).Some? ==>
      var e := LastFor(pricing, row.service).value;
      r == row.(currency := e.currency, price := Some(e.price.GetOr(0)))
  {
    match LastFor(pricing, row.service)
    case Some(m) => row.(currency := m.currency, price := Some(m.price.GetOr(0)))
    case None => row.(price := Some(0))
  }

  /** `applyProfile`: copy a loaded profile into the form. */
  function ApplyProfile(f: Form, p: DoctorProfile): (r: Form)
    ensures r.fullName == (if f.fullName == [] then DefaultName else f.fullName)
    ensures r.title == p.title.GetOr("") && r.bio == p.bio.GetOr("") && r.phone == p.phone.GetOr("")
    ensures r.departmentId == p.departmentId && r.yearsOfExperience == p.yearsOfExperience
    ensures r.licenseNumber == p.licenseNumber.GetOr("") && r.avatarUrl == p.avatarUrl.GetOr("")
    ensures r.availability == p.availability.GetOr(DefaultAvailability)
    ensures r.languages == SetArray(p.languages) && r.hospitals == SetArray(p.hospitals)
    ensures r.education == SetArray(p.education) && r.certificates == SetArray(p.certificates)
    ensures forall i :: 0 <= i < |r.languages| ==> r.languages[i] != []
    ensures |r.pricing| == |f.pricing|
    ensures forall i :: 0 <= i < |f.pricing| ==> r.pricing[i].service == f.pricing[i].service
  {
    var prices := p.pricing.GetOr([]);
    Form(
      if f.fullName == [] then DefaultName else f.fullName,
      p.title.GetOr(""), p.departmentId, p.yearsOfExperience,
      p.licenseNumber.GetOr(""), p.avatarUrl.GetOr(""), p.bio.GetOr(""), p.phone.GetOr(""),
      SetArray(p.languages), SetArray(p.hospitals), SetArray(p.education), SetArray(p.certificates),
      p.availability.GetOr(DefaultAvailability),
      seq(|f.pricing|, i requires 0 <= i < |f.pricing| => ApplyRow(f.pricing[i], prices)))
  }

  /** When a profile prices a service more than once the form shows its last
      entry; a service without an entry shows price 0 in its current currency. */
  lemma ApplyTakesLastEntry(f: Form, p: DoctorProfile, i: nat)
    requires i < |f.pricing|
    ensures var row := ApplyProfile(f, p).pricing[i];
      var entries := p.pricing.GetOr([]);
      (exists k :: 0 <= k < |entries| && entries[k].service == f.pricing[i].service
          && (forall j :: k < j < |entries| ==> entries[j].service != f.pricing[i].service)
          && row.currency == entries[k].currency && row.price == Some(entries[k].price.GetOr(0)))
      || ((forall k :: 0 <= k < |entries| ==> entries[k].service != f.pricing[i].service)
          && row.currency == f.pricing[i].currency && row.price == Some(0))
  {
  }

  /** Applying the same profile twice is the same as applying it once. */
  lemma ApplyIdempotent(f: Form, p: DoctorProfile)
    ensures ApplyProfile(ApplyProfile(f, p), p) == ApplyProfile(f, p)
  {
    var once := ApplyProfile(f, p);
    var twice := ApplyProfile(once, p);
    var prices := p.pricing.GetOr([]);
    assert DefaultName != [];
    forall i | 0 <= i < |f.pricing|
      ensures twice.pricing[i] == once.pricing[i]
    {
      assert once.pricing[i] == ApplyRow(f.pricing[i], prices);
    }
  }

  /** `onChipEnter`: the list and the text left in the input. */
  function ChipEnter(list: seq<string>, input: string): (r: (seq<string>, string))
    ensures IsBlank(input) ==> r == (list, input)
    ensures !IsBlank(input) ==> r.0 == list + [Trim(input)] && r.1 == ""
    ensures !IsBlank(input) ==> !IsBlank(r.0[|r.0| - 1])
  {
    var value := Trim(input);
    TrimIdempotent(input);
    BlankIffTrimEmpty(input);
    BlankIffTrimEmpty(value);
    if value == [] then (list, input) else (list + [value], "")
  }

  // ---------------------------------------------------------------------------
  // The rest of save: update, then refresh
  // ---------------------------------------------------------------------------

  /** After a submitted save: the service state, the page's `apiError`, and the
      profile re-applied to the form on success. */
  datatype SaveResult = SaveResult(service: State, apiError: Option<string>, applied: Option<DoctorProfile>)

  /** `updateProfile(payload)` then, on success, `refreshProfile()`; the first
      error ends the chain and is shown. */
  function FinishSave(st: State, token: Option<string>,
                      updateResponse: Result<DoctorProfile, HttpError>,
                      refreshResponse: Result<DoctorProfile, HttpError>): (r: SaveResult)
    ensures r.applied.Some? <==> r.apiError.None?
    ensures r.applied.Some? ==> r.service.profile == r.applied && Coherent(r.service)
    ensures !HasToken(token) ==> r.apiError == Some(SessionExpired) && r.service == st
    ensures Coherent(st) ==> Coherent(r.service)
  {
    var u := UpdateProfile(st, token, updateResponse);
    match u.result
    case Err(msg) => SaveResult(u.state, Some(msg), None)
    case Ok(_) =>
      var o := RefreshProfile(u.state, token, refreshResponse);
      match o.result
      case Err(msg) => SaveResult(o.state, Some(msg), None)
      case Ok(p) => SaveResult(o.state, None, Some(p))
  }
}

=== FILE: profileguard.dfy ===
/** `doctorProfileGuard`, the `canActivateChild` guard of the doctor area:
    load the (cached) profile, then allow, send the doctor to the profile
    page, or send them to the login page. */
module ProfileGuard {
  import opened Wrappers
  import opened HttpErrors
  import opened DoctorProfileService

  /** A `UrlTree`: target path and query parameters. */
  datatype UrlTree = UrlTree(path: string, query: seq<(string, string)>)

  /** What the guard emits: `true`, or a tree to navigate to instead. */
  datatype Decision = Allow | Redirect(tree: UrlTree)

  /** The tree for an incomplete profile, remembering where the doctor was going. */
  function CompleteProfileTree(url: string): UrlTree {
    UrlTree("/doctor/profile", [("reason", "complete-profile"), ("redirect", url)])
  }

  const SessionExpiredTree := UrlTree("/auth/login", [("reason", "session-expired")])

  /** The child route the profile page is mounted on. */
  const ProfilePath := "profile"

  /** The guard for a child route with config path `routePath` (None when the
      route has no config or no path) reached through `url`; it returns the
      service state after its load together with the decision. */
  function Guard(st: State, routePath: Option<string>, url: string, token: Option<string>,
                 response: Result<DoctorProfile, HttpError>): (r: (State, Decision))
    ensures var o := LoadProfile(st, false, token, response);
      r.0 == o.state
      && (o.result.Err? ==> r.1 == Redirect(SessionExpiredTree))
      && (o.result.Ok? && !ComputeLocked(Some(o.result.value)) ==> r.1 == Allow)
      && (o.result.Ok? && ComputeLocked(Some(o.result.value)) ==>
            r.1 == (if routePath.GetOr("") == ProfilePath then Allow else Redirect(CompleteProfileTree(url))))
  {
    var o := LoadProfile(st, false, token, response);
    match o.result
    case Err(_) => (o.state, Redirect(SessionExpiredTree))
    case Ok(p) =>
      if !IsProfileLocked(o.state, Some(Some(p))) then (o.state, Allow)
      else if routePath.GetOr("") == ProfilePath then (o.state, Allow)
      else (o.state, Redirect(CompleteProfileTree(url)))
  }

  /** The decision is one of exactly three: allow, the profile page, or login;
      navigation is allowed exactly when a profile was obtained and it is
      complete or the target is the profile page itself. */
  lemma ThreeWayDecision(st: State, routePath: Option<string>, url: string, token: Option<string>,
                         response: Result<DoctorProfile, HttpError>)
    ensures var d := Guard(st, routePath, url, token, response).1;
      d == Allow || d == Redirect(CompleteProfileTree(url)) || d == Redirect(SessionExpiredTree)
    ensures var o := LoadProfile(st, false, token, response);
      Guard(st, routePath, url, token, response).1 == Allow <==>
        o.result.Ok? && (Complete(o.result.value) || routePath == Some(ProfilePath))
  {
  }

  /** The profile page itself is never redirected to the profile page, so an
      incomplete doctor is never trapped in a redirect loop. */
  lemma NoRedirectLoop(st: State, url: string, token: Option<string>,
                       response: Result<DoctorProfile, HttpError>)
    ensures Guard(st, Some(ProfilePath), url, token, response).1 != Redirect(CompleteProfileTree(url))
  {
  }

  /** A route without a config path counts as the empty path, so it is
      redirected like any other child route when the profile is locked. */
  lemma MissingPathIsNotProfile(st: State, url: string, token: Option<string>,
                                response: Result<DoctorProfile, HttpError>)
    requires LoadProfile(st, false, token, response).result.Ok?
    requires !Complete(LoadProfile(st, false, token, response).result.value)
    ensures Guard(st, None, url, token, response).1 == Redirect(CompleteProfileTree(url))
  {
  }

  /** With a profile already cached the guard decides from it alone: no request
      is sent and the service state is untouched. */
  lemma CachedDecision(st: State, routePath: Option<string>, url: string, token: Option<string>,
                       response: Result<DoctorProfile, HttpError>)
    requires st.profile.Some?
    ensures !LoadProfile(st, false, token, response).fetched
    ensures Guard(st, routePath, url, token, response).0 == st
    ensures Guard(st, routePath, url, token, response).1 ==
      (if Complete(st.profile.value) || routePath == Some(ProfilePath) then Allow
       else Redirect(CompleteProfileTree(url)))
  {
  }

  /** Without a session and without a cached profile the guard sends the user to login. */
  lemma NoSessionGoesToLogin(st: State, routePath: Option<string>, url: string,
                             response: Result<DoctorProfile, HttpError>)
    requires st.profile.None?
    ensures Guard(st, routePath, url, None, response).1 == Redirect(SessionExpiredTree)
    ensures Guard(st, routePath, url, Some(""), response).1 == Redirect(SessionExpiredTree)
  {
  }
}

=== FILE: records.dfy ===
/** The patient's medical records: the type guess from a MIME type, the type
    and text filters, adding, editing and deleting a record, the file-name
    default of the add/edit dialog and its save guard. Times are milliseconds
    since the epoch; new ids, object URLs and PDF thumbnails are parameters. */
module Records {
  import opened Wrappers
  import opened JsText
  import opened Seqs
  import opened Sorting

  datatype RecordType = Report | Prescription | Lab | Imaging | Other

  function TypeName(t: RecordType): string {
    match t
    case Report => "report"
    case Prescription => "prescription"
    case Lab => "lab"
    case Imaging => "imaging"
    case Other => "other"
  }

  /** `notes` and `thumb` are optional fields. */
  datatype MedRecord = MedRecord(id: string, name: string, rtype: RecordType, createdAt: int, sizeKB: int,
                                 notes: Option<string>, url: string, mime: string, thumb: Option<string>)

  /** A chosen file: its name, MIME type (possibly empty) and size in bytes. */
  datatype File = File(name: string, mime: string, size: nat)

  /** `guessTypeByMime(mime)`. */
  function GuessTypeByMime(mime: string): (r: RecordType)
    ensures r == Imaging <==> StartsWith(mime, "image/")
    ensures r == Report <==> !StartsWith(mime, "image/") && mime == "application/pdf"
    ensures r in {Imaging, Report, Other}
  {
    if StartsWith(mime, "image/") then Imaging
    else if mime == "application/pdf" then Report
    else Other
  }

  // ---------------------------------------------------------------------------
  // The list
  // ---------------------------------------------------------------------------

  /** The text test with the trimmed, lower-cased query: name, notes (absent
      notes read as empty) or type name. */
  predicate TextOk(q: string, r: MedRecord) {
    q == "" || Contains(ToLower(r.name), q) || Contains(ToLower(OrEmpty(r.notes)), q)
    || Contains(ToLower(TypeName(r.rtype)), q)
  }

  /** The type filter (`None` is `'all'`) and the query. */
  predicate Shows(f: Option<RecordType>, query: string, r: MedRecord) {
    (f.None? || r.rtype == f.value) && TextOk(ToLower(Trim(query)), r)
  }

  function CreatedKey(r: MedRecord): Key {
    [r.createdAt]
  }

  /** `filtered`: the records of the chosen type matching the query, newest first. */
  function Filtered(all: seq<MedRecord>, f: Option<RecordType>, query: string): (r: seq<MedRecord>)
    ensures SortedBy(r, CreatedKey, true)
    ensures forall x :: x in r <==> x in all && Shows(f, query, x)
    ensures |r| <= |all|
  {
    var kept := Filter(all, (x: MedRecord) => Shows(f, query, x));
    FilterMembers(all, (x: MedRecord) => Shows(f, query, x));
    SortByMembers(kept, CreatedKey, true);
    SortBy(kept, CreatedKey, true)
  }

  /** With `'all'` and a blank query every record is listed. */
  lemma BlankQueryListsAll(all: seq<MedRecord>, query: string, x: MedRecord)
    requires IsBlank(query) && x in all
    ensures x in Filtered(all, None, query)
  {
    BlankIffTrimEmpty(query);
  }

  /** A record's own type name finds it. */
  lemma TypeNameFinds(all: seq<MedRecord>, x: MedRecord)
    requires x in all
    ensures x in Filtered(all, None, TypeName(x.rtype))
  {
    var q := TypeName(x.rtype);
    TypeNameIsQuery(x.rtype);
    assert Contains(ToLower(q), q);
    assert Shows(None, q, x);
  }

  /** Each type name is already trimmed and lower-case. */
  lemma TypeNameIsQuery(t: RecordType)
    ensures Trim(TypeName(t)) == TypeName(t) && ToLower(TypeName(t)) == TypeName(t)
  {
    TrimmedIsFixed(TypeName(t));
  }

  // ---------------------------------------------------------------------------
  // Size and file-name helpers
  // ---------------------------------------------------------------------------

  /** `Math.max(1, Math.round(size / 1024))`: the size in KB rounded to the
      nearest whole number, halves up, and never below 1. */
  function SizeKB(size: nat): (kb: int)
    ensures kb >= 1
    ensures size < 512 ==> kb == 1
    ensures size >= 512 ==> kb * 1024 - 512 <= size < kb * 1024 + 512
  {
    Max(1, (size + 512) / 1024)
  }

  /** Position of the last `c` in `s`, if any. */
  function LastIndexOf(s: string, c: char): (r: Option<nat>)
    ensures r.Some? ==> r.value < |s| && s[r.value] == c && c !in s[r.value + 1..]
    ensures r.None? ==> c !in s
  {
    if |s| == 0 then None
    else if s[|s| - 1] == c then Some(|s| - 1)
    else
      var r := LastIndexOf(s[..|s| - 1], c);
      assert s == s[..|s| - 1] + [s[|s| - 1]];
      r
  }

  /** `name.replace(/\.[^.]+$/, '')`: drops a final `.ext` whose extension is
      non-empty and dot-free; a name ending in a dot, or without one, is kept. */
  function StripExtension(name: string): (r: string)
    ensures StartsWith(name, r)
    ensures r != name ==> |r| + 1 < |name| && name[|r|] == '.' && '.' !in name[|r| + 1..]
    ensures '.' !in name ==> r == name
  {
    match LastIndexOf(name, '.')
    case None => name
    case Some(k) => if k + 1 < |name| then name[..k] else name
  }

  /** The stem of `stem.ext` comes back, whatever dots the stem holds. */
  lemma StripExtensionOfName(stem: string, ext: string)
    requires ext != [] && '.' !in ext
    ensures StripExtension(stem + "." + ext) == stem
  {
    var s := stem + "." + ext;
    assert s[|stem|] == '.';
    assert s[..|stem|] == stem;
    assert s[|stem| + 1..] == ext;
  }

  /** `onFile(e)`: the chosen file is stored, and an empty title is filled
      with the file's name without its extension. */
  function OnFile(title: string, file: Option<File>): (r: (Option<File>, string))
    ensures r.0 == file
    ensures title != "" || file.None? ==> r.1 == title
    ensures title == "" && file.Some? ==> r.1 == StripExtension(file.value.name)
  {
    if file.Some? && title == "" then (file, StripExtension(file.value.name)) else (file, title)
  }

  // ---------------------------------------------------------------------------
  // The dialog
  // ---------------------------------------------------------------------------

  datatype Mode = AddMode | EditMode(record: MedRecord)

  /** The dialog's form: `type` is non-nullable and starts at `report`;
      `date` is the picked day (midnight UTC) or none. */
  datatype Form = Form(name: string, rtype: RecordType, date: Option<int>, notes: string, file: Option<File>)

  /** What the dialog hands back; `Some` type is the form's (always set). */
  datatype DialogResult = DialogResult(name: string, rtype: Option<RecordType>, date: Option<int>,
                                       notes: Option<string>, file: Option<File>)

  /** Midnight UTC of the day of `t`: the `createdAt.slice(0, 10)` date. */
  function DayStart(t: int): (d: int)
    ensures d <= t < d + 86400000
    ensures d % 86400000 == 0
  {
    t - t % 86400000
  }

  /** The dialog's opening form: empty for add, the record's fields for edit. */
  function InitialForm(mode: Mode): (f: Form)
    ensures mode.AddMode? ==> f == Form("", Report, None, "", None)
    ensures mode.EditMode? ==>
      (f.name == mode.record.name && f.rtype == mode.record.rtype
       && f.date == Some(DayStart(mode.record.createdAt)) && f.notes == OrEmpty(mode.record.notes)
       && f.file.None?)
  {
    match mode
    case AddMode => Form("", Report, None, "", None)
    case EditMode(r) => Form(r.name, r.rtype, Some(DayStart(r.createdAt)), OrEmpty(r.notes), None)
  }

  /** `save()`: in add mode without a file the dialog stays open (`None`);
      otherwise it closes with the form's values. */
  function Save(mode: Mode, f: Form): (r: Option<DialogResult>)
    ensures r.None? <==> mode.AddMode? && f.file.None?
    ensures r.Some? ==>
      (r.value.file == f.file && r.value.name == f.name && r.value.rtype == Some(f.rtype)
       && r.value.date == f.date && r.value.notes == Some(f.notes))
  {
    if mode.AddMode? && f.file.None? then None
    else Some(DialogResult(f.name, Some(f.rtype), f.date, Some(f.notes), f.file))
  }

  /** What an add-mode dialog hands back always carries a file. */
  lemma AddResultHasFile(f: Form)
    requires Save(AddMode, f).Some?
    ensures Save(AddMode, f).value.file.Some?
  {
  }

  // ---------------------------------------------------------------------------
  // Add, edit, delete
  // ---------------------------------------------------------------------------

  /** The card thumbnail for a file of that type: the object URL for an
      image, the rendered first page for a PDF, none otherwise. */
  function ThumbFor(mime: string, url: string, pdfThumb: Option<string>): (t: Option<string>)
    ensures StartsWith(mime, "image/") ==> t == Some(url)
    ensures !StartsWith(mime, "image/") && mime == "application/pdf" ==> t == pdfThumb
    ensures !StartsWith(mime, "image/") && mime != "application/pdf" ==> t.None?
  {
    if StartsWith(mime, "image/") then Some(url)
    else if mime == "application/pdf" then pdfThumb
    else None
  }

  /** `res.name || fallback`. */
  function NameOr(name: string, fallback: string): string {
    if name != "" then name else fallback
  }

  /** The record `openAdd` builds from a dialog result with a file. */
  function NewRecord(res: DialogResult, file: File, id: string, now: int, url: string, pdfThumb: Option<string>): (r: MedRecord)
    ensures r.id == id && r.url == url
    ensures r.sizeKB == SizeKB(file.size) && r.sizeKB >= 1
    ensures IsTrimmed(r.name) && IsTrimmed(OrEmpty(r.notes))
    ensures r.name == Trim(if res.name != "" then res.name else file.name)
    ensures r.notes == Some(Trim(OrEmpty(res.notes)))
    ensures r.mime != "" && (file.mime != "" ==> r.mime == file.mime)
    ensures file.mime == "" ==> r.mime == "application/octet-stream"
    ensures res.rtype.Some? ==> r.rtype == res.rtype.value
    ensures res.rtype.None? ==> r.rtype == GuessTypeByMime(file.mime)
    ensures r.thumb == ThumbFor(file.mime, url, pdfThumb)
    ensures r.createdAt == res.date.GetOr(now)
  {
    TrimIdempotent(NameOr(res.name, file.name));
    TrimIdempotent(OrEmpty(res.notes));
    MedRecord(id, Trim(NameOr(res.name, file.name)),
              if res.rtype.Some? then res.rtype.value else GuessTypeByMime(file.mime),
              res.date.GetOr(now), SizeKB(file.size), Some(Trim(OrEmpty(res.notes))), url,
              if file.mime != "" then file.mime else "application/octet-stream",
              ThumbFor(file.mime, url, pdfThumb))
  }

  /** `openAdd()` after the dialog closes: nothing for a dismissed dialog, a
      warning without a file, otherwise the new record goes first. */
  function Add(all: seq<MedRecord>, res: Option<DialogResult>, id: string, now: int, url: string,
               pdfThumb: Option<string>): (r: (seq<MedRecord>, Option<string>))
    ensures res.None? ==> r == (all, None)
    ensures res.Some? && res.value.file.None? ==> r == (all, Some("File is required."))
    ensures res.Some? && res.value.file.Some? ==>
      |r.0| == |all| + 1 && r.0[1..] == all && r.0[0].id == id && r.0[0].sizeKB >= 1
      && r.1 == Some("Record added")
    ensures res.Some? && res.value.file.Some? ==>
      r.0[0] == NewRecord(res.value, res.value.file.value, id, now, url, pdfThumb)
  {
    if res.None? then (all, None)
    else if res.value.file.None? then (all, Some("File is required."))
    else ([NewRecord(res.value, res.value.file.value, id, now, url, pdfThumb)] + all, Some("Record added"))
  }

  /** The record `openEdit` writes back: title, type, notes and date from
      the dialog; with a new file also its URL, type, size and thumbnail. */
  function Edited(x: MedRecord, res: DialogResult, url: string, pdfThumb: Option<string>): (r: MedRecord)
    ensures r.id == x.id
    ensures res.file.None? ==> r.url == x.url && r.mime == x.mime && r.sizeKB == x.sizeKB && r.thumb == x.thumb
    ensures res.file.Some? ==> r.url == url && r.sizeKB == SizeKB(res.file.value.size)
    ensures r.name == Trim(if res.name != "" then res.name else x.name)
    ensures r.createdAt == res.date.GetOr(x.createdAt)
    ensures r.rtype == res.rtype.GetOr(x.rtype) && r.notes == Some(Trim(OrEmpty(res.notes)))
    ensures res.file.Some? ==>
      r.mime == (if res.file.value.mime != "" then res.file.value.mime else x.mime)
      && r.thumb == ThumbFor(r.mime, url, pdfThumb)
  {
    var mime := if res.file.Some? && res.file.value.mime != "" then res.file.value.mime else x.mime;
    x.(name := Trim(NameOr(res.name, x.name)),
       rtype := if res.rtype.Some? then res.rtype.value else x.rtype,
       notes := Some(Trim(OrEmpty(res.notes))),
       createdAt := res.date.GetOr(x.createdAt),
       url := if res.file.Some? then url else x.url,
       mime := mime,
       sizeKB := if res.file.Some? then SizeKB(res.file.value.size) else x.sizeKB,
       thumb := if res.file.Some? then ThumbFor(mime, url, pdfThumb) else x.thumb)
  }

  /** `openEdit(r)` after the dialog closes: only the first record with that
      id is rewritten; a dismissed dialog or an unknown id changes nothing. */
  function Edit(all: seq<MedRecord>, id: string, res: Option<DialogResult>, url: string,
                pdfThumb: Option<string>): (r: seq<MedRecord>)
    ensures |r| == |all|
    ensures res.None? || (forall i :: 0 <= i < |all| ==> all[i].id != id) ==> r == all
    ensures forall i :: 0 <= i < |all| ==> r[i].id == all[i].id
    ensures forall i :: 0 <= i < |all| && r[i] != all[i] ==> all[i].id == id && forall j :: 0 <= j < i ==> all[j].id != id
    ensures res.Some? ==> forall k :: 0 <= k < |all| && all[k].id == id && (forall j :: 0 <= j < k ==> all[j].id != id) ==>
      r[k] == Edited(all[k], res.value, url, pdfThumb)
  {
    if res.None? then all
    else match FindIndex(all, (x: MedRecord) => x.id == id)
      case None => all
      case Some(k) => all[k := Edited(all[k], res.value, url, pdfThumb)]
  }

  /** Writing a record back twice from the same dialog result is writing it once. */
  lemma EditedIdempotent(x: MedRecord, res: DialogResult, url: string, pdfThumb: Option<string>)
    ensures Edited(Edited(x, res, url, pdfThumb), res, url, pdfThumb) == Edited(x, res, url, pdfThumb)
  {
    TrimIdempotent(NameOr(res.name, x.name));
    TrimIdempotent(OrEmpty(res.notes));
  }

  /** Saving the same dialog result twice leaves the list as saving it once. */
  lemma EditIdempotent(all: seq<MedRecord>, id: string, res: Option<DialogResult>, url: string,
                       pdfThumb: Option<string>)
    ensures Edit(Edit(all, id, res, url, pdfThumb), id, res, url, pdfThumb) == Edit(all, id, res, url, pdfThumb)
  {
    var once := Edit(all, id, res, url, pdfThumb);
    if res.Some? {
      match FindIndex(all, (x: MedRecord) => x.id == id)
      case None =>
      case Some(k) =>
        assert FindIndex(once, (x: MedRecord) => x.id == id) == Some(k);
        EditedIdempotent(all[k], res.value, url, pdfThumb);
    }
  }

  /** Saving the edit dialog unchanged keeps the record's day but moves its
      time to midnight UTC, because the form holds the date only. */
  lemma UnchangedEditKeepsDayOnly(x: MedRecord, url: string, pdfThumb: Option<string>)
    ensures var res := Save(EditMode(x), InitialForm(EditMode(x)));
      res.Some? && Edited(x, res.value, url, pdfThumb).createdAt == DayStart(x.createdAt)
      && Edited(x, res.value, url, pdfThumb).url == x.url
  {
  }

  /** `delete(r)` once confirmed: the records with another id, in order. */
  function Delete(all: seq<MedRecord>, id: string): (r: seq<MedRecord>)
    ensures forall x :: x in r <==> x in all && x.id != id
    ensures |r| == |all| - Count(all, (x: MedRecord) => x.id == id)
  {
    FilterMembers(all, (x: MedRecord) => x.id != id);
    FilterSplit(all, (x: MedRecord) => x.id != id, (x: MedRecord) => x.id == id);
    assert |multiset(Filter(all, (x: MedRecord) => x.id != id))|
      + |multiset(Filter(all, (x: MedRecord) => x.id == id))| == |multiset(all)|;
    Filter(all, (x: MedRecord) => x.id != id)
  }

  /** Deleting a record just added gives the list back, when its id was new. */
  lemma {:induction false} DeleteUndoesAdd(all: seq<MedRecord>, res: DialogResult, id: string, now: int,
                                           url: string, pdfThumb: Option<string>)
    requires res.file.Some?
    requires forall x :: x in all ==> x.id != id
    ensures Delete(Add(all, Some(res), id, now, url, pdfThumb).0, id) == all
  {
    KeepAll(all, id);
  }

  lemma {:induction false} KeepAll(all: seq<MedRecord>, id: string)
    requires forall x :: x in all ==> x.id != id
    ensures Filter(all, (x: MedRecord) => x.id != id) == all
  {
    FilterAll(all, (x: MedRecord) => x.id != id);
  }
}

=== FILE: reviews.dfy ===
/** The patient's own reviews: the text search, the review count, the average
    rating to one decimal, the star distribution and its percentages. Times
    are milliseconds since the epoch. Averages and percentages are computed
    exactly, as rationals rounded the way `Math.round` rounds. */
module Reviews {
  import opened Wrappers
  import opened JsText
  import opened Seqs
  import opened Sorting

  /** A rating of one to five stars. */
  type Star = n: int | 1 <= n <= 5 witness 1

  datatype Review = Review(id: string, doctorName: string, rating: Star, title: Option<string>,
                           comment: string, createdAt: int)

  /** The text test with the trimmed, lower-cased query: doctor, comment or
      title (an absent title reads as empty). */
  predicate TextOk(q: string, r: Review) {
    q == "" || Contains(ToLower(r.doctorName), q) || Contains(ToLower(r.comment), q)
    || Contains(ToLower(OrEmpty(r.title)), q)
  }

  function CreatedKey(r: Review): Key {
    [r.createdAt]
  }

  /** `filtered`: the reviews matching the query, newest first. */
  function Filtered(all: seq<Review>, query: string): (r: seq<Review>)
    ensures SortedBy(r, CreatedKey, true)
    ensures forall x :: x in r <==> x in all && TextOk(ToLower(Trim(query)), x)
  {
    var q := ToLower(Trim(query));
    var kept := Filter(all, (x: Review) => TextOk(q, x));
    FilterMembers(all, (x: Review) => TextOk(q, x));
    SortByMembers(kept, CreatedKey, true);
    SortBy(kept, CreatedKey, true)
  }

  /** A blank query lists every review, each as often as it occurs. */
  lemma BlankQueryListsAll(all: seq<Review>, query: string)
    requires IsBlank(query)
    ensures multiset(Filtered(all, query)) == multiset(all)
  {
    BlankIffTrimEmpty(query);
    var q := ToLower(Trim(query));
    FilterAll(all, (x: Review) => TextOk(q, x));
  }

  // ---------------------------------------------------------------------------
  // Statistics, over all reviews
  // ---------------------------------------------------------------------------

  /** The sum of the ratings. */
  function StarSum(all: seq<Review>): (s: int)
    ensures |all| <= s <= 5 * |all|
  {
    if |all| == 0 then 0 else all[0].rating + StarSum(all[1..])
  }

  /** `Math.round(x / c)` for a positive whole `c`: the nearest whole number,
      halves rounded up. */
  function RoundDiv(x: int, c: int): (n: int)
    requires c > 0
    ensures 2 * n * c - c <= 2 * x < 2 * n * c + c
  {
    (2 * x + c) / (2 * c)
  }

  /** `avg`, in tenths of a star: `0` without reviews, otherwise the mean
      rounded to one decimal, which lies between one and five stars. */
  function AvgTenths(all: seq<Review>): (t: int)
    ensures |all| == 0 ==> t == 0
    ensures |all| > 0 ==> 10 <= t <= 50
    ensures |all| > 0 ==> 2 * t * |all| - |all| <= 20 * StarSum(all) < 2 * t * |all| + |all|
  {
    if |all| == 0 then 0
    else
      var t := RoundDiv(10 * StarSum(all), |all|);
      RoundDivBounds(10 * StarSum(all), |all|, 10, 50);
      t
  }

  /** A quotient of a value between `lo * c` and `hi * c` rounds into `lo .. hi`. */
  lemma RoundDivBounds(x: int, c: int, lo: int, hi: int)
    requires c > 0 && lo * c <= x <= hi * c
    ensures lo <= RoundDiv(x, c) <= hi
  {
    var n := RoundDiv(x, c);
    if n < lo {
      MulLe(n + 1, lo, c);
    } else if n > hi {
      MulLe(hi + 1, n, c);
    }
  }

  lemma MulLe(a: int, b: int, c: int)
    requires a <= b && c >= 0
    ensures a * c <= b * c
  {
    assert (b - a) * c >= 0;
  }

  /** `roundedAvg`: the one-decimal average rounded again to whole stars. */
  function RoundedAvg(all: seq<Review>): (n: int)
    ensures |all| == 0 ==> n == 0
    ensures |all| > 0 ==> 1 <= n <= 5
  {
    RoundDivBounds(AvgTenths(all), 10, if |all| == 0 then 0 else 1, 5);
    RoundDiv(AvgTenths(all), 10)
  }

  /** Equal ratings average to exactly that rating. */
  lemma SameRatingAverage(all: seq<Review>, s: Star)
    requires |all| > 0 && forall i :: 0 <= i < |all| ==> all[i].rating == s
    ensures AvgTenths(all) == 10 * s && RoundedAvg(all) == s
  {
    SameRatingSum(all, s);
    assert 10 * StarSum(all) == (10 * s) * |all|;
    RoundDivExact(10 * s, |all|);
    RoundDivExact(s, 10);
  }

  lemma {:induction false} SameRatingSum(all: seq<Review>, s: Star)
    requires forall i :: 0 <= i < |all| ==> all[i].rating == s
    ensures StarSum(all) == s * |all|
  {
    if |all| > 0 {
      SameRatingSum(all[1..], s);
    }
  }

  /** Whether a review has exactly `n` stars. */
  predicate HasStars(n: int, r: Review) {
    r.rating == n
  }

  /** The number of reviews with `n` stars; `0` for any other key, as
      `d[n] || 0` gives. */
  function Bucket(all: seq<Review>, n: int): nat {
    if |all| == 0 then 0 else (if all[0].rating == n then 1 else 0) + Bucket(all[1..], n)
  }

  /** A bucket holds exactly the reviews with that many stars. */
  lemma {:induction false} BucketIsCount(all: seq<Review>, n: int)
    ensures Bucket(all, n) == Count(all, (r: Review) => HasStars(n, r))
    ensures Bucket(all, n) <= |all|
  {
    if |all| > 0 {
      BucketIsCount(all[1..], n);
    }
  }

  /** `dist`: the five buckets, counted in one pass over the reviews. */
  method Dist(all: seq<Review>) returns (d: seq<nat>)
    ensures |d| == 5
    ensures forall k :: 0 <= k < 5 ==> d[k] == Bucket(all, k + 1)
    ensures d[0] + d[1] + d[2] + d[3] + d[4] == |all|
  {
    d := [0, 0, 0, 0, 0];
    var i := 0;
    while i < |all|
      invariant 0 <= i <= |all|
      invariant d == Buckets(all[..i])
    {
      var star := all[i].rating;
      BucketsStep(all, i);
      d := d[star - 1 := d[star - 1] + 1];
      i := i + 1;
    }
    assert all[..i] == all;
    BucketsSumToCount(all);
  }

  /** The five buckets in star order. */
  function Buckets(s: seq<Review>): seq<nat> {
    [Bucket(s, 1), Bucket(s, 2), Bucket(s, 3), Bucket(s, 4), Bucket(s, 5)]
  }

  /** The next review adds one to its own bucket only. */
  lemma BucketsStep(all: seq<Review>, i: nat)
    requires i < |all|
    ensures Buckets(all[..i + 1]) == Buckets(all[..i])[all[i].rating - 1 := Buckets(all[..i])[all[i].rating - 1] + 1]
  {
    assert all[..i + 1] == all[..i] + [all[i]];
    BucketsSnoc(all[..i], all[i]);
  }

  lemma BucketsSnoc(s: seq<Review>, r: Review)
    ensures Buckets(s + [r]) == Buckets(s)[r.rating - 1 := Buckets(s)[r.rating - 1] + 1]
  {
    BucketSnoc(s, r, 1);
    BucketSnoc(s, r, 2);
    BucketSnoc(s, r, 3);
    BucketSnoc(s, r, 4);
    BucketSnoc(s, r, 5);
  }

  /** One more review adds one to its own bucket only. */
  lemma {:induction false} BucketSnoc(s: seq<Review>, r: Review, n: int)
    ensures Bucket(s + [r], n) == Bucket(s, n) + if r.rating == n then 1 else 0
  {
    if |s| > 0 {
      assert (s + [r])[1..] == s[1..] + [r];
      BucketSnoc(s[1..], r, n);
    }
  }

  /** The five buckets hold every review once. */
  lemma {:induction false} BucketsSumToCount(all: seq<Review>)
    ensures Bucket(all, 1) + Bucket(all, 2) + Bucket(all, 3) + Bucket(all, 4) + Bucket(all, 5) == |all|
  {
    if |all| > 0 {
      BucketsSumToCount(all[1..]);
    }
  }

  /** `distPercent(n)`: `0` without reviews, otherwise the share of
      `n`-star reviews as a whole percentage. */
  function DistPercent(all: seq<Review>, n: int): (p: int)
    ensures |all| == 0 ==> p == 0
    ensures 0 <= p <= 100
    ensures |all| > 0 ==> 2 * p * |all| - |all| <= 200 * Bucket(all, n) < 2 * p * |all| + |all|
    ensures |all| > 0 && Bucket(all, n) == |all| ==> p == 100
  {
    if |all| == 0 then 0
    else
      BucketIsCount(all, n);
      RoundDivBounds(100 * Bucket(all, n), |all|, 0, 100);
      var p := RoundDiv(100 * Bucket(all, n), |all|);
      RoundDivExact(100, |all|);
      p
  }

  lemma RoundDivExact(k: int, c: int)
    requires c > 0
    ensures RoundDiv(k * c, c) == k
  {
    RoundDivBounds(k * c, c, k, k);
  }

  /** A star count outside one to five has no reviews and no share. */
  lemma OffScaleIsEmpty(all: seq<Review>, n: int)
    requires n < 1 || n > 5
    ensures Bucket(all, n) == 0 && DistPercent(all, n) == 0
  {
    BucketIsCount(all, n);
    FilterNone(all, (r: Review) => HasStars(n, r));
    assert Bucket(all, n) == 0;
    if |all| > 0 {
      RoundDivBounds(0, |all|, 0, 0);
      assert DistPercent(all, n) == RoundDiv(100 * 0, |all|);
    }
  }
}

=== FILE: schedule.dfy ===
/** The doctor's weekly schedule: the per-day view under the modality
    filter, the per-week store the page keeps while the doctor moves between
    weeks, and the add, edit and delete flows around the slot dialog. */
module Schedule {
  import opened Wrappers
  import opened Seqs
  import opened Sorting
  import opened SlotTime
  import opened Slots
  import opened Calendar
  import opened SlotDialog

  // ---------------------------------------------------------------------------
  // Per-day view
  // ---------------------------------------------------------------------------

  /** The filter toggle: `'all'` or one modality. */
  datatype ModalityFilter = AllModalities | OnlyModality(m: Modality)

  /** `filter === 'all' ? true : s.modalities.includes(filter)`. */
  predicate Passes(f: ModalityFilter, s: Slot) {
    f.AllModalities? || f.m in s.modalities
  }

  /** `slotsForDay(d)`: the day's slots that pass the filter, by start. */
  function SlotsForDay(slots: seq<Slot>, d: int, f: ModalityFilter): (r: seq<Slot>)
    ensures SortedBy(r, StartKey, false)
    ensures forall x :: x in r <==> x in slots && x.dayIdx == d && Passes(f, x)
  {
    var day := Filter(slots, s => OnDay(s, d));
    var shown := Filter(day, s => Passes(f, s));
    FilterMembers(slots, s => OnDay(s, d));
    FilterMembers(day, s => Passes(f, s));
    SortByMembers(shown, StartKey, false);
    SortBy(shown, StartKey, false)
  }

  /** The view is a permutation of the week's slots on that day that pass the
      filter: each appears as often as in the week, and nothing else does. */
  lemma SlotsForDayCounts(slots: seq<Slot>, d: int, f: ModalityFilter, x: Slot)
    ensures multiset(SlotsForDay(slots, d, f))[x] == if x.dayIdx == d && Passes(f, x) then multiset(slots)[x] else 0
  {
    var onDay := s => OnDay(s, d);
    var passes := s => Passes(f, s);
    var both := s => OnDay(s, d) && Passes(f, s);
    FilterFilter(slots, onDay, passes, both);
    FilterMultiset(slots, both, x);
  }

  // ---------------------------------------------------------------------------
  // Per-week store
  // ---------------------------------------------------------------------------

  /** The page state: the store keyed by each week's Monday, the week offset
      from the current one, and the working list of the week in view. The
      ISO date string of a Monday is a one-to-one name for it, so the model
      keys the store by the Monday's day number. */
  datatype Week = Week(store: map<int, seq<Slot>>, offset: int, slots: seq<Slot>)

  /** `weekKey()`: the Monday of the day `offset` weeks from today. */
  function WeekKey(today: int, offset: int): int {
    MondayOf(today + offset * 7)
  }

  /** Different offsets name different weeks. */
  lemma WeekKeysDistinct(today: int, a: int, b: int)
    requires a != b
    ensures WeekKey(today, a) != WeekKey(today, b)
  {
    MondayOfShiftsByWeeks(today, a);
    MondayOfShiftsByWeeks(today, b);
  }

  /** `saveCurrentWeek()`: the working list is stored under the current key. */
  function SaveCurrentWeek(w: Week, today: int): (r: Week)
    ensures r.store == w.store[WeekKey(today, w.offset) := w.slots]
    ensures r.offset == w.offset && r.slots == w.slots
  {
    w.(store := w.store[WeekKey(today, w.offset) := w.slots])
  }

  /** `loadWeek()`: the working list becomes `store[key] ?? []`. */
  function LoadWeek(w: Week, today: int): (r: Week)
    ensures r.store == w.store && r.offset == w.offset
    ensures r.slots == if WeekKey(today, w.offset) in w.store then w.store[WeekKey(today, w.offset)] else []
  {
    var key := WeekKey(today, w.offset);
    w.(slots := if key in w.store then w.store[key] else [])
  }

  /** The constructor: the seed goes under this week's key and is loaded. */
  function Init(today: int, seed: seq<Slot>): (r: Week)
    ensures r.offset == 0 && r.slots == seed
    ensures r.store == map[WeekKey(today, 0) := seed]
  {
    LoadWeek(Week(map[WeekKey(today, 0) := seed], 0, []), today)
  }

  function PrevWeek(w: Week, today: int): Week {
    var saved := SaveCurrentWeek(w, today);
    LoadWeek(saved.(offset := w.offset - 1), today)
  }

  function NextWeek(w: Week, today: int): Week {
    var saved := SaveCurrentWeek(w, today);
    LoadWeek(saved.(offset := w.offset + 1), today)
  }

  function ThisWeek(w: Week, today: int): Week {
    var saved := SaveCurrentWeek(w, today);
    LoadWeek(saved.(offset := 0), today)
  }

  /** Leaving a week stores its list under that week's key; the other
      navigation steps store it the same way. */
  lemma LeavingStoresTheWeek(w: Week, today: int)
    ensures NextWeek(w, today).store[WeekKey(today, w.offset)] == w.slots
    ensures PrevWeek(w, today).store[WeekKey(today, w.offset)] == w.slots
    ensures ThisWeek(w, today).store[WeekKey(today, w.offset)] == w.slots
  {
  }

  /** Going forward a week and back again restores the offset and the list. */
  lemma NextThenPrevRestores(w: Week, today: int)
    ensures PrevWeek(NextWeek(w, today), today).offset == w.offset
    ensures PrevWeek(NextWeek(w, today), today).slots == w.slots
  {
    WeekKeysDistinct(today, w.offset, w.offset + 1);
  }

  /** Going back a week and forward again restores the offset and the list. */
  lemma PrevThenNextRestores(w: Week, today: int)
    ensures NextWeek(PrevWeek(w, today), today).offset == w.offset
    ensures NextWeek(PrevWeek(w, today), today).slots == w.slots
  {
    WeekKeysDistinct(today, w.offset, w.offset - 1);
  }

  /** Arriving at a week whose list is stored shows that stored list. */
  lemma StoredWeekReloads(w: Week, today: int, offset: int)
    requires WeekKey(today, offset) in w.store
    ensures LoadWeek(w.(offset := offset), today).slots == w.store[WeekKey(today, offset)]
  {
  }

  /** One press of the next-week (`forward`) or previous-week button. */
  function Move(w: Week, today: int, forward: bool): Week {
    if forward then NextWeek(w, today) else PrevWeek(w, today)
  }

  /** The week offset after j presses from `start`. */
  function OffsetAt(start: int, forward: bool, j: nat): int {
    if forward then start + j else start - j
  }

  /** n presses of the same button. */
  function Walk(w: Week, today: int, n: nat, forward: bool): Week
    decreases n
  {
    if n == 0 then w else Walk(Move(w, today, forward), today, n - 1, forward)
  }

  /** A press stores the list of the week it leaves and no other. */
  lemma MoveKeepsOthers(w: Week, today: int, forward: bool, other: int)
    requires WeekKey(today, w.offset) != other
    ensures Move(w, today, forward).offset == OffsetAt(w.offset, forward, 1)
    ensures other in w.store ==>
              other in Move(w, today, forward).store && Move(w, today, forward).store[other] == w.store[other]
  {
  }

  /** Walking moves the offset one week per press and leaves the stored
      list of any week it does not stand on along the way untouched. */
  lemma {:induction false} WalkKeepsOthers(w: Week, today: int, n: nat, forward: bool, other: int)
    requires forall j: nat :: j < n ==> WeekKey(today, OffsetAt(w.offset, forward, j)) != other
    ensures Walk(w, today, n, forward).offset == OffsetAt(w.offset, forward, n)
    ensures other in w.store ==>
              other in Walk(w, today, n, forward).store && Walk(w, today, n, forward).store[other] == w.store[other]
    decreases n
  {
    if n > 0 {
      assert OffsetAt(w.offset, forward, 0) == w.offset;
      MoveKeepsOthers(w, today, forward, other);
      var step := Move(w, today, forward);
      forall j: nat | j < n - 1
        ensures WeekKey(today, OffsetAt(step.offset, forward, j)) != other
      {
        assert OffsetAt(step.offset, forward, j) == OffsetAt(w.offset, forward, j + 1);
      }
      WalkKeepsOthers(step, today, n - 1, forward, other);
    }
  }

  /** The last press of a walk. */
  lemma {:induction false} WalkLast(w: Week, today: int, n: nat, forward: bool)
    requires n > 0
    ensures Walk(w, today, n, forward) == Move(Walk(w, today, n - 1, forward), today, forward)
    decreases n
  {
    if n > 1 {
      WalkLast(Move(w, today, forward), today, n - 1, forward);
    }
  }

  /** Jumping to this week from another week, then walking back there with
      the same number of presses, shows that week's list as it was left. */
  lemma ReturnRestores(w: Week, today: int)
    requires w.offset != 0
    ensures var back := Walk(ThisWeek(w, today), today, if w.offset > 0 then w.offset else -w.offset, w.offset > 0);
      back.offset == w.offset && back.slots == w.slots
  {
    var here := ThisWeek(w, today);
    var key := WeekKey(today, w.offset);
    var forward := w.offset > 0;
    var n: nat := if forward then w.offset else -w.offset;
    assert here.offset == 0 && here.store[key] == w.slots by {
      LeavingStoresTheWeek(w, today);
    }
    forall j: nat | j < n - 1
      ensures WeekKey(today, OffsetAt(here.offset, forward, j)) != key
    {
      WeekKeysDistinct(today, OffsetAt(here.offset, forward, j), w.offset);
    }
    WalkKeepsOthers(here, today, n - 1, forward, key);
    var last := Walk(here, today, n - 1, forward);
    WeekKeysDistinct(today, last.offset, w.offset);
    WalkLast(here, today, n, forward);
  }

  // ---------------------------------------------------------------------------
  // Add, edit, delete
  // ---------------------------------------------------------------------------

  /** How the dialog closed: dismissed, with the delete intent, or with a result. */
  datatype Close = Cancelled | Deleted | Saved(result: DialogResult)

  /** The overlap entry of a slot. */
  function SpanOf(s: Slot): Span {
    Span(s.start, s.duration)
  }

  /** The span comes from a slot that passes `keep`. */
  predicate SpanFrom(slots: seq<Slot>, keep: Slot -> bool, sp: Span) {
    exists k :: 0 <= k < |slots| && keep(slots[k]) && SpanOf(slots[k]) == sp
  }

  /** The overlap list `slots.filter(keep).map(({start, duration}))`. */
  function OverlapSet(slots: seq<Slot>, keep: Slot -> bool): (r: seq<Span>)
    ensures forall i :: 0 <= i < |r| ==> SpanFrom(slots, keep, r[i])
    ensures forall k :: 0 <= k < |slots| && keep(slots[k]) ==> SpanOf(slots[k]) in r
  {
    var kept := Filter(slots, keep);
    var r := Map(kept, SpanOf);
    forall i | 0 <= i < |r| ensures SpanFrom(slots, keep, r[i]) {
      var k := PositionOf(kept[i], slots);
    }
    forall k | 0 <= k < |slots| && keep(slots[k]) ensures SpanOf(slots[k]) in r {
      var j := PositionOf(slots[k], kept);
      assert r[j] == SpanOf(slots[k]);
    }
    r
  }

  /** The data `addSlot(dayIdx)` opens the dialog with. */
  function AddData(slots: seq<Slot>, dayIdx: int): DialogData {
    DialogData(dayIdx, None, Some(OverlapSet(slots, k => OnDay(k, dayIdx))))
  }

  /** The overlap set of a new slot is made of the spans of that day's slots, all of them. */
  lemma AddChecksTheSameDay(slots: seq<Slot>, dayIdx: int)
    ensures var others := AddData(slots, dayIdx).allSlots.value;
      && (forall i :: 0 <= i < |others| ==> SpanFrom(slots, k => OnDay(k, dayIdx), others[i]))
      && (forall k :: 0 <= k < |slots| && slots[k].dayIdx == dayIdx ==> SpanOf(slots[k]) in others)
  {
    var others := AddData(slots, dayIdx).allSlots.value;
    forall k | 0 <= k < |slots| && slots[k].dayIdx == dayIdx ensures SpanOf(slots[k]) in others {
      assert OnDay(slots[k], dayIdx);
    }
  }

  /** Another slot of the same day: the slots `editSlot(s)` tests against. */
  predicate OtherSameDay(k: Slot, s: Slot) {
    k.dayIdx == s.dayIdx && k.id != s.id
  }

  /** The data `editSlot(s)` opens the dialog with. */
  function EditData(slots: seq<Slot>, s: Slot): DialogData {
    DialogData(s.dayIdx, Some(Editing(s.start, s.duration, s.modalities, Some(s.notes))),
               Some(OverlapSet(slots, k => OtherSameDay(k, s))))
  }

  /** The edited slot is left out of its own overlap set; every other slot of
      its day is in it. */
  lemma EditExcludesItself(slots: seq<Slot>, s: Slot)
    ensures var others := EditData(slots, s).allSlots.value;
      && (forall i :: 0 <= i < |others| ==> SpanFrom(slots, k => OtherSameDay(k, s), others[i]))
      && (forall k :: 0 <= k < |slots| && slots[k].dayIdx == s.dayIdx && slots[k].id != s.id ==> SpanOf(slots[k]) in others)
  {
    var others := EditData(slots, s).allSlots.value;
    forall k | 0 <= k < |slots| && slots[k].dayIdx == s.dayIdx && slots[k].id != s.id
      ensures SpanOf(slots[k]) in others
    {
      assert OtherSameDay(slots[k], s);
    }
  }

  /** The slot `addSlot` appends for a result; its notes are the dialog's notes, a plain string. */
  function NewSlot(id: string, dayIdx: int, res: DialogResult): Slot {
    Slot(id, dayIdx, res.start, res.duration, res.modalities, res.notes)
  }

  /** `addSlot(dayIdx)` after the dialog closes; `id` stands for `uid()`. */
  function AddSlot(w: Week, today: int, dayIdx: int, close: Close, id: string): (r: Week)
    requires !close.Deleted?
  {
    match close
    case Saved(res) => SaveCurrentWeek(w.(slots := w.slots + [NewSlot(id, dayIdx, res)]), today)
    case _ => w
  }

  /** A saved result appends exactly one slot on the chosen day with the
      result's values, keeps every existing slot where it was and stores the
      week; a dismissed dialog changes nothing. */
  lemma AddSlotAppends(w: Week, today: int, dayIdx: int, close: Close, id: string)
    requires !close.Deleted?
    ensures close.Cancelled? ==> AddSlot(w, today, dayIdx, close, id) == w
    ensures close.Saved? ==>
      var r := AddSlot(w, today, dayIdx, close, id);
      && |r.slots| == |w.slots| + 1
      && r.slots[..|w.slots|] == w.slots
      && r.slots[|w.slots|].dayIdx == dayIdx
      && r.slots[|w.slots|].start == close.result.start
      && r.slots[|w.slots|].duration == close.result.duration
      && r.slots[|w.slots|].modalities == close.result.modalities
      && r.slots[|w.slots|].notes == close.result.notes
      && r.store[WeekKey(today, w.offset)] == r.slots
      && r.offset == w.offset
  {
    if close.Saved? {
      var r := AddSlot(w, today, dayIdx, close, id);
      assert r.slots[..|w.slots|] == w.slots;
    }
  }

  /** The edit the dialog's result applies: only start, duration, modalities and notes. */
  function Rewrite(k: Slot, res: DialogResult): Slot {
    k.(start := res.start, duration := res.duration, modalities := res.modalities,
       notes := res.notes)
  }

  /** `editSlot(s)` after the dialog closes. */
  function EditSlot(w: Week, today: int, s: Slot, close: Close): Week {
    match close
    case Cancelled => w
    case Deleted => SaveCurrentWeek(w.(slots := Filter(w.slots, (k: Slot) => k.id != s.id)), today)
    case Saved(res) => SaveCurrentWeek(w.(slots := MapWhere(w.slots, (k: Slot) => k.id == s.id, (k: Slot) => Rewrite(k, res))), today)
  }

  /** Delete removes every slot with that id and keeps all others, in order. */
  lemma DeleteRemovesOnlyThatId(w: Week, today: int, s: Slot)
    ensures var r := EditSlot(w, today, s, Deleted).slots;
      && (forall i :: 0 <= i < |r| ==> r[i].id != s.id)
      && (forall i :: 0 <= i < |w.slots| && w.slots[i].id != s.id ==> w.slots[i] in r)
      && |r| == |w.slots| - Count(w.slots, (k: Slot) => k.id == s.id)
  {
    var keep := (k: Slot) => k.id != s.id;
    var drop := (k: Slot) => k.id == s.id;
    CountComplement(w.slots, keep, drop);
  }

  /** Keeping the complement of p leaves the length minus the count of p. */
  lemma {:induction false} CountComplement<T>(s: seq<T>, keep: T -> bool, drop: T -> bool)
    requires forall x :: keep(x) == !drop(x)
    ensures |Filter(s, keep)| == |s| - Count(s, drop)
  {
    if |s| > 0 {
      CountComplement(s[1..], keep, drop);
    }
  }

  /** Saving an edit rewrites the four dialog fields of the slots with that
      id, keeps their id and day, and leaves every other slot as it was. */
  lemma EditRewritesOnlyThatId(w: Week, today: int, s: Slot, res: DialogResult)
    ensures var r := EditSlot(w, today, s, Saved(res)).slots;
      && |r| == |w.slots|
      && (forall i :: 0 <= i < |r| ==> r[i].id == w.slots[i].id && r[i].dayIdx == w.slots[i].dayIdx)
      && (forall i :: 0 <= i < |r| && w.slots[i].id != s.id ==> r[i] == w.slots[i])
      && (forall i :: 0 <= i < |r| && w.slots[i].id == s.id ==>
            r[i].start == res.start && r[i].duration == res.duration
            && r[i].modalities == res.modalities && r[i].notes == res.notes)
  {
  }

  /** Both edit outcomes store the changed week under its key. */
  lemma EditStoresTheWeek(w: Week, today: int, s: Slot, close: Close)
    requires !close.Cancelled?
    ensures var r := EditSlot(w, today, s, close);
      r.store[WeekKey(today, w.offset)] == r.slots && r.offset == w.offset
  {
  }
}

=== FILE: search.dfy ===
/** The patient's doctor search: the filter pipeline over the doctor list,
    the rating, price and soonest sorts, clearing the filters, and the
    department accent colours. Ratings carry one decimal and are held in
    tenths of a star; the parsed next-available time is a parameter. */
module Search {
  import opened Wrappers
  import opened JsText
  import opened Seqs
  import opened Sorting
  import opened Slots
  import opened Computed

  /** The three consultation prices and their currency. */
  datatype PriceTable = PriceTable(chat: int, voice: int, video: int, currency: string)

  /** A listed doctor; `online` is false when absent. */
  datatype Doctor = Doctor(id: string, name: string, title: string, department: string, rating: int,
                           country: string, price: PriceTable, nextAvailable: Option<string>, online: bool)

  /** The filter form. `None` is a null or absent control; a null number
      control reads as `0`, as `Number(v || 0)` gives. */
  datatype SearchForm = SearchForm(q: Option<string>, department: Option<string>, modality: Option<Modality>,
                                   maxPrice: int, minRating: int, availableToday: bool, onlineNow: bool,
                                   country: Option<string>)

  datatype SortChoice = Relevance | ByRating | ByPrice | Soonest

  // ---------------------------------------------------------------------------
  // Filters
  // ---------------------------------------------------------------------------

  /** The country every result has: the form's, upper-cased, `EG` when null. */
  function CountryOf(f: SearchForm): string {
    ToUpper(f.country.GetOr("EG"))
  }

  /** The text test with the lower-cased, trimmed query. */
  predicate QueryOk(q: string, d: Doctor) {
    q == "" || Contains(ToLower(d.name), q) || Contains(ToLower(d.title), q) || Contains(ToLower(d.department), q)
  }

  /** The department test: exact match of the lower-cased names. */
  predicate DepartmentOk(dept: string, d: Doctor) {
    dept == "" || ToLower(d.department) == dept
  }

  /** The price of a modality. */
  function PriceOf(p: PriceTable, m: Modality): int {
    match m
    case Chat => p.chat
    case Voice => p.voice
    case Video => p.video
  }

  /** `Math.min(chat, voice, video)`. */
  function MinPrice(p: PriceTable): (n: int)
    ensures n <= p.chat && n <= p.voice && n <= p.video
    ensures n == p.chat || n == p.voice || n == p.video
  {
    Min(p.chat, Min(p.voice, p.video))
  }

  /** The price test: `0` turns it off; with a modality its price must be
      within the maximum, without one any of the three prices may be. */
  predicate PriceOk(m: Option<Modality>, maxPrice: int, d: Doctor) {
    maxPrice == 0
    || (m.Some? && PriceOf(d.price, m.value) <= maxPrice)
    || (m.None? && (d.price.chat <= maxPrice || d.price.voice <= maxPrice || d.price.video <= maxPrice))
  }

  /** All of `result`'s filters, which it applies one after another. */
  predicate Passes(f: SearchForm, d: Doctor) {
    d.country == CountryOf(f)
    && QueryOk(ToLower(Trim(OrEmpty(f.q))), d)
    && DepartmentOk(ToLower(OrEmpty(f.department)), d)
    && (f.minRating == 0 || d.rating >= f.minRating)
    && (!f.onlineNow || d.online)
    && (!f.availableToday || Contains(ToLower(OrEmpty(d.nextAvailable)), "today"))
    && PriceOk(f.modality, f.maxPrice, d)
  }

  // ---------------------------------------------------------------------------
  // Sorting
  // ---------------------------------------------------------------------------

  function RatingKey(d: Doctor): Key {
    [d.rating]
  }

  function PriceKey(d: Doctor): Key {
    [MinPrice(d.price)]
  }

  /** The soonest key: a known time ahead of no time, which counts as
      `Infinity` (two of those compare equal). */
  function EtaKey(eta: Doctor -> Option<int>): Doctor -> Key {
    (d: Doctor) => if eta(d).Some? then [0, eta(d).value] else [1]
  }

  /** `result`: the doctors passing every filter; `relevance` keeps the list
      order, `rating` sorts highest first, `price` cheapest first and
      `soonest` by the next free time. `eta` is the parsed next time. */
  function Result(doctors: seq<Doctor>, f: SearchForm, sort: SortChoice, eta: Doctor -> Option<int>): (r: seq<Doctor>)
    ensures forall d :: d in r <==> d in doctors && Passes(f, d)
    ensures forall d :: d in r ==> d.country == CountryOf(f)
    ensures multiset(r) == multiset(Filter(doctors, (d: Doctor) => Passes(f, d)))
    ensures sort == Relevance ==> r == Filter(doctors, (d: Doctor) => Passes(f, d))
    ensures sort == ByRating ==> SortedBy(r, RatingKey, true)
    ensures sort == ByPrice ==> SortedBy(r, PriceKey, false)
    ensures sort == Soonest ==> SortedBy(r, EtaKey(eta), false)
  {
    var list := Filter(doctors, (d: Doctor) => Passes(f, d));
    FilterMembers(doctors, (d: Doctor) => Passes(f, d));
    match sort
    case Relevance => list
    case ByRating => SortByMembers(list, RatingKey, true); SortBy(list, RatingKey, true)
    case ByPrice => SortByMembers(list, PriceKey, false); SortBy(list, PriceKey, false)
    case Soonest => SortByMembers(list, EtaKey(eta), false); SortBy(list, EtaKey(eta), false)
  }

  /** Without a modality, the price filter keeps exactly the doctors whose
      cheapest consultation is within the maximum. */
  lemma PriceFilterIsCheapest(maxPrice: int, d: Doctor)
    requires maxPrice != 0
    ensures PriceOk(None, maxPrice, d) <==> MinPrice(d.price) <= maxPrice
  {
  }

  // ---------------------------------------------------------------------------
  // Clearing
  // ---------------------------------------------------------------------------

  /** `clearFilters()`: the query stays, the country goes back to `EG` and
      every other control is reset to null. */
  function ClearFilters(f: SearchForm): (r: SearchForm)
    ensures r.q == Some(OrEmpty(f.q)) && r.country == Some("EG")
    ensures r.department.None? && r.modality.None? && r.maxPrice == 0 && r.minRating == 0
    ensures !r.availableToday && !r.onlineNow
  {
    SearchForm(Some(OrEmpty(f.q)), None, None, 0, 0, false, false, Some("EG"))
  }

  /** The results a cleared form calls for are the Egyptian doctors
      matching the query, whatever the other filters were. The page shows
      them only once `result` runs again (see `FormChangeNotShown`). */
  lemma ClearedFormKeepsQueryOnly(doctors: seq<Doctor>, f: SearchForm, d: Doctor, eta: Doctor -> Option<int>)
    ensures d in Result(doctors, ClearFilters(f), Relevance, eta)
      <==> d in doctors && d.country == "EG" && QueryOk(ToLower(Trim(OrEmpty(f.q))), d)
  {
    assert ToUpper("EG") == "EG";
  }

  // ---------------------------------------------------------------------------
  // Department accents
  // ---------------------------------------------------------------------------

  /** `s.replace(/\s+/g, '')`: every white space character removed. */
  function RemoveSpaces(s: string): (r: string)
    ensures |r| <= |s|
    ensures forall i :: 0 <= i < |r| ==> !IsSpace(r[i]) && r[i] in s
  {
    if |s| == 0 then ""
    else (if IsSpace(s[0]) then "" else [s[0]]) + RemoveSpaces(s[1..])
  }

  /** A string without white space is left as is. */
  lemma {:induction false} RemoveSpacesKeeps(s: string)
    requires forall i :: 0 <= i < |s| ==> !IsSpace(s[i])
    ensures RemoveSpaces(s) == s
  {
    if |s| > 0 {
      RemoveSpacesKeeps(s[1..]);
    }
  }

  /** `deptSlug(dept)`: the department, `general` when absent or empty,
      lower-cased with every white space character removed. */
  function DeptSlug(dept: Option<string>): (r: string)
    ensures forall i :: 0 <= i < |r| ==> !IsSpace(r[i]) && !('A' <= r[i] <= 'Z')
    ensures !Truthy(dept) ==> r == "general"
  {
    var s := ToLower(if Truthy(dept) then dept.value else "general");
    ToLowerIdempotent(if Truthy(dept) then dept.value else "general");
    GeneralIsSlug();
    RemoveSpaces(s)
  }

  lemma GeneralIsSlug()
    ensures RemoveSpaces(ToLower("general")) == "general"
  {
    var g := "general";
    assert ToLower(g) == g;
    RemoveSpacesKeeps(g);
  }

  /** A slug is its own slug. */
  lemma DeptSlugIdempotent(dept: Option<string>)
    requires DeptSlug(dept) != ""
    ensures DeptSlug(Some(DeptSlug(dept))) == DeptSlug(dept)
  {
    var s := DeptSlug(dept);
    assert ToLower(s) == s;
    RemoveSpacesKeeps(s);
  }

  /** The accent colour of each known department slug. */
  const DeptColors: map<string, string> := map[
    "cardiology" := "#ef4444", "dermatology" := "#f472b6", "pediatrics" := "#22c55e",
    "psychiatry" := "#8b5cf6", "neurology" := "#06b6d4", "orthopedics" := "#f59e0b",
    "oncology" := "#fb7185", "ent" := "#10b981", "general" := "#60a5fa"]

  /** `deptAccent(dept)`: the slug's colour, `#2a76b7` for an unknown one. */
  function DeptAccent(dept: Option<string>): (c: string)
    ensures DeptSlug(dept) in DeptColors ==> c == DeptColors[DeptSlug(dept)]
    ensures DeptSlug(dept) !in DeptColors ==> c == "#2a76b7"
  {
    var slug := DeptSlug(dept);
    if slug in DeptColors then DeptColors[slug] else "#2a76b7"
  }

  /** No department, or an empty one, takes the general colour. */
  lemma MissingDeptIsGeneral(dept: Option<string>)
    requires !Truthy(dept)
    ensures DeptAccent(dept) == "#60a5fa"
  {
  }

  /** White space around a department name does not change its colour. */
  lemma SpacedNameSharesAccent(name: string, a: string, b: string)
    requires forall i :: 0 <= i < |a| ==> IsSpace(a[i])
    requires forall i :: 0 <= i < |b| ==> IsSpace(b[i])
    requires name != ""
    ensures DeptAccent(Some(a + name + b)) == DeptAccent(Some(name))
  {
    SpacedNameSharesSlug(name, a, b);
  }

  lemma SpacedNameSharesSlug(name: string, a: string, b: string)
    requires forall i :: 0 <= i < |a| ==> IsSpace(a[i])
    requires forall i :: 0 <= i < |b| ==> IsSpace(b[i])
    requires name != ""
    ensures DeptSlug(Some(a + name + b)) == DeptSlug(Some(name))
  {
    SlugOfText(a + name + b);
    SlugOfText(name);
    SpacesAroundVanish(name, a, b);
  }

  /** The slug of a non-empty text is the text lower-cased without spaces. */
  lemma SlugOfText(x: string)
    requires x != ""
    ensures DeptSlug(Some(x)) == RemoveSpaces(ToLower(x))
  {
  }

  /** White space around a text is lost once spaces are removed. */
  lemma SpacesAroundVanish(name: string, a: string, b: string)
    requires forall i :: 0 <= i < |a| ==> IsSpace(a[i])
    requires forall i :: 0 <= i < |b| ==> IsSpace(b[i])
    ensures RemoveSpaces(ToLower(a + name + b)) == RemoveSpaces(ToLower(name))
  {
    var la, ln, lb := ToLower(a), ToLower(name), ToLower(b);
    ToLowerAppend(a + name, b);
    ToLowerAppend(a, name);
    assert ToLower(a + name + b) == la + ln + lb;
    RemoveSpacesAppend(la + ln, lb);
    RemoveSpacesAppend(la, ln);
    SpacesStayLower(a);
    SpacesStayLower(b);
    RemoveSpacesDrops(la);
    RemoveSpacesDrops(lb);
  }

  lemma SpacesStayLower(a: string)
    requires forall i :: 0 <= i < |a| ==> IsSpace(a[i])
    ensures forall i :: 0 <= i < |ToLower(a)| ==> IsSpace(ToLower(a)[i])
  {
  }

  lemma {:induction false} RemoveSpacesAppend(s: string, t: string)
    ensures RemoveSpaces(s + t) == RemoveSpaces(s) + RemoveSpaces(t)
  {
    if |s| > 0 {
      assert (s + t)[1..] == s[1..] + t;
      RemoveSpacesAppend(s[1..], t);
    } else {
      assert s + t == t;
    }
  }

  lemma {:induction false} RemoveSpacesDrops(s: string)
    requires forall i :: 0 <= i < |s| ==> IsSpace(s[i])
    ensures RemoveSpaces(s) == ""
  {
    if |s| > 0 {
      RemoveSpacesDrops(s[1..]);
    }
  }

  // ---------------------------------------------------------------------------
  // When `result` runs
  // ---------------------------------------------------------------------------

  /** `result` is a `computed()` whose signals are the doctor list and the
      sort; it reads the filters through `form.value`, which is no signal. */
  function Shown(eta: Doctor -> Option<int>): ((seq<Doctor>, SortChoice), SearchForm) -> seq<Doctor> {
    (t: (seq<Doctor>, SortChoice), f: SearchForm) => Result(t.0, f, t.1, eta)
  }

  /** The form as the page builds it: every filter off, country `EG`. */
  const InitialForm := SearchForm(Some(""), Some(""), None, 0, 0, false, false, Some("EG"))

  /** As written, once the list is on screen a change of the filters alone
      (typing, `clearFilters()`) leaves it as it was: for an Egyptian doctor,
      switching the country to `US` still lists the doctor, whereas the
      results for the new form are empty. A change of the sort runs it again
      with the current form (`Computed.TrackedRefreshes`). */
  lemma FormChangeNotShown(d: Doctor, sort: SortChoice, eta: Doctor -> Option<int>)
    requires d.country == "EG"
    ensures var c := Read(New(([d], sort), InitialForm));
      var us := InitialForm.(country := Some("US"));
      && Reading(c, Shown(eta)) == [d]
      && Reading(SetUntracked(c, us), Shown(eta)) == [d]
      && Result([d], us, sort, eta) == []
  {
    var c := Read(New(([d], sort), InitialForm));
    var us := InitialForm.(country := Some("US"));
    InitialPasses(d);
    OnlyOne([d], InitialForm, sort, eta);
    UntrackedNotSeen(c, us, Shown(eta));
    assert !Passes(us, d) by {
      assert ToUpper("US") == "US";
    }
    assert d !in Result([d], us, sort, eta);
    NoneOfOne([d], us, sort, eta);
  }

  /** The initial form lets every Egyptian doctor through. */
  lemma InitialPasses(d: Doctor)
    requires d.country == "EG"
    ensures Passes(InitialForm, d)
  {
    assert ToUpper("EG") == "EG";
    assert ToLower(Trim("")) == "";
    assert ToLower("") == "";
  }

  /** A single doctor that passes is the whole result, in every sort. */
  lemma OnlyOne(doctors: seq<Doctor>, f: SearchForm, sort: SortChoice, eta: Doctor -> Option<int>)
    requires |doctors| == 1 && Passes(f, doctors[0])
    ensures Result(doctors, f, sort, eta) == doctors
  {
    var r := Result(doctors, f, sort, eta);
    assert Filter(doctors, (x: Doctor) => Passes(f, x)) == doctors;
    assert |r| == |multiset(r)| == 1;
    assert doctors[0] in r;
  }

  /** A single doctor that does not pass leaves the result empty. */
  lemma NoneOfOne(doctors: seq<Doctor>, f: SearchForm, sort: SortChoice, eta: Doctor -> Option<int>)
    requires |doctors| == 1 && doctors[0] !in Result(doctors, f, sort, eta)
    ensures Result(doctors, f, sort, eta) == []
  {
  }
}

=== FILE: seqs.dfy ===
/** `Array.prototype.filter`, `map` over matching ids and `find`, the
    collection operations every page applies to its rows. */
module Seqs {
  import opened Wrappers

  /** `s.filter(p)`: the elements satisfying p, in their original order. */
  function Filter<T>(s: seq<T>, p: T -> bool): (r: seq<T>)
    ensures |r| <= |s|
    ensures forall i :: 0 <= i < |r| ==> r[i] in s && p(r[i])
    ensures forall i :: 0 <= i < |s| && p(s[i]) ==> s[i] in r
  {
    if |s| == 0 then []
    else
      assert s == [s[0]] + s[1..];
      (if p(s[0]) then [s[0]] else []) + Filter(s[1..], p)
  }

  /** A value is in the filtered list exactly when it is in the list and passes. */
  lemma FilterMembers<T>(s: seq<T>, p: T -> bool)
    ensures forall x :: x in Filter(s, p) <==> x in s && p(x)
  {
    var r := Filter(s, p);
    forall x | x in s && p(x) ensures x in r {
      var k := PositionOf(x, s);
    }
    forall x | x in r ensures x in s && p(x) {
      var k := PositionOf(x, r);
    }
  }

  /** Filtering keeps each satisfying element with its multiplicity and drops
      every other: the result is exactly the matching sub-multiset. */
  lemma {:induction false} FilterMultiset<T>(s: seq<T>, p: T -> bool, x: T)
    ensures multiset(Filter(s, p))[x] == if p(x) then multiset(s)[x] else 0
  {
    if |s| > 0 {
      FilterMultiset(s[1..], p, x);
      assert s == [s[0]] + s[1..];
    }
  }

  /** A filter and its complement split the list between them. */
  lemma {:induction false} FilterSplit<T>(s: seq<T>, p: T -> bool, q: T -> bool)
    requires forall x :: q(x) == !p(x)
    ensures multiset(Filter(s, p)) + multiset(Filter(s, q)) == multiset(s)
  {
    if |s| > 0 {
      FilterSplit(s[1..], p, q);
      assert s == [s[0]] + s[1..];
    }
  }

  /** Filtering distributes over concatenation, so the kept rows of two
      lists are the kept rows of each, in order. */
  lemma {:induction false} FilterAppend<T>(a: seq<T>, b: seq<T>, p: T -> bool)
    ensures Filter(a + b, p) == Filter(a, p) + Filter(b, p)
  {
    if |a| == 0 {
      assert a + b == b;
    } else {
      assert (a + b)[1..] == a[1..] + b;
      FilterAppend(a[1..], b, p);
    }
  }

  /** Filtering with p and then q is filtering once with their conjunction pq. */
  lemma {:induction false} FilterFilter<T>(s: seq<T>, p: T -> bool, q: T -> bool, pq: T -> bool)
    requires forall x :: pq(x) == (p(x) && q(x))
    ensures Filter(Filter(s, p), q) == Filter(s, pq)
  {
    if |s| > 0 {
      FilterFilter(s[1..], p, q, pq);
      var fs := Filter(s, p);
      if p(s[0]) {
        assert fs == [s[0]] + Filter(s[1..], p);
        assert fs[0] == s[0] && fs[1..] == Filter(s[1..], p);
        assert Filter(fs, q) == (if q(s[0]) then [s[0]] else []) + Filter(fs[1..], q);
      } else {
        assert fs == Filter(s[1..], p);
        assert !pq(s[0]);
      }
    }
  }

  /** A filter that every element passes leaves the list as is. */
  lemma {:induction false} FilterAll<T>(s: seq<T>, p: T -> bool)
    requires forall i :: 0 <= i < |s| ==> p(s[i])
    ensures Filter(s, p) == s
  {
    if |s| > 0 {
      FilterAll(s[1..], p);
      assert s == [s[0]] + s[1..];
    }
  }

  /** A filter that no element passes leaves nothing. */
  lemma {:induction false} FilterNone<T>(s: seq<T>, p: T -> bool)
    requires forall i :: 0 <= i < |s| ==> !p(s[i])
    ensures Filter(s, p) == []
  {
    if |s| > 0 {
      FilterNone(s[1..], p);
    }
  }

  /** The number of elements satisfying p. */
  function Count<T>(s: seq<T>, p: T -> bool): (n: nat)
    ensures n <= |s|
    ensures n == |Filter(s, p)|
  {
    if |s| == 0 then 0 else (if p(s[0]) then 1 else 0) + Count(s[1..], p)
  }

  /** One step of the count: the first element, then the rest. */
  lemma CountCons<T>(s: seq<T>, p: T -> bool)
    requires |s| > 0
    ensures Count(s, p) == (if p(s[0]) then 1 else 0) + Count(s[1..], p)
  {
  }

  /** `s.map(x => sel(x) ? f(x) : x)`: the matching rows replaced, all others untouched. */
  function MapWhere<T>(s: seq<T>, sel: T -> bool, f: T -> T): (r: seq<T>)
    ensures |r| == |s|
    ensures forall i :: 0 <= i < |s| ==> r[i] == if sel(s[i]) then f(s[i]) else s[i]
  {
    seq(|s|, i requires 0 <= i < |s| => if sel(s[i]) then f(s[i]) else s[i])
  }

  /** `s.find(p)`: the first element satisfying p, if any. */
  function Find<T>(s: seq<T>, p: T -> bool): (r: Option<T>)
    ensures r.None? <==> forall i :: 0 <= i < |s| ==> !p(s[i])
    ensures r.Some? ==> exists i :: 0 <= i < |s| && s[i] == r.value && p(s[i]) && (forall j :: 0 <= j < i ==> !p(s[j]))
  {
    if |s| == 0 then None
    else if p(s[0]) then Some(s[0])
    else
      var r := Find(s[1..], p);
      assert forall j :: 0 <= j < |s| - 1 ==> s[1..][j] == s[j + 1];
      r
  }

  /** `s.findIndex(p)`: the position of the first element satisfying p, if any. */
  function FindIndex<T>(s: seq<T>, p: T -> bool): (r: Option<nat>)
    ensures r.None? <==> forall i :: 0 <= i < |s| ==> !p(s[i])
    ensures r.Some? ==> r.value < |s| && p(s[r.value]) && forall j :: 0 <= j < r.value ==> !p(s[j])
  {
    if |s| == 0 then None
    else if p(s[0]) then Some(0)
    else match FindIndex(s[1..], p)
      case None => None
      case Some(k) => Some(k + 1)
  }

  /** `s.some(p)`. */
  predicate Any<T>(s: seq<T>, p: T -> bool) {
    exists i :: 0 <= i < |s| && p(s[i])
  }

  /** `s.every(p)`. */
  predicate All<T>(s: seq<T>, p: T -> bool) {
    forall i :: 0 <= i < |s| ==> p(s[i])
  }

  /** Predicates that agree everywhere count alike. */
  lemma {:induction false} CountSame<T>(s: seq<T>, p: T -> bool, q: T -> bool)
    requires forall x :: p(x) == q(x)
    ensures Count(s, p) == Count(s, q)
  {
    if |s| > 0 {
      CountSame(s[1..], p, q);
    }
  }

  /** `s.map(f)`. */
  function Map<T, U>(s: seq<T>, f: T -> U): (r: seq<U>)
    ensures |r| == |s|
    ensures forall i :: 0 <= i < |s| ==> r[i] == f(s[i])
  {
    seq(|s|, i requires 0 <= i < |s| => f(s[i]))
  }

  /** A position at which a member of the sequence sits. */
  lemma PositionOf<T>(x: T, s: seq<T>) returns (k: nat)
    requires x in s
    ensures k < |s| && s[k] == x
  {
    k :| k < |s| && s[k] == x;
  }

  /** `Math.max` and `Math.min` over integers. */
  function Max(a: int, b: int): int { if a >= b then a else b }
  function Min(a: int, b: int): int { if a <= b then a else b }
}

=== FILE: settings.dfy ===
/** The admin settings page: the profile form's name rule and the
    change-password form with its new-password rule and the cross-field
    check that the confirmation matches. */
module AdminSettings {
  import opened JsText

  /** `Validators.required` and `Validators.minLength(3)` on the full name. */
  predicate ProfileValid(fullName: string) {
    fullName != "" && |fullName| >= 3
  }

  /** `saveProfile()`: the profile is saved exactly when the name has three
      or more characters; they are counted as typed, white space included. */
  function SaveProfile(fullName: string): (saved: bool)
    ensures saved <==> |fullName| >= 3
    ensures |fullName| >= 3 && IsBlank(fullName) ==> saved
  {
    ProfileValid(fullName)
  }

  predicate IsAsciiLetter(c: char) {
    'A' <= c <= 'Z' || 'a' <= c <= 'z'
  }

  /** `(?=.*C)` at the start of p: some character of class C with no line
      terminator before it. */
  predicate LookaheadFinds(p: string, c: char -> bool) {
    exists i :: 0 <= i < |p| && c(p[i]) && forall j :: 0 <= j < i ==> !IsLineTerminator(p[j])
  }

  /** `^(?=.*[A-Za-z])(?=.*\d).{8,}$`, as the expression reads: both
      lookaheads succeed, then eight or more characters, none of them a
      line terminator, run to the end. */
  predicate PatternMatches(p: string) {
    LookaheadFinds(p, IsAsciiLetter) && LookaheadFinds(p, IsDigit)
    && |p| >= 8 && forall i :: 0 <= i < |p| ==> !IsLineTerminator(p[i])
  }

  /** The rule in plain terms: at least eight characters, no line break,
      an ASCII letter and a digit somewhere. */
  predicate StrongPassword(p: string) {
    |p| >= 8 && (forall i :: 0 <= i < |p| ==> !IsLineTerminator(p[i]))
    && (exists i :: 0 <= i < |p| && IsAsciiLetter(p[i]))
    && (exists i :: 0 <= i < |p| && IsDigit(p[i]))
  }

  /** The new password's validators: required, `minLength(8)` and the pattern. */
  predicate NewPasswordValid(p: string) {
    p != "" && |p| >= 8 && PatternMatches(p)
  }

  /** The three validators together say exactly the plain rule. */
  lemma NewPasswordRule(p: string)
    ensures NewPasswordValid(p) <==> StrongPassword(p)
  {
    if StrongPassword(p) {
      var i :| 0 <= i < |p| && IsAsciiLetter(p[i]);
      var k :| 0 <= k < |p| && IsDigit(p[k]);
      assert IsAsciiLetter(p[i]) && forall j :: 0 <= j < i ==> !IsLineTerminator(p[j]);
      assert IsDigit(p[k]) && forall j :: 0 <= j < k ==> !IsLineTerminator(p[j]);
    }
  }

  /** `matchPasswordValidator`: no error while either field is empty;
      otherwise a mismatch error exactly when the two differ. */
  function PasswordMismatch(newPassword: string, confirm: string): (mismatch: bool)
    ensures newPassword == "" || confirm == "" ==> !mismatch
    ensures newPassword != "" && confirm != "" ==> (mismatch <==> newPassword != confirm)
  {
    if newPassword == "" || confirm == "" then false else newPassword != confirm
  }

  datatype PasswordForm = PasswordForm(oldPassword: string, newPassword: string, confirm: string)

  /** The form is valid when every control and the group validator are:
      the old password and the confirmation required, the new one valid,
      and no mismatch. */
  predicate FormValid(f: PasswordForm) {
    f.oldPassword != "" && NewPasswordValid(f.newPassword) && f.confirm != ""
    && !PasswordMismatch(f.newPassword, f.confirm)
  }

  /** A valid form always has a matching, strong confirmation. */
  lemma ValidFormConfirms(f: PasswordForm)
    requires FormValid(f)
    ensures f.confirm == f.newPassword && StrongPassword(f.confirm)
  {
    NewPasswordRule(f.newPassword);
  }

  /** `changePassword()`: an invalid form is left as it is; a valid one is
      reset to three empty fields, after which it is invalid again. */
  function ChangePassword(f: PasswordForm): (r: PasswordForm)
    ensures !FormValid(f) ==> r == f
    ensures FormValid(f) ==> r == PasswordForm("", "", "")
    ensures !FormValid(r)
  {
    if !FormValid(f) then f else PasswordForm("", "", "")
  }

  /** Pressing the button twice changes no more than pressing it once. */
  lemma ChangeTwice(f: PasswordForm)
    ensures ChangePassword(ChangePassword(f)) == ChangePassword(f)
  {
  }
}

=== FILE: signup.dfy ===
/** The patient sign-up page: flag emoji for the country codes, the country
    list with its dial codes, the form's validators, the country lookup and
    the registration payload. Text is a sequence of UTF-16 code units, so
    every character of a code is below U+10000; whether the e-mail passes
    Angular's e-mail validator and the birth date's ISO text are parameters. */
module Signup {
  import opened Wrappers
  import opened JsText
  import opened Seqs
  import Otp

  // ---------------------------------------------------------------------------
  // Flags
  // ---------------------------------------------------------------------------

  /** A UTF-16 code unit that is not half of a surrogate pair. */
  predicate IsCodeUnit(c: char) {
    c as int < 0x10000
  }

  /** One character of `replace(/./g, c => String.fromCodePoint(127397 + c.charCodeAt(0)))`. */
  function FlagChar(c: char): char
    requires IsCodeUnit(c)
  {
    if IsLineTerminator(c) then c else (127397 + c as int) as char
  }

  /** `flagEmoji(iso2)`: the code upper-cased, then every character but a
      line terminator shifted by 127397, which takes `A`..`Z` to the
      regional indicator symbols U+1F1E6..U+1F1FF. */
  function FlagEmoji(iso2: string): (r: string)
    requires forall i :: 0 <= i < |iso2| ==> IsCodeUnit(iso2[i])
    ensures |r| == |iso2|
    ensures forall i :: 0 <= i < |iso2| && ('A' <= iso2[i] <= 'Z' || 'a' <= iso2[i] <= 'z') ==>
      0x1F1E6 <= r[i] as int <= 0x1F1FF && r[i] as int - 0x1F1E6 == UpperChar(iso2[i]) as int - 'A' as int
  {
    var up := ToUpper(iso2);
    seq(|up|, i requires 0 <= i < |up| => FlagChar(up[i]))
  }

  /** The letter a regional indicator symbol stands for. */
  function LetterOf(c: char): char {
    var u := c as int - 127397;
    if 0 <= u < 0xD800 || 0xE000 <= u < 0x10000 then u as char else c
  }

  /** Reading the flag back gives the upper-cased code: the emoji carries the
      country code and nothing else. */
  lemma FlagRoundTrip(iso2: string)
    requires forall i :: 0 <= i < |iso2| ==> IsCodeUnit(iso2[i]) && !IsLineTerminator(iso2[i])
    ensures forall i :: 0 <= i < |iso2| ==> LetterOf(FlagEmoji(iso2)[i]) == ToUpper(iso2)[i]
  {
  }

  /** Different upper-case codes give different flags, and a code's case
      does not change its flag. */
  lemma FlagsDistinguishCodes(a: string, b: string)
    requires forall i :: 0 <= i < |a| ==> 'A' <= a[i] <= 'Z'
    requires forall i :: 0 <= i < |b| ==> 'A' <= b[i] <= 'Z'
    requires FlagEmoji(a) == FlagEmoji(b)
    ensures a == b
  {
    FlagRoundTrip(a);
    FlagRoundTrip(b);
    assert forall i :: 0 <= i < |a| ==> ToUpper(a)[i] == a[i] && ToUpper(b)[i] == b[i];
  }

  lemma FlagIgnoresCase(iso2: string)
    requires forall i :: 0 <= i < |iso2| ==> IsCodeUnit(iso2[i])
    ensures FlagEmoji(ToLower(iso2)) == FlagEmoji(iso2)
  {
  }

  // ---------------------------------------------------------------------------
  // Countries
  // ---------------------------------------------------------------------------

  /** A selectable country; its flag is `FlagEmoji(iso2)`. */
  datatype Country = Country(name: string, iso2: string, dial: string)

  const Countries: seq<Country> := [
    Country("Algeria", "DZ", "+213"), Country("Australia", "AU", "+61"), Country("Austria", "AT", "+43"),
    Country("Bahrain", "BH", "+973"), Country("Belgium", "BE", "+32"), Country("Brazil", "BR", "+55"),
    Country("Canada", "CA", "+1"), Country("China", "CN", "+86"), Country("Egypt", "EG", "+20"),
    Country("France", "FR", "+33"), Country("India", "IN", "+91"), Country("Iraq", "IQ", "+964"),
    Country("Italy", "IT", "+39"), Country("Japan", "JP", "+81"), Country("Jordan", "JO", "+962"),
    Country("Kenya", "KE", "+254"), Country("Kuwait", "KW", "+965"), Country("Lebanon", "LB", "+961"),
    Country("Libya", "LY", "+218"), Country("Mexico", "MX", "+52"), Country("Morocco", "MA", "+212"),
    Country("Netherlands", "NL", "+31"), Country("Nigeria", "NG", "+234"), Country("Norway", "NO", "+47"),
    Country("Oman", "OM", "+968"), Country("Pakistan", "PK", "+92"), Country("Palestine", "PS", "+970"),
    Country("Qatar", "QA", "+974"), Country("Russia", "RU", "+7"), Country("Saudi Arabia", "SA", "+966"),
    Country("South Africa", "ZA", "+27"), Country("South Korea", "KR", "+82"), Country("Spain", "ES", "+34"),
    Country("Sudan", "SD", "+249"), Country("Sweden", "SE", "+46"), Country("Switzerland", "CH", "+41"),
    Country("Syria", "SY", "+963"), Country("Tunisia", "TN", "+216"), Country("Turkey", "TR", "+90"),
    Country("United Arab Emirates", "AE", "+971"), Country("United Kingdom", "GB", "+44"),
    Country("United States", "US", "+1"), Country("Yemen", "YE", "+967")]

  /** A dial code: a plus sign and one to three digits. */
  predicate DialShape(d: string) {
    2 <= |d| <= 4 && d[0] == '+' && AllDigits(d[1..])
  }

  /** `countries.find(x => x.name === name)`. */
  function ByName(countries: seq<Country>, name: string): (c: Option<Country>)
    ensures c.Some? ==> c.value in countries && c.value.name == name
    ensures c.None? <==> forall i :: 0 <= i < |countries| ==> countries[i].name != name
  {
    Find(countries, (x: Country) => x.name == name)
  }

  /** The default selection: Egypt, with its dial code `+20`. */
  lemma DefaultIsEgypt()
    ensures Find(Countries, (c: Country) => c.iso2 == "EG") == Some(Country("Egypt", "EG", "+20"))
  {
    var cs := Countries;
    assert cs[8] == Country("Egypt", "EG", "+20");
    FirstMatch(cs, (c: Country) => c.iso2 == "EG", 8);
  }

  lemma FirstMatch<T>(s: seq<T>, p: T -> bool, k: nat)
    requires k < |s| && p(s[k]) && forall j :: 0 <= j < k ==> !p(s[j])
    ensures Find(s, p) == Some(s[k])
  {
  }

  /** `onCountryChange(name)`: a known name selects its dial code; an
      unknown one leaves the selection alone. */
  function OnCountryChange(selectedDial: string, name: string, countries: seq<Country>): (d: string)
    ensures ByName(countries, name).None? ==> d == selectedDial
    ensures ByName(countries, name).Some? ==> d == ByName(countries, name).value.dial
    ensures d == selectedDial || exists i :: 0 <= i < |countries| && countries[i].name == name && countries[i].dial == d
  {
    match ByName(countries, name)
    case None => selectedDial
    case Some(c) => c.dial
  }

  // ---------------------------------------------------------------------------
  // The form
  // ---------------------------------------------------------------------------

  datatype SignupForm = SignupForm(fullName: string, email: string, password: string, birthdate: Option<string>,
                                   gender: string, country: string, phoneLocal: string)

  /** The local number's pattern `^\d{6,14}$`. */
  predicate LocalPhoneOk(p: string) {
    6 <= |p| <= 14 && AllDigits(p)
  }

  /** Every validator of the form: the name required with at least three
      characters, a well-formed e-mail, a password of at least six, a birth
      date, a gender, a country and the local number's pattern. */
  predicate FormValid(f: SignupForm, emailOk: bool) {
    |f.fullName| >= 3 && f.email != "" && emailOk && |f.password| >= 6 && f.birthdate.Some?
    && f.gender != "" && f.country != "" && LocalPhoneOk(f.phoneLocal)
  }

  datatype RegisterPayload = RegisterPayload(fullName: string, email: string, password: string, gender: string,
                                             country: string, phone: string, birthdate: string)

  datatype SubmitOutcome = Invalid | CountryError(message: string) | Register(payload: RegisterPayload)

  const CountryMessage := "Please select a valid country."

  /** `submit()`: an invalid form sends nothing; an unknown country shows
      its message and sends nothing; otherwise the payload carries the
      trimmed name, the trimmed lower-cased e-mail, the country's name and
      the dial code joined to the trimmed local number. */
  function Submit(f: SignupForm, emailOk: bool, countries: seq<Country>): (r: SubmitOutcome)
    ensures r.Invalid? <==> !FormValid(f, emailOk)
    ensures r.CountryError? <==> FormValid(f, emailOk) && ByName(countries, f.country).None?
    ensures r.CountryError? ==> r.message == CountryMessage
    ensures r.Register? ==> var c := ByName(countries, f.country).value;
      && r.payload.phone == c.dial + Trim(f.phoneLocal)
      && r.payload.email == ToLower(Trim(f.email)) && r.payload.fullName == Trim(f.fullName)
      && r.payload.country == f.country && r.payload.password == f.password && r.payload.gender == f.gender
      && r.payload.birthdate == f.birthdate.value
  {
    if !FormValid(f, emailOk) then Invalid
    else
      match ByName(countries, f.country)
      case None => CountryError(CountryMessage)
      case Some(c) =>
        Register(RegisterPayload(Trim(f.fullName), ToLower(Trim(f.email)), f.password, f.gender, c.name,
                                 c.dial + Trim(f.phoneLocal), f.birthdate.value))
  }

  /** The local number's pattern leaves nothing to trim, so the submitted
      phone is the dial code followed by the digits as typed. */
  lemma PhoneIsDialAndDigits(f: SignupForm, emailOk: bool, countries: seq<Country>)
    requires Submit(f, emailOk, countries).Register?
    ensures Submit(f, emailOk, countries).payload.phone == ByName(countries, f.country).value.dial + f.phoneLocal
  {
    TrimmedIsFixed(f.phoneLocal);
  }

  /** On the page that follows, the signed-up number matches the mask's
      pattern: the plus sign and the first four digits stay in clear,
      whatever the dial code's length, then the hidden digits, then the
      last two digits of the local number. */
  lemma SignupPhoneMasked(dial: string, local: string)
    requires DialShape(dial) && LocalPhoneOk(local)
    ensures var phone := dial + local;
      Otp.PhoneShape(phone) && Otp.Groups(phone).0 == 4
      && StartsWith(Otp.MaskPhone(phone), phone[..5] + " ")
      && EndsWith(Otp.MaskPhone(phone), local[|local| - 2..])
  {
    var phone := dial + local;
    assert phone[1..] == dial[1..] + local;
    assert phone[|phone| - 2..] == local[|local| - 2..];
  }
}

=== FILE: slotdialog.dfy ===
/** The slot dialog of the doctor's schedule: the form it opens with, its
    validators, and what `save` does with the form — nothing, an overlap
    error, or closing with a result. */
module SlotDialog {
  import opened Wrappers
  import opened JsText
  import opened SlotTime
  import opened Slots

  /** The slot being edited, as the schedule hands it over. */
  datatype Editing = Editing(start: string, duration: int, modalities: seq<Modality>, notes: Option<string>)

  /** `SlotDialogData`: the day, the slot when editing, and the same-day slots
      to test for overlap. */
  datatype DialogData = DialogData(dayIdx: int, slot: Option<Editing>, allSlots: Option<seq<Span>>)

  /** The form's raw value. An emptied number input reads as null, `None` here. */
  datatype Form = Form(start: string, duration: Option<int>, chat: bool, voice: bool, video: bool, notes: string)

  /** `SlotDialogResult`. */
  datatype DialogResult = DialogResult(start: string, duration: int, modalities: seq<Modality>, notes: string)

  /** What `save` does. */
  datatype SaveOutcome =
    | Ignored                      // invalid form or no modality: nothing happens
    | OverlapError                 // the form gets the `overlap` error and stays open
    | Closed(result: DialogResult) // the dialog closes with the result

  /** The data the dialog works with: `injected ?? { dayIdx: 0, allSlots: [] }`. */
  function DataOrDefault(injected: Option<DialogData>): DialogData {
    injected.GetOr(DialogData(0, None, Some([])))
  }

  /** The form the dialog opens with: the edited slot's values, or 09:00,
      25 minutes, chat only and no notes for a new slot. */
  function BuildForm(data: DialogData): (f: Form)
    ensures data.slot.None? ==> f == Form("09:00", Some(25), true, false, false, "")
    ensures data.slot.Some? ==> f.start == data.slot.value.start && f.duration == Some(data.slot.value.duration)
    ensures data.slot.Some? ==>
      && (f.chat <==> Chat in data.slot.value.modalities)
      && (f.voice <==> Voice in data.slot.value.modalities)
      && (f.video <==> Video in data.slot.value.modalities)
    ensures data.slot.Some? ==> f.notes == data.slot.value.notes.GetOr("")
  {
    match data.slot
    case None => Form("09:00", Some(25), true, false, false, "")
    case Some(e) =>
      Form(e.start, Some(e.duration), Chat in e.modalities, Voice in e.modalities, Video in e.modalities,
           e.notes.GetOr(""))
  }

  /** `Validators.required` on a string: not empty. */
  predicate Required(s: string) {
    s != ""
  }

  /** `Validators.pattern(/^\d{2}:\d{2}$/)`, which lets the empty value through. */
  predicate PatternOk(s: string) {
    s == "" || IsClock(s)
  }

  /** The start control is valid exactly for the two-digit clock strings. */
  lemma StartValidIffClock(s: string)
    ensures Required(s) && PatternOk(s) <==> IsClock(s)
  {
  }

  /** `required`, `min(5)` and `max(180)` on the duration; min and max let null through. */
  predicate DurationOk(d: Option<int>) {
    d.Some? && (d.None? || 5 <= d.value) && (d.None? || d.value <= 180)
  }

  /** The form is valid when both validated controls are. */
  predicate FormValid(f: Form) {
    Required(f.start) && PatternOk(f.start) && DurationOk(f.duration)
  }

  /** `noModSelected`. */
  predicate NoModSelected(f: Form) {
    !f.chat && !f.voice && !f.video
  }

  /** The modalities pushed in the order chat, voice, video. */
  function Selected(chat: bool, voice: bool, video: bool): (r: seq<Modality>)
    ensures Chat in r <==> chat
    ensures Voice in r <==> voice
    ensures Video in r <==> video
    ensures |r| > 0 <==> chat || voice || video
  {
    (if chat then [Chat] else []) + (if voice then [Voice] else []) + (if video then [Video] else [])
  }

  /** Position in the fixed order chat, voice, video. */
  function Rank(m: Modality): int {
    match m
    case Chat => 0
    case Voice => 1
    case Video => 2
  }

  /** Strictly increasing rank: duplicate-free and in the order chat, voice, video. */
  predicate Canonical(ms: seq<Modality>) {
    forall i, j :: 0 <= i < j < |ms| ==> Rank(ms[i]) < Rank(ms[j])
  }

  /** The pushed list is always in the fixed order without duplicates. */
  lemma SelectedIsCanonical(chat: bool, voice: bool, video: bool)
    ensures Canonical(Selected(chat, voice, video))
  {
    var r := Selected(chat, voice, video);
    forall i, j | 0 <= i < j < |r| ensures Rank(r[i]) < Rank(r[j]) {
      assert Rank(r[i]) < Rank(r[j]) by {
        RankFollowsPosition(chat, voice, video, i, j);
      }
    }
  }

  lemma RankFollowsPosition(chat: bool, voice: bool, video: bool, i: int, j: int)
    requires 0 <= i < j < |Selected(chat, voice, video)|
    ensures Rank(Selected(chat, voice, video)[i]) < Rank(Selected(chat, voice, video)[j])
  {
    var r := Selected(chat, voice, video);
    var a := if chat then [Chat] else [];
    var b := if voice then [Voice] else [];
    var c := if video then [Video] else [];
    assert r == a + b + c;
  }

  /** A canonical list is recovered from its three membership flags, so
      opening the dialog on a slot and saving it unchanged keeps its modalities. */
  lemma SelectedRecoversCanonical(ms: seq<Modality>)
    requires Canonical(ms)
    ensures Selected(Chat in ms, Voice in ms, Video in ms) == ms
  {
    var r := Selected(Chat in ms, Voice in ms, Video in ms);
    SelectedIsCanonical(Chat in ms, Voice in ms, Video in ms);
    forall m ensures m in r <==> m in ms {
      match m
      case Chat =>
      case Voice =>
      case Video =>
    }
    CanonicalBySet(r, ms);
  }

  /** Two canonical lists with the same members are equal. */
  lemma {:induction false} CanonicalBySet(a: seq<Modality>, b: seq<Modality>)
    requires Canonical(a) && Canonical(b)
    requires forall m :: m in a <==> m in b
    ensures a == b
    decreases |a| + |b|
  {
    if |a| > 0 {
      assert a[0] in b;
    }
    if |b| > 0 {
      assert b[0] in a;
    }
    if |a| > 0 && |b| > 0 {
      // the head of each is the member of least rank
      assert a[0] == b[0] by {
        assert a[0] in a && b[0] in b;
        var ka := Seqs.PositionOf(b[0], a);
        var kb := Seqs.PositionOf(a[0], b);
        assert Rank(a[0]) <= Rank(a[ka]);
        assert Rank(b[0]) <= Rank(b[kb]);
      }
      assert Canonical(a[1..]) && Canonical(b[1..]);
      forall m ensures m in a[1..] <==> m in b[1..] {
        if m in a[1..] {
          TailMember(a, b, m);
        }
        if m in b[1..] {
          TailMember(b, a, m);
        }
      }
      CanonicalBySet(a[1..], b[1..]);
      assert a == [a[0]] + a[1..] && b == [b[0]] + b[1..];
    }
  }

  /** A member of one canonical list's tail is in the tail of another
      canonical list with the same members and the same head. */
  lemma TailMember(a: seq<Modality>, b: seq<Modality>, m: Modality)
    requires Canonical(a) && Canonical(b) && |a| > 0 && |b| > 0 && a[0] == b[0]
    requires forall x :: x in a <==> x in b
    requires m in a[1..]
    ensures m in b[1..]
  {
    var k := Seqs.PositionOf(m, a[1..]);
    assert a[k + 1] == m && Rank(a[0]) < Rank(m);
    assert m in a;
    var j := Seqs.PositionOf(m, b);
    assert j != 0;
    assert b[1..][j - 1] == m;
  }

  /** `overlaps(start, duration)` against `data.allSlots ?? []`. */
  function OverlapsOthers(data: DialogData, start: string, duration: int): (r: bool)
    ensures r <==> exists i :: 0 <= i < |data.allSlots.GetOr([])| && SpansMeet(Span(start, duration), data.allSlots.GetOr([])[i])
  {
    Overlaps(Span(start, duration), data.allSlots.GetOr([]))
  }

  /** `save()`. */
  function Save(data: DialogData, f: Form): (o: SaveOutcome)
    ensures o.Ignored? <==> !FormValid(f) || NoModSelected(f)
    ensures o.OverlapError? <==> FormValid(f) && !NoModSelected(f) && OverlapsOthers(data, f.start, f.duration.value)
    ensures o.Closed? ==> o.result.start == f.start && Some(o.result.duration) == f.duration
    ensures o.Closed? ==> IsClock(o.result.start) && 5 <= o.result.duration <= 180
    ensures o.Closed? ==> |o.result.modalities| > 0 && Canonical(o.result.modalities)
    ensures o.Closed? ==>
      && (Chat in o.result.modalities <==> f.chat)
      && (Voice in o.result.modalities <==> f.voice)
      && (Video in o.result.modalities <==> f.video)
    ensures o.Closed? ==> o.result.notes == Trim(f.notes) && IsTrimmed(o.result.notes)
  {
    if !FormValid(f) then Ignored
    else if NoModSelected(f) then Ignored
    else if OverlapsOthers(data, f.start, f.duration.value) then OverlapError
    else
      SelectedIsCanonical(f.chat, f.voice, f.video);
      Closed(DialogResult(f.start, f.duration.value, Selected(f.chat, f.voice, f.video), Trim(f.notes)))
  }

  /** A new slot on an empty day saves as 09:00, 25 minutes, chat only. */
  lemma DefaultSaves()
    ensures Save(DataOrDefault(None), BuildForm(DataOrDefault(None))) == Closed(DialogResult("09:00", 25, [Chat], ""))
  {
    var f := BuildForm(DataOrDefault(None));
    assert IsClock(f.start);
    assert Selected(true, false, false) == [Chat];
    assert Trim("") == "";
  }

  /** Editing a slot whose start and duration are valid, whose modalities are
      canonical and that clashes with nothing, then saving without changes,
      gives back the same start, duration and modalities. */
  lemma UnchangedEditSaves(data: DialogData)
    requires data.slot.Some?
    requires var e := data.slot.value;
      IsClock(e.start) && 5 <= e.duration <= 180 && |e.modalities| > 0 && Canonical(e.modalities)
    requires !OverlapsOthers(data, data.slot.value.start, data.slot.value.duration)
    ensures var e := data.slot.value;
      var o := Save(data, BuildForm(data));
      o.Closed? && o.result.start == e.start && o.result.duration == e.duration
      && o.result.modalities == e.modalities
  {
    var e := data.slot.value;
    SelectedRecoversCanonical(e.modalities);
  }
}

=== FILE: slots.dfy ===
/** The weekly consultation slot shared by the doctor's schedule, the booking
    wizard and the patient's view of a doctor, with the helpers the three
    pages repeat: the per-day view, the time range label and the CSS classes
    of a slot card. */
module Slots {
  import opened Wrappers
  import opened JsText
  import opened Seqs
  import opened Sorting
  import opened SlotTime

  /** The consultation kinds a slot offers. */
  datatype Modality = Chat | Voice | Video

  /** The modality as the pages spell it. */
  function ModalityName(m: Modality): (r: string)
    ensures r in {"chat", "voice", "video"}
  {
    match m
    case Chat => "chat"
    case Voice => "voice"
    case Video => "video"
  }

  /** Different modalities have different names, so the query parameter
      names the modality unambiguously. */
  lemma ModalityNameInjective(a: Modality, b: Modality)
    requires ModalityName(a) == ModalityName(b)
    ensures a == b
  {
  }

  /** A slot of the week: `dayIdx` 0..6 is Monday..Sunday, `start` is `HH:mm`,
      `duration` is in minutes. Pages without notes carry "". */
  datatype Slot = Slot(id: string, dayIdx: int, start: string, duration: int,
                       modalities: seq<Modality>, notes: string)

  /** The sort key of `a.start.localeCompare(b.start)`. */
  function StartKey(s: Slot): Key {
    StringKey(s.start)
  }

  /** `slots.filter(s => s.dayIdx === d)`, kept as a predicate for reuse. */
  predicate OnDay(s: Slot, d: int) {
    s.dayIdx == d
  }

  /** The per-day view of the booking and doctor pages:
      `slots.filter(s => s.dayIdx === d).sort(by start)`. */
  function ForDay(slots: seq<Slot>, d: int): (r: seq<Slot>)
    ensures SortedBy(r, StartKey, false)
    ensures forall x :: x in r <==> x in slots && x.dayIdx == d
  {
    var day := Filter(slots, s => OnDay(s, d));
    FilterMembers(slots, s => OnDay(s, d));
    SortByMembers(day, StartKey, false);
    SortBy(day, StartKey, false)
  }

  /** The per-day view holds each slot of that day exactly as often as the
      week does, and nothing else. */
  lemma ForDayCounts(slots: seq<Slot>, d: int, x: Slot)
    ensures multiset(ForDay(slots, d))[x] == if x.dayIdx == d then multiset(slots)[x] else 0
  {
    FilterMultiset(slots, s => OnDay(s, d), x);
  }

  /** `${s.start}–${hhmmPlus(s.start, s.duration)}`. */
  function TimeRange(s: Slot): string {
    s.start + "–" + HhmmPlus(s.start, s.duration)
  }

  /** The label starts with the slot's start, then the dash, then the end time. */
  lemma TimeRangeParts(s: Slot)
    ensures |TimeRange(s)| == |s.start| + 1 + |HhmmPlus(s.start, s.duration)|
    ensures TimeRange(s)[..|s.start|] == s.start
    ensures TimeRange(s)[|s.start|] == '–'
    ensures TimeRange(s)[|s.start| + 1..] == HhmmPlus(s.start, s.duration)
  {
    LabelParts(s.start, HhmmPlus(s.start, s.duration), TimeRange(s));
  }

  lemma LabelParts(a: string, b: string, l: string)
    requires l == a + "–" + b
    ensures |l| == |a| + 1 + |b|
    ensures l[..|a|] == a && l[|a|] == '–' && l[|a| + 1..] == b
  {
  }

  /** The CSS classes of a slot card. */
  datatype Classes = Classes(chat: bool, voice: bool, video: bool, multi: bool)

  /** `classFor`: a single-modality slot is coloured by that modality, a slot
      with several is `multi`. */
  function ClassFor(s: Slot): Classes {
    var m := s.modalities;
    Classes(|m| == 1 && m[0] == Chat, |m| == 1 && m[0] == Voice, |m| == 1 && m[0] == Video, |m| > 1)
  }

  /** Exactly one class is set on a slot that offers something, none on an
      empty one; `multi` holds iff there is more than one modality. */
  lemma ClassForPartition(s: Slot)
    ensures var c := ClassFor(s);
      (c.multi <==> |s.modalities| > 1)
      && (|s.modalities| > 0 <==> (c.chat || c.voice || c.video || c.multi))
      && !(c.chat && c.voice) && !(c.chat && c.video) && !(c.voice && c.video)
      && !(c.multi && (c.chat || c.voice || c.video))
  {
  }

  /** `incompatible`: a modality is chosen and the slot does not offer it. */
  predicate Incompatible(chosen: Option<Modality>, s: Slot) {
    chosen.Some? && chosen.value !in s.modalities
  }

  /** `((0 + seed) % 7)` and friends: a demo slot's day for a base day and the
      week seed. */
  function SeededDay(base: int, seed: int): (r: int)
    requires base >= 0 && seed >= 0
    ensures 0 <= r < 7
  {
    (base + seed) % 7
  }
}

=== FILE: slottime.dfy ===
/** Clock-time arithmetic on `HH:mm` strings, shared by the schedule, the slot
    dialog, the booking wizard and the doctor page: `toMinutes`, `hhmmPlus`
    and the half-open overlap test. A value JavaScript would compute as NaN is
    `None`. */
module SlotTime {
  import opened Wrappers
  import opened JsText

  /** `/^\d{2}:\d{2}$/`: two digits, a colon, two digits. */
  predicate IsClock(s: string) {
    |s| == 5 && IsDigit(s[0]) && IsDigit(s[1]) && s[2] == ':' && IsDigit(s[3]) && IsDigit(s[4])
  }

  /** The i-th part of `split(':').map(Number)`; a missing part is `undefined`, which is NaN. */
  function Part(parts: seq<string>, i: nat): (r: Option<int>)
    ensures i >= |parts| ==> r.None?
  {
    if i < |parts| then JsNumber(parts[i]) else None
  }

  /** `toMinutes`: `const [h, m] = hhmm.split(':').map(Number); return h * 60 + m`. */
  function ToMinutes(hhmm: string): (r: Option<int>)
    ensures ':' !in hhmm ==> r.None?
  {
    var parts := Split(hhmm, ':');
    match (Part(parts, 0), Part(parts, 1))
    case (Some(h), Some(m)) => Some(h * 60 + m)
    case _ => None
  }

  /** A well-formed clock string reads as 60 times its hour digits plus its minute digits. */
  lemma ToMinutesOfClock(s: string)
    requires IsClock(s)
    ensures ToMinutes(s) == Some(60 * DigitsValue(s[..2]) + DigitsValue(s[3..]))
  {
    SplitClock(s);
    var parts := Split(s, ':');
    assert Part(parts, 0) == Some(DigitsValue(s[..2])) by {
      JsNumberOfDigits(s[..2]);
    }
    assert Part(parts, 1) == Some(DigitsValue(s[3..])) by {
      JsNumberOfDigits(s[3..]);
    }
  }

  /** A clock string splits at its colon into the hour and the minute digits. */
  lemma SplitClock(s: string)
    requires IsClock(s)
    ensures Split(s, ':') == [s[..2], s[3..]]
  {
    assert IndexOf(s, ':') == Some(2) by {
      assert s[..2] == [s[0], s[1]];
    }
    var rest := s[3..];
    assert IndexOf(rest, ':') == None by {
      assert rest == [s[3], s[4]];
    }
    assert Split(rest, ':') == [rest];
  }

  /** A signed hour splits at its colon into the signed hour and the minutes. */
  lemma SplitSigned(c: char, h: string, m: string)
    requires c == '+' || c == '-'
    requires AllDigits(h) && AllDigits(m)
    ensures Split([c] + h + ":" + m, ':') == [[c] + h, m]
  {
    var s := [c] + h + ":" + m;
    var k := |h| + 1;
    assert s[..k] == [c] + h && s[k] == ':' && s[k + 1..] == m;
    assert ':' !in s[..k] by {
      forall i | 0 <= i < k ensures s[..k][i] != ':' {
        if i > 0 {
          assert s[..k][i] == h[i - 1];
        }
      }
    }
    assert IndexOf(s, ':') == Some(k) by {
      var r := IndexOf(s, ':');
      assert r.Some? by {
        assert s[k] == ':';
      }
    }
    assert IndexOf(m, ':') == None by {
      assert forall i :: 0 <= i < |m| ==> m[i] != ':';
    }
  }

  /** `Number` reads a sign, so a signed hour counts with its sign: `-1:30`
      is -60 + 30 = -30 minutes and `+9:00` is 540. */
  lemma SignedHour(c: char, h: string, m: string, s: string)
    requires c == '+' || c == '-'
    requires |h| > 0 && |m| > 0 && AllDigits(h) && AllDigits(m)
    requires s == [c] + h + ":" + m
    ensures ToMinutes(s) == Some(60 * (if c == '-' then 0 - DigitsValue(h) as int else DigitsValue(h)) + DigitsValue(m))
  {
    var a := [c] + h;
    var hv := if c == '-' then 0 - DigitsValue(h) as int else DigitsValue(h);
    assert Split(s, ':') == [a, m] by {
      SplitSigned(c, h, m);
    }
    assert JsNumber(a) == Some(hv) by {
      JsNumberSigned(c, h);
    }
    assert JsNumber(m) == Some(DigitsValue(m)) by {
      JsNumberOfDigits(m);
    }
    ReadsParts(s, a, m, hv, DigitsValue(m));
  }

  /** A string that splits into two parts read as numbers reads as their minute count. */
  lemma ReadsParts(s: string, a: string, b: string, h: int, m: int)
    requires Split(s, ':') == [a, b] && JsNumber(a) == Some(h) && JsNumber(b) == Some(m)
    ensures ToMinutes(s) == Some(60 * h + m)
  {
  }

  /** JavaScript's `%`, whose result takes the sign of the dividend. */
  function JsRem(a: int, b: int): (r: int)
    requires b > 0
    ensures a >= 0 ==> 0 <= r < b
    ensures a < 0 ==> -b < r <= 0
  {
    if a >= 0 then a % b else -((-a) % b)
  }

  /** `${pad(h)}:${pad(m)}`. */
  function Clock(h: int, m: int): string {
    Pad(h) + ":" + Pad(m)
  }

  /** An hour and a minute below 100 render as a well-formed clock string that
      reads back as the same number of minutes. */
  lemma ClockRoundTrip(h: int, m: int)
    requires 0 <= h < 100 && 0 <= m < 100
    ensures IsClock(Clock(h, m))
    ensures ToMinutes(Clock(h, m)) == Some(60 * h + m)
  {
    assert |Pad(h)| == 2 && AllDigits(Pad(h)) && DigitsValue(Pad(h)) == h by {
      PadTwoDigits(h);
    }
    assert |Pad(m)| == 2 && AllDigits(Pad(m)) && DigitsValue(Pad(m)) == m by {
      PadTwoDigits(m);
    }
    JoinTwoDigits(Pad(h), Pad(m), Clock(h, m));
  }

  /** Two two-digit strings joined by a colon form a clock string with their values. */
  lemma JoinTwoDigits(a: string, b: string, s: string)
    requires |a| == 2 && |b| == 2 && AllDigits(a) && AllDigits(b)
    requires s == a + ":" + b
    ensures IsClock(s)
    ensures ToMinutes(s) == Some(60 * DigitsValue(a) + DigitsValue(b))
  {
    assert IsClock(s) && s[..2] == a && s[3..] == b;
    ClockValue(a, b, s);
  }

  lemma ClockValue(a: string, b: string, s: string)
    requires |a| == 2 && |b| == 2 && AllDigits(a) && AllDigits(b)
    requires IsClock(s) && s[..2] == a && s[3..] == b
    ensures ToMinutes(s) == Some(60 * DigitsValue(a) + DigitsValue(b))
  {
    ToMinutesOfClock(s);
  }

  /** `hhmmPlus`: the clock time `minutes` after `hhmm`. */
  function HhmmPlus(hhmm: string, minutes: int): (r: string)
    ensures ToMinutes(hhmm).None? ==> r == "NaN:NaN"
  {
    match ToMinutes(hhmm)
    case None => "NaN:NaN"
    case Some(t) => ClockAfter(t, minutes)
  }

  /** `Math.floor(total / 60) % 24` with JavaScript's `%`; for the positive
      divisor 60, Dafny's `/` is `Math.floor` of the quotient. */
  function HourOf(total: int): (r: int)
    ensures total >= 0 ==> 0 <= r < 24
  {
    JsRem(total / 60, 24)
  }

  /** `total % 60` with JavaScript's `%`. */
  function MinuteOf(total: int): (r: int)
    ensures total >= 0 ==> 0 <= r < 60
  {
    JsRem(total, 60)
  }

  /** The clock string `minutes` after the minute count `start`. */
  function ClockAfter(start: int, minutes: int): string {
    ClockOf(start + minutes)
  }

  /** The clock string of a minute count. */
  function ClockOf(total: int): string {
    Clock(HourOf(total), MinuteOf(total))
  }

  /** A non-negative minute count renders as a well-formed clock string whose
      value is the count modulo one day. */
  lemma ClockOfWraps(total: int)
    requires total >= 0
    ensures IsClock(ClockOf(total))
    ensures ToMinutes(ClockOf(total)) == Some(total % 1440)
  {
    ClockRoundTrip(HourOf(total), MinuteOf(total));
    DayDecomposition(total);
  }

  lemma ClockAfterWraps(start: int, minutes: int)
    requires start + minutes >= 0
    ensures IsClock(ClockAfter(start, minutes))
    ensures ToMinutes(ClockAfter(start, minutes)) == Some((start + minutes) % 1440)
  {
    assert ClockAfter(start, minutes) == ClockOf(start + minutes);
    ClockOfWraps(start + minutes);
  }

  /** For a non-negative total, `hhmmPlus` is a well-formed clock string whose
      value is the total modulo one day: times wrap at midnight. */
  lemma HhmmPlusWraps(hhmm: string, minutes: int)
    requires ToMinutes(hhmm).Some? && ToMinutes(hhmm).value + minutes >= 0
    ensures IsClock(HhmmPlus(hhmm, minutes))
    ensures ToMinutes(HhmmPlus(hhmm, minutes)) == Some((ToMinutes(hhmm).value + minutes) % 1440)
  {
    var t := ToMinutes(hhmm).value;
    PlusReadsAs(hhmm, minutes, t);
    ClockAfterWraps(t, minutes);
  }

  /** Once the start reads as `t`, `hhmmPlus` renders `t + minutes`. */
  lemma PlusReadsAs(hhmm: string, minutes: int, t: int)
    requires ToMinutes(hhmm) == Some(t)
    ensures HhmmPlus(hhmm, minutes) == ClockAfter(t, minutes)
  {
  }

  /** Hours modulo 24 and minutes modulo 60 recombine into the minutes of the day. */
  lemma DayDecomposition(total: nat)
    ensures 60 * ((total / 60) % 24) + total % 60 == total % 1440
  {
    var q, m := total / 60, total % 60;
    var d, h := q / 24, q % 24;
    assert total == 1440 * d + (60 * h + m);
    DayRemainder(total, d, 60 * h + m);
  }

  /** The remainder of a day count is the part below one day. */
  lemma DayRemainder(total: nat, d: nat, r: nat)
    requires r < 1440 && total == 1440 * d + r
    ensures total % 1440 == r
  {
  }

  /** Adding whole days renders the very same clock string, for a start
      that does not read as negative (JavaScript's `%` keeps the sign of a
      negative total, so `-1:00` plus a day is `23:00` but plus nothing is
      `-1:00`). */
  lemma WholeDaysDoNotMove(hhmm: string, minutes: nat, days: nat)
    requires ToMinutes(hhmm).Some? ==> ToMinutes(hhmm).value >= 0
    ensures HhmmPlus(hhmm, minutes + days * 1440) == HhmmPlus(hhmm, minutes)
  {
    match ToMinutes(hhmm)
    case None =>
    case Some(t) =>
      PlusReadsAs(hhmm, minutes, t);
      PlusReadsAs(hhmm, minutes + days * 1440, t);
      ClockAfterShift(t, minutes, days);
  }

  lemma ClockAfterShift(t: nat, minutes: nat, days: nat)
    ensures ClockAfter(t, minutes + days * 1440) == ClockAfter(t, minutes)
  {
    assert ClockAfter(t, minutes + days * 1440) == ClockOf((t + minutes) + days * 1440);
    assert ClockAfter(t, minutes) == ClockOf(t + minutes);
    ClockOfShift(t + minutes, days);
  }

  lemma ClockOfShift(total: nat, days: nat)
    ensures ClockOf(total + days * 1440) == ClockOf(total)
  {
    DayShift(total, days);
  }

  /** Whole days change neither the hour nor the minute of a non-negative count. */
  lemma DayShift(total: nat, days: nat)
    ensures HourOf(total + days * 1440) == HourOf(total)
    ensures MinuteOf(total + days * 1440) == MinuteOf(total)
  {
    var q := total / 60;
    var m := total % 60;
    assert total + days * 1440 == 60 * (q + 24 * days) + m;
    assert (total + days * 1440) / 60 == q + 24 * days;
    ModShift24(q, days);
    assert (total + days * 1440) % 60 == m;
  }

  lemma ModShift24(q: nat, days: nat)
    ensures (q + 24 * days) % 24 == q % 24
  {
    assert q + 24 * days == 24 * (q / 24 + days) + q % 24;
  }

  // ---------------------------------------------------------------------------
  // Overlap
  // ---------------------------------------------------------------------------

  /** An interval on the day's minute line, `[start, start + duration)`. */
  datatype Span = Span(start: string, duration: int)

  /** The pairwise test `Math.max(s1, s2) < Math.min(e1, e2)` on numbers. */
  predicate Meets(s1: int, d1: int, s2: int, d2: int) {
    (if s1 >= s2 then s1 else s2) < (if s1 + d1 <= s2 + d2 then s1 + d1 else s2 + d2)
  }

  /** Minute t lies in `[start, start + duration)`. */
  predicate InSpan(t: int, start: int, duration: int) {
    start <= t < start + duration
  }

  /** Two half-open intervals meet exactly when they share a minute. */
  lemma MeetsIffSharedMinute(s1: int, d1: int, s2: int, d2: int)
    ensures Meets(s1, d1, s2, d2) <==> exists t :: InSpan(t, s1, d1) && InSpan(t, s2, d2)
  {
    if Meets(s1, d1, s2, d2) {
      var t := if s1 >= s2 then s1 else s2;
      assert InSpan(t, s1, d1) && InSpan(t, s2, d2);
    }
  }

  /** Back-to-back slots, one ending as the next starts, do not overlap. */
  lemma BackToBackDoNotMeet(s1: int, d1: int, d2: int)
    requires d1 >= 0
    ensures !Meets(s1, d1, s1 + d1, d2)
    ensures !Meets(s1 + d1, d2, s1, d1)
  {
  }

  /** The pairwise test does not depend on which slot comes first. */
  lemma MeetsSymmetric(s1: int, d1: int, s2: int, d2: int)
    ensures Meets(s1, d1, s2, d2) <==> Meets(s2, d2, s1, d1)
  {
  }

  /** The pairwise test on strings: any NaN makes a comparison false. */
  predicate SpansMeet(a: Span, b: Span) {
    match (ToMinutes(a.start), ToMinutes(b.start))
    case (Some(s1), Some(s2)) => Meets(s1, a.duration, s2, b.duration)
    case _ => false
  }

  /** `overlaps(start, duration)` against the other slots of the day. */
  function Overlaps(candidate: Span, others: seq<Span>): (r: bool)
    ensures r <==> exists i :: 0 <= i < |others| && SpansMeet(candidate, others[i])
    ensures |others| == 0 ==> !r
  {
    if |others| == 0 then false
    else if SpansMeet(candidate, others[0]) then true
    else
      var rest := Overlaps(candidate, others[1..]);
      assert forall i :: 1 <= i < |others| ==> others[i] == others[1..][i - 1];
      rest
  }
}

=== FILE: sorting.dfy ===
/** `Array.prototype.sort` with a comparator, as the pages use it: every
    comparator in the source compares one or two fields (a time, a name, a
    rating) in ascending or descending direction. The model takes the field
    values as a key of integers (a string becomes its code points) and sorts
    stably, as ECMAScript 2019 requires of `sort`. */
module Sorting {

  type Key = seq<int>

  /** Lexicographic order on keys; on code points it is the order in which
      `localeCompare` sorts plain ASCII names of the same case. */
  predicate LexLe(a: Key, b: Key)
    decreases |a|
  {
    |a| == 0 || (|b| > 0 && (a[0] < b[0] || (a[0] == b[0] && LexLe(a[1..], b[1..]))))
  }

  lemma {:induction false} LexLeRefl(a: Key)
    ensures LexLe(a, a)
    decreases |a|
  {
    if |a| > 0 {
      LexLeRefl(a[1..]);
    }
  }

  lemma {:induction false} LexLeTotal(a: Key, b: Key)
    ensures LexLe(a, b) || LexLe(b, a)
    decreases |a|
  {
    if |a| > 0 && |b| > 0 && a[0] == b[0] {
      LexLeTotal(a[1..], b[1..]);
    }
  }

  lemma {:induction false} LexLeTrans(a: Key, b: Key, c: Key)
    requires LexLe(a, b) && LexLe(b, c)
    ensures LexLe(a, c)
    decreases |a|
  {
    if |a| > 0 && a[0] == b[0] && b[0] == c[0] {
      LexLeTrans(a[1..], b[1..], c[1..]);
    }
  }

  /** Keys that compare equal are identical: the comparator returns 0 only on equal fields. */
  lemma {:induction false} LexLeAntisym(a: Key, b: Key)
    requires LexLe(a, b) && LexLe(b, a)
    ensures a == b
    decreases |a|
  {
    if |a| > 0 {
      LexLeAntisym(a[1..], b[1..]);
      assert a == [a[0]] + a[1..] && b == [b[0]] + b[1..];
    }
  }

  /** a may precede b in the requested direction. */
  predicate Before(a: Key, b: Key, desc: bool) {
    if desc then LexLe(b, a) else LexLe(a, b)
  }

  lemma BeforeTotal(a: Key, b: Key, desc: bool)
    ensures Before(a, b, desc) || Before(b, a, desc)
  {
    LexLeTotal(a, b);
  }

  lemma BeforeTrans(a: Key, b: Key, c: Key, desc: bool)
    requires Before(a, b, desc) && Before(b, c, desc)
    ensures Before(a, c, desc)
  {
    if desc {
      LexLeTrans(c, b, a);
    } else {
      LexLeTrans(a, b, c);
    }
  }

  /** Every element may precede every later one. */
  predicate SortedBy<T>(s: seq<T>, key: T -> Key, desc: bool) {
    forall i, j :: 0 <= i < j < |s| ==> Before(key(s[i]), key(s[j]), desc)
  }

  /** Places x before the first element it may precede. */
  function Insert<T>(x: T, s: seq<T>, key: T -> Key, desc: bool): (r: seq<T>)
    requires SortedBy(s, key, desc)
    ensures SortedBy(r, key, desc)
    ensures multiset(r) == multiset(s) + multiset{x}
  {
    if |s| == 0 then [x]
    else if Before(key(x), key(s[0]), desc) then
      InsertFront(x, s, key, desc);
      [x] + s
    else
      BeforeTotal(key(x), key(s[0]), desc);
      var rest := Insert(x, s[1..], key, desc);
      assert s == [s[0]] + s[1..];
      HeadBeforeAll(s[0], rest, s[1..], x, key, desc);
      [s[0]] + rest
  }

  lemma InsertFront<T>(x: T, s: seq<T>, key: T -> Key, desc: bool)
    requires SortedBy(s, key, desc) && |s| > 0
    requires Before(key(x), key(s[0]), desc)
    ensures SortedBy([x] + s, key, desc)
  {
    var r := [x] + s;
    forall i, j | 0 <= i < j < |r|
      ensures Before(key(r[i]), key(r[j]), desc)
    {
      if i == 0 && j > 1 {
        BeforeTrans(key(x), key(s[0]), key(s[j - 1]), desc);
      }
    }
  }

  lemma HeadBeforeAll<T>(h: T, rest: seq<T>, tail: seq<T>, x: T, key: T -> Key, desc: bool)
    requires SortedBy(rest, key, desc) && SortedBy([h] + tail, key, desc)
    requires multiset(rest) == multiset(tail) + multiset{x}
    requires Before(key(h), key(x), desc)
    ensures SortedBy([h] + rest, key, desc)
  {
    var r := [h] + rest;
    forall i, j | 0 <= i < j < |r|
      ensures Before(key(r[i]), key(r[j]), desc)
    {
      if i == 0 {
        var y := rest[j - 1];
        assert r[j] == y && r[0] == h;
        assert y in multiset(rest);
        if y != x {
          assert y in multiset(tail);
          var k :| 0 <= k < |tail| && tail[k] == y;
          assert ([h] + tail)[k + 1] == y && ([h] + tail)[0] == h;
        }
      } else {
        assert r[i] == rest[i - 1] && r[j] == rest[j - 1];
      }
    }
  }

  /** Sorting keeps exactly the members of the input. */
  lemma SortByMembers<T>(s: seq<T>, key: T -> Key, desc: bool)
    ensures forall x :: x in SortBy(s, key, desc) <==> x in s
  {
    var r := SortBy(s, key, desc);
    forall x ensures x in r <==> x in s {
      assert x in r <==> x in multiset(r);
      assert x in s <==> x in multiset(s);
    }
  }

  /** The result of `s.sort(cmp)` on a copy: sorted and a permutation of s.
      Each element is inserted before the equal ones that followed it, so
      ties keep their order. */
  function SortBy<T>(s: seq<T>, key: T -> Key, desc: bool): (r: seq<T>)
    ensures SortedBy(r, key, desc)
    ensures multiset(r) == multiset(s)
    ensures |r| == |s|
  {
    if |s| == 0 then []
    else
      assert s == [s[0]] + s[1..];
      Insert(s[0], SortBy(s[1..], key, desc), key, desc)
  }

  /** An element that may precede the head of a sorted list is put in front. */
  lemma InsertAtFront<T>(x: T, s: seq<T>, key: T -> Key, desc: bool)
    requires SortedBy(s, key, desc)
    requires |s| == 0 || Before(key(x), key(s[0]), desc)
    ensures Insert(x, s, key, desc) == [x] + s
  {
  }

  /** The tail of a sorted list is sorted. */
  lemma SortedTail<T>(s: seq<T>, key: T -> Key, desc: bool)
    requires SortedBy(s, key, desc) && |s| > 0
    ensures SortedBy(s[1..], key, desc)
  {
    forall i, j | 0 <= i < j < |s[1..]|
      ensures Before(key(s[1..][i]), key(s[1..][j]), desc)
    {
      assert s[1..][i] == s[i + 1] && s[1..][j] == s[j + 1];
    }
  }

  /** Sorting input that is already in order returns it unchanged. */
  lemma {:induction false} SortSortedIsIdentity<T>(s: seq<T>, key: T -> Key, desc: bool)
    requires SortedBy(s, key, desc)
    ensures SortBy(s, key, desc) == s
  {
    if |s| > 0 {
      SortedTail(s, key, desc);
      SortSortedIsIdentity(s[1..], key, desc);
      InsertAtFront(s[0], s[1..], key, desc);
      assert s == [s[0]] + s[1..];
    }
  }

  /** Sorting is idempotent. */
  lemma SortIdempotent<T>(s: seq<T>, key: T -> Key, desc: bool)
    ensures SortBy(SortBy(s, key, desc), key, desc) == SortBy(s, key, desc)
  {
    SortSortedIsIdentity(SortBy(s, key, desc), key, desc);
  }

  /** The key of a string field: its code points, in order. */
  function StringKey(s: string): (k: Key)
    ensures |k| == |s|
    ensures forall i :: 0 <= i < |s| ==> k[i] == s[i] as int
  {
    seq(|s|, i requires 0 <= i < |s| => s[i] as int)
  }

  /** Distinct strings give distinct keys, so a name order never ties two different names. */
  lemma StringKeyInjective(a: string, b: string)
    requires StringKey(a) == StringKey(b)
    ensures a == b
  {
    assert |a| == |b|;
    forall i | 0 <= i < |a| ensures a[i] == b[i] {
      assert StringKey(a)[i] == StringKey(b)[i];
    }
  }
}

=== FILE: tablesource.dfy ===
/** The client-side table data source behind the admin's users and
    transactions tables: the filter (skipped when empty), the sort on the
    active column, the page the paginator shows and the footer's range
    label, and the search box that sets the filter and goes back to the
    first page. The row type and its column type are parameters. */
module TableSource {
  import opened Wrappers
  import opened JsText
  import opened Seqs
  import opened Sorting
  import opened Paging
  import opened Computed

  /** Both tables show a fixed ten rows per page. */
  const PageSize := 10

  /** A sort header's direction; the empty direction leaves the rows unsorted. */
  datatype Direction = NoDirection | Asc | Desc

  /** The table after the view is initialised: the rows, the filter text,
      the active sort column and direction, and the paginator's page. */
  datatype Table<T, C> = Table(data: seq<T>, filter: string, active: Option<C>, direction: Direction, pageIndex: nat)

  /** `filteredData`: the rows themselves for an empty filter, otherwise
      the rows the predicate accepts for the filter text, in order. */
  function FilteredData<T(!new)>(data: seq<T>, filter: string, accepts: (T, string) -> bool): (r: seq<T>)
    ensures filter == "" ==> r == data
    ensures filter != "" ==> forall x :: x in r <==> x in data && accepts(x, filter)
    ensures |r| <= |data|
  {
    if filter == "" then data
    else
      FilterMembers(data, (x: T) => accepts(x, filter));
      Filter(data, (x: T) => accepts(x, filter))
  }

  /** When every row accepts the empty term, skipping the predicate for
      the empty filter shows the same rows as running it would. */
  lemma EmptyFilterShortcut<T(!new)>(data: seq<T>, accepts: (T, string) -> bool)
    requires forall x :: accepts(x, "")
    ensures FilteredData(data, "", accepts) == Filter(data, (x: T) => accepts(x, ""))
  {
    FilterAll(data, (x: T) => accepts(x, ""));
  }

  /** The sort: no active column or no direction leaves the rows as they
      are; otherwise they are ordered by the column's key, a descending
      direction negating the comparison so that ties keep their order. */
  function SortData<T, C>(rows: seq<T>, active: Option<C>, direction: Direction, key: C -> T -> Key): (r: seq<T>)
    ensures active.None? || direction == NoDirection ==> r == rows
    ensures active.Some? && direction != NoDirection ==> SortedBy(r, key(active.value), direction == Desc)
    ensures multiset(r) == multiset(rows)
  {
    if active.None? || direction == NoDirection then rows
    else SortBy(rows, key(active.value), direction == Desc)
  }

  /** The rows after filtering and sorting, which the paginator pages through. */
  function Ordered<T(!new), C>(t: Table<T, C>, accepts: (T, string) -> bool, key: C -> T -> Key): (r: seq<T>)
    ensures multiset(r) == multiset(FilteredData(t.data, t.filter, accepts))
  {
    SortData(FilteredData(t.data, t.filter, accepts), t.active, t.direction, key)
  }

  /** The rows on screen: the current page of the ordered rows. */
  function Rendered<T(!new), C>(t: Table<T, C>, accepts: (T, string) -> bool, key: C -> T -> Key): (r: seq<T>)
    ensures |r| <= PageSize
    ensures forall x :: x in r ==> x in t.data && (t.filter == "" || accepts(x, t.filter))
  {
    var s := Ordered(t, accepts, key);
    PageMembers(s, t.pageIndex, PageSize);
    forall x | x in s ensures x in FilteredData(t.data, t.filter, accepts) {
      assert x in multiset(s);
    }
    Page(s, t.pageIndex, PageSize)
  }

  /** `rangeLabel`: empty before the paginator exists; otherwise the range
      of the current page over the filtered rows. */
  function FooterLabel<T(!new), C>(hasPaginator: bool, t: Table<T, C>, accepts: (T, string) -> bool): (text: string)
    ensures !hasPaginator ==> text == ""
    ensures hasPaginator ==> text == RangeLabel(t.pageIndex, PageSize, |FilteredData(t.data, t.filter, accepts)|)
  {
    if !hasPaginator then "" else RangeLabel(t.pageIndex, PageSize, |FilteredData(t.data, t.filter, accepts)|)
  }

  /** On a page that holds rows, the label's numbers are the positions of
      the first and last row shown and the number of rows filtered. */
  lemma LabelMatchesPage<T>(s: seq<T>, pageIndex: nat, pageSize: nat)
    requires pageSize > 0 && pageIndex * pageSize < |s|
    ensures var shown := Page(s, pageIndex, pageSize); var start := pageIndex * pageSize;
      && |shown| > 0 && shown[0] == s[start] && shown[|shown| - 1] == s[start + |shown| - 1]
      && RangeLabel(pageIndex, pageSize, |s|)
         == "Showing " + NatToString(start + 1) + "–" + NatToString(start + |shown|) + " of " + NatToString(|s|)
  {
    var start := pageIndex * pageSize;
    var shown := Page(s, pageIndex, pageSize);
    assert |shown| == (if start + pageSize <= |s| then start + pageSize else |s|) - start;
  }

  /** The table's label describes the rows it renders. */
  lemma TableLabelMatchesRows<T(!new), C>(t: Table<T, C>, accepts: (T, string) -> bool, key: C -> T -> Key)
    requires t.pageIndex * PageSize < |FilteredData(t.data, t.filter, accepts)|
    ensures var start := t.pageIndex * PageSize; var shown := Rendered(t, accepts, key);
      FooterLabel(true, t, accepts)
      == "Showing " + NatToString(start + 1) + "–" + NatToString(start + |shown|) + " of "
         + NatToString(|FilteredData(t.data, t.filter, accepts)|)
  {
    LabelMatchesPage(Ordered(t, accepts, key), t.pageIndex, PageSize);
  }

  /** The search box's value changes: the filter becomes the trimmed,
      lower-cased text (a missing value is empty) and the paginator goes
      back to the first page; nothing else changes. */
  function OnSearch<T, C>(t: Table<T, C>, v: Option<string>): (r: Table<T, C>)
    ensures r.filter == ToLower(Trim(OrEmpty(v))) && r.pageIndex == 0
    ensures r.(filter := t.filter, pageIndex := t.pageIndex) == t
    ensures IsTrimmed(r.filter) && forall i :: 0 <= i < |r.filter| ==> !('A' <= r.filter[i] <= 'Z')
  {
    LowerKeepsTrimmed(Trim(OrEmpty(v)));
    ToLowerIdempotent(Trim(OrEmpty(v)));
    t.(filter := ToLower(Trim(OrEmpty(v))), pageIndex := 0)
  }

  /** A search shows the first page: its first row is the first ordered
      row, whenever any row passes the filter. */
  lemma SearchShowsFirstPage<T(!new), C>(t: Table<T, C>, v: Option<string>, accepts: (T, string) -> bool,
                                   key: C -> T -> Key)
    requires |Ordered(OnSearch(t, v), accepts, key)| > 0
    ensures var u := OnSearch(t, v);
      |Rendered(u, accepts, key)| > 0 && Rendered(u, accepts, key)[0] == Ordered(u, accepts, key)[0]
  {
    LabelMatchesPage(Ordered(OnSearch(t, v), accepts, key), 0, PageSize);
  }

  /** Typing the filter's own text again changes nothing: the stored
      filter is already in the form the search box produces. */
  lemma SearchIsStable<T, C>(t: Table<T, C>, v: Option<string>)
    ensures OnSearch(OnSearch(t, v), Some(OnSearch(t, v).filter)) == OnSearch(t, v)
  {
    TrimLowerIdempotent(OrEmpty(v));
  }

  /** The default sort the page sets after the view is initialised. */
  function DefaultSort<T, C>(t: Table<T, C>, column: C): (r: Table<T, C>)
    ensures r.active == Some(column) && r.direction == Desc
    ensures r.(active := t.active, direction := t.direction) == t
  {
    t.(active := Some(column), direction := Desc)
  }

  // ---------------------------------------------------------------------------
  // When `rangeLabel` runs
  // ---------------------------------------------------------------------------

  /** `rangeLabel` is a `computed()` that reads no signal at all: the
      paginator is a view child and the data source a plain object. */
  function LabelOf<T(!new), C>(accepts: (T, string) -> bool): ((), (bool, Table<T, C>)) -> string {
    (t: (), u: (bool, Table<T, C>)) => FooterLabel(u.0, u.1, accepts)
  }

  /** As written, the label runs once and never again. The footer first
      reads it before the paginator exists, so it stays empty whatever the
      table then holds, whereas the label of the table with its paginator
      is never empty ("No results" or "Showing …"). */
  lemma LabelStaysEmpty<T(!new), C>(before: Table<T, C>, later: Table<T, C>, accepts: (T, string) -> bool)
    ensures var c := Read(New((), (false, before)));
      && Reading(c, LabelOf(accepts)) == ""
      && Reading(SetUntracked(c, (true, later)), LabelOf(accepts)) == ""
      && FooterLabel(true, later, accepts) != ""
  {
    var c := Read(New((), (false, before)));
    UntrackedNotSeen(c, (true, later), LabelOf(accepts));
    var n := |FilteredData(later.data, later.filter, accepts)|;
    if n > 0 {
      assert StartsWith(RangeLabel(later.pageIndex, PageSize, n), "Showing ");
    }
  }
}

=== FILE: transactions.dfy ===
/** The admin's transactions table of consultation sessions: the search
    over every text field, the sort keys of its columns and the default
    newest-first order. Parsing a session's date is a parameter (`None` for
    an invalid date). */
module Transactions {
  import opened Wrappers
  import opened JsText
  import opened Sorting
  import TableSource

  datatype SessionType = Voice | Audio | Video

  function TypeText(t: SessionType): (s: string)
    ensures s == "voice" || s == "audio" || s == "video"
  {
    match t
    case Voice => "voice"
    case Audio => "audio"
    case Video => "video"
  }

  datatype SessionRow = SessionRow(id: string, patient: string, doctor: string, department: string,
                                   sessionType: SessionType, date: string)

  /** The sortable columns. */
  datatype Column = Id | Patient | Doctor | DepartmentColumn | TypeColumn | Date

  /** The search's `filterPredicate`: the term, trimmed and lower-cased,
      occurs in the lower-cased id, patient, doctor, department or type. */
  predicate Accepts(row: SessionRow, term: string) {
    var q := ToLower(Trim(term));
    Contains(ToLower(row.id), q) || Contains(ToLower(row.patient), q) || Contains(ToLower(row.doctor), q)
    || Contains(ToLower(row.department), q) || Contains(ToLower(TypeText(row.sessionType)), q)
  }

  /** Every row matches a blank term. */
  lemma BlankTermMatchesAll(row: SessionRow, term: string)
    requires IsBlank(term)
    ensures Accepts(row, term)
  {
    BlankIffTrimEmpty(term);
    ContainsEmpty(ToLower(row.id));
  }

  /** Typing one of the row's own fields, without surrounding white space,
      finds the row. */
  lemma OwnFieldFindsRow(row: SessionRow, v: string)
    requires IsTrimmed(v)
    requires v in {row.id, row.patient, row.doctor, row.department, TypeText(row.sessionType)}
    ensures Accepts(row, v)
  {
    TrimmedIsFixed(v);
    assert StartsWith(ToLower(v), ToLower(v));
  }

  /** `sortingDataAccessor`: the id and type as they are, the names
      lower-cased, and the date's time (0 for an invalid date). */
  function SortKey(parseDate: string -> Option<int>): Column -> SessionRow -> Key {
    (c: Column) => (row: SessionRow) =>
      match c
      case Id => StringKey(row.id)
      case Patient => StringKey(ToLower(row.patient))
      case Doctor => StringKey(ToLower(row.doctor))
      case DepartmentColumn => StringKey(ToLower(row.department))
      case TypeColumn => StringKey(TypeText(row.sessionType))
      case Date => [parseDate(row.date).GetOr(0)]
  }

  /** The name columns sort without regard to ASCII case. */
  lemma NameKeysIgnoreCase(parseDate: string -> Option<int>, a: SessionRow, b: SessionRow)
    requires ToLower(a.patient) == ToLower(b.patient) && ToLower(a.doctor) == ToLower(b.doctor)
    requires ToLower(a.department) == ToLower(b.department)
    ensures forall c :: c in {Patient, Doctor, DepartmentColumn} ==> SortKey(parseDate)(c)(a) == SortKey(parseDate)(c)(b)
  {
  }

  /** The table after the view is initialised: sorted by date, newest
      first, on the first page with an empty filter. */
  function Initial(rows: seq<SessionRow>): (t: TableSource.Table<SessionRow, Column>)
    ensures t.data == rows && t.filter == "" && t.pageIndex == 0
    ensures t.active == Some(Date) && t.direction == TableSource.Desc
  {
    TableSource.DefaultSort(TableSource.Table(rows, "", None, TableSource.NoDirection, 0), Date)
  }

  /** Before any search, the first page holds the newest sessions: the
      rows on screen are the first of the rows sorted newest first. */
  lemma InitialShowsNewest(rows: seq<SessionRow>, parseDate: string -> Option<int>)
    requires |rows| > 0
    ensures var t := Initial(rows); var shown := TableSource.Rendered(t, Accepts, SortKey(parseDate));
      && |shown| > 0
      && forall k :: 0 <= k < |rows| ==> parseDate(rows[k].date).GetOr(0) <= parseDate(shown[0].date).GetOr(0)
  {
    var t := Initial(rows);
    var s := TableSource.Ordered(t, Accepts, SortKey(parseDate));
    assert s == SortBy(rows, SortKey(parseDate)(Date), true);
    TableSource.LabelMatchesPage(s, 0, TableSource.PageSize);
    forall k | 0 <= k < |rows|
      ensures parseDate(rows[k].date).GetOr(0) <= parseDate(s[0].date).GetOr(0)
    {
      assert rows[k] in multiset(s);
      var j :| 0 <= j < |s| && s[j] == rows[k];
      if j > 0 {
        assert Before(SortKey(parseDate)(Date)(s[0]), SortKey(parseDate)(Date)(s[j]), true);
        DateKeyOrder(parseDate, s[0], s[j]);
      }
    }
  }

  /** Newest first on the date key puts the later date in front. */
  lemma DateKeyOrder(parseDate: string -> Option<int>, a: SessionRow, b: SessionRow)
    requires Before(SortKey(parseDate)(Date)(a), SortKey(parseDate)(Date)(b), true)
    ensures parseDate(b.date).GetOr(0) <= parseDate(a.date).GetOr(0)
  {
    assert SortKey(parseDate)(Date)(a) == [parseDate(a.date).GetOr(0)];
    assert SortKey(parseDate)(Date)(b) == [parseDate(b.date).GetOr(0)];
  }

  /** The rows on screen all match the filter. */
  function Rendered(t: TableSource.Table<SessionRow, Column>, parseDate: string -> Option<int>): (r: seq<SessionRow>)
    ensures |r| <= TableSource.PageSize
    ensures forall x :: x in r ==> x in t.data && Accepts(x, t.filter)
  {
    var r := TableSource.Rendered(t, Accepts, SortKey(parseDate));
    forall x | x in r ensures Accepts(x, t.filter) {
      if t.filter == "" {
        BlankTermMatchesAll(x, t.filter);
      }
    }
    r
  }
}

=== FILE: users.dfy ===
/** The admin's users table: the search over name, e-mail, phone and
    status, the sort keys of its columns, and banning and unbanning a user.
    Parsing the joined date is a parameter (`None` for an invalid date). */
module Users {
  import opened Wrappers
  import opened JsText
  import opened Seqs
  import opened Sorting
  import TableSource

  datatype Status = Active | Banned

  function StatusText(s: Status): (t: string)
    ensures t == "active" || t == "banned"
  {
    match s
    case Active => "active"
    case Banned => "banned"
  }

  datatype UserRow = UserRow(id: string, name: string, email: string, phone: string, joined: string, status: Status)

  /** The sortable columns. */
  datatype Column = Name | Email | Phone | Joined | StatusColumn

  /** The search's `filterPredicate`: the term, trimmed and lower-cased,
      occurs in the lower-cased name, e-mail, phone or status. */
  predicate Accepts(row: UserRow, term: string) {
    var q := ToLower(Trim(term));
    Contains(ToLower(row.name), q) || Contains(ToLower(row.email), q) || Contains(ToLower(row.phone), q)
    || Contains(ToLower(StatusText(row.status)), q)
  }

  /** Every row matches a blank term. */
  lemma BlankTermMatchesAll(row: UserRow, term: string)
    requires IsBlank(term)
    ensures Accepts(row, term)
  {
    BlankIffTrimEmpty(term);
    ContainsEmpty(ToLower(row.name));
  }

  /** The search box's filter text picks the rows the predicate accepts for
      what was typed: normalising the term a second time changes nothing. */
  lemma FilterTextAgrees(row: UserRow, v: string)
    ensures Accepts(row, ToLower(Trim(v))) <==> Accepts(row, v)
  {
    TrimLowerIdempotent(v);
  }

  /** `sortingDataAccessor`: the lower-cased name, the joined date's time
      (0 for an invalid date), and the raw text of the other columns. */
  function SortKey(parseDate: string -> Option<int>): Column -> UserRow -> Key {
    (c: Column) => (row: UserRow) =>
      match c
      case Name => StringKey(ToLower(row.name))
      case Joined => [parseDate(row.joined).GetOr(0)]
      case Email => StringKey(row.email)
      case Phone => StringKey(row.phone)
      case StatusColumn => StringKey(StatusText(row.status))
  }

  /** Sorting by name ignores ASCII case: names that differ only in case
      have the same key. */
  lemma NameKeyIgnoresCase(parseDate: string -> Option<int>, a: UserRow, b: UserRow)
    requires ToLower(a.name) == ToLower(b.name)
    ensures SortKey(parseDate)(Name)(a) == SortKey(parseDate)(Name)(b)
  {
  }

  /** Users who joined on an invalid date sort as if they joined at the
      epoch: first ascending, last descending among later dates. */
  lemma InvalidDateSortsAsEpoch(parseDate: string -> Option<int>, a: UserRow, b: UserRow)
    requires parseDate(a.joined).None? && parseDate(b.joined).Some? && parseDate(b.joined).value > 0
    ensures Before(SortKey(parseDate)(Joined)(a), SortKey(parseDate)(Joined)(b), false)
    ensures !Before(SortKey(parseDate)(Joined)(a), SortKey(parseDate)(Joined)(b), true)
  {
  }

  /** The table after the view is initialised: sorted by joined date,
      newest first, on the first page with an empty filter. */
  function Initial(rows: seq<UserRow>): (t: TableSource.Table<UserRow, Column>)
    ensures t.data == rows && t.filter == "" && t.pageIndex == 0
    ensures t.active == Some(Joined) && t.direction == TableSource.Desc
  {
    TableSource.DefaultSort(TableSource.Table(rows, "", None, TableSource.NoDirection, 0), Joined)
  }

  /** The rows on screen. */
  function Rendered(t: TableSource.Table<UserRow, Column>, parseDate: string -> Option<int>): (r: seq<UserRow>)
    ensures |r| <= TableSource.PageSize
    ensures forall x :: x in r ==> x in t.data && Accepts(x, t.filter)
  {
    var r := TableSource.Rendered(t, Accepts, SortKey(parseDate));
    forall x | x in r ensures Accepts(x, t.filter) {
      if t.filter == "" {
        BlankTermMatchesAll(x, t.filter);
      }
    }
    r
  }

  /** `ban(u)`: that user's status becomes banned; no other row changes. */
  function Ban(rows: seq<UserRow>, i: nat): (r: seq<UserRow>)
    requires i < |rows|
    ensures |r| == |rows| && r[i].status == Banned
    ensures r[i].(status := rows[i].status) == rows[i]
    ensures forall k :: 0 <= k < |rows| && k != i ==> r[k] == rows[k]
  {
    rows[i := rows[i].(status := Banned)]
  }

  /** `unban(u)`: that user's status becomes active; no other row changes. */
  function Unban(rows: seq<UserRow>, i: nat): (r: seq<UserRow>)
    requires i < |rows|
    ensures |r| == |rows| && r[i].status == Active
    ensures r[i].(status := rows[i].status) == rows[i]
    ensures forall k :: 0 <= k < |rows| && k != i ==> r[k] == rows[k]
  {
    rows[i := rows[i].(status := Active)]
  }

  /** Unbanning undoes a ban of an active user, banning undoes an unban of
      a banned one, and either action done twice is done once. */
  lemma BanUnbanRoundTrip(rows: seq<UserRow>, i: nat)
    requires i < |rows|
    ensures rows[i].status == Active ==> Unban(Ban(rows, i), i) == rows
    ensures rows[i].status == Banned ==> Ban(Unban(rows, i), i) == rows
    ensures Ban(Ban(rows, i), i) == Ban(rows, i) && Unban(Unban(rows, i), i) == Unban(rows, i)
  {
  }

  predicate IsBanned(u: UserRow) {
    u.status == Banned
  }

  /** Banning an active user adds exactly one banned user. */
  lemma {:induction false} BanCount(rows: seq<UserRow>, i: nat)
    requires i < |rows| && rows[i].status == Active
    ensures Count(Ban(rows, i), IsBanned) == Count(rows, IsBanned) + 1
  {
    var b := Ban(rows, i);
    assert Count(b, IsBanned) == (if IsBanned(b[0]) then 1 else 0) + Count(b[1..], IsBanned);
    assert Count(rows, IsBanned) == (if IsBanned(rows[0]) then 1 else 0) + Count(rows[1..], IsBanned);
    if i == 0 {
      assert b[1..] == rows[1..];
    } else {
      assert b[0] == rows[0];
      assert b[1..] == Ban(rows[1..], i - 1);
      BanCount(rows[1..], i - 1);
    }
  }

  /** Searching for "banned" finds every banned user. */
  lemma BannedWordFindsBanned(row: UserRow)
    requires row.status == Banned
    ensures Accepts(row, "banned")
  {
    assert Trim("banned") == "banned" by {
      TrimmedIsFixed("banned");
    }
    assert StartsWith("banned", "banned");
  }
}

=== FILE: visits.dfy ===
/** The clock rules both appointment pages share, on times in milliseconds
    since the epoch with the current time as a parameter: the join window
    and the `mm:ss` countdown to the start. */
module Visits {
  import opened Wrappers
  import opened JsText
  import opened SlotTime

  /** `now >= start - 10 * 60 * 1000 && now <= end`: the window opens ten
      minutes before the start and closes at the end, both ends included. */
  predicate InJoinWindow(start: int, end: int, now: int) {
    start - 600000 <= now <= end
  }

  /** The window is exactly the closed interval: its two ends are in it and
      the instants just outside are not. */
  lemma JoinWindowEdges(start: int, end: int)
    requires start - 600000 <= end
    ensures InJoinWindow(start, end, start - 600000) && InJoinWindow(start, end, end)
    ensures !InJoinWindow(start, end, start - 600001) && !InJoinWindow(start, end, end + 1)
  {
  }

  /** `countdown`: the `soon` text once the start is reached, otherwise
      `${pad(mins)}:${pad(secs)}` of the time left. */
  function Countdown(start: int, now: int, soon: string): (r: string)
    ensures start <= now ==> r == soon
  {
    if start - now <= 0 then soon else TimeLeft(start - now)
  }

  /** `mins = floor(diff / 60000)`, `secs = floor((diff % 60000) / 1000)`. */
  function TimeLeft(diff: int): string
    requires diff > 0
  {
    Clock(diff / 60000, (diff % 60000) / 1000)
  }

  /** The seconds field stays below 60 and the two fields together are the
      whole seconds left, rounded down. */
  lemma TimeLeftFields(diff: int)
    requires diff > 0
    ensures 0 <= (diff % 60000) / 1000 < 60
    ensures 60 * (diff / 60000) + (diff % 60000) / 1000 == diff / 1000
  {
    var q := diff / 60000;
    var r := diff % 60000;
    var a := r / 1000;
    var b := r % 1000;
    assert diff == 60000 * q + r;
    assert r == 1000 * a + b;
    assert diff == 1000 * (60 * q + a) + b;
  }

  /** Below 100 minutes the countdown is a two-digit `mm:ss` that reads back,
      as minutes and seconds, as the whole seconds left. */
  lemma CountdownReadsBack(start: int, now: int, soon: string)
    requires 0 < start - now < 6000000
    ensures IsClock(Countdown(start, now, soon))
    ensures ToMinutes(Countdown(start, now, soon)) == Some((start - now) / 1000)
  {
    var diff := start - now;
    TimeLeftFields(diff);
    ClockRoundTrip(diff / 60000, (diff % 60000) / 1000);
    assert Countdown(start, now, soon) == TimeLeft(diff);
  }
}

=== FILE: wrappers.dfy ===
/** Option and Result, the two failure-carrying shapes the model uses for
    JavaScript's null/undefined and for rejected observables. */
module Wrappers {

  /** A value that may be absent (`null` or `undefined` in the source). */
  datatype Option<+T> = None | Some(value: T) {

    /** The `??` operator: the wrapped value, or `default` when absent. */
    function GetOr(default: T): T {
      match this
      case Some(v) => v
      case None => default
    }
  }

  /** The outcome of an observable that either emits a value or errors. */
  datatype Result<+T, +E> = Ok(value: T) | Err(error: E)
}
